=== FILE: README.md ===
# react-partial-store, modelled in Dafny

react-partial-store keeps REST resources in client-side stores. A store is
created from a definition (a type, a URI template, initial parameters and a
set of actions). A component describes what it wants as a *stack*: a
sequence of partials (a store, parameters, a path, a payload) ending, when
something is to be done, in a verb such as `get` or `create`. The stack is
unfolded through nested *resolvables*, reduced to one *descriptor* (store,
path, id, parameters, payload), and handed to the *stack invoker*. The
invoker touches the store's cache (the *fragment map*), announces the
change, and sends a request. The response is folded back into the cache. A
*dataset* groups stores and other datasets, and a *response handler* imports
a server response with embedded resources into the registered stores.

The repository ships two generations of this core: the current one under
`lib/` and an older one under `src/`. Both are modelled. The older
generation keeps a different cache (one entry per action), has no dataset,
and unfolds stacks in place.

## Layout

| file | module | models |
|---|---|---|
| `values.dfy` | `Values` | JavaScript values: plain objects as ordered key lists, arrays, strings, numbers, references to store instances |
| `utils.dfy` | `Utils` | the helpers of `src/utils.js` (`keysFor`, `extend`, `each`, `any`, `map`, `capitalize`) |
| `constants.dfy` | `Constants` | statuses, timestamps and action names of `src/Constants.js`; `lib/Constants.js`, which the current code loads, is not part of this model |
| `actions.dfy` | `Actions` | `defineActions` and the default actions of `lib/index.js` |
| `fragment_map.dfy`, `fragment_map_props.dfy` | `FragmentMap`, `FragmentMapProperties` | the cache of `lib/FragmentMap.js`, as a class whose methods update its fields |
| `legacy_fragment_map.dfy`, `legacy_fragment_map_props.dfy` | `LegacyFragmentMap`, `LegacyFragmentMapProperties` | the action-keyed cache of `src/FragmentMap.js` |
| `stack_reducer.dfy`, `stack_reducer_props.dfy` | `StackReducer`, `StackReducerProperties` | `lib/StackReducer.js`: URI filling and the reduction of a stack to a descriptor |
| `mixin_resolvable.dfy`, `mixin_resolvable_props.dfy` | `MixinResolvable`, `MixinResolvableProperties` | `lib/MixinResolvable.js`: unfolding nested resolvables |
| `legacy_mixin_resolvable.dfy`, `legacy_mixin_resolvable_props.dfy` | `LegacyResolvable`, `LegacyResolvableProperties` | `src/MixinResolvable.js`: the in-place unfold over an array |
| `stack_invoker.dfy`, `stack_invoker_props.dfy` | `StackInvoker`, `StackInvokerProperties` | `lib/StackInvoker.js`: resolvers, requests and their settlement |
| `legacy_stack_invoker.dfy`, `legacy_stack_invoker_props.dfy` | `LegacyStackInvoker`, `LegacyStackInvokerProperties` | `src/StackInvoker.js` |
| `store.dfy`, `store_props.dfy` | `StoreRegistry`, `StoreRegistryProperties` | `lib/createStore.js`, the store registry and `resetStores` of `lib/index.js` |
| `legacy_store.dfy`, `legacy_store_props.dfy` | `LegacyStoreRegistry`, `LegacyStoreRegistryProperties` | `src/createStore.js` |
| `dataset.dfy` | `Dataset` | `lib/createDataset.js` |
| `response_import.dfy`, `response_import_props.dfy` | `ResponseImport`, `ResponseImportProperties` | `lib/responseHandler.js` and `lib/handlers/containerless_unnested.js` |

The two registries are classes (`StoreRegistry.Registry`,
`LegacyStoreRegistry.LegacyRegistry`) whose fields are the map of
registered names, the store instances and the next free address. The
current cache is a class (`FragmentMap.FragmentMap`). Every method that
changes state is proved equal to a specification function of the old
state (`...Spec`), and the properties are proved as lemmas about those
functions. Loops in the source are `while` loops with invariants.

## Where the code and its own test suite disagree

The model follows the code.

- `test/FragmentMap.spec.js:405-423` expects a second update of a
  collection path to add to the query's id list. `lib/FragmentMap.js:170-175`
  replaces the query entry, so after an update with one object the query
  holds that object's id alone
  (`FragmentMapProperties.UpdateObjectThenFetch`).
- `test/createStore.spec.js:96-98` expects an `onlyActions` array to be
  refused. `lib/createStore.js:46-52` accepts objects and arrays alike
  (`StoreRegistry.OnlyActionsArrayAccepted`); the reducer then throws on
  such a store (`StoreRegistryProperties.OnlyActionsArrayThrows`).

## Model

| member | source | states |
|---|---|---|
| Values.Keys | src/utils.js:12-25 | `keysFor` keeps one key per own entry, in the order the entries are held (see Left out on integer-like keys) |
| Values.GetExtend | src/utils.js:42-64 | the shallow merge is right-biased: a key of the source reads as the source's value, any other key as the target's, and the merged object has exactly the keys of both |
| Values.KeysExtend | src/utils.js:47-59 | merging keeps the target's keys first and in place, and only appends keys |
| Values.ExtendEmpty | src/utils.js:42-64 | merging an object into `{}` copies it |
| Values.SetProp | lib/responseHandler.js:23-26 | a property write on an object is read back; on a non-object it is lost |
| Utils.ResolveChain | src/utils.js:27-32 | the chain of two functions is a function that runs the old one's routines, then the new one's, and throws the first error either throws |
| Utils.OwnEntries | src/utils.js:12-25 | `Object.keys` throws exactly on `null` and `undefined`; on an object it yields its own entries in the order they are held (see Left out on integer-like keys) |
| Utils.Assign | src/utils.js:34-65 | the assigner returns the target untouched with fewer than two arguments or a `null` target, and otherwise the target after every source, or the first exception |
| Utils.AssignSource | src/utils.js:47-61 | the inner loop over one source's keys computes exactly the per-entry assignment rule |
| Utils.AssignSourcesErrSticky | src/utils.js:42-63 | an exception from one source ends the assigner: later sources change nothing |
| Utils.PlainEntriesIsExtend | src/utils.js:47-61 | `extend` on plain sources never runs anything and never fails: it is the right-biased merge |
| Utils.ExtendManyGet | src/utils.js:42-64 | with several sources each key ends with the value of the last source that has it, and keys no source has keep the target's value |
| Utils.ExtendClassChains | src/utils.js:54-56 | `extendClass` turns an `initialize` already on the target into a chain that runs the old one, then the new one |
| Utils.ChainEntriesInit | src/utils.js:50-59 | after `extendClass`'s pass over a source, `initialize` is the chain when the source has one and is unchanged otherwise |
| Utils.ExtendFunctionRunsInit | src/utils.js:50-52 | `extendFunction` runs a source's `initialize` on the target instead of copying it, leaving the target's own `initialize` as it was |
| Utils.Visits | src/utils.js:90-101 | the iteration helpers visit an array by ascending index and an object in key order, and throw on `null`/`undefined` |
| Utils.Each | src/utils.js:90-103 | `each` calls the iteratee once per visited pair, in order, and returns its input |
| Utils.Any | src/utils.js:105-122 | `any` is true iff the predicate holds for some element, and it stops calling the predicate at the first hit |
| Utils.FirstHit | src/utils.js:107-111 | the loop of `any` finds a passing pair iff one exists, and every call before the last one failed |
| Utils.Map | src/utils.js:124-133 | `map` returns one result per element or own key, each the iteratee applied to that pair, in iteration order |
| Utils.Capitalize | src/utils.js:160-162 | only the first character is upper-cased; length and the rest are kept, and the result's first character is already upper case, so capitalising is idempotent |
| Actions.Resolution | lib/index.js:29-49 | calling an action yields an entry whose `__resolve` is its verb |
| Actions.DefineActions | lib/index.js:13-26 | `defineActions` throws a TypeError exactly when its argument is not a plain object |
| Actions.DefineActionsLoop | lib/index.js:20-25 | the loop builds exactly the table `defineActions` specifies |
| Actions.DefineAllKeys | lib/index.js:20-25 | the result has the same keys in the same order as the input, each bound to the action defined from its value |
| Actions.DefineAllSame | lib/index.js:20-25 | on distinct keys of functions the table is its input |
| Actions.DefaultActionsTable | lib/index.js:28-50 | the default set is exactly invalidate, get, create, post, update, put, delete, in that order; `post` resolves to `create`, `put` to `update`, the rest to their own names |
| Dataset.FirstOutsideFinds | lib/createDataset.js:30-36 | the key check finds no bad key iff every key is whitelisted, and otherwise reports the first one in key order |
| Dataset.FirstNonStringFinds | lib/createDataset.js:58-64 | the fragments check passes iff every element is a string |
| Dataset.ValidateDefinition | lib/createDataset.js:16-94 | an accepted definition is returned as it is |
| Dataset.WhitelistedNotResolvable | lib/createDataset.js:38-41 | a plain definition that passes the key whitelist cannot carry `resolve`/`getResolvable` functions, so that early return is dead |
| Dataset.ValidateAccepts | lib/createDataset.js:16-94 | the validator accepts exactly instances and plain objects with whitelisted keys whose `partial`, `uri`, `paramId` are strings, `fragments` an array of strings and `actions`, `onlyActions` plain objects, when truthy |
| Dataset.UnknownKeyRejected | lib/createDataset.js:30-36 | a key outside the whitelist is rejected with a TypeError naming the first such key |
| Dataset.OnlyActionsArrayRejected | lib/createDataset.js:86-91 | an `onlyActions` array is rejected |
| Dataset.MembersOf | lib/createDataset.js:159-170 | the loop over several arguments yields one member per argument and only moves the free address forward |
| Dataset.CreateDataset | lib/createDataset.js:151-174 | a created dataset takes a fresh address |
| Dataset.CreateDatasetLoop | lib/createDataset.js:151-174 | `createDataset` computes exactly its specification |
| Dataset.MembersLoop | lib/createDataset.js:159-170 | the loop over the arguments computes exactly the members, or the first error |
| Dataset.MembersStep | lib/createDataset.js:161-169 | one more argument either throws its validation error or appends its member |
| Dataset.MembersErrSticky | lib/createDataset.js:159-170 | once an argument is rejected the later ones change nothing |
| Dataset.SingleArgument | lib/createDataset.js:155-157 | with one argument the dataset's definition is the validated argument itself |
| Dataset.SingleArgumentRejected | lib/createDataset.js:155-157 | with one unacceptable argument the validator's error is thrown |
| Dataset.MembersWrap | lib/createDataset.js:159-170 | with several acceptable arguments each yields one member, in order: an instance is kept, a plain definition wrapped in its own dataset at a fresh address |
| Dataset.MembersFailAt | lib/createDataset.js:159-170 | the loop stops at the first rejected argument, with its error |
| Dataset.FirstInvalidArgument | lib/createDataset.js:151-174 | with several arguments the first unacceptable one decides the error |
| FragmentMap.FragmentName | lib/FragmentMap.js:140 | the fragment an operation uses is always truthy: `partial`, or `"full"` |
| FragmentMap.Fallbacks | lib/FragmentMap.js:55 | the fallback list always ends with `"full"`, the highest-priority fragment |
| FragmentMap.WithFragment | lib/FragmentMap.js:213-216 | after `_getFragment(name)` the fragment exists |
| FragmentMap.AddFragments | lib/FragmentMap.js:57-58 | `_getFragment` over the fallbacks only adds empty fragments and never changes an existing one |
| FragmentMap.AddFragmentsCovers | lib/FragmentMap.js:57-58 | every consulted fragment exists afterwards, and every fragment created was consulted |
| FragmentMap.DerefAll | lib/FragmentMap.js:82-92 | dereferencing a collection query fails only with a TypeError |
| FragmentMap.StoreItems | lib/FragmentMap.js:156-163 | storing a collection fails only with a TypeError |
| FragmentMap.IndexOf | lib/FragmentMap.js:201 | `indexOf` is -1 iff no element is strictly equal to the id, and otherwise the first strictly equal position |
| FragmentMap.StripAll | lib/FragmentMap.js:199-206 | the strip loop keeps every query's key and position and splices the id out of each entry |
| FragmentMap.FirstTombstone | lib/FragmentMap.js:199-200 | finds the first query entry whose `.data` read throws, or none iff there is none |
| FragmentMap.FetchQuery | lib/FragmentMap.js:67-110 | the path branch of `fetch` computes exactly the by-path specification |
| FragmentMap.DerefEach | lib/FragmentMap.js:82-92 | the loop over a collection query computes exactly the ids' data, or the first missing id's TypeError |
| FragmentMap.ComposeFallbacks | lib/FragmentMap.js:53-65 | the fallback loop computes the composed result and creates exactly the missing consulted fragments, empty |
| FragmentMap.StoreEach | lib/FragmentMap.js:156-163 | the loop over a collection stores exactly what the specification stores and returns the same ids or error |
| FragmentMap.StripEach | lib/FragmentMap.js:199-206 | the strip loop computes exactly the stripped queries, or the error of the first entry it cannot read |
| FragmentMap.StripQueriesWellFormed | lib/FragmentMap.js:199-206 | the strip loop keeps the query keys, in order and unique |
| FragmentMap.FragmentMap.constructor | lib/FragmentMap.js:24-27 | a new cache has no fragments and no queries |
| FragmentMap.FragmentMap.GetFragment | lib/FragmentMap.js:213-216 | `_getFragment` returns the named fragment, creating it empty when missing, and changes nothing else |
| FragmentMap.FragmentMap.Fetch | lib/FragmentMap.js:33-113 | `fetch` returns its specification, changes no slot and no query, and only adds empty fragments that it consulted |
| FragmentMap.FragmentMap.Touch | lib/FragmentMap.js:121-134 | `touch` puts the cache in the state its specification gives |
| FragmentMap.FragmentMap.Update | lib/FragmentMap.js:139-180 | `update` puts the cache in the state its specification gives and returns the result it names |
| FragmentMap.FragmentMap.Delete | lib/FragmentMap.js:188-211 | `delete` puts the cache in the state its specification gives and throws exactly when it says |
| FragmentMapProperties.ComposeContributions | lib/FragmentMap.js:57-64 | the fallback loop leaves the result alone unless some fragment contributes data, and then the status is `"partial"` |
| FragmentMapProperties.ComposeMerges | lib/FragmentMap.js:57-64 | the composed data is the right-biased merge of the contributing fragments' data, in fallback order |
| FragmentMapProperties.FetchMisses | lib/FragmentMap.js:39-42 | an empty descriptor, an id with no data anywhere, or a path with no query entry yields exactly `{status: "stale", timestamp: -1}` without data |
| FragmentMapProperties.FetchDirect | lib/FragmentMap.js:44-51 | a slot with data is returned as it is: status, timestamp and data |
| FragmentMapProperties.FetchComposed | lib/FragmentMap.js:53-65 | a slot without data is composed from the fallbacks: status `"partial"` iff some fragment contributed, data their right-biased merge |
| FragmentMapProperties.DerefAllLive | lib/FragmentMap.js:82-92 | an id list whose ids are all live yields their data in list order |
| FragmentMapProperties.DerefAllMissing | lib/FragmentMap.js:85-89 | an id without a live slot makes the collection fetch throw a TypeError |
| FragmentMapProperties.FetchCollection | lib/FragmentMap.js:70-95 | an id-list query yields the query's status and timestamp and the slots' data in list order, or a TypeError when some id has no live slot |
| FragmentMapProperties.FetchScalarOrObject | lib/FragmentMap.js:96-109 | a scalar query is dereferenced as one id (TypeError when missing); object data is returned verbatim |
| FragmentMapProperties.TouchById | lib/FragmentMap.js:128-130 | `touch` by id merges the metadata into the slot, creating it; metadata keys take the new values, every other key (`data` too) is kept, and no other slot or query changes |
| FragmentMapProperties.TouchByPath | lib/FragmentMap.js:131-133 | `touch` by path merges the metadata into the query entry and changes no other query and no slot |
| FragmentMapProperties.TouchFalsy | lib/FragmentMap.js:124-126 | `touch` with falsy metadata changes no slot and no query |
| FragmentMapProperties.UpdateThenFetchById | lib/FragmentMap.js:150-152 | `update` with an id writes `{status, timestamp, data}` into the slot, leaves queries alone, and a `fetch` returns it |
| FragmentMapProperties.StoreItemsStores | lib/FragmentMap.js:156-163 | storing plain objects with distinct ids writes each under its id, returns the ids in order, and keeps every other slot |
| FragmentMapProperties.StoreItemsStep | lib/FragmentMap.js:156-163 | one more element is stored under an id none of the earlier ones has |
| FragmentMapProperties.StoredSnoc | lib/FragmentMap.js:161-162 | writing one more element keeps what the earlier ones wrote |
| FragmentMapProperties.UpdateCollectionThenFetch | lib/FragmentMap.js:154-176 | a collection update by path stores each element, makes the query the id list tagged with the fragment, and a `fetch` of the path returns the collection |
| FragmentMapProperties.FetchIdList | lib/FragmentMap.js:81-95 | a query holding ids that all dereference is fetched as their data |
| FragmentMapProperties.DerefStored | lib/FragmentMap.js:82-92 | the ids a collection update returns dereference back to the collection |
| FragmentMapProperties.StoreItemsRejects | lib/FragmentMap.js:157-159 | a non-plain-object element makes `update` throw a TypeError |
| FragmentMapProperties.UpdateCollectionRejects | lib/FragmentMap.js:157-159 | a collection update with a non-plain element throws a TypeError and leaves the queries as they were |
| FragmentMapProperties.UpdateObjectThenFetch | lib/FragmentMap.js:166-176 | one object with an id is stored under it, the query's data becomes the id (not a collection), and a `fetch` dereferences it back to the object |
| FragmentMapProperties.FetchOneId | lib/FragmentMap.js:96-105 | a query holding one id whose entity is cached is fetched as that entity's data |
| FragmentMapProperties.UpdateCollectionKeepsOthers | lib/FragmentMap.js:156-163 | entities a collection update does not mention stay in place |
| FragmentMapProperties.DeleteLiveId | lib/FragmentMap.js:192-206 | `delete` of a live id tombstones its slot (key kept, value `undefined`) and splices its first occurrence out of every collection query |
| FragmentMapProperties.DeleteDeadId | lib/FragmentMap.js:193-195 | `delete` of a missing or tombstoned id changes nothing |
| FragmentMapProperties.DeleteByPath | lib/FragmentMap.js:208-210 | `delete` by path tombstones only that query entry, never a slot, and a `fetch` of the path then misses |
| FragmentMapProperties.DeleteIdAfterPathDeleteThrows | lib/FragmentMap.js:199-200 | after a delete by path, a delete of a live id throws reading `.data` of the tombstoned query |
| FragmentMapProperties.GetStripAll | lib/FragmentMap.js:199-206 | a query read after the strip loop is the entry with the id spliced out |
| FragmentMapProperties.NumericIdSurvivesStringDelete | lib/FragmentMap.js:197-203 | slots match ids as string keys but queries by strict equality: a collection stored with number `n` and deleted by `"n"` keeps `n` in the query, and the next `fetch` throws |
| FragmentMapProperties.UpdateSingle | lib/FragmentMap.js:154-176 | the update half of that scenario: the slot under `"n"` and the query `[n]` |
| FragmentMapProperties.DeleteAfterUpdate | lib/FragmentMap.js:192-206 | the delete half: the slot tombstoned and every query stripped |
| LegacyFragmentMap.FetchQuery | src/FragmentMap.js:72-99 | the branch of the older `fetch` without an id computes exactly its specification |
| LegacyFragmentMap.MergedWellFormed | src/FragmentMap.js:118-119 | writing a merged query entry keeps the queries well-formed, with unique keys |
| LegacyFragmentMap.FragmentMap.constructor | src/FragmentMap.js:25-28 | a new older cache has no fragments and no queries |
| LegacyFragmentMap.FragmentMap.GetFragment | src/FragmentMap.js:188-191 | `_getFragment` returns the named fragment, creating it empty when missing |
| LegacyFragmentMap.FragmentMap.Fetch | src/FragmentMap.js:33-105 | the older `fetch` returns its specification, changes no slot and no query, and only adds empty fragments |
| LegacyFragmentMap.FragmentMap.Touch | src/FragmentMap.js:110-120 | the older `touch` puts the cache in the state its specification gives and returns the entry it names |
| LegacyFragmentMap.FragmentMap.TouchId | src/FragmentMap.js:114-116 | the id branch of `touch` |
| LegacyFragmentMap.FragmentMap.TouchPath | src/FragmentMap.js:117-119 | the branch of `touch` without an id |
| LegacyFragmentMap.FragmentMap.Update | src/FragmentMap.js:127-186 | the action-keyed `update` puts the cache in the state its specification gives and returns the result it names |
| LegacyFragmentMap.FragmentMap.UpdateId | src/FragmentMap.js:139-154 | the id branch of `update` |
| LegacyFragmentMap.FragmentMap.DeleteId | src/FragmentMap.js:143-153 | `update(id, "DELETE")`: the slot tombstoned and the id spliced out of the query lists |
| LegacyFragmentMap.FragmentMap.UpdatePath | src/FragmentMap.js:155-181 | the branch of `update` without an id |
| LegacyFragmentMap.FragmentMap.UpdateQuery | src/FragmentMap.js:156-174 | `update(no id, "GET")`: each array item stored, then the query entry written |
| LegacyFragmentMapProperties.FetchByIdAgrees | src/FragmentMap.js:46-70 | by id, the older cache composes exactly as the newer one does |
| LegacyFragmentMapProperties.FetchMisses | src/FragmentMap.js:41-44 | an id with no data in any consulted fragment, or no query entry, yields exactly the stale miss without data |
| LegacyFragmentMapProperties.FetchUncheckedPath | src/FragmentMap.js:72-78 | without an id the query entry is read whatever the path is, even a falsy one the newer cache ignores |
| LegacyFragmentMapProperties.FetchByPathCases | src/FragmentMap.js:79-98 | array data is dereferenced in list order (TypeError on a missing slot); any other data, a scalar id included, is returned as it is |
| LegacyFragmentMapProperties.TouchMerges | src/FragmentMap.js:110-120 | `touch` merges into the slot or `queries[path]`, creating it, returns the merged entry, and keeps every key the metadata lacks |
| LegacyFragmentMapProperties.TouchUnguarded | src/FragmentMap.js:110-120 | with no falsy guard, `false` metadata still creates an empty entry, and `null`/`undefined` metadata throws |
| LegacyFragmentMapProperties.UpdateGetById | src/FragmentMap.js:140-142 | `update(id, "GET")` overwrites the slot with `{status, timestamp, data}`, which a `fetch` returns |
| LegacyFragmentMapProperties.UpdateDeleteById | src/FragmentMap.js:143-153 | `update(id, "DELETE")` tombstones the slot, live or not, and splices the id's first occurrence out of every array query |
| LegacyFragmentMapProperties.UpdateSaveById | src/FragmentMap.js:139-154 | `update(id, "SAVE")` writes nothing |
| LegacyFragmentMapProperties.UpdateGetCollection | src/FragmentMap.js:156-173 | `update(no id, "GET")` of a collection stores each element and sets the query to the id list with `partial` as given, not defaulted |
| LegacyFragmentMapProperties.UpdateGetCollectionRejects | src/FragmentMap.js:159-161 | a non-plain element makes it throw a TypeError |
| LegacyFragmentMapProperties.UpdateSaveQuery | src/FragmentMap.js:175-177 | without an id, `"SAVE"` stores the response verbatim as the query data |
| LegacyFragmentMapProperties.UpdateDeleteQuery | src/FragmentMap.js:178-180 | without an id, `"DELETE"` sets the query data to `null`, keeping the entry |
| StackReducer.WordEnd | lib/StackReducer.js:6 | the end of a maximal run of `\w` characters: every character before it is a word character and the one at it is not |
| StackReducer.TokensFrom | lib/StackReducer.js:6 | every match of `/:(\w+)/g` is a colon followed by one or more word characters |
| StackReducer.Tokens | lib/StackReducer.js:6 | the tokens of the whole template, each a colon and a word |
| StackReducer.FindFrom | lib/StackReducer.js:19 | the first occurrence of the pattern at or after the start, or -1 when there is none; no earlier position matches |
| StackReducer.FillTokensErrSticky | lib/StackReducer.js:9-24 | once a token throws, the later tokens change nothing |
| StackReducer.FillUri | lib/StackReducer.js:5-31 | the `fillURI` loop computes its specification: each token replaced in turn, or the TypeError of the first missing parameter |
| StackReducer.Reverse | lib/StackReducer.js:135 | `reverse` puts element `i` at position `n - 1 - i` |
| StackReducer.ScanErrSticky | lib/StackReducer.js:50-102 | once the first pass throws, the later entries change nothing |
| StackReducer.PathErrSticky | lib/StackReducer.js:105-116 | once the second pass throws, the later entries change nothing |
| StackReducer.ScanLoop | lib/StackReducer.js:50-102 | the first loop computes the fold of its step over the stack |
| StackReducer.PathLoop | lib/StackReducer.js:105-116 | the second loop computes the fold that concatenates the filled URIs |
| StackReducer.ReduceStack | lib/StackReducer.js:33-141 | the reducer computes its specification: both passes, then the id, the event and the path |
| StackReducerProperties.ReduceEmpty | lib/StackReducer.js:34-47 | an absent or empty stack gives the default actions, event `change`, no id, no params and the bare host name as path |
| StackReducerProperties.ScanSnoc | lib/StackReducer.js:50-102 | the first pass over a stack is the pass over its prefix followed by one step |
| StackReducerProperties.StepMerges | lib/StackReducer.js:96-101 | only a parameters entry changes the params, and only a plain non-definition entry the payload |
| StackReducerProperties.StepDefinition | lib/StackReducer.js:54-80 | a definition entry sets the store and type (store entries), the partial (dataset entries) and always the pending `paramId` |
| StackReducerProperties.ActionsOnly | lib/StackReducer.js:82-94 | the action options change the action table and nothing else |
| StackReducerProperties.StepActions | lib/StackReducer.js:82-94 | `onlyActions` replaces the table by a copy of itself, then `actions` is merged on top |
| StackReducerProperties.ScanMerges | lib/StackReducer.js:96-101 | params and payload are right-biased merges: each key holds its value in the last entry that sets it |
| StackReducerProperties.LastSetAt | lib/StackReducer.js:54-80 | the last entry that sets a field decides it |
| StackReducerProperties.ScanLastDefinition | lib/StackReducer.js:54-80 | the store, type and partial come from the last qualifying entry, and a later definition without `paramId` clears it |
| StackReducerProperties.ScanActionsFor | lib/StackReducer.js:39-94 | the reduced action table binds each name as the stack dictates, starting from the defaults |
| StackReducerProperties.ScanKeepsDefaultOrder | lib/StackReducer.js:39-94 | without `onlyActions` the default action names keep their place at the head of the table |
| StackReducerProperties.StepKeepsActionOrder | lib/StackReducer.js:89-94 | an entry without `onlyActions` keeps the existing action names in place |
| StackReducerProperties.ActionOptionRejected | lib/StackReducer.js:82-92 | a truthy action option that is not a plain object throws a TypeError naming it |
| StackReducerProperties.ScanFails | lib/StackReducer.js:50-102 | the first pass throws exactly when some entry is null or undefined or carries a bad action option |
| StackReducerProperties.StrictEqualsTransitive | lib/StackReducer.js:75 | strict equality, as the duplicate test uses it, is transitive |
| StackReducerProperties.AppendNewProps | lib/StackReducer.js:75 | `concatUnique` keeps the list as its prefix, adds only given items, keeps the names distinct, and contains exactly what list or items contained |
| StackReducerProperties.ContainsOne | lib/StackReducer.js:75 | a one-element list contains exactly its element |
| StackReducerProperties.DistinctSnoc | lib/StackReducer.js:75 | appending a name not yet present keeps the list distinct |
| StackReducerProperties.ContainsConcat | lib/StackReducer.js:75 | membership in a concatenation is membership in one of the parts |
| StackReducerProperties.ScanFragments | lib/StackReducer.js:74-76 | the fragments are distinct and are exactly the names the dataset entries list; store entries' fragments are ignored |
| StackReducerProperties.FragmentsExample | lib/StackReducer.js:74-76 | `["foo","bar"]` then `["baz"]` reduce to `["baz","bar","foo"]`, and a repeated `bar` is kept once |
| StackReducerProperties.FooBar | lib/StackReducer.js:75 | `concatUnique([], ["foo","bar"])` is `["foo","bar"]` |
| StackReducerProperties.FooBarBaz | lib/StackReducer.js:75 | `concatUnique(["foo","bar"], ["baz"])` appends `baz` |
| StackReducerProperties.FooBarBar | lib/StackReducer.js:75 | `concatUnique(["foo","bar"], ["bar"])` adds nothing |
| StackReducerProperties.FillTokensOk | lib/StackReducer.js:9-25 | filling succeeds exactly when every token's aliased parameter is truthy, and the last key is the last token's alias |
| StackReducerProperties.FillTokensFirstMissing | lib/StackReducer.js:18-24 | on failure the TypeError names the first falsy component, with the template as filled up to it |
| StackReducerProperties.SubstituteLiteral | lib/StackReducer.js:19 | a parameter value without `$` is inserted as it is |
| StackReducerProperties.ReplaceFirstLiteral | lib/StackReducer.js:19 | with a value without `$`, `uri.replace(v, value)` replaces the first occurrence of the token by the value itself and leaves the rest of the URI alone |
| StackReducerProperties.SubstituteEscaped | lib/StackReducer.js:19 | a value whose every `$` is doubled is inserted as the original text, whatever was matched |
| StackReducerProperties.MatchedPatternInserted | lib/StackReducer.js:19 | `$&` in a parameter value stands for the token it replaces: `{id: "a$&b"}` fills `/u/:id` as `/u/a:idb` |
| StackReducerProperties.NoTokensUnchanged | lib/StackReducer.js:5-31 | a template without a colon is its own path and leaves the last key null |
| StackReducerProperties.NoColonNoTokens | lib/StackReducer.js:6 | a string without a colon has no tokens |
| StackReducerProperties.IdAndEvent | lib/StackReducer.js:118-127 | a truthy id is a string and the event is `change:<id>`, otherwise the event is `change`; the path starts with the host name |
| StackReducerProperties.ParamIdCleared | lib/StackReducer.js:79-123 | a definition without `paramId` after one with it clears it: the id key falls back to `id` or its alias |
| StackReducerProperties.ReduceArray | lib/StackReducer.js:33-141 | when both passes succeed the reducer returns their combination |
| StackReducerProperties.IdKeyDefault | lib/StackReducer.js:120-123 | with no pending `paramId` nor URI key the id is read from `id` or its alias |
| StackReducerProperties.NoUriPaths | lib/StackReducer.js:105-116 | without URI templates the second pass yields the empty path and no key |
| MixinResolvable.PropSmaller | lib/MixinResolvable.js:21 | reading `__definition` from an entry yields a smaller value, so unfolding nested definitions terminates |
| MixinResolvable.RefsBelowMono | lib/MixinResolvable.js:4-35 | an entry whose followed resolvables all lie below a bound lies below any larger bound |
| MixinResolvable.StackBelowMono | lib/MixinResolvable.js:47 | a `getResolvable` result below a bound is below any larger bound |
| MixinResolvable.RefsBelowArena | lib/MixinResolvable.js:4-35 | every entry follows only resolvables that exist |
| MixinResolvable.DefinitionBelowProp | lib/MixinResolvable.js:21 | the `__definition` read from an entry refers to no resolvable that unfolding the entry could not reach |
| MixinResolvable.AllBelowConcat | lib/MixinResolvable.js:47 | the concatenation of two stacks refers only to what they refer to |
| MixinResolvable.AllBelowMono | lib/MixinResolvable.js:4-35 | a stack below a bound is below any larger bound |
| MixinResolvable.PrependBelow | lib/MixinResolvable.js:47 | `[].concat(x, stack)` refers only to what `x` and the stack refer to |
| MixinResolvable.Unfold | lib/MixinResolvable.js:4-35 | the unfolded stack is flat: no entry in it would unfold further |
| MixinResolvable.UnfoldEntry | lib/MixinResolvable.js:11-31 | what one entry contributes is flat: falsy entries vanish, resolvables and array definitions are replaced by their unfolding |
| MixinResolvable.Expand | lib/MixinResolvable.js:17-19 | the unfolded `resolve()` result of a resolvable met in a stack is flat |
| MixinResolvable.Climb | lib/MixinResolvable.js:46-57 | the stack the root returns or hands to its invoker is flat |
| MixinResolvable.UnfoldStack | lib/MixinResolvable.js:4-35 | the `unfoldStack` loop computes its specification |
| MixinResolvable.UnfoldElement | lib/MixinResolvable.js:8-31 | one loop iteration adds exactly what its entry unfolds to |
| MixinResolvable.ExpandNode | lib/MixinResolvable.js:17-19 | calling `resolve()` on a nested resolvable and unfolding the result computes its specification |
| MixinResolvable.ClimbUp | lib/MixinResolvable.js:46-57 | the recursion up the parent chain computes its specification |
| MixinResolvable.ResolveNode | lib/MixinResolvable.js:46-57 | `resolve(arg)` computes its specification |
| MixinResolvableProperties.UnfoldConcat | lib/MixinResolvable.js:7-34 | unfolding distributes over concatenation: each entry unfolds in place, in order |
| MixinResolvableProperties.UnfoldFlat | lib/MixinResolvable.js:29-31 | a stack of entries that need no unfolding is returned unchanged |
| MixinResolvableProperties.UnfoldIdempotent | lib/MixinResolvable.js:4-35 | unfolding twice is unfolding once |
| MixinResolvableProperties.UnfoldKeeps | lib/MixinResolvable.js:29-31 | an entry that needs no unfolding keeps its place among the unfolded rest |
| MixinResolvableProperties.UnfoldDropsFalsy | lib/MixinResolvable.js:11-14 | a falsy entry is dropped wherever it stands |
| MixinResolvableProperties.AllBelowSplit | lib/MixinResolvable.js:7-34 | the parts of a well-referenced stack are well-referenced |
| MixinResolvableProperties.RootOf | lib/MixinResolvable.js:49-53 | the root of a node is an ancestor without a parent |
| MixinResolvableProperties.ChainBelow | lib/MixinResolvable.js:47-51 | the `getResolvable` results along the parent chain refer only to existing resolvables |
| MixinResolvableProperties.ClimbCollects | lib/MixinResolvable.js:46-57 | the root receives the chain's `getResolvable` results, root first, before the stack; only the root's invoker is called |
| MixinResolvableProperties.ChainParent | lib/MixinResolvable.js:47-51 | one step up the chain puts the node's result below its parent's and keeps the root |
| MixinResolvableProperties.ChainRoot | lib/MixinResolvable.js:47-55 | at the root the chain is the root's own result |
| MixinResolvableProperties.PrependAppend | lib/MixinResolvable.js:47 | `[].concat(x, [])` followed by a stack is `[].concat(x, stack)` |
| MixinResolvableProperties.ResolveCollects | lib/MixinResolvable.js:46-57 | `resolve(arg)` unfolds the root's result, each descendant's down to the node, then the argument; the invoker is called exactly when the root has one |
| MixinResolvableProperties.UnfoldOne | lib/MixinResolvable.js:7-34 | a one-entry stack unfolds to what its entry unfolds to |
| MixinResolvableProperties.UnfoldTwo | lib/MixinResolvable.js:7-34 | a two-entry stack unfolds to its entries' unfoldings in order |
| MixinResolvableProperties.UnfoldDefinitions | lib/MixinResolvable.js:20-27 | an entry carrying an array as `__definition` unfolds to the unfolded array |
| MixinResolvableProperties.ExpandRoot | lib/MixinResolvable.js:53-55 | a parentless resolvable without invoker expands to its own unfolded result |
| MixinResolvableProperties.NestedWellFormed | test/MixinResolvable.spec.js:161-171 | the resolvables of the nested-definition example form a well-formed arena |
| MixinResolvableProperties.StoreAndDatasetsWellFormed | lib/createDataset.js:137-143 | a store, a dataset made by `store.createDataset` and a dataset of both, each with the `getResolvable` result its class builds (self-reference included), form a well-formed arena |
| MixinResolvableProperties.StoreDatasetResolve | lib/createStore.js:74-98 | `resolve()` on a store's dataset unfolds to the store's entry followed by the dataset's own |
| MixinResolvableProperties.MembersDatasetResolve | lib/createDataset.js:151-171 | `resolve()` on a dataset of a store and the store's dataset unfolds each member in order: the store's entry, then the store's entry and the dataset's entry |
| MixinResolvableProperties.MembersEntry | lib/MixinResolvable.js:21-27 | the entry of a dataset of instances unfolds to the concatenation of its members' unfolded stacks |
| MixinResolvableProperties.ExpandStore | lib/createStore.js:92-98 | a store met inside a stack unfolds to its own entry |
| MixinResolvableProperties.ExpandStoreDataset | lib/createStore.js:74-77 | a store's dataset met inside a stack unfolds to the store's entry and its own |
| MixinResolvableProperties.DatasetMembers | lib/createDataset.js:151-171 | the definition of `createDataset(store, dataset)` is the array of the two instances, in order |
| MixinResolvableProperties.DatasetDefinition | lib/createDataset.js:137-143 | a dataset's entry hands its definition to `__definition` |
| MixinResolvableProperties.NestedLeaf | test/MixinResolvable.spec.js:161-171 | a leaf resolvable expands to its own result |
| MixinResolvableProperties.NestedLeaves | test/MixinResolvable.spec.js:161-171 | the two leaves expand to `"foobar"` and `123` |
| MixinResolvableProperties.NestedPairItems | test/MixinResolvable.spec.js:161-171 | the two leaves in a stack unfold to `["foobar", 123]` |
| MixinResolvableProperties.NestedFour | test/MixinResolvable.spec.js:161-171 | `{__definition: [one, two]}` unfolds to `["foobar", 123]` |
| MixinResolvableProperties.NestedPair | test/MixinResolvable.spec.js:161-169 | the fourth case resolves to `["foobar", 123]` |
| MixinResolvableProperties.NestedTwice | test/MixinResolvable.spec.js:161-171 | the same resolvable twice in a stack unfolds twice |
| MixinResolvableProperties.NestedFive | test/MixinResolvable.spec.js:161-171 | two copies of the array definition unfold to `["foobar", 123, "foobar", 123]` |
| MixinResolvableProperties.NestedDefinitionsExample | test/MixinResolvable.spec.js:161-171 | the fifth case resolves to `["foobar", 123, "foobar", 123]` |
| MixinResolvableProperties.NestedClimbChild | lib/MixinResolvable.js:47-51 | the child hands its own result up to its parent |
| MixinResolvableProperties.NestedClimbRoot | lib/MixinResolvable.js:38-55 | the default root adds its `null` result in front and unfolds the stack |
| MixinResolvableProperties.NestedRootUnfold | lib/MixinResolvable.js:11-14 | the default root's `null` is dropped while the rest unfolds |
| LegacyResolvable.ShiftBelow | src/MixinResolvable.js:5-31 | putting final entries in front of a well-referenced run keeps it canonical and well-referenced |
| LegacyResolvable.Substack | src/MixinResolvable.js:28 | the unfolded `resolve()` of a nested resolvable refers only to resolvables below it |
| LegacyResolvable.ItemExpansion | src/MixinResolvable.js:14-23 | what one item of an array definition is inserted as refers only to existing resolvables |
| LegacyResolvable.ExpandItems | src/MixinResolvable.js:13-24 | the items an array definition is replaced with refer only to existing resolvables |
| LegacyResolvable.ExpandItemsErr | src/MixinResolvable.js:13-24 | a failure among the first items is the failure of the whole array |
| LegacyResolvable.Head | src/MixinResolvable.js:6-30 | examining one entry takes at least one iteration and yields a canonical run |
| LegacyResolvable.Scan | src/MixinResolvable.js:5-31 | the run of the loop over a stack is canonical, takes an iteration per examined entry and refers only to existing resolvables |
| LegacyResolvable.Continue | src/MixinResolvable.js:5-31 | carrying the loop on never undoes iterations already made |
| LegacyResolvable.Ascend | src/MixinResolvable.js:44-55 | the stack the root returns or hands to its invoker refers only to existing resolvables |
| LegacyResolvable.ScanBound | src/MixinResolvable.js:5-31 | the termination bound does not change the run |
| LegacyResolvable.ContinueBound | src/MixinResolvable.js:5-31 | the termination bound does not change a carried-on run |
| LegacyResolvable.ExpandItemsBound | src/MixinResolvable.js:13-24 | the termination bound does not change an array's expansion |
| LegacyResolvable.HeadBound | src/MixinResolvable.js:6-30 | the termination bound does not change one entry's examination |
| LegacyResolvable.ShiftShift | src/MixinResolvable.js:5-31 | putting final entries in front twice is putting them in front once |
| LegacyResolvable.ContinueShift | src/MixinResolvable.js:5-31 | final entries in front of a run stay in front when the loop carries on |
| LegacyResolvable.ScanConcat | src/MixinResolvable.js:5-31 | the loop over a concatenation is the loop over the first part carried on over the second |
| LegacyResolvable.ContinueAssoc | src/MixinResolvable.js:5-31 | carrying on over a concatenation is carrying on over each part in turn |
| LegacyResolvable.Replacement | src/MixinResolvable.js:10-30 | what an entry is spliced out for refers only to existing resolvables, and the index never moves beyond it except after an empty substack |
| LegacyResolvable.ScanSplice | src/MixinResolvable.js:6-30 | one iteration in place: the entries the index moves over are final and the loop goes on from there; moving past the end stops it |
| LegacyResolvable.ScanSpliceResolved | src/MixinResolvable.js:27-30 | a resolvable definition keeps the substack's first item and rescans from its second |
| LegacyResolvable.LoopStep | src/MixinResolvable.js:6-30 | one pass of the body leaves one iteration fewer to come, and the entries behind the index with the run to come are the same run as before |
| LegacyResolvable.LoopStepSpliced | src/MixinResolvable.js:10-30 | the same when the entry is replaced |
| LegacyResolvable.SplicedRun | src/MixinResolvable.js:10-30 | the splice at index `i` of a stack, as the loop sees it |
| LegacyResolvable.Regroup | src/MixinResolvable.js:11-29 | a splice's pieces reassemble the array |
| LegacyResolvable.SliceAt | src/MixinResolvable.js:6 | the pieces of a stack around an index refer only to what the stack refers to |
| LegacyResolvable.SpliceShift | src/MixinResolvable.js:17-29 | the index after a splice lands past the inserted entries, with the run to come shortened |
| LegacyResolvable.ProgressStep | src/MixinResolvable.js:5-31 | one pass keeps the loop invariant with fewer iterations left, or fails as the body does |
| LegacyResolvable.UnfoldInPlace | src/MixinResolvable.js:4-33 | `unfoldStack` rewrites the given array to the run's entries and returns it, or throws the run's failure |
| LegacyResolvable.Examine | src/MixinResolvable.js:6-30 | the loop body splices the entry's replacement into the array and returns the index it leaves |
| LegacyResolvable.SpliceArray | src/MixinResolvable.js:10-26 | the array branch replaces the entry by its expanded items and steps back once |
| LegacyResolvable.ExpandItem | src/MixinResolvable.js:14-23 | one item is inserted as its unfolded `resolve()` when resolvable, else as itself |
| LegacyResolvable.ResolveSubstack | src/MixinResolvable.js:16-28 | `unfoldStack(x.resolve())` computes its specification |
| LegacyResolvable.AscendChain | src/MixinResolvable.js:44-55 | the recursion up the parent chain computes its specification |
| LegacyResolvable.ResolveAt | src/MixinResolvable.js:44-55 | `resolve(arg)` computes its specification |
| LegacyResolvableProperties.PlainStackUnchanged | src/MixinResolvable.js:6-8 | a stack without definitions comes back unchanged, one iteration per entry |
| LegacyResolvableProperties.NullishEntryThrows | src/MixinResolvable.js:6 | a `null` or `undefined` entry throws reading `__definition`, whatever follows |
| LegacyResolvableProperties.UnfoldedOfShift | src/MixinResolvable.js:5-31 | final entries in front of a run are kept in front of its result |
| LegacyResolvableProperties.ArrayDefinitionSpliced | src/MixinResolvable.js:10-26 | an array definition is replaced by its items in order, resolvable items by their unfolded `resolve()`, and the loop goes on after them |
| LegacyResolvableProperties.ResolvedDefinitionSpliced | src/MixinResolvable.js:27-30 | a resolvable definition is replaced by its unfolded `resolve()`, everything after its first item is examined again, and an empty substack skips the next entry |
| LegacyResolvableProperties.EmptySubstackSkips | src/MixinResolvable.js:29 | an empty substack lets the following entry slide into place unexamined |
| LegacyResolvableProperties.SubstackRescanned | src/MixinResolvable.js:29 | a non-empty substack's first item is final and the rest is rescanned |
| LegacyResolvableProperties.RootsWellFormed | src/MixinResolvable.js:44-55 | the example resolvables form a well-formed arena |
| LegacyResolvableProperties.DefaultResolvableThrows | src/MixinResolvable.js:36-52 | with the default `getResolvable`, `resolve()` throws on `[null]`, where the fresh-array version returns `[]` |
| LegacyResolvableProperties.SkipAfterEmptySubstack | src/MixinResolvable.js:27-30 | after a definition resolving to `[]`, the next entry's array definition is never unfolded |
| LegacyResolvableProperties.SkipAfterEmptySubstackRun | src/MixinResolvable.js:27-30 | the run of that example: one iteration, the second entry final as it is |
| LegacyResolvableProperties.SecondBelow | src/MixinResolvable.js:10 | the example's second entry refers to no resolvable |
| LegacyResolvableProperties.RootEmpty | src/MixinResolvable.js:28 | the example's root resolves to the empty substack |
| LegacyResolvableProperties.AscendCollects | src/MixinResolvable.js:44-55 | the root unfolds, in place, the chain's `getResolvable` results root first, then the argument; only the root's invoker is called |
| LegacyResolvableProperties.ResolveFromCollects | src/MixinResolvable.js:44-55 | `resolve(arg)` from any node is the root's in-place unfolding of the chain and the argument |
| LegacyResolvableProperties.KeptStackUnchanged | src/MixinResolvable.js:4-33 | a stack whose entries all have a definition that is neither an array nor a resolvable comes back unchanged, one iteration per entry |
| LegacyResolvableProperties.ExpandTwoItems | src/MixinResolvable.js:13-24 | an array definition of two items is replaced by the first item's expansion followed by the second's |
| LegacyResolvableProperties.LegacyStoreDatasetResolve | src/MixinResolvable.js:44-54 | on the store-and-datasets arena, the in-place `resolve()` of the store's dataset yields the store's entry then its own |
| LegacyResolvableProperties.LegacySubstackStore | src/MixinResolvable.js:15-18 | the store inside a stack is replaced by its own entry |
| LegacyResolvableProperties.LegacySubstackDataset | src/MixinResolvable.js:15-18 | the store's dataset inside a stack is replaced by the store's entry and its own |
| LegacyResolvableProperties.LegacyMembersDatasetResolve | src/MixinResolvable.js:44-54 | on the store-and-datasets arena, the in-place `resolve()` of the dataset of both yields the same stack as the fresh-array version |
| LegacyResolvableProperties.LegacyMembersHead | src/MixinResolvable.js:10-25 | the entry of the dataset of both is replaced by its members' substacks in one iteration |
| LegacyResolvableProperties.LegacyMembersItems | src/MixinResolvable.js:13-24 | the members' expansions are the store's entry, then the store's entry and the dataset's entry |
| StackInvoker.ConsumeVerbs | lib/StackInvoker.js:128-133 | the loop of `invoke` splices the caller's array in place exactly as its specification says, and yields the last `__resolve` it read |
| StackInvoker.RequestAt | lib/StackInvoker.js:33-47 | making a request on a store keeps the registry well-formed and the store in it |
| StackInvoker.MakeRequest | lib/StackInvoker.js:33-47 | making a request keeps the registry well-formed, and throws on anything that is not a store |
| StackInvoker.FetchAt | lib/StackInvoker.js:97-98 | reading a snapshot keeps the registry well-formed and the store in it |
| StackInvoker.FetchResolver | lib/StackInvoker.js:96-111 | the `fetch` resolver keeps the registry well-formed |
| StackInvoker.ResolveSpec | lib/StackInvoker.js:67-123 | every resolver keeps the registry well-formed |
| StackInvoker.InvokeSpec | lib/StackInvoker.js:125-149 | `invoke` keeps the registry well-formed |
| StackInvoker.Reimport | lib/StackInvoker.js:22-24 | reimporting a GET answer through the handler, the unnested importer's writes included, keeps the registry well-formed and never drops a store |
| StackInvoker.ApplySpec | lib/StackInvoker.js:21-31 | storing an answer keeps the registry well-formed and the request's store in it |
| StackInvoker.StoreAnswer | lib/StackInvoker.js:25-30 | a DELETE or write answer keeps the registry well-formed and creates no store |
| StackInvoker.CompleteSpec | lib/StackInvoker.js:48-64 | settling a request keeps the registry well-formed |
| StackInvoker.Invoke | lib/StackInvoker.js:125-149 | `invoke` changes the registry and the caller's array and returns what its specification says |
| StackInvoker.Resolve | lib/StackInvoker.js:142-148 | calling the resolver computes its specification |
| StackInvoker.SendRequest | lib/StackInvoker.js:33-47 | `makeRequest` touches the slot, announces it unless quiet, and describes the request, as specified |
| StackInvoker.Fetch | lib/StackInvoker.js:96-111 | the `fetch` resolver computes its specification |
| StackInvoker.Complete | lib/StackInvoker.js:48-64 | the promise callbacks compute their specification |
| StackInvoker.Reimported | lib/StackInvoker.js:22-24 | handing a GET answer to the response handler computes its specification |
| StackInvoker.Apply | lib/StackInvoker.js:21-31 | `updateStoreResource` computes its specification |
| StackInvoker.Store | lib/StackInvoker.js:25-30 | a DELETE or write answer is stored as specified |
| StackInvokerProperties.ScanSkipsPlain | lib/StackInvoker.js:129-133 | entries without a verb stay in place, and the verb is the last `__resolve` read |
| StackInvokerProperties.NoVerbKeepsStack | lib/StackInvoker.js:129-133 | a stack without verbs comes out whole, with a falsy verb |
| StackInvokerProperties.TrailingVerbTaken | lib/StackInvoker.js:129-133 | a verb entry that comes last is taken and dropped |
| StackInvokerProperties.AdjacentVerbSkipped | lib/StackInvoker.js:129-133 | of two verb entries in a row, the first is spliced out and the second is stepped over and kept |
| StackInvokerProperties.SpliceRemovesOne | lib/StackInvoker.js:131 | splicing out entry `i` removes one occurrence of it and nothing else |
| StackInvokerProperties.ScanKeepsPlain | lib/StackInvoker.js:129-133 | the scan only removes entries, and never one without a verb |
| StackInvokerProperties.WithoutVerbDescribes | lib/StackInvoker.js:136-140 | without a verb `invoke` returns the reducer's descriptor and changes nothing |
| StackInvokerProperties.UnknownVerbRejected | lib/StackInvoker.js:142-145 | a verb no resolver has throws once the descriptor names a store, and nothing changes |
| StackInvokerProperties.TrailingVerbResolved | lib/StackInvoker.js:136-148 | a trailing verb is resolved on the descriptor of the rest of the stack |
| StackInvokerProperties.TouchParamsFields | lib/StackInvoker.js:41 | a request's touch has `timestamp` 0 unless its parameters say otherwise, plus those parameters |
| StackInvokerProperties.GetQuiet | lib/StackInvoker.js:125-149 | `get` through `invoke` touches quietly, since the stack is its `noTouchNotify`, and describes a GET |
| StackInvokerProperties.StaleParamsValue | lib/StackInvoker.js:41-72 | `get` touches with status `stale` and timestamp 0 and nothing else |
| StackInvokerProperties.StaleTouch | lib/StackInvoker.js:41-43 | that touch makes a slot with an id stale and loading and keeps its other fields |
| StackInvokerProperties.GetMarksStale | lib/StackInvoker.js:68-74 | `get` through `invoke` marks the slot stale and loading, keeps the rest, and announces nothing |
| StackInvokerProperties.WritesAnnounced | lib/StackInvoker.js:76-92 | `create`, `update` and `delete` touch with `{timestamp: 0}`, always announce, and send POST, PUT and DELETE |
| StackInvokerProperties.WithoutStoreRejected | lib/StackInvoker.js:34-98 | a descriptor whose store is not one throws at the first store method called, and nothing changes |
| StackInvokerProperties.FetchWithoutGetable | lib/StackInvoker.js:101-103 | without `__getable`, `fetch` answers with the snapshot and starts nothing |
| StackInvokerProperties.FetchStartsGet | lib/StackInvoker.js:105-110 | with `__getable` and a snapshot without data, `fetch` starts a quiet `get` and answers with a second read taken after the touch |
| StackInvokerProperties.FreshFetchAnswered | lib/StackInvoker.js:105-110 | a snapshot with data and a timestamp not below loading is answered as it is |
| StackInvokerProperties.ResponseDataTruthy | lib/StackInvoker.js:51 | what an answer writes is never falsy: a missing body becomes `{}` |
| StackInvokerProperties.RefusalStamped | lib/StackInvoker.js:56-60 | a refused request stamps its slot with the time of refusal, keeps the rest, announces, and rejects |
| StackInvokerProperties.SaveThenFetch | lib/StackInvoker.js:28-55 | an answered save stores the data with status `success` and the answer's time, which a fetch then returns; the change is announced and the promise resolves |
| StackInvokerProperties.FailedWritePending | lib/StackInvoker.js:50-63 | a save whose write throws leaves the promise pending, keeps what the write did, and announces nothing |
| StackInvokerProperties.DeleteAnswered | lib/StackInvoker.js:25-55 | an answered delete deletes the slot, then announces and resolves unless the delete threw |
| StackInvokerProperties.UnnestedGetPending | lib/StackInvoker.js:22-55 | with `containerless_unnested` as the handler, an answered GET leaves the registry exactly as the importer wrote it, then throws: the promise stays pending and no change is announced |
| LegacyStackInvoker.FetchAt | src/StackInvoker.js:110-111 | reading a snapshot of the older cache keeps the registry well-formed and the store in it |
| LegacyStackInvoker.SendAt | src/StackInvoker.js:56-104 | a request resolver on a store keeps the registry well-formed and the store in it |
| LegacyStackInvoker.SendSpec | src/StackInvoker.js:56-104 | a request resolver keeps the registry well-formed, also when its promise rejects on a non-store |
| LegacyStackInvoker.FetchResolver | src/StackInvoker.js:108-120 | the older `fetch` resolver keeps the registry well-formed |
| LegacyStackInvoker.ResolveSpec | src/StackInvoker.js:55-132 | every older resolver keeps the registry well-formed |
| LegacyStackInvoker.InvokeSpec | src/StackInvoker.js:134-158 | the older `invoke` keeps the registry well-formed |
| LegacyStackInvoker.CompleteSpec | src/StackInvoker.js:26-53 | settling an older request keeps the registry well-formed |
| LegacyStackInvoker.Invoke | src/StackInvoker.js:134-158 | the older `invoke` changes the registry and the caller's array and returns what its specification says |
| LegacyStackInvoker.Resolve | src/StackInvoker.js:151-157 | calling the older resolver computes its specification |
| LegacyStackInvoker.Send | src/StackInvoker.js:56-104 | the body of a request resolver's promise computes its specification |
| LegacyStackInvoker.Fetch | src/StackInvoker.js:108-120 | the older `fetch` resolver computes its specification |
| LegacyStackInvoker.Complete | src/StackInvoker.js:38-53 | `hookRequest`'s callbacks compute their specification |
| LegacyStackInvokerProperties.TouchForFields | src/StackInvoker.js:60-98 | `get` touches with status `stale` and timestamp 0, the writes with timestamp 0 only |
| LegacyStackInvokerProperties.StampFields | src/StackInvoker.js:49 | a refusal touches with the time of refusal only |
| LegacyStackInvokerProperties.WithoutVerbReduced | src/StackInvoker.js:145-149 | without a verb the older `invoke` returns the reducer's descriptor and changes nothing |
| LegacyStackInvokerProperties.UnknownVerbRejected | src/StackInvoker.js:151-154 | a verb no resolver has throws once the descriptor names a store, and nothing changes |
| LegacyStackInvokerProperties.GetAnnounced | src/StackInvoker.js:134-158 | `get` through `invoke` is not quiet: it marks the slot stale and loading, keeps the rest, announces, and sends a GET without body |
| LegacyStackInvokerProperties.WritesAnnounced | src/StackInvoker.js:70-104 | a write marks its slot loading, keeps every other field, announces, and sends the payload, or nothing for `delete` |
| LegacyStackInvokerProperties.WithoutStoreAborted | src/StackInvoker.js:57-111 | a request resolver called on a descriptor whose `store` is not a store instance rejects its promise and changes nothing; `fetch` throws |
| LegacyStackInvokerProperties.FetchLoads | src/StackInvoker.js:113-116 | with no `__getable` gate, a snapshot without data or older than loading starts a quiet `get`, returned with the second snapshot |
| LegacyStackInvokerProperties.FreshFetchAnswered | src/StackInvoker.js:110-119 | a snapshot with data, loading or newer, is returned as it is and no request is made |
| LegacyStackInvokerProperties.RefusalStamped | src/StackInvoker.js:48-52 | a refused request stamps its slot with the time of refusal, keeps the rest, announces, and rejects |
| LegacyStackInvokerProperties.FetchAndDeleteAnswersPending | src/StackInvoker.js:27-47 | an answered GET or DELETE throws in the callback: nothing changes and the promise never settles |
| LegacyStackInvokerProperties.SaveAnswerDiscarded | src/StackInvoker.js:33-47 | an answered save passes its data where `updateResource` expects the action, so only the empty fragment is added; the change is announced and the promise resolves |
| StoreRegistry.ValidateDefinition | lib/createStore.js:16-53 | a definition that passes is an object |
| StoreRegistry.ValidateAccepts | lib/createStore.js:16-53 | the validator accepts exactly the plain objects with whitelisted keys, a string `type` when truthy, an object `actions` and an object or array `onlyActions` |
| StoreRegistry.UnknownKeyRejected | lib/createStore.js:25-31 | a key outside the whitelist is rejected, naming the first such key |
| StoreRegistry.OnlyActionsArrayAccepted | lib/createStore.js:46-52 | an `onlyActions` array passes |
| StoreRegistry.ShadowDefinitionRejected | lib/responseHandler.js:30 | the definition a prefetch gives a missing store is always rejected for its `_shadow` key |
| StoreRegistry.ResolvableFields | lib/createStore.js:92-98 | a store's resolvable is a `store` entry with its definition and itself |
| StoreRegistry.ChangeEvents | lib/createStore.js:102-107 | `notifyChange` always triggers `change`, then the descriptor's event exactly when it has an id |
| StoreRegistry.DescriptorView | lib/createStore.js:112-126 | the cache reads the reducer's descriptor as the descriptor it is |
| StoreRegistry.DescriptorFields | lib/responseHandler.js:10-29 | the response importers read the descriptor's store type and partial, and it is never a prefetch |
| StoreRegistry.DescriptorPartial | lib/StackReducer.js:132 | the descriptor object's `partial` is the reduced partial |
| StoreRegistry.DescriptorId | lib/StackReducer.js:133 | the descriptor object's `id` is the reduced id |
| StoreRegistry.DescriptorFragments | lib/StackReducer.js:135 | the descriptor object's `fragments` is the reduced list |
| StoreRegistry.DescriptorPath | lib/StackReducer.js:136 | the descriptor object's `path` is the reduced path |
| StoreRegistry.DescriptorType | lib/StackReducer.js:139 | the descriptor object's `type` is the reduced store type |
| StoreRegistry.StoreAt | lib/createStore.js:64 | a value denotes a store only when it refers to one in the registry |
| StoreRegistry.DrawnCard | lib/createStore.js:158 | `n` distinct draws give `n` names |
| StoreRegistry.SubsetCard | lib/createStore.js:158 | a subset has no more names than its superset |
| StoreRegistry.UnusedExists | lib/createStore.js:158 | among the first `|names| + 1` draws one is not registered, so the naming loop ends |
| StoreRegistry.FirstUnusedFrom | lib/createStore.js:158 | the naming loop stops at a free name, and every name drawn before it is taken |
| StoreRegistry.FirstUnused | lib/createStore.js:158 | the first free drawn name, every earlier draw being taken |
| StoreRegistry.WithDatasetKeeps | lib/createStore.js:74-78 | creating the dataset only allocates addresses: registry and stores stay as they are |
| StoreRegistry.Place | lib/createStore.js:140-162 | placing a store keeps the registry well-formed, never moves or forgets a name, and never drops a store |
| StoreRegistry.CreateKeepsNames | lib/createStore.js:129-165 | `createStore` keeps the registry well-formed, never forgets or moves a name, and never drops a store |
| StoreRegistry.Registry.constructor | lib/index.js:52 | the registry starts empty |
| StoreRegistry.Registry.CreateStore | lib/createStore.js:129-165 | `createStore` changes the registry and returns what its specification says |
| StoreRegistry.Registry.Install | lib/createStore.js:140-164 | a valid definition is placed, then the dataset, if any, is created |
| StoreRegistry.Registry.PlaceStore | lib/createStore.js:140-162 | registers the store, takes over a shadow store of the same type, or throws without change |
| StoreRegistry.Registry.DrawName | lib/createStore.js:158 | the naming loop returns the first drawn name that is free |
| StoreRegistry.Registry.RegisterStore | lib/createStore.js:153-161 | `StoreSet[name] = new Store(definition)` at the next address |
| StoreRegistry.Registry.CreateDatasetFor | lib/createStore.js:74-78 | `store.createDataset(dataset)` as specified |
| StoreRegistry.Registry.ResetStores | lib/index.js:53-57 | `resetStores` resets each registered store, as specified |
| StoreRegistry.Registry.ResetStore | lib/createStore.js:70-72 | `reset` gives the store a fresh, empty cache and changes nothing else |
| StoreRegistry.Registry.NotifyChange | lib/createStore.js:102-107 | `notifyChange` appends the change events to that store only |
| StoreRegistry.Registry.FetchResource | lib/createStore.js:112-114 | `fetchResource` returns the cache's snapshot; the cache only gains the empty fragments it consults |
| StoreRegistry.Registry.TouchResource | lib/createStore.js:116-118 | `touchResource` touches that store's cache only |
| StoreRegistry.Registry.UpdateResource | lib/createStore.js:120-122 | `updateResource` writes that store's cache only |
| StoreRegistry.Registry.DeleteResource | lib/createStore.js:124-126 | `deleteResource` deletes from that store's cache only and passes on what it throws |
| StoreRegistryProperties.InvalidLeavesRegistry | lib/createStore.js:137-138 | an invalid definition throws before the registry is touched |
| StoreRegistryProperties.NamedRegistered | lib/createStore.js:140-154 | a new type registers a new store with the definition and an empty cache at the next address |
| StoreRegistryProperties.StringArgument | lib/createStore.js:133-135 | `createStore("name")` is `createStore({type: "name"})` |
| StoreRegistryProperties.RedefinitionRejected | lib/createStore.js:143-150 | a second store of a type that is not a shadow throws and nothing changes |
| StoreRegistryProperties.ShadowReplaced | lib/createStore.js:143-146 | a shadow store is taken over: same address, new definition, cache and events kept |
| StoreRegistryProperties.AnonymousFresh | lib/createStore.js:156-162 | an anonymous store gets the first free drawn name, recorded as its type |
| StoreRegistryProperties.FalsyArgumentsAnonymous | lib/createStore.js:133-140 | no argument, a falsy one and the empty string all create anonymous stores |
| StoreRegistryProperties.EmptyTypeAnonymous | lib/createStore.js:133-140 | the empty string creates an anonymous store |
| StoreRegistryProperties.DatasetReturned | lib/createStore.js:74-78 | with a dataset, `createStore` returns the dataset at the next address, parented to the store |
| StoreRegistryProperties.CreateNamed | lib/createStore.js:140-164 | a valid definition of a new type is registered and the dataset created after it |
| StoreRegistryProperties.DatasetErrorKeepsStore | lib/createStore.js:153-164 | an invalid dataset makes `createStore` throw, yet the store just registered stays |
| StoreRegistryProperties.DatasetFails | lib/createStore.js:74-78 | a rejected dataset leaves the heap as it was and passes the error on |
| StoreRegistryProperties.ResetEmpties | lib/index.js:53-57 | `resetStores` empties the cache of every registered store and changes nothing else |
| StoreRegistryProperties.ResetIdempotent | lib/index.js:53-57 | resetting twice is resetting once |
| StoreRegistryProperties.StoreStack | lib/createStore.js:92-98 | a stack holding only a store reduces to a descriptor naming the store, its type and the host, with no id |
| StoreRegistryProperties.OnlyActionsArrayStoreCreated | lib/createStore.js:46-52 | a store whose `onlyActions` is an array is registered |
| StoreRegistryProperties.OnlyActionsArrayStoreUnusable | lib/StackReducer.js:82-85 | a stack holding that store cannot be reduced |
| StoreRegistryProperties.OnlyActionsStepFails | lib/StackReducer.js:82-85 | the first pass throws on that store's entry |
| StoreRegistryProperties.OnlyActionsArrayThrows | lib/StackReducer.js:82-85 | a definition entry with an `onlyActions` array throws whatever came before |
| LegacyStoreRegistry.CreateStoreSpec | src/createStore.js:130-155 | the older `createStore` keeps the registry well-formed and returns a store that exists |
| LegacyStoreRegistry.LegacyRegistry.constructor | src/createStore.js:5 | the older registry starts empty |
| LegacyStoreRegistry.LegacyRegistry.CreateStore | src/createStore.js:130-155 | the older `createStore` changes the registry and returns what its specification says |
| LegacyStoreRegistry.LegacyRegistry.Install | src/createStore.js:143-151 | `new Store(definition)`, kept under its name when it has one |
| LegacyStoreRegistry.LegacyRegistry.NotifyChange | src/createStore.js:105-109 | `notifyChange` appends the change events to that store only |
| LegacyStoreRegistry.LegacyRegistry.FetchResource | src/createStore.js:114-116 | `fetchResource` returns the older cache's snapshot; the cache only gains the empty fragments it consults |
| LegacyStoreRegistry.LegacyRegistry.TouchResource | src/createStore.js:118-120 | `touchResource` ignores the action and touches that store's cache only, passing on what it throws |
| LegacyStoreRegistry.LegacyRegistry.UpdateResource | src/createStore.js:122-124 | `updateResource` writes that store's cache only, passing on what it throws |
| LegacyStoreRegistryProperties.ExistingReturned | src/createStore.js:140-148 | a name already taken returns the registered store, even with a definition that would not validate |
| LegacyStoreRegistryProperties.NamedRegistered | src/createStore.js:140-144 | a new name registers a new store with the defaulted definition at the next address |
| LegacyStoreRegistryProperties.ObjectArgumentAnonymous | src/createStore.js:133-152 | an object first argument makes an anonymous store, even when it carries a `type` |
| LegacyStoreRegistryProperties.EmptyNameAnonymous | src/createStore.js:140-152 | the empty string names nothing: the store is anonymous |
| LegacyStoreRegistryProperties.InvalidRejected | src/createStore.js:130-155 | a definition that fails validation throws before anything is registered or allocated |
| LegacyStoreRegistryProperties.StringOnlyDefinitionEmpty | src/createStore.js:138-143 | `createStore("name")` records no type: the definition is `{}` |
| LegacyStoreRegistryProperties.NoWhitelist | src/createStore.js:17-60 | keys outside the checked options are let through |
| LegacyStoreRegistryProperties.OnlyActionsArrayRejected | src/createStore.js:52-57 | an `onlyActions` array is refused |
| LegacyStoreRegistryProperties.RejectionsAreTypeErrors | src/createStore.js:17-60 | every rejection is a TypeError, a non-object first of all |
| LegacyStoreRegistryProperties.CreateKeepsStores | src/createStore.js:130-155 | the older `createStore` never rebinds a name nor replaces a store |
| ResponseImport.Lookup | lib/responseHandler.js:18 | `StoreSet[type]` finds only a store that exists |
| ResponseImport.HandleKeepsStores | lib/responseHandler.js:8-40 | `responseHandler` keeps the registry well-formed and never drops a store |
| ResponseImport.TargetKeepsStores | lib/responseHandler.js:28-39 | nor does the write it ends in |
| ResponseImport.ShadowKeepsStores | lib/responseHandler.js:29-39 | nor does the prefetch branch |
| ResponseImport.CreatedWriteKeepsStores | lib/responseHandler.js:39 | writing into what `createStore` returned creates no store |
| ResponseImport.WriteKeepsStores | lib/responseHandler.js:39 | `updateResource` keeps the registry well-formed and creates no store |
| ResponseImport.ResponseHandler | lib/responseHandler.js:8-40 | `responseHandler` changes the registry and returns what its specification says |
| ResponseImport.WriteTarget | lib/responseHandler.js:28-39 | finding or creating the store, then writing, as specified |
| ResponseImport.WriteShadow | lib/responseHandler.js:29-39 | the prefetch branch, as specified |
| ResponseImport.WriteCreated | lib/responseHandler.js:30-39 | writing into what `createStore` returned, as specified |
| ResponseImport.WriteData | lib/responseHandler.js:39 | `store.updateResource(descriptor, result.data, "success")`, as specified |
| ResponseImport.WriteStore | lib/handlers/containerless_unnested.js:118 | `store.updateResource(descriptor, result, "success")`, as specified |
| ResponseImport.ParseSpec | lib/handlers/containerless_unnested.js:9-45 | `parseObject` keeps the registry well-formed and never drops a store |
| ResponseImport.ParseFields | lib/handlers/containerless_unnested.js:19-42 | the walk over the entries keeps the registry well-formed and never drops a store |
| ResponseImport.ParseItems | lib/handlers/containerless_unnested.js:58-83 | the collection loop keeps the registry well-formed and never drops a store |
| ResponseImport.Absorb | lib/handlers/containerless_unnested.js:62-82 | an item is taken in exactly when its truthy type and partial agree with those found before; its data is appended and a truthy type and partial it carries are recorded |
| ResponseImport.DiscoverSpec | lib/handlers/containerless_unnested.js:54-92 | parsing the collection or the object keeps the registry well-formed and never drops a store |
| ResponseImport.SettleSpec | lib/handlers/containerless_unnested.js:94-118 | settling and writing keeps the registry well-formed and never drops a store |
| ResponseImport.CreatedStoreWrite | lib/handlers/containerless_unnested.js:109-118 | writing into what `createStore` returned keeps the registry well-formed and never drops a store |
| ResponseImport.ImportSpec | lib/handlers/containerless_unnested.js:47-119 | `containerless_unnested` keeps the registry well-formed and never drops a store |
| ResponseImport.Import | lib/handlers/containerless_unnested.js:47-119 | `containerless_unnested` changes the registry and returns what its specification says |
| ResponseImport.Discover | lib/handlers/containerless_unnested.js:54-92 | the collection loop, or the single object, as specified |
| ResponseImport.Merge | lib/handlers/containerless_unnested.js:62-82 | the loop body's checks and updates, in their order, take an item in as specified |
| ResponseImport.ParseObject | lib/handlers/containerless_unnested.js:9-45 | `parseObject`, importing nested data as it goes, as specified |
| ResponseImport.Settle | lib/handlers/containerless_unnested.js:94-118 | settling type and partial, finding or creating the store, and writing, as specified |
| ResponseImport.WriteCreatedStore | lib/handlers/containerless_unnested.js:109-118 | writing into what `createStore` returned, as specified |
| ResponseImport.UnnestedHandleSpec | lib/responseHandler.js:8-40 | `responseHandler` with `containerless_unnested` as its handler keeps the registry well-formed and never drops a store |
| ResponseImport.RespondSpec | lib/responseHandler.js:8-40 | `responseHandler` with either kind of handler keeps the registry well-formed and never drops a store |
| ResponseImport.Respond | lib/responseHandler.js:8-40 | the handler, then the rest of `responseHandler`, change the registry and return what `RespondSpec` says |
| ResponseImportProperties.StoreWriteEffects | lib/createStore.js:120-122 | `updateResource` changes the written store's cache as the cache's update does, and nothing else |
| ResponseImportProperties.MissingTypeRejected | lib/responseHandler.js:12-16 | with no type on the descriptor or the result, `responseHandler` throws and changes nothing |
| ResponseImportProperties.SettledProps | lib/responseHandler.js:23-26 | setting `type` then `partial` leaves every other property as it was |
| ResponseImportProperties.HandlerSettles | lib/responseHandler.js:18-28 | once the type is known, `responseHandler` goes on to the store with the settled descriptor |
| ResponseImportProperties.MissingStoreRejected | lib/responseHandler.js:28-36 | a type without a registered store throws unless the descriptor is a prefetch's; nothing changes |
| ResponseImportProperties.PrefetchShadowRejected | lib/responseHandler.js:29-30 | a prefetch gets no shadow store: `createStore` rejects `_shadow`, and nothing changes |
| ResponseImportProperties.ShadowRejected | lib/responseHandler.js:30 | the shadow store asked for is never created |
| ResponseImportProperties.RegisteredStoreWritten | lib/responseHandler.js:18-39 | with the type's store registered, the result's data goes into it under the settled descriptor |
| ResponseImportProperties.MissingDescriptorFromStore | lib/responseHandler.js:20-22 | without a descriptor, a plain store's own stack gives one: the host's path, with no id |
| ResponseImportProperties.UndefinedResultFails | lib/responseHandler.js:9-39 | once its handler has returned nothing, `responseHandler` throws, and its own steps change nothing |
| ResponseImportProperties.UnnestedHandlerFails | lib/responseHandler.js:9-39 | with `containerless_unnested` as the handler, `responseHandler` always throws and the registry is the one the importer left: its writes stay, and none is added |
| ResponseImportProperties.ParseRejectsNonObject | lib/handlers/containerless_unnested.js:10-14 | `parseObject` of anything but a plain object throws before anything is imported |
| ResponseImportProperties.FlatTail | lib/handlers/containerless_unnested.js:19-42 | an object without nested data stays so without its first entry |
| ResponseImportProperties.ScalarsGet | lib/handlers/containerless_unnested.js:19-42 | the parsed data holds every scalar entry as it was, and no metadata and no nested data |
| ResponseImportProperties.ParsedFields | lib/handlers/containerless_unnested.js:19-42 | the walk collects the scalar entries and takes `_type` and `_partial`; without nested data it imports nothing and never throws |
| ResponseImportProperties.UniqueTail | lib/handlers/containerless_unnested.js:19 | the keys after the first are unique and never the first |
| ResponseImportProperties.MetaStep | lib/handlers/containerless_unnested.js:20-32 | a metadata entry first: the walk goes on with it recorded |
| ResponseImportProperties.EmbeddedStep | lib/handlers/containerless_unnested.js:36-38 | a nested value first: it is imported, then the walk goes on |
| ResponseImportProperties.ScalarStep | lib/handlers/containerless_unnested.js:39-41 | a scalar entry first: it is appended to the data |
| ResponseImportProperties.FlatObjectParsed | lib/handlers/containerless_unnested.js:9-45 | an object without nested data parses to its scalars, `_type` and `_partial`, importing nothing |
| ResponseImportProperties.EmbeddedImported | lib/handlers/containerless_unnested.js:36-38 | a nested array or object is imported on its own, with no descriptor, and is not part of the data |
| ResponseImportProperties.ItemsData | lib/handlers/containerless_unnested.js:82 | one data object per element |
| ResponseImportProperties.StrictEqualsEqual | lib/handlers/containerless_unnested.js:63-73 | `!==` fails only between equal values |
| ResponseImportProperties.FlatItemsCollected | lib/handlers/containerless_unnested.js:58-83 | the loop over flat elements imports nothing and keeps each element's data in order, with every truthy type the discovered one |
| ResponseImportProperties.ItemStep | lib/handlers/containerless_unnested.js:59-82 | one turn of the loop over a flat element |
| ResponseImportProperties.AbsorbFlat | lib/handlers/containerless_unnested.js:62-82 | a flat element taken in adds its data and keeps a type and partial already found |
| ResponseImportProperties.ItemsDataCons | lib/handlers/containerless_unnested.js:82 | the elements' data is the first element's, then the rest's |
| ResponseImportProperties.ConflictingTypesRejected | lib/handlers/containerless_unnested.js:62-68 | two elements of different types throw, naming both, with nothing imported |
| ResponseImportProperties.ConflictingPartialsRejected | lib/handlers/containerless_unnested.js:72-78 | two elements of one type but different partials throw, naming both partials |
| ResponseImportProperties.FlatArrayDiscovered | lib/handlers/containerless_unnested.js:55-84 | an array of flat elements: nothing imported, each element's data in order, and the discovered type is every element's truthy type |
| ResponseImportProperties.SetPropOther | lib/handlers/containerless_unnested.js:94-99 | writing a property leaves every other one as it was |
| ResponseImportProperties.SettledKeeps | lib/handlers/containerless_unnested.js:94-99 | the descriptor's properties other than `type` and `partial` survive the settling |
| ResponseImportProperties.SettleUnfolds | lib/handlers/containerless_unnested.js:94-99 | the descriptor's type is settled before its partial |
| ResponseImportProperties.ImportMissingType | lib/handlers/containerless_unnested.js:101-105 | without a type from the descriptor or the data, the importer throws and writes nothing |
| ResponseImportProperties.ImportMissingStore | lib/handlers/containerless_unnested.js:107-115 | a type without a registered store throws unless the descriptor is a prefetch's, and writes nothing |
| ResponseImportProperties.ImportWritten | lib/handlers/containerless_unnested.js:94-118 | with the type's store registered, the data goes into it under the settled descriptor |
| ResponseImportProperties.ShadowDatasetRejected | lib/createDataset.js:16-36 | `{_shadow: true}` is not a dataset definition |
| ResponseImportProperties.ImportShadowRegistersThenThrows | lib/handlers/containerless_unnested.js:108-109 | a prefetch of an unknown type registers the store, then throws on the dataset, writing nothing |
| ResponseImportProperties.ShadowCreateRegisters | lib/createStore.js:133-164 | `createStore(type, {_shadow: true})` registers the store, then throws on the dataset |
| ResponseImportProperties.FlatObjectImported | lib/handlers/containerless_unnested.js:86-118 | a flat object of a registered type is written whole into that store |
| Values.GetAt | src/utils.js:98-99 | a property read finds the first entry with the key |
| Values.GetMissing | src/utils.js:98-99 | reading a key the object lacks gives `undefined` |
| Values.GetSet | src/utils.js:58 | a property write is read back under its key and under no other |
| Values.KeysSet | src/utils.js:12-58 | a write keeps an existing key in place and appends a new one |
| Values.SetMembers | src/utils.js:58 | a write adds the written entry and keeps every other entry |
| Values.NatToString | src/utils.js:129 | an array index becomes its decimal digits, without leading zeros |
| Utils.IndexEntries | src/utils.js:92-95 | an array is walked as the keys "0", "1", ... paired with its elements in order |
| Utils.CharValues | src/utils.js:92-95 | a string is walked as its one-character strings in order |
| Actions.DefaultNamesUnique | lib/index.js:28-50 | the default action names are pairwise different |
| Dataset.FirstOutside | lib/createDataset.js:30-36 | the key a definition is rejected for is one of its keys and not allowed |
| Dataset.MembersFailLast | lib/createDataset.js:159-170 | the loop over the arguments ends with the error of the first argument the validator rejects |
| FragmentMapProperties.StripKeepsNumeric | lib/FragmentMap.js:199-206 | a query listing a numeric id survives the strip loop of a delete by a string id, since `indexOf` compares strictly |

## Left out

- The HTTP transport (`axios`, the promise objects and the `_onerror` hooks) is not modelled. A request is a value (`StackInvoker.Request`), and its outcome, answered or refused, is an input to the settling functions. In-flight requests do not interleave: each one is settled as a single step.
- `Date.now()` is the parameter `now` wherever the source reads the clock.
- `_.randomString` is the parameter `draw`, an injective stream of names. The naming loop of `createStore` takes the first draw that is not registered.
- The event emitter is not modelled. Every store carries an `events` log, and `notifyChange` appends to it.
- Object identity is not modelled. Objects and arrays are values, so `===` on two of them is false (`Values.StrictEquals`), and two references to one array are not distinguished. The only aliasing modelled is that of a store instance, through its address in the registry heap.
- Number values are integers. Floating point, `NaN` and the prototype chain are not modelled, nor are keys inherited through a prototype.
- An invoker result inside an older stack becomes `Err(InvokerInStack)` in the model (`LegacyResolvable.Substack`). The source splices with `NaN` index arithmetic at that point.
- `lib/handlers/containerless_nested.js`, the default handler, is not part of this model. A handler is the parameter `handler` (`ResponseImport.Handler`): either `containerless_unnested`, modelled with its writes, or a handler given only by the result it returns (`ResponseImport.Returning`).
- StackInvoker.Reimport: with a `Returning` handler, the handler's own writes are not modelled; only `containerless_unnested` brings its writes into the registry. The same holds for `ResponseImport.RespondSpec` and `ResponseImport.Respond`.
- `lib/utils.js` is not part of this model. `each` follows `src/utils.js`, and the hostname is the parameter `hostname`. `src/utils.js` has no `concatUnique`, so the semantics of `_.concatUnique` used at `lib/StackReducer.js:75` are assumed (`StackReducer.ConcatUnique`): the items not already present are appended in order, presence is strict equality, and an item that is not an array is taken as a one-item list.
- `src/StackReducer.js` is not part of this model. The older invoker takes its reducer as the parameter `reduce`.
- The React bindings (`createClass`, the subscribable mixin, `nextTick`), `defineAction`, `MixinSubset` and `createScope` are not modelled. What they contribute to a stack is covered by the resolvable and reducer models.
- `src/prefetchCache.js`, `lib/prefetchCache.js` and `src/responseHandler.js` are not modelled. The first is an unfinished draft, the second is a thin wrapper over `responseHandler`, and the third is an older copy of the unnested handler.
- `src/index.js` is not modelled separately, because its action table matches that of `lib/index.js`.
- `deepCopy`, `log`, `nextTick`, `defineClass` and console output are not modelled.
- The shadow-store paths are modelled as they are written, and neither succeeds. `lib/responseHandler.js:30` passes a `_shadow` key that the whitelist of `lib/createStore.js` rejects. The unnested handler registers the store first, and `createDataset` then throws on `_shadow`.
- `lib/responseHandler.js:9-10` reads a result from its handler. The unnested handler writes the data into the stores itself and returns nothing, so with it as the handler `responseHandler` goes on with a result of `undefined`, on the descriptor the importer settled, and throws at `lib/responseHandler.js:39` once the importer's writes are done (`ResponseImport.UnnestedHandleSpec`).
- Some behaviours of the current invoker are modelled as the code does them, with lemmas stating each one:
  - the splice loop of `invoke` skips the entry after a consumed verb;
  - a `get` reached through `invoke` is quiet, because the stack passed to it fills its `noTouchNotify` argument;
  - a GET answered through the unnested handler keeps the importer's writes but leaves its promise pending and announces nothing.
- Some behaviours of the older invoker are modelled as the code does them, with lemmas stating each one:
  - a `get` reached through `invoke` announces its touch;
  - an answered GET throws reading `default`, and an answered DELETE throws calling `deleteResource`; both promises stay pending;
  - an answered save is discarded, because the arguments of `updateResource` are shifted;
  - a resolver called on a descriptor whose `store` is not a store rejects its promise, and `fetch` throws (`invoke` itself returns such a descriptor as it is);
  - `fetch` has no `__getable` gate.
- The older `createStore` has no whitelist and refuses an `onlyActions` array. It returns an existing name without validating, and an object first argument always makes an anonymous store. The `console.warn` on a name already taken is not modelled.
- The older in-place unfold throws on the default resolvable `[null]` (`LegacyResolvableProperties.DefaultResolvableThrows`).
- In the current cache, a delete by a live id after a delete by path throws. A numeric id also survives in a query when the id is deleted by a string id.
- LegacyStackInvokerProperties.FetchLoads: states the request and the quiet events only when the quiet `get` succeeds, and says nothing of the error it can raise.
- Values.Keys: keys come in the order the entries are held. `Object.keys` puts integer-like keys first, in ascending order, and that reordering is not modelled. So the order of `Values.KeysExtend`, `Values.KeysSet` and `Utils.OwnEntries` is faithful only for objects without integer-like keys. The order in which the unnested handler imports resources, and which bad key `validateDefinition` names first, follow the same reading.
- Values.KeysExtend: see Values.Keys; integer-like keys are not moved to the front.
- Values.KeysSet: see Values.Keys; a new integer-like key is appended rather than placed among the integer keys.
- Utils.OwnEntries: see Values.Keys; entries come in the order they are held.
- Utils.Capitalize: `Upper` maps only the ASCII letters `a`-`z`. `toUpperCase` also maps other letters (`é` to `É`), and some to two characters (`ß` to `SS`), so the length-preserving contract holds only when the first character is not one of those.
- StackReducer.FillUri: the TypeError message ends at `while using params: `. The `JSON.stringify(params)` that the source appends after it is not modelled, since JSON serialisation is not part of this model. A parameter value that is a function is called by `replace` and its result inserted; the model inserts the function's string form instead, since calling user code is not modelled. String values, `$` patterns included, are substituted as `replace` does (`StackReducer.Substitute`).
- StackReducer.PathLoop: the paths it concatenates are filled as StackReducer.FillUri fills them, so a parameter value that is a function gives its string form where the source inserts what the function returns.
- StackReducer.ReduceStack: its `path` has the same gap as StackReducer.PathLoop for parameter values that are functions.
- StackReducerProperties.FillTokensFirstMissing: states the message without its `JSON.stringify(params)` suffix, as StackReducer.FillUri builds it.
- LegacyResolvable.Scan: shares the arena of `MixinResolvable`, whose well-formedness bounds every position the current unfold follows. The older unfold follows fewer of them (an entry that is itself an instance is kept, not unfolded), so the bound is stricter than the older code needs.

=== FILE: actions.dfy ===
/**
 * The action table of `lib/index.js`: `defineActions` and the default
 * actions every resource descriptor starts from.
 *
 * An action is a function that, when called, returns `{__resolve: verb}`.
 * It is modelled as the function value `Fn(verb)`: the verb it resolves to
 * is all the rest of the library reads from it. `lib/defineAction.js` is not
 * part of this model; `DefineAction` keeps the function it is given.
 */
module Actions {
  import opened Values

  /** The entry an action returns when called: `{__resolve: verb}`. */
  function Resolution(verb: string): (r: Value)
    ensures Prop(r, "__resolve") == Str(verb)
  {
    Obj([("__resolve", Str(verb))])
  }

  /** The verb a modelled action resolves to. */
  function VerbOf(action: Value): Value
  {
    if action.Fn? then Str(action.name) else Undefined
  }

  /** `defineAction(fn)`: the action wrapping `fn`. */
  function DefineAction(f: Value): Value
  {
    f
  }

  /** What `defineActions(actions)` returns, or the TypeError it throws. */
  function DefineActions(actions: Value): (r: Result<Fields>)
    ensures r.Err? <==> !IsPlainObject(actions)
  {
    if !IsPlainObject(actions) then
      Err(TypeError("defineActions: Expected simple object but found  `" + TypeOf(actions) + "`."))
    else Ok(DefineAll(actions.fields))
  }

  /** The `_.each` of `defineActions`: `result[key] = defineAction(val)` for each key in order. */
  function DefineAll(entries: Fields): Fields
    decreases |entries|
  {
    if entries == [] then []
    else
      var last := entries[|entries| - 1];
      Set(DefineAll(entries[..|entries| - 1]), last.0, DefineAction(last.1))
  }

  /** `defineActions(actions)`, with its loop. */
  method DefineActionsLoop(actions: Value) returns (r: Result<Fields>)
    ensures r == DefineActions(actions)
  {
    if !IsPlainObject(actions) {
      return Err(TypeError("defineActions: Expected simple object but found  `" + TypeOf(actions) + "`."));
    }
    var entries := actions.fields;
    var result: Fields := [];
    var i := 0;
    while i < |entries|
      invariant 0 <= i <= |entries|
      invariant result == DefineAll(entries[..i])
    {
      assert entries[..i + 1][..i] == entries[..i];
      result := Set(result, entries[i].0, DefineAction(entries[i].1));
      i := i + 1;
    }
    assert entries[..i] == entries;
    return Ok(result);
  }

  /**
   * `defineActions` yields exactly one action per input key: the same keys
   * in the same order, each bound to the action defined from its value.
   */
  lemma {:induction false} DefineAllKeys(entries: Fields, k: string)
    requires UniqueKeys(entries)
    ensures Keys(DefineAll(entries)) == Keys(entries)
    ensures Get(DefineAll(entries), k) == if HasKey(entries, k) then DefineAction(Get(entries, k)) else Undefined
    decreases |entries|
  {
    if entries != [] {
      var p := entries[..|entries| - 1];
      var last := entries[|entries| - 1];
      assert p + [last] == entries;
      assert UniqueKeys(p);
      DefineAllKeys(p, k);
      DefineAllKeys(p, last.0);
      UniqueKeysHead(entries, last.0);
      KeysSet(DefineAll(p), last.0, DefineAction(last.1));
      GetSet(DefineAll(p), last.0, DefineAction(last.1), k);
      KeysSnoc(p, last);
      GetSnoc(p, last, k);
    }
  }

  /** The functions handed to `defineActions` for the default table, in source order. */
  const DefaultDefinitions: Fields := [
    ("invalidate", Fn("invalidate")),
    ("get", Fn("get")),
    ("create", Fn("create")),
    ("post", Fn("create")),
    ("update", Fn("update")),
    ("put", Fn("update")),
    ("delete", Fn("delete"))
  ]

  /** `exports.actions`. */
  function DefaultActions(): Fields
  {
    DefineAll(DefaultDefinitions)
  }

  /** Defining actions keeps each function, so on distinct keys the table is its input. */
  lemma {:induction false} DefineAllSame(entries: Fields)
    requires UniqueKeys(entries)
    ensures DefineAll(entries) == entries
    decreases |entries|
  {
    if entries != [] {
      var p := entries[..|entries| - 1];
      var last := entries[|entries| - 1];
      assert UniqueKeys(p);
      DefineAllSame(p);
      UniqueKeysHead(entries, last.0);
      SetAppends(p, last.0, last.1);
      assert p + [last] == entries;
    }
  }

  /** The seven names of the default table are pairwise different. */
  lemma DefaultNamesUnique()
    ensures UniqueKeys(DefaultDefinitions)
  {
    var d := DefaultDefinitions;
    assert d[0].0 == "invalidate" && d[1].0 == "get" && d[2].0 == "create" && d[3].0 == "post";
    assert d[4].0 == "update" && d[5].0 == "put" && d[6].0 == "delete";
    assert d[0].0[0] == 'i' && d[1].0[0] == 'g' && d[2].0[0] == 'c' && d[3].0[0] == 'p';
    assert d[4].0[0] == 'u' && d[5].0[0] == 'p' && d[6].0[0] == 'd';
    assert d[3].0[1] == 'o' && d[5].0[1] == 'u';
  }

  /**
   * The default action set is exactly invalidate, get, create, post, update,
   * put, delete, in that order; `post` resolves to `create`, `put` to
   * `update`, and every other action to its own name.
   */
  lemma DefaultActionsTable()
    ensures DefineActions(Obj(DefaultDefinitions)) == Ok(DefaultActions())
    ensures UniqueKeys(DefaultActions())
    ensures |DefaultActions()| == 7
    ensures DefaultActions()[0] == ("invalidate", Fn("invalidate")) && DefaultActions()[1] == ("get", Fn("get"))
    ensures DefaultActions()[2] == ("create", Fn("create")) && DefaultActions()[3] == ("post", Fn("create"))
    ensures DefaultActions()[4] == ("update", Fn("update")) && DefaultActions()[5] == ("put", Fn("update"))
    ensures DefaultActions()[6] == ("delete", Fn("delete"))
    ensures forall i :: 0 <= i < 7 ==> VerbOf(DefaultActions()[i].1) == Str(if i == 3 then "create" else if i == 5 then "update" else DefaultActions()[i].0)
  {
    DefaultNamesUnique();
    DefineAllSame(DefaultDefinitions);
  }
}

=== FILE: constants.dfy ===
/** The shared constants of the library (`src/Constants.js`). */
module Constants {
  const STATUS_SUCCESS := "success"
  const STATUS_ERROR := "error"
  const STATUS_PARTIAL := "partial"
  const STATUS_STALE := "stale"

  /** The fragment every entity falls back to. */
  const DEFAULT_FRAGMENT := "full"

  const TIMESTAMP_STALE := -1
  const TIMESTAMP_LOADING := 0

  const ACTION_FETCH := "GET"
  const ACTION_SAVE := "SAVE"
  const ACTION_DELETE := "DELETE"
}

=== FILE: dataset.dfy ===
/**
 * Datasets of `lib/createDataset.js`: a validated definition, or a list of
 * resolvables, each a store or dataset instance kept as it is or a plain
 * definition wrapped in a dataset of its own.
 *
 * Instances are identified by their address, the `Ref` value that stands for
 * them; `createDataset` takes the next free address and hands out addresses
 * in the order it creates instances.
 */
module Dataset {
  import opened Values

  /** The options a dataset definition may have. */
  const DefinitionKeys: seq<string> := ["partial", "fragments", "uri", "actions", "onlyActions", "paramId"]

  datatype Dataset = Dataset(addr: nat, definition: Definition, parent: Value)

  /** `this.definition`: one validated value, or the array built from several arguments. */
  datatype Definition = Single(value: Value) | Members(members: seq<Member>)

  datatype Member = Kept(instance: Value) | Wrapped(dataset: Dataset)

  /** The first key, in order, that is not allowed. */
  function FirstOutside(keys: seq<string>, allowed: seq<string>): (r: Option<string>)
    ensures r.Some? ==> r.value in keys && r.value !in allowed
  {
    if keys == [] then None
    else if keys[0] !in allowed then Some(keys[0])
    else FirstOutside(keys[1..], allowed)
  }

  /** There is no key outside the list exactly when every key is in it; otherwise the first one outside is found. */
  lemma {:induction false} FirstOutsideFinds(keys: seq<string>, allowed: seq<string>)
    ensures FirstOutside(keys, allowed).None? <==> forall k :: k in keys ==> k in allowed
    ensures FirstOutside(keys, allowed).Some? ==>
      exists i :: 0 <= i < |keys| && keys[i] == FirstOutside(keys, allowed).value && forall j :: 0 <= j < i ==> keys[j] in allowed
  {
    if keys != [] && keys[0] in allowed {
      var r := FirstOutside(keys[1..], allowed);
      FirstOutsideFinds(keys[1..], allowed);
      assert forall k :: k in keys ==> k == keys[0] || k in keys[1..];
      if r.Some? {
        var i :| 0 <= i < |keys| - 1 && keys[1..][i] == r.value && forall j :: 0 <= j < i ==> keys[1..][j] in allowed;
        assert keys[i + 1] == r.value && forall j :: 0 <= j < i + 1 ==> keys[j] in allowed;
      }
    }
  }

  /** The first element that is not a string. */
  function FirstNonString(items: seq<Value>): (r: Option<Value>)
    ensures r.Some? ==> !r.value.Str?
  {
    if items == [] then None
    else if !items[0].Str? then Some(items[0])
    else FirstNonString(items[1..])
  }

  lemma {:induction false} FirstNonStringFinds(items: seq<Value>)
    ensures FirstNonString(items).None? <==> forall i :: 0 <= i < |items| ==> items[i].Str?
  {
    if items != [] && items[0].Str? {
      FirstNonStringFinds(items[1..]);
      assert forall i :: 1 <= i < |items| ==> items[i] == items[1..][i - 1];
    }
  }

  function OptionType(option: string, expected: string, v: Value): Failure
  {
    TypeError("createDataset: Option `" + option + "` can only be of type " + expected + " but found type `" + TypeOf(v) + "`.")
  }

  /** The checks after the key whitelist, in the order the source makes them. */
  function CheckOptions(def: Value): (r: Option<Failure>)
  {
    var partial := Prop(def, "partial");
    var fragments := Prop(def, "fragments");
    var uri := Prop(def, "uri");
    var paramId := Prop(def, "paramId");
    var actions := Prop(def, "actions");
    var only := Prop(def, "onlyActions");
    if Truthy(partial) && !partial.Str? then Some(OptionType("partial", "String", partial))
    else if Truthy(fragments) && !fragments.Arr? then Some(OptionType("fragments", "String", fragments))
    else if Truthy(fragments) && FirstNonString(fragments.items).Some? then
      Some(TypeError("createDataset: Option `fragments` contains a non-String value `" + TypeOf(FirstNonString(fragments.items).value) + "`."))
    else if Truthy(uri) && !uri.Str? then Some(OptionType("uri", "String", uri))
    else if Truthy(paramId) && !paramId.Str? then Some(OptionType("paramId", "String", paramId))
    else if Truthy(actions) && !actions.Obj? then Some(OptionType("actions", "Object", actions))
    else if Truthy(only) && !only.Obj? then Some(OptionType("onlyActions", "Object", only))
    else None
  }

  /** Whether a value has the `resolve` and `getResolvable` of a resolvable: instances do. */
  predicate LooksResolvable(v: Value)
  {
    v.Ref? || (IsFunction(Prop(v, "resolve")) && IsFunction(Prop(v, "getResolvable")))
  }

  /** `validateDefinition(definition)`: the definition itself, or the TypeError it throws. */
  function ValidateDefinition(def: Value): (r: Result<Value>)
    ensures r.Ok? ==> r.value == def
  {
    if def.Ref? then Ok(def)
    else if !def.Obj? then
      Err(TypeError("createDataset: You're attempting to pass an invalid definition of type `" + TypeOf(def) +
        "`. A valid definition type is either a Dataset, Store or regular object."))
    else
      match FirstOutside(Keys(def.fields), DefinitionKeys)
      case Some(k) => Err(TypeError("createDataset: Invalid definition option `" + k + "`."))
      case None =>
        if LooksResolvable(def) then Ok(def)
        else if CheckOptions(def).Some? then Err(CheckOptions(def).value)
        else Ok(def)
  }

  /** A string option: absent, falsy or a string. */
  predicate StringOption(def: Value, key: string)
  {
    !Truthy(Prop(def, key)) || Prop(def, key).Str?
  }

  /** An object option: absent, falsy or a plain object. */
  predicate ObjectOption(def: Value, key: string)
  {
    !Truthy(Prop(def, key)) || Prop(def, key).Obj?
  }

  /** What a definition must be for `createDataset` to accept it, stated option by option. */
  predicate Acceptable(def: Value)
  {
    def.Ref? ||
    (def.Obj? &&
     (forall k :: k in Keys(def.fields) ==> k in DefinitionKeys) &&
     StringOption(def, "partial") && StringOption(def, "uri") && StringOption(def, "paramId") &&
     (Truthy(Prop(def, "fragments")) ==>
        Prop(def, "fragments").Arr? && forall i :: 0 <= i < |Prop(def, "fragments").items| ==> Prop(def, "fragments").items[i].Str?) &&
     ObjectOption(def, "actions") && ObjectOption(def, "onlyActions"))
  }

  /** A plain definition that passes the whitelist never looks like a resolvable: that branch of the source is dead. */
  lemma WhitelistedNotResolvable(def: Value)
    requires def.Obj? && forall k :: k in Keys(def.fields) ==> k in DefinitionKeys
    ensures !LooksResolvable(def)
  {
    assert !HasKey(def.fields, "resolve");
  }

  /** The validator accepts exactly the acceptable definitions, and returns them unchanged. */
  lemma ValidateAccepts(def: Value)
    ensures ValidateDefinition(def).Ok? <==> Acceptable(def)
    ensures ValidateDefinition(def).Ok? ==> ValidateDefinition(def).value == def
  {
    if def.Obj? {
      FirstOutsideFinds(Keys(def.fields), DefinitionKeys);
      if Prop(def, "fragments").Arr? {
        FirstNonStringFinds(Prop(def, "fragments").items);
      }
      var f := FirstOutside(Keys(def.fields), DefinitionKeys);
      if f.None? {
        WhitelistedNotResolvable(def);
      } else {
        assert HasKey(def.fields, f.value);
      }
    }
  }

  /** A definition with a key outside the whitelist is rejected, naming the first such key. */
  lemma UnknownKeyRejected(def: Value, i: nat)
    requires def.Obj? && i < |def.fields| && def.fields[i].0 !in DefinitionKeys
    requires forall j :: 0 <= j < i ==> def.fields[j].0 in DefinitionKeys
    ensures ValidateDefinition(def) == Err(TypeError("createDataset: Invalid definition option `" + def.fields[i].0 + "`."))
  {
    var keys := Keys(def.fields);
    KeysAt(def.fields, i);
    forall j | 0 <= j < i
      ensures keys[j] in DefinitionKeys
    {
      KeysAt(def.fields, j);
    }
    FirstOutsideAt(keys, DefinitionKeys, i);
  }

  /** The first key outside the list is the one at the first index outside it. */
  lemma {:induction false} FirstOutsideAt(keys: seq<string>, allowed: seq<string>, i: nat)
    requires i < |keys| && keys[i] !in allowed
    requires forall j :: 0 <= j < i ==> keys[j] in allowed
    ensures FirstOutside(keys, allowed) == Some(keys[i])
    decreases i
  {
    if i > 0 {
      assert keys[0] in allowed;
      assert forall j :: 0 <= j < i - 1 ==> keys[1..][j] == keys[j + 1];
      FirstOutsideAt(keys[1..], allowed, i - 1);
    }
  }

  /* ----- createDataset ----- */

  /** The value `getResolvable` reports as `__definition`: members become the instances they are. */
  function DefinitionValue(def: Definition): Value
  {
    match def
    case Single(v) => v
    case Members(ms) => Arr(MemberValues(ms))
  }

  function MemberValues(ms: seq<Member>): (r: seq<Value>)
    ensures |r| == |ms|
  {
    if ms == [] then [] else MemberValues(ms[..|ms| - 1]) + [MemberValue(ms[|ms| - 1])]
  }

  function MemberValue(m: Member): Value
  {
    match m
    case Kept(v) => v
    case Wrapped(ds) => Ref(ds.addr)
  }

  /** `Dataset.getResolvable()`. */
  function Resolvable(ds: Dataset): Value
  {
    Obj([("__type", Str("dataset")), ("__definition", DefinitionValue(ds.definition)), ("__ref", Ref(ds.addr))])
  }

  /** One argument of a call with several: an instance is kept, a plain definition wrapped at address `next`. */
  function MemberOf(def: Value, next: nat): (Member, nat)
  {
    if LooksResolvable(def) then (Kept(def), next) else (Wrapped(Dataset(next, Single(def), Undefined)), next + 1)
  }

  /** The loop over several arguments: the members and the next free address, or the first error. */
  function MembersOf(defs: seq<Value>, next: nat): (r: Result<(seq<Member>, nat)>)
    ensures r.Ok? ==> |r.value.0| == |defs| && next <= r.value.1
    decreases |defs|
  {
    if defs == [] then Ok(([], next))
    else
      match MembersOf(defs[..|defs| - 1], next)
      case Err(e) => Err(e)
      case Ok(acc) =>
        match ValidateDefinition(defs[|defs| - 1])
        case Err(e) => Err(e)
        case Ok(def) =>
          var (m, n) := MemberOf(def, acc.1);
          Ok((acc.0 + [m], n))
  }

  /** `createDataset(...definitions)` with `next` the first free address: the dataset and the next free address. */
  function CreateDataset(defs: seq<Value>, next: nat): (r: Result<(Dataset, nat)>)
    ensures r.Ok? ==> next < r.value.1
  {
    if |defs| == 1 then
      match ValidateDefinition(defs[0])
      case Err(e) => Err(e)
      case Ok(def) => Ok((Dataset(next, Single(def), Undefined), next + 1))
    else
      match MembersOf(defs, next)
      case Err(e) => Err(e)
      case Ok(acc) => Ok((Dataset(acc.1, Members(acc.0), Undefined), acc.1 + 1))
  }

  lemma {:induction false} MembersErrSticky(defs: seq<Value>, n: nat, next: nat)
    requires n <= |defs| && MembersOf(defs[..n], next).Err?
    ensures MembersOf(defs, next) == MembersOf(defs[..n], next)
    decreases |defs| - n
  {
    if n < |defs| {
      assert defs[..n + 1][..n] == defs[..n];
      MembersErrSticky(defs, n + 1, next);
    } else {
      assert defs[..n] == defs;
    }
  }

  /** `createDataset`, with its loop over the arguments. */
  method CreateDatasetLoop(defs: seq<Value>, next: nat) returns (r: Result<(Dataset, nat)>)
    ensures r == CreateDataset(defs, next)
  {
    if |defs| == 1 {
      var v := ValidateDefinition(defs[0]);
      if v.Err? {
        return Err(v.failure);
      }
      return Ok((Dataset(next, Single(v.value), Undefined), next + 1));
    }
    var members := MembersLoop(defs, next);
    if members.Err? {
      return Err(members.failure);
    }
    var (result, free) := members.value;
    return Ok((Dataset(free, Members(result), Undefined), free + 1));
  }

  /** The loop of `createDataset` over several arguments. */
  method MembersLoop(defs: seq<Value>, next: nat) returns (r: Result<(seq<Member>, nat)>)
    ensures r == MembersOf(defs, next)
  {
    var result: seq<Member> := [];
    var free := next;
    var i := 0;
    while i < |defs|
      invariant 0 <= i <= |defs|
      invariant MembersOf(defs[..i], next) == Ok((result, free))
    {
      MembersStep(defs, i, next, (result, free));
      var v := ValidateDefinition(defs[i]);
      if v.Err? {
        MembersErrSticky(defs, i + 1, next);
        return Err(v.failure);
      }
      if LooksResolvable(v.value) {
        result := result + [Kept(v.value)];
      } else {
        result := result + [Wrapped(Dataset(free, Single(v.value), Undefined))];
        free := free + 1;
      }
      i := i + 1;
    }
    assert defs[..i] == defs;
    return Ok((result, free));
  }

  /** One more argument: its error, or its member appended and the free address moved past it. */
  lemma MembersStep(defs: seq<Value>, i: nat, next: nat, acc: (seq<Member>, nat))
    requires i < |defs| && MembersOf(defs[..i], next) == Ok(acc)
    ensures ValidateDefinition(defs[i]).Err? ==> MembersOf(defs[..i + 1], next) == Err(ValidateDefinition(defs[i]).failure)
    ensures ValidateDefinition(defs[i]).Ok? ==>
      var m := MemberOf(defs[i], acc.1);
      MembersOf(defs[..i + 1], next) == Ok((acc.0 + [m.0], m.1))
  {
    var q := defs[..i + 1];
    assert q[..i] == defs[..i] && q[i] == defs[i];
  }

  /** With one argument the dataset's definition is the validated argument itself. */
  lemma SingleArgument(def: Value, next: nat)
    requires Acceptable(def)
    ensures CreateDataset([def], next) == Ok((Dataset(next, Single(def), Undefined), next + 1))
  {
    ValidateAccepts(def);
  }

  /** With one argument that is not acceptable, `createDataset` throws the validator's error. */
  lemma SingleArgumentRejected(def: Value, next: nat)
    requires !Acceptable(def)
    ensures ValidateDefinition(def).Err? && CreateDataset([def], next) == Err(ValidateDefinition(def).failure)
  {
    ValidateAccepts(def);
  }

  /** An argument and the member made of it, with wrapped addresses in `[lo, hi)`. */
  predicate MemberWraps(def: Value, m: Member, lo: nat, hi: nat)
  {
    (def.Ref? ==> m == Kept(def)) &&
    (!def.Ref? ==> m.Wrapped? && m.dataset.definition == Single(def) && lo <= m.dataset.addr < hi)
  }

  predicate Wraps(defs: seq<Value>, ms: seq<Member>, lo: nat, hi: nat)
  {
    |ms| == |defs| && lo <= hi && forall i :: 0 <= i < |defs| ==> MemberWraps(defs[i], ms[i], lo, hi)
  }

  /**
   * With several acceptable arguments there is one member per argument, in
   * order: an instance is kept and a plain definition is wrapped in a dataset
   * of its own, at an address between `next` and the returned next free one.
   */
  lemma {:induction false} MembersWrap(defs: seq<Value>, next: nat)
    requires forall i :: 0 <= i < |defs| ==> Acceptable(defs[i])
    ensures MembersOf(defs, next).Ok?
    ensures Wraps(defs, MembersOf(defs, next).value.0, next, MembersOf(defs, next).value.1)
    decreases |defs|
  {
    if defs != [] {
      var p := defs[..|defs| - 1];
      var last := defs[|defs| - 1];
      assert forall i :: 0 <= i < |p| ==> p[i] == defs[i];
      MembersWrap(p, next);
      var acc := MembersOf(p, next).value;
      ValidateAccepts(last);
      if last.Obj? {
        WhitelistedNotResolvable(last);
      }
      var mn := MemberOf(last, acc.1);
      assert MembersOf(defs, next) == Ok((acc.0 + [mn.0], mn.1));
      assert MemberWraps(last, mn.0, next, mn.1);
      forall i | 0 <= i < |defs|
        ensures MemberWraps(defs[i], (acc.0 + [mn.0])[i], next, mn.1)
      {
        if i < |p| {
          assert MemberWraps(p[i], acc.0[i], next, acc.1);
        }
      }
    }
  }

  lemma {:induction false} MembersOk(defs: seq<Value>, next: nat)
    requires forall i :: 0 <= i < |defs| ==> ValidateDefinition(defs[i]).Ok?
    ensures MembersOf(defs, next).Ok?
    decreases |defs|
  {
    if defs != [] {
      var p := defs[..|defs| - 1];
      assert forall i :: 0 <= i < |p| ==> p[i] == defs[i];
      MembersOk(p, next);
    }
  }

  /** The loop over the arguments up to the first one the validator rejects ends with that one's error. */
  lemma MembersFailLast(defs: seq<Value>, next: nat)
    requires defs != [] && ValidateDefinition(defs[|defs| - 1]).Err?
    requires forall i :: 0 <= i < |defs| - 1 ==> ValidateDefinition(defs[i]).Ok?
    ensures MembersOf(defs, next) == Err(ValidateDefinition(defs[|defs| - 1]).failure)
  {
    var p := defs[..|defs| - 1];
    assert forall i :: 0 <= i < |p| ==> p[i] == defs[i];
    MembersOk(p, next);
  }

  /** The loop stops at the first argument the validator rejects, with its error. */
  lemma {:induction false} MembersFailAt(defs: seq<Value>, k: nat, next: nat)
    requires k < |defs| && ValidateDefinition(defs[k]).Err?
    requires forall i :: 0 <= i < k ==> ValidateDefinition(defs[i]).Ok?
    ensures MembersOf(defs, next) == Err(ValidateDefinition(defs[k]).failure)
    decreases |defs|
  {
    if k == |defs| - 1 {
      MembersFailLast(defs, next);
    } else {
      var p := defs[..|defs| - 1];
      assert p[k] == defs[k];
      assert forall i :: 0 <= i < k ==> p[i] == defs[i];
      MembersFailAt(p, k, next);
    }
  }

  /** With several arguments the first unacceptable one decides the error. */
  lemma FirstInvalidArgument(defs: seq<Value>, k: nat, next: nat)
    requires k < |defs| && |defs| != 1 && !Acceptable(defs[k])
    requires forall i :: 0 <= i < k ==> Acceptable(defs[i])
    ensures ValidateDefinition(defs[k]).Err? && CreateDataset(defs, next).Err?
    ensures CreateDataset(defs, next).failure == ValidateDefinition(defs[k]).failure
  {
    forall i | 0 <= i <= k
      ensures ValidateDefinition(defs[i]).Ok? <==> Acceptable(defs[i])
    {
      ValidateAccepts(defs[i]);
    }
    MembersFailAt(defs, k, next);
  }

  /** Unlike a store definition, a dataset definition rejects an `onlyActions` array. */
  lemma OnlyActionsArrayRejected()
    ensures ValidateDefinition(Obj([("onlyActions", Arr([]))])).Err?
  {
    assert Keys([("onlyActions", Arr([]))]) == ["onlyActions"];
    assert FirstOutside(["onlyActions"], DefinitionKeys) == None;
  }
}

=== FILE: fragment_map.dfy ===
/**
 * The per-type cache of `lib/FragmentMap.js`.
 *
 * A cache holds `fragments`, a map from a fragment name to the entities
 * cached under it (id key to slot), and `queries`, a plain object from a
 * path to the entry fetched for it. A slot or query entry is a plain object
 * `{status, timestamp, data, ...}`; deleting one writes `undefined` in its
 * place (a tombstone: the key stays, the value is gone).
 */
module FragmentMap {
  import opened Values
  import opened Constants
  import Utils

  /** The fields of a resource descriptor the cache reads. */
  datatype CacheDescriptor = CacheDescriptor(id: Value, path: Value, partial: Value, fragments: Value)

  /** What `fetch` returns: `data` is `None` when the result object has no `data` key at all. */
  datatype FetchResult = FetchResult(status: Value, timestamp: Value, data: Option<Value>)

  type Cache = map<string, Value>
  type Fragments = map<string, Cache>

  /** The whole state of one cache, as the specification functions see it. */
  datatype CacheState = CacheState(fragments: Fragments, queries: Fields)

  /** A slot or a query entry: a plain object, or the `undefined` a delete leaves. */
  predicate WellFormedEntry(v: Value)
  {
    v.Undefined? || v.Obj?
  }

  predicate CacheWellFormed(c: Cache)
  {
    forall k :: k in c ==> WellFormedEntry(c[k])
  }

  predicate WellFormed(st: CacheState)
  {
    (forall n :: n in st.fragments ==> CacheWellFormed(st.fragments[n])) &&
    (forall q :: q in st.queries ==> WellFormedEntry(q.1)) &&
    UniqueKeys(st.queries)
  }

  /** The result of every lookup that finds nothing. */
  const Miss := FetchResult(Str(STATUS_STALE), Num(TIMESTAMP_STALE), None)

  /** `descriptor.partial || "full"`. */
  function FragmentName(partial: Value): (r: Value)
    ensures Truthy(r)
  {
    if Truthy(partial) then partial else Str(DEFAULT_FRAGMENT)
  }

  /** The key of the descriptor's own fragment. */
  function PrimaryKey(d: CacheDescriptor): string
  {
    ToKey(FragmentName(d.partial))
  }

  /** `[].concat(descriptor.fragments, "full")`: an array is spread, anything else is one element. */
  function Fallbacks(fragments: Value): (r: seq<Value>)
    ensures |r| > 0 && r[|r| - 1] == Str(DEFAULT_FRAGMENT)
  {
    if fragments.Arr? then fragments.items + [Str(DEFAULT_FRAGMENT)] else [fragments, Str(DEFAULT_FRAGMENT)]
  }

  /** `cache[key]`: `undefined` when the key was never written. */
  function Slot(cache: Cache, key: string): Value
  {
    if key in cache then cache[key] else Undefined
  }

  /** A fragment not created yet reads as empty. */
  function CacheOf(frags: Fragments, name: string): Cache
  {
    if name in frags then frags[name] else map[]
  }

  /** `this.fragments[name][key]`. */
  function Lookup(frags: Fragments, name: string, key: string): Value
  {
    Slot(CacheOf(frags, name), key)
  }

  /** The effect of `_getFragment(name)`: the fragment is created empty when missing. */
  function WithFragment(frags: Fragments, name: string): (r: Fragments)
    ensures name in r
  {
    if name in frags then frags else frags[name := map[]]
  }

  /** `after` is `before` with some empty fragments added and nothing else changed. */
  predicate OnlyAddsEmpty(before: Fragments, after: Fragments)
  {
    (forall n :: n in before ==> n in after && after[n] == before[n]) &&
    (forall n :: n in after && n !in before ==> after[n] == map[])
  }

  lemma LookupStable(before: Fragments, after: Fragments, name: string, key: string)
    requires OnlyAddsEmpty(before, after)
    ensures Lookup(after, name, key) == Lookup(before, name, key)
  {
  }

  /* ----- fetch ----- */

  predicate HasData(r: FetchResult)
  {
    r.data.Some? && Truthy(r.data.value)
  }

  /** `result.data || {}` as the fields merged into. */
  function BaseFields(data: Option<Value>): Fields
  {
    if data.Some? && Truthy(data.value) then FieldsOf(data.value) else []
  }

  /** Whether a cached entry contributes to a composed result: it exists and has data. */
  predicate Contributes(entry: Value)
  {
    Truthy(entry) && Truthy(Prop(entry, "data"))
  }

  /** One iteration of the fallback loop: a contributing entry's data is merged in and the status becomes partial. */
  function ComposeStep(acc: FetchResult, entry: Value): FetchResult
  {
    if Contributes(entry) then
      FetchResult(Str(STATUS_PARTIAL), acc.timestamp,
        Some(Obj(Extend(BaseFields(acc.data), Utils.OwnEntries(Prop(entry, "data")).value))))
    else acc
  }

  /** The fallback loop over the given fragment names. */
  function Compose(frags: Fragments, names: seq<Value>, key: string, acc: FetchResult): FetchResult
    decreases |names|
  {
    if names == [] then acc
    else ComposeStep(Compose(frags, names[..|names| - 1], key, acc), Lookup(frags, ToKey(names[|names| - 1]), key))
  }

  /** The data of the entries that contribute, in fallback order. */
  function Contributions(frags: Fragments, names: seq<Value>, key: string): seq<Value>
    decreases |names|
  {
    if names == [] then []
    else
      var entry := Lookup(frags, ToKey(names[|names| - 1]), key);
      Contributions(frags, names[..|names| - 1], key) + (if Contributes(entry) then [Prop(entry, "data")] else [])
  }

  /** `fetch` of a descriptor with an id, whose key is `key`. */
  function FetchById(frags: Fragments, d: CacheDescriptor, key: string): FetchResult
  {
    var base := Direct(frags, d, key);
    if HasData(base) then base else Compose(frags, Fallbacks(d.fragments), key, base)
  }

  /** What the descriptor's own slot yields before any fallback is consulted. */
  function Direct(frags: Fragments, d: CacheDescriptor, key: string): FetchResult
  {
    var slot := Lookup(frags, PrimaryKey(d), key);
    if Truthy(slot) then FetchResult(Prop(slot, "status"), Prop(slot, "timestamp"), Some(Prop(slot, "data"))) else Miss
  }

  /** `_getFragment` of each name in turn. */
  function AddFragments(frags: Fragments, names: seq<Value>): (r: Fragments)
    ensures OnlyAddsEmpty(frags, r)
    decreases |names|
  {
    if names == [] then frags
    else WithFragment(AddFragments(frags, names[..|names| - 1]), ToKey(names[|names| - 1]))
  }

  /** The fragments after `fetch(descriptor)`: its own is created, and the fallbacks when they are consulted. */
  function FetchFragments(st: CacheState, d: CacheDescriptor): Fragments
  {
    var frags := WithFragment(st.fragments, PrimaryKey(d));
    if Truthy(d.id) && !HasData(Direct(frags, d, ToKey(d.id))) then AddFragments(frags, Fallbacks(d.fragments))
    else frags
  }

  function MissingEntry(prefix: string, id: Value): Failure
  {
    TypeError("FragmentMap:fetch Unexpected error, failure to find " + prefix + "entry for `" + ToKey(id) + "`.")
  }

  /** The `_.map` over a collection query: each id's entry data, or the error for the first id with no entry. */
  function DerefAll(cache: Cache, ids: seq<Value>): (r: Result<seq<Value>>)
    ensures r.Err? ==> r.failure.TypeError?
    decreases |ids|
  {
    if ids == [] then Ok([])
    else
      match DerefAll(cache, ids[..|ids| - 1])
      case Err(e) => Err(e)
      case Ok(ds) =>
        var entry := Slot(cache, ToKey(ids[|ids| - 1]));
        if Truthy(entry) then Ok(ds + [Prop(entry, "data")])
        else Err(MissingEntry("collection ", ids[|ids| - 1]))
  }

  /** `fetch` of a descriptor with no id and a truthy path, whose key is `pathKey`. */
  function FetchByPath(cache: Cache, queries: Fields, pathKey: string): Result<FetchResult>
  {
    var resource := Get(queries, pathKey);
    var head := if Truthy(resource) then FetchResult(Prop(resource, "status"), Prop(resource, "timestamp"), None) else Miss;
    var data := Prop(resource, "data");
    if !Truthy(resource) || !Truthy(data) then Ok(head)
    else if data.Arr? then
      match DerefAll(cache, data.items)
      case Err(e) => Err(e)
      case Ok(ds) => Ok(head.(data := Some(Arr(ds))))
    else if TypeOf(data) != "object" then
      var entry := Slot(cache, ToKey(data));
      if Truthy(entry) then Ok(head.(data := Some(Prop(entry, "data"))))
      else Err(MissingEntry("", data))
    else Ok(head.(data := Some(data)))
  }

  /** What `fetch(descriptor)` returns, or the exception it throws. */
  function FetchSpec(st: CacheState, d: CacheDescriptor): Result<FetchResult>
  {
    if Truthy(d.id) then Ok(FetchById(st.fragments, d, ToKey(d.id)))
    else if Truthy(d.path) then FetchByPath(CacheOf(st.fragments, PrimaryKey(d)), st.queries, ToKey(d.path))
    else Ok(Miss)
  }

  /** The keys of a list of fragment names. */
  function NameKeys(names: seq<Value>): set<string>
  {
    set v | v in names :: ToKey(v)
  }

  /** The fragments `fetch` may create: its own, and with an id every fallback. */
  function FetchConsults(d: CacheDescriptor): set<string>
  {
    {PrimaryKey(d)} + (if Truthy(d.id) then NameKeys(Fallbacks(d.fragments)) else {})
  }

  /* ----- touch ----- */

  /** The fields `extend` copies out of a truthy value. */
  function EntriesOf(v: Value): Fields
    requires Truthy(v)
  {
    Utils.OwnEntries(v).value
  }

  /** `touch(descriptor, metadata)`: the state afterwards. */
  function TouchSpec(st: CacheState, d: CacheDescriptor, touch: Value): CacheState
  {
    var name := PrimaryKey(d);
    var frags := WithFragment(st.fragments, name);
    if !Truthy(touch) then CacheState(frags, st.queries)
    else if Truthy(d.id) then
      var key := ToKey(d.id);
      var slot := Lookup(frags, name, key);
      CacheState(frags[name := frags[name][key := Obj(Extend(FieldsOf(slot), EntriesOf(touch)))]], st.queries)
    else if Truthy(d.path) then
      var key := ToKey(d.path);
      CacheState(frags, Set(st.queries, key, Obj(Extend(FieldsOf(Get(st.queries, key)), EntriesOf(touch)))))
    else CacheState(frags, st.queries)
  }

  /* ----- update ----- */

  /** `{status, timestamp: Date.now()}`. */
  function Meta(status: Value, now: int): Fields
  {
    [("status", status), ("timestamp", Num(now))]
  }

  /** The entry an update writes for one entity. */
  function EntityEntry(status: Value, now: int, data: Value): Value
  {
    Obj(Meta(status, now) + [("data", data)])
  }

  /** The `_.map` over a collection: each plain object stored under its id, in order, until a non-object. */
  function StoreItems(cache: Cache, items: seq<Value>, status: Value, now: int): (r: (Cache, Result<seq<Value>>))
    ensures r.1.Err? ==> r.1.failure.TypeError?
    decreases |items|
  {
    if items == [] then (cache, Ok([]))
    else
      var (c, ids) := StoreItems(cache, items[..|items| - 1], status, now);
      var item := items[|items| - 1];
      if ids.Err? then (c, ids)
      else if !IsPlainObject(item) then (c, Err(TypeError("expected object, found " + ToKey(item) + " instead")))
      else (c[ToKey(Prop(item, "id")) := EntityEntry(status, now, item)], Ok(ids.value + [Prop(item, "id")]))
  }

  /** The entry an update writes for a query. */
  function QueryEntry(status: Value, now: int, qdata: Value, fragment: Value): Value
  {
    Obj(Meta(status, now) + [("data", qdata), ("partial", fragment)])
  }

  /** The query write at the end of an update without an id, and the returned result. */
  function WriteQuery(st: CacheState, path: Value, status: Value, now: int, qdata: Value, fragment: Value): (CacheState, Result<Value>)
  {
    var entry := QueryEntry(status, now, qdata, fragment);
    if Truthy(path) then (st.(queries := Set(st.queries, ToKey(path), entry)), Ok(entry))
    else (st, Ok(Obj(Meta(status, now))))
  }

  /** `update(descriptor, data, status)` at time `now`: the state afterwards and the result, or the exception. */
  function UpdateSpec(st: CacheState, d: CacheDescriptor, data: Value, status: Value, now: int): (CacheState, Result<Value>)
  {
    var fragment := FragmentName(d.partial);
    var name := ToKey(fragment);
    var frags := WithFragment(st.fragments, name);
    if Truthy(d.id) then
      (CacheState(frags[name := frags[name][ToKey(d.id) := EntityEntry(status, now, data)]], st.queries),
       Ok(EntityEntry(status, now, data)))
    else if data.Arr? then
      var (c, ids) := StoreItems(frags[name], data.items, status, now);
      if ids.Err? then (CacheState(frags[name := c], st.queries), Err(ids.failure))
      else WriteQuery(CacheState(frags[name := c], st.queries), d.path, status, now, Arr(ids.value), fragment)
    else if data.Undefined? || data.Null? then
      (CacheState(frags, st.queries), Err(TypeError("Cannot read property 'id' of " + ToKey(data))))
    else if Truthy(Prop(data, "id")) then
      var id := Prop(data, "id");
      WriteQuery(CacheState(frags[name := frags[name][ToKey(id) := EntityEntry(status, now, data)]], st.queries),
        d.path, status, now, id, fragment)
    else WriteQuery(CacheState(frags, st.queries), d.path, status, now, data, fragment)
  }

  /* ----- delete ----- */

  /** `array.indexOf(v)`: the first strictly equal position, or -1. */
  function IndexOf(items: seq<Value>, v: Value): (r: int)
    ensures -1 <= r < |items|
    ensures r == -1 <==> forall i :: 0 <= i < |items| ==> !StrictEquals(items[i], v)
    ensures r >= 0 ==> StrictEquals(items[r], v) && forall i :: 0 <= i < r ==> !StrictEquals(items[i], v)
  {
    if items == [] then -1
    else if StrictEquals(items[0], v) then 0
    else var j := IndexOf(items[1..], v); if j == -1 then -1 else j + 1
  }

  /** The query entry with the first occurrence of `id` spliced out of its array data. */
  function StripId(resource: Value, id: Value): Value
  {
    var data := Prop(resource, "data");
    if data.Arr? && IndexOf(data.items, id) != -1 then
      var i := IndexOf(data.items, id);
      Obj(Set(resource.fields, "data", Arr(data.items[..i] + data.items[i + 1..])))
    else resource
  }

  function StripAll(queries: Fields, id: Value): (r: Fields)
    ensures |r| == |queries|
    ensures forall i :: 0 <= i < |queries| ==> r[i] == (queries[i].0, StripId(queries[i].1, id))
  {
    seq(|queries|, i requires 0 <= i < |queries| => (queries[i].0, StripId(queries[i].1, id)))
  }

  /** Reading `.data` of this entry throws. */
  predicate Throws(v: Value)
  {
    v.Undefined? || v.Null?
  }

  /** The position of the first query entry the strip loop cannot read, if any. */
  function FirstTombstone(queries: Fields): (r: Option<nat>)
    ensures r.None? <==> forall i :: 0 <= i < |queries| ==> !Throws(queries[i].1)
    ensures r.Some? ==> (r.value < |queries| && Throws(queries[r.value].1) &&
      forall i :: 0 <= i < r.value ==> !Throws(queries[i].1))
  {
    if queries == [] then None
    else if Throws(queries[0].1) then Some(0)
    else match FirstTombstone(queries[1..])
      case None => None
      case Some(j) => Some(j + 1)
  }

  const DataOfUndefined := TypeError("Cannot read property 'data' of undefined")

  /**
   * The `_.each` over the queries after a delete by id: every entry up to the
   * first tombstone has the id stripped; reading the tombstone throws.
   */
  function StripQueries(queries: Fields, id: Value): (Fields, Option<Failure>)
  {
    match FirstTombstone(queries)
    case None => (StripAll(queries, id), None)
    case Some(t) => (StripAll(queries[..t], id) + queries[t..], Some(DataOfUndefined))
  }

  /** `delete(descriptor)`: the state afterwards, and the exception if one is thrown. */
  function DeleteSpec(st: CacheState, d: CacheDescriptor): (CacheState, Option<Failure>)
  {
    var name := PrimaryKey(d);
    var frags := WithFragment(st.fragments, name);
    if Truthy(d.id) then
      var key := ToKey(d.id);
      if !Truthy(Lookup(frags, name, key)) then (CacheState(frags, st.queries), None)
      else
        var (queries', err) := StripQueries(st.queries, d.id);
        (CacheState(frags[name := frags[name][key := Undefined]], queries'), err)
    else if Truthy(d.path) && Truthy(Get(st.queries, ToKey(d.path))) then
      (CacheState(frags, Set(st.queries, ToKey(d.path), Undefined)), None)
    else (CacheState(frags, st.queries), None)
  }

  /* ----- the loops of the cache, over values ----- */

  /** The path branch of `fetch`. */
  method FetchQuery(cache: Cache, queries: Fields, pathKey: string) returns (r: Result<FetchResult>)
    ensures r == FetchByPath(cache, queries, pathKey)
  {
    var resource := Get(queries, pathKey);
    var result := Miss;
    if Truthy(resource) {
      result := FetchResult(Prop(resource, "status"), Prop(resource, "timestamp"), None);
    }
    var data := Prop(resource, "data");
    if !Truthy(resource) || !Truthy(data) {
      return Ok(result);
    }
    if data.Arr? {
      var ds := DerefEach(cache, data.items);
      if ds.Err? {
        return Err(ds.failure);
      }
      return Ok(result.(data := Some(Arr(ds.value))));
    } else if TypeOf(data) != "object" {
      var entry := Slot(cache, ToKey(data));
      if !Truthy(entry) {
        return Err(MissingEntry("", data));
      }
      return Ok(result.(data := Some(Prop(entry, "data"))));
    }
    return Ok(result.(data := Some(data)));
  }

  /** The `_.map` over a collection query: each id's entry data, failing at the first id with no live entry. */
  method DerefEach(cache: Cache, ids: seq<Value>) returns (r: Result<seq<Value>>)
    ensures r == DerefAll(cache, ids)
  {
    var entries: seq<Value> := [];
    var i := 0;
    while i < |ids|
      invariant 0 <= i <= |ids|
      invariant DerefAll(cache, ids[..i]) == Ok(entries)
    {
      var id := ids[i];
      var entry := Slot(cache, ToKey(id));
      assert ids[..i + 1][..i] == ids[..i];
      if !Truthy(entry) {
        DerefErrSticky(cache, ids, i + 1);
        return Err(MissingEntry("collection ", id));
      }
      entries := entries + [Prop(entry, "data")];
      i := i + 1;
    }
    assert ids[..i] == ids;
    return Ok(entries);
  }

  lemma {:induction false} DerefErrSticky(cache: Cache, ids: seq<Value>, n: nat)
    requires n <= |ids| && DerefAll(cache, ids[..n]).Err?
    ensures DerefAll(cache, ids) == DerefAll(cache, ids[..n])
    decreases |ids| - n
  {
    if n < |ids| {
      assert ids[..n + 1][..n] == ids[..n];
      DerefErrSticky(cache, ids, n + 1);
    } else {
      assert ids[..n] == ids;
    }
  }

  /**
   * The fallback loop of `fetch` by id, with the fragments `_getFragment`
   * creates on the way: every consulted fragment exists afterwards, and
   * nothing else changes.
   */
  method ComposeFallbacks(frags: Fragments, names: seq<Value>, key: string, base: FetchResult)
    returns (res: FetchResult, after: Fragments)
    ensures res == Compose(frags, names, key, base)
    ensures after == AddFragments(frags, names)
    ensures OnlyAddsEmpty(frags, after)
    ensures forall v :: v in names ==> ToKey(v) in after
    ensures forall n :: n in after && n !in frags ==> n in NameKeys(names)
  {
    res := base;
    after := frags;
    var i := 0;
    while i < |names|
      invariant 0 <= i <= |names|
      invariant after == AddFragments(frags, names[..i])
      invariant res == Compose(frags, names[..i], key, base)
    {
      var name := ToKey(names[i]);
      assert names[..i + 1][..i] == names[..i];
      after := WithFragment(after, name);
      var entry := Slot(after[name], key);
      assert entry == Lookup(frags, name, key) by {
        LookupStable(frags, after, name, key);
      }
      if Truthy(entry) && Truthy(Prop(entry, "data")) {
        res := FetchResult(Str(STATUS_PARTIAL), res.timestamp,
          Some(Obj(Extend(BaseFields(res.data), EntriesOf(Prop(entry, "data"))))));
      }
      i := i + 1;
    }
    assert names[..i] == names;
    AddFragmentsCovers(frags, names);
  }

  /** `_getFragment` over a list creates exactly the listed fragments that were missing. */
  lemma {:induction false} AddFragmentsCovers(frags: Fragments, names: seq<Value>)
    ensures forall v :: v in names ==> ToKey(v) in AddFragments(frags, names)
    ensures forall n :: n in AddFragments(frags, names) && n !in frags ==> n in NameKeys(names)
    decreases |names|
  {
    if names != [] {
      var p := names[..|names| - 1];
      AddFragmentsCovers(frags, p);
      assert names == p + [names[|names| - 1]];
      assert NameKeys(names) == NameKeys(p) + {ToKey(names[|names| - 1])};
    }
  }

  /** The `_.map` of `update` over a collection: each plain object stored under its id. */
  method StoreEach(cache: Cache, items: seq<Value>, status: Value, now: int) returns (c: Cache, ids: Result<seq<Value>>)
    ensures (c, ids) == StoreItems(cache, items, status, now)
  {
    c := cache;
    var collected: seq<Value> := [];
    var i := 0;
    while i < |items|
      invariant 0 <= i <= |items|
      invariant StoreItems(cache, items[..i], status, now) == (c, Ok(collected))
    {
      var item := items[i];
      assert items[..i + 1][..i] == items[..i];
      if !IsPlainObject(item) {
        StoreItemsErrSticky(cache, items, status, now, i + 1);
        return c, Err(TypeError("expected object, found " + ToKey(item) + " instead"));
      }
      c := c[ToKey(Prop(item, "id")) := EntityEntry(status, now, item)];
      collected := collected + [Prop(item, "id")];
      i := i + 1;
    }
    assert items[..i] == items;
    return c, Ok(collected);
  }

  lemma {:induction false} StoreItemsErrSticky(cache: Cache, items: seq<Value>, status: Value, now: int, n: nat)
    requires n <= |items| && StoreItems(cache, items[..n], status, now).1.Err?
    ensures StoreItems(cache, items, status, now) == StoreItems(cache, items[..n], status, now)
    decreases |items| - n
  {
    if n < |items| {
      assert items[..n + 1][..n] == items[..n];
      StoreItemsErrSticky(cache, items, status, now, n + 1);
    } else {
      assert items[..n] == items;
    }
  }

  /** The `_.each` of `delete` over the queries, splicing the id out of each collection. */
  method StripEach(queries: Fields, id: Value) returns (q: Fields, err: Option<Failure>)
    ensures (q, err) == StripQueries(queries, id)
  {
    q := queries;
    var i := 0;
    while i < |q|
      invariant |q| == |queries| && 0 <= i <= |queries|
      invariant forall j :: 0 <= j < i ==> q[j] == (queries[j].0, StripId(queries[j].1, id))
      invariant forall j :: i <= j < |q| ==> q[j] == queries[j]
      invariant forall j :: 0 <= j < i ==> !Throws(queries[j].1)
    {
      var resource := q[i].1;
      if Throws(resource) {
        assert FirstTombstone(queries) == Some(i);
        StripPrefix(queries, q, id, i);
        return q, Some(DataOfUndefined);
      }
      var data := Prop(resource, "data");
      if data.Arr? {
        var idx := IndexOf(data.items, id);
        if idx != -1 {
          q := q[i := (q[i].0, Obj(Set(resource.fields, "data", Arr(data.items[..idx] + data.items[idx + 1..]))))];
        }
      }
      i := i + 1;
    }
    StripPrefix(queries, q, id, i);
    assert queries[..i] == queries && queries[i..] == [];
    assert q == StripAll(queries, id);
    assert FirstTombstone(queries) == None;
    assert StripQueries(queries, id) == (StripAll(queries, id), None);
    return q, None;
  }

  lemma StripPrefix(queries: Fields, q: Fields, id: Value, i: nat)
    requires |q| == |queries| && i <= |queries|
    requires forall j :: 0 <= j < i ==> q[j] == (queries[j].0, StripId(queries[j].1, id))
    requires forall j :: i <= j < |q| ==> q[j] == queries[j]
    ensures q == StripAll(queries[..i], id) + queries[i..]
  {
    var s := StripAll(queries[..i], id) + queries[i..];
    assert |s| == |q|;
    forall j | 0 <= j < |q| ensures q[j] == s[j] {
      if j < i {
        assert s[j] == StripAll(queries[..i], id)[j];
      }
    }
  }

  lemma {:induction false} ComposeStable(before: Fragments, after: Fragments, names: seq<Value>, key: string, acc: FetchResult)
    requires OnlyAddsEmpty(before, after)
    ensures Compose(after, names, key, acc) == Compose(before, names, key, acc)
    decreases |names|
  {
    if names != [] {
      ComposeStable(before, after, names[..|names| - 1], key, acc);
      LookupStable(before, after, ToKey(names[|names| - 1]), key);
    }
  }

  lemma OnlyAddsEmptyWellFormed(before: Fragments, after: Fragments)
    requires OnlyAddsEmpty(before, after)
    requires forall n :: n in before ==> CacheWellFormed(before[n])
    ensures forall n :: n in after ==> CacheWellFormed(after[n])
  {
  }

  /* ----- well-formedness is kept ----- */

  lemma SetWellFormed(queries: Fields, k: string, v: Value)
    requires (forall q :: q in queries ==> WellFormedEntry(q.1)) && UniqueKeys(queries) && WellFormedEntry(v)
    ensures (forall q :: q in Set(queries, k, v) ==> WellFormedEntry(q.1)) && UniqueKeys(Set(queries, k, v))
  {
    SetMembers(queries, k, v);
    SetKeepsUnique(queries, k, v);
  }

  lemma SlotWellFormed(frags: Fragments, name: string, key: string, v: Value)
    requires (forall n :: n in frags ==> CacheWellFormed(frags[n])) && name in frags && WellFormedEntry(v)
    ensures var after := frags[name := frags[name][key := v]];
      forall n :: n in after ==> CacheWellFormed(after[n])
  {
  }

  lemma {:induction false} StoreItemsWellFormed(cache: Cache, items: seq<Value>, status: Value, now: int)
    requires CacheWellFormed(cache)
    ensures CacheWellFormed(StoreItems(cache, items, status, now).0)
    decreases |items|
  {
    if items != [] {
      StoreItemsWellFormed(cache, items[..|items| - 1], status, now);
    }
  }

  lemma StripQueriesWellFormed(queries: Fields, id: Value)
    requires (forall q :: q in queries ==> WellFormedEntry(q.1)) && UniqueKeys(queries)
    ensures var q' := StripQueries(queries, id).0;
      (forall q :: q in q' ==> WellFormedEntry(q.1)) && UniqueKeys(q') && Keys(q') == Keys(queries)
  {
    var q' := StripQueries(queries, id).0;
    assert |q'| == |queries|;
    forall i | 0 <= i < |q'| ensures q'[i].0 == queries[i].0 && WellFormedEntry(q'[i].1) {
      assert queries[i] in queries;
    }
    forall i | 0 <= i < |q'| ensures Keys(q')[i] == Keys(queries)[i] {
      KeysAt(q', i);
      KeysAt(queries, i);
    }
  }

  /* ----- the cache object ----- */

  class FragmentMap {
    var fragments: Fragments
    var queries: Fields

    ghost function State(): CacheState
      reads this
    {
      CacheState(fragments, queries)
    }

    ghost predicate Valid()
      reads this
    {
      WellFormed(State())
    }

    /** `initialize`: an empty cache. */
    constructor ()
      ensures Valid() && fragments == map[] && queries == []
    {
      fragments := map[];
      queries := [];
    }

    /** `_getFragment(name)`: the named fragment, created empty when missing. */
    method GetFragment(name: string) returns (cache: Cache)
      requires Valid()
      modifies this
      ensures Valid()
      ensures fragments == WithFragment(old(fragments), name) && queries == old(queries)
      ensures cache == fragments[name]
    {
      if name !in fragments {
        fragments := fragments[name := map[]];
      }
      cache := fragments[name];
    }

    /**
     * `fetch(descriptor)`: never changes a slot or a query entry; the only
     * change is the empty fragments `_getFragment` creates on the way.
     */
    method Fetch(d: CacheDescriptor) returns (r: Result<FetchResult>)
      requires Valid()
      modifies this
      ensures Valid()
      ensures r == FetchSpec(old(State()), d)
      ensures fragments == FetchFragments(old(State()), d)
      ensures queries == old(queries)
      ensures OnlyAddsEmpty(old(fragments), fragments)
      ensures forall n :: n in fragments && n !in old(fragments) ==> n in FetchConsults(d)
    {
      var name := PrimaryKey(d);
      var cache := GetFragment(name);
      if Truthy(d.id) {
        var key := ToKey(d.id);
        var resource := Slot(cache, key);
        var result := Miss;
        if Truthy(resource) {
          result := FetchResult(Prop(resource, "status"), Prop(resource, "timestamp"), Some(Prop(resource, "data")));
        }
        if !HasData(result) {
          var after;
          ComposeStable(old(fragments), fragments, Fallbacks(d.fragments), key, result);
          result, after := ComposeFallbacks(fragments, Fallbacks(d.fragments), key, result);
          OnlyAddsEmptyWellFormed(fragments, after);
          fragments := after;
        }
        return Ok(result);
      } else if Truthy(d.path) {
        r := FetchQuery(cache, queries, ToKey(d.path));
      } else {
        r := Ok(Miss);
      }
    }

    /** `touch(descriptor, metadata)`: merges the metadata into the slot or the query entry. */
    method Touch(d: CacheDescriptor, touch: Value)
      requires Valid()
      modifies this
      ensures Valid()
      ensures State() == TouchSpec(old(State()), d, touch)
    {
      var name := PrimaryKey(d);
      var cache := GetFragment(name);
      if !Truthy(touch) {
        return;
      }
      if Truthy(d.id) {
        var key := ToKey(d.id);
        fragments := fragments[name := cache[key := Obj(Extend(FieldsOf(Slot(cache, key)), EntriesOf(touch)))]];
      } else if Truthy(d.path) {
        var key := ToKey(d.path);
        var entry := Obj(Extend(FieldsOf(Get(queries, key)), EntriesOf(touch)));
        SetWellFormed(queries, key, entry);
        queries := Set(queries, key, entry);
      }
    }

    /** `update(descriptor, data, status)` with `Date.now()` given as `now`. */
    method Update(d: CacheDescriptor, data: Value, status: Value, now: int) returns (r: Result<Value>)
      requires Valid()
      modifies this
      ensures Valid()
      ensures (State(), r) == UpdateSpec(old(State()), d, data, status, now)
    {
      var fragment := FragmentName(d.partial);
      var name := ToKey(fragment);
      var cache := GetFragment(name);
      var qdata := data;
      if Truthy(d.id) {
        fragments := fragments[name := cache[ToKey(d.id) := EntityEntry(status, now, data)]];
        return Ok(EntityEntry(status, now, data));
      }
      if data.Arr? {
        var c, ids := StoreEach(cache, data.items, status, now);
        StoreItemsWellFormed(cache, data.items, status, now);
        fragments := fragments[name := c];
        if ids.Err? {
          return Err(ids.failure);
        }
        qdata := Arr(ids.value);
      } else if data.Undefined? || data.Null? {
        return Err(TypeError("Cannot read property 'id' of " + ToKey(data)));
      } else if Truthy(Prop(data, "id")) {
        fragments := fragments[name := cache[ToKey(Prop(data, "id")) := EntityEntry(status, now, data)]];
        qdata := Prop(data, "id");
      }
      if Truthy(d.path) {
        var entry := QueryEntry(status, now, qdata, fragment);
        SetWellFormed(queries, ToKey(d.path), entry);
        queries := Set(queries, ToKey(d.path), entry);
        return Ok(entry);
      }
      return Ok(Obj(Meta(status, now)));
    }

    /**
     * `delete(descriptor)`: tombstones a live slot and splices its id out of
     * every collection query, or tombstones the query entry of a path.
     */
    method Delete(d: CacheDescriptor) returns (err: Option<Failure>)
      requires Valid()
      modifies this
      ensures Valid()
      ensures (State(), err) == DeleteSpec(old(State()), d)
    {
      var name := PrimaryKey(d);
      var cache := GetFragment(name);
      if Truthy(d.id) {
        var key := ToKey(d.id);
        if !Truthy(Slot(cache, key)) {
          return None;
        }
        fragments := fragments[name := cache[key := Undefined]];
        var q;
        StripQueriesWellFormed(queries, d.id);
        q, err := StripEach(queries, d.id);
        queries := q;
      } else if Truthy(d.path) && Truthy(Get(queries, ToKey(d.path))) {
        SetWellFormed(queries, ToKey(d.path), Undefined);
        queries := Set(queries, ToKey(d.path), Undefined);
        err := None;
      } else {
        err := None;
      }
    }
  }
}

=== FILE: fragment_map_props.dfy ===
/**
 * What `lib/FragmentMap.js` promises, proved about the specification
 * functions the cache object's methods are verified against.
 */
module FragmentMapProperties {
  import opened Values
  import opened Constants
  import opened FragmentMap
  import Utils

  /* ----- fetch ----- */

  /** The fallback loop leaves the result alone unless some fragment contributes; then the status is partial. */
  lemma {:induction false} ComposeContributions(frags: Fragments, names: seq<Value>, key: string, acc: FetchResult)
    ensures Contributions(frags, names, key) == [] ==> Compose(frags, names, key, acc) == acc
    ensures Contributions(frags, names, key) != [] ==>
      var r := Compose(frags, names, key, acc);
      r.status == Str(STATUS_PARTIAL) && r.timestamp == acc.timestamp && r.data.Some? && r.data.value.Obj?
    decreases |names|
  {
    if names != [] {
      ComposeContributions(frags, names[..|names| - 1], key, acc);
    }
  }

  /** The data of every contribution is a plain object with well-formed keys. */
  predicate PlainContributions(cs: seq<Value>)
  {
    forall i :: 0 <= i < |cs| ==> cs[i].Obj? && UniqueKeys(cs[i].fields)
  }

  /**
   * The composed data is the shallow merge of the contributing fragments'
   * data in fallback order: each key has the value of the last fragment
   * that has it.
   */
  lemma {:induction false} ComposeMerges(frags: Fragments, names: seq<Value>, key: string, acc: FetchResult, k: string)
    requires !HasData(acc)
    requires PlainContributions(Contributions(frags, names, key))
    requires Contributions(frags, names, key) != []
    ensures Compose(frags, names, key, acc).data.Some?
    ensures Get(FieldsOf(Compose(frags, names, key, acc).data.value), k)
         == Utils.LastValue(Contributions(frags, names, key), k, Undefined)
    decreases |names|
  {
    var p := names[..|names| - 1];
    var entry := Lookup(frags, ToKey(names[|names| - 1]), key);
    var cs := Contributions(frags, p, key);
    var all := Contributions(frags, names, key);
    assert all == cs + (if Contributes(entry) then [Prop(entry, "data")] else []);
    assert forall i :: 0 <= i < |cs| ==> cs[i] == all[i];
    ComposeContributions(frags, p, key, acc);
    var prev := Compose(frags, p, key, acc);
    if Contributes(entry) {
      var data := Prop(entry, "data");
      assert all[|all| - 1] == data && all[..|all| - 1] == cs;
      if cs != [] {
        ComposeMerges(frags, p, key, acc, k);
      }
      GetExtend(BaseFields(prev.data), data.fields, k);
    } else {
      assert all == cs;
      ComposeMerges(frags, p, key, acc, k);
    }
  }

  /**
   * A miss is exactly `{status: "stale", timestamp: -1}` with no data: an
   * empty descriptor, an id with no data in any consulted fragment, or a
   * path with no query entry.
   */
  lemma FetchMisses(st: CacheState, d: CacheDescriptor)
    ensures !Truthy(d.id) && !Truthy(d.path) ==> FetchSpec(st, d) == Ok(Miss)
    ensures (Truthy(d.id) && !Truthy(Lookup(st.fragments, PrimaryKey(d), ToKey(d.id))) &&
      Contributions(st.fragments, Fallbacks(d.fragments), ToKey(d.id)) == []) ==> FetchSpec(st, d) == Ok(Miss)
    ensures !Truthy(d.id) && Truthy(d.path) && !Truthy(Get(st.queries, ToKey(d.path))) ==> FetchSpec(st, d) == Ok(Miss)
  {
    ComposeContributions(st.fragments, Fallbacks(d.fragments), ToKey(d.id), Miss);
  }

  /** A slot with data is returned as it is: its status, timestamp and data. */
  lemma FetchDirect(st: CacheState, d: CacheDescriptor)
    requires Truthy(d.id)
    requires Contributes(Lookup(st.fragments, PrimaryKey(d), ToKey(d.id)))
    ensures var slot := Lookup(st.fragments, PrimaryKey(d), ToKey(d.id));
      FetchSpec(st, d) == Ok(FetchResult(Prop(slot, "status"), Prop(slot, "timestamp"), Some(Prop(slot, "data"))))
  {
  }

  /**
   * A slot without data is composed from the fallback fragments: the status
   * is partial if and only if some fragment contributed, and the data is
   * then their right-biased merge.
   */
  lemma FetchComposed(st: CacheState, d: CacheDescriptor, k: string)
    requires Truthy(d.id)
    requires !Contributes(Lookup(st.fragments, PrimaryKey(d), ToKey(d.id)))
    requires Lookup(st.fragments, PrimaryKey(d), ToKey(d.id)) == Undefined
    requires PlainContributions(Contributions(st.fragments, Fallbacks(d.fragments), ToKey(d.id)))
    ensures FetchSpec(st, d).Ok?
    ensures var r := FetchSpec(st, d).value;
      var cs := Contributions(st.fragments, Fallbacks(d.fragments), ToKey(d.id));
      (r.status == Str(STATUS_PARTIAL) <==> cs != []) &&
      (cs != [] ==> r.data.Some? && Get(FieldsOf(r.data.value), k) == Utils.LastValue(cs, k, Undefined))
  {
    var cs := Contributions(st.fragments, Fallbacks(d.fragments), ToKey(d.id));
    ComposeContributions(st.fragments, Fallbacks(d.fragments), ToKey(d.id), Miss);
    if cs != [] {
      ComposeMerges(st.fragments, Fallbacks(d.fragments), ToKey(d.id), Miss, k);
    }
  }

  /** Every id of a collection query is looked up in order; the result is their data in list order. */
  lemma {:induction false} DerefAllLive(cache: Cache, ids: seq<Value>)
    requires forall i :: 0 <= i < |ids| ==> Truthy(Slot(cache, ToKey(ids[i])))
    ensures DerefAll(cache, ids).Ok?
    ensures |DerefAll(cache, ids).value| == |ids|
    ensures forall i :: 0 <= i < |ids| ==> DerefAll(cache, ids).value[i] == Prop(Slot(cache, ToKey(ids[i])), "data")
    decreases |ids|
  {
    if ids != [] {
      DerefAllLive(cache, ids[..|ids| - 1]);
    }
  }

  /** An id of a collection query without a live slot makes `fetch` throw. */
  lemma {:induction false} DerefAllMissing(cache: Cache, ids: seq<Value>, j: nat)
    requires j < |ids| && !Truthy(Slot(cache, ToKey(ids[j])))
    ensures DerefAll(cache, ids).Err? && DerefAll(cache, ids).failure.TypeError?
    decreases |ids|
  {
    if j < |ids| - 1 {
      DerefAllMissing(cache, ids[..|ids| - 1], j);
    }
  }

  /**
   * `fetch` by path: an id-array query yields the slots' data in list order;
   * an id without a live slot raises a TypeError.
   */
  lemma FetchCollection(st: CacheState, d: CacheDescriptor)
    requires !Truthy(d.id) && Truthy(d.path)
    requires var q := Get(st.queries, ToKey(d.path)); Truthy(q) && Prop(q, "data").Arr?
    ensures var q := Get(st.queries, ToKey(d.path));
      var ids := Prop(q, "data").items;
      var cache := CacheOf(st.fragments, PrimaryKey(d));
      ((forall i :: 0 <= i < |ids| ==> Truthy(Slot(cache, ToKey(ids[i])))) ==>
        FetchSpec(st, d).Ok? && FetchSpec(st, d).value.status == Prop(q, "status") &&
        FetchSpec(st, d).value.timestamp == Prop(q, "timestamp") &&
        FetchSpec(st, d).value.data == Some(Arr(seq(|ids|, i requires 0 <= i < |ids| => Prop(Slot(cache, ToKey(ids[i])), "data"))))) &&
      ((exists i :: 0 <= i < |ids| && !Truthy(Slot(cache, ToKey(ids[i])))) ==>
        FetchSpec(st, d).Err? && FetchSpec(st, d).failure.TypeError?)
  {
    var q := Get(st.queries, ToKey(d.path));
    var ids := Prop(q, "data").items;
    var cache := CacheOf(st.fragments, PrimaryKey(d));
    if forall i :: 0 <= i < |ids| ==> Truthy(Slot(cache, ToKey(ids[i]))) {
      DerefAllLive(cache, ids);
      assert DerefAll(cache, ids).value == seq(|ids|, i requires 0 <= i < |ids| => Prop(Slot(cache, ToKey(ids[i])), "data"));
    } else {
      var j :| 0 <= j < |ids| && !Truthy(Slot(cache, ToKey(ids[j])));
      DerefAllMissing(cache, ids, j);
    }
  }

  /** `fetch` by path: a scalar query is dereferenced as one id, an object query is returned verbatim. */
  lemma FetchScalarOrObject(st: CacheState, d: CacheDescriptor)
    requires !Truthy(d.id) && Truthy(d.path)
    requires var q := Get(st.queries, ToKey(d.path)); Truthy(q) && Truthy(Prop(q, "data")) && !Prop(q, "data").Arr?
    ensures var q := Get(st.queries, ToKey(d.path));
      var data := Prop(q, "data");
      var entry := Lookup(st.fragments, PrimaryKey(d), ToKey(data));
      (TypeOf(data) == "object" ==> FetchSpec(st, d) == Ok(FetchResult(Prop(q, "status"), Prop(q, "timestamp"), Some(data)))) &&
      (TypeOf(data) != "object" && Truthy(entry) ==>
        FetchSpec(st, d) == Ok(FetchResult(Prop(q, "status"), Prop(q, "timestamp"), Some(Prop(entry, "data"))))) &&
      (TypeOf(data) != "object" && !Truthy(entry) ==> FetchSpec(st, d).Err?)
  {
  }

  /* ----- touch ----- */

  /**
   * `touch` by id merges the metadata into the slot, creating it when
   * absent: metadata keys take the new values, every other key of the slot
   * (`data` included) is kept, and no other slot or query changes.
   */
  lemma TouchById(st: CacheState, d: CacheDescriptor, touch: Value, n: string, key: string, k: string)
    requires Truthy(touch) && touch.Obj? && UniqueKeys(touch.fields) && Truthy(d.id)
    ensures var st' := TouchSpec(st, d, touch);
      var slot := Lookup(st'.fragments, PrimaryKey(d), ToKey(d.id));
      slot.Obj? &&
      Get(slot.fields, k) == (if HasKey(touch.fields, k) then Get(touch.fields, k)
                              else Get(FieldsOf(Lookup(st.fragments, PrimaryKey(d), ToKey(d.id))), k)) &&
      ((n, key) != (PrimaryKey(d), ToKey(d.id)) ==> Lookup(st'.fragments, n, key) == Lookup(st.fragments, n, key)) &&
      st'.queries == st.queries
  {
    GetExtend(FieldsOf(Lookup(st.fragments, PrimaryKey(d), ToKey(d.id))), touch.fields, k);
  }

  /** `touch` by path merges the metadata into the query entry, and changes no other query and no slot. */
  lemma TouchByPath(st: CacheState, d: CacheDescriptor, touch: Value, n: string, key: string, k: string, p: string)
    requires Truthy(touch) && touch.Obj? && UniqueKeys(touch.fields) && !Truthy(d.id) && Truthy(d.path)
    ensures var st' := TouchSpec(st, d, touch);
      var q := Get(st'.queries, ToKey(d.path));
      q.Obj? &&
      Get(q.fields, k) == (if HasKey(touch.fields, k) then Get(touch.fields, k)
                           else Get(FieldsOf(Get(st.queries, ToKey(d.path))), k)) &&
      (p != ToKey(d.path) ==> Get(st'.queries, p) == Get(st.queries, p)) &&
      Lookup(st'.fragments, n, key) == Lookup(st.fragments, n, key)
  {
    var entry := Obj(Extend(FieldsOf(Get(st.queries, ToKey(d.path))), EntriesOf(touch)));
    GetSet(st.queries, ToKey(d.path), entry, ToKey(d.path));
    GetSet(st.queries, ToKey(d.path), entry, p);
    GetExtend(FieldsOf(Get(st.queries, ToKey(d.path))), touch.fields, k);
  }

  /** `touch` with falsy metadata changes no slot and no query. */
  lemma TouchFalsy(st: CacheState, d: CacheDescriptor, touch: Value, n: string, key: string)
    requires !Truthy(touch)
    ensures Lookup(TouchSpec(st, d, touch).fragments, n, key) == Lookup(st.fragments, n, key)
    ensures TouchSpec(st, d, touch).queries == st.queries
  {
  }

  /* ----- update ----- */

  /** The fields of the two entry shapes, read back; the lemmas below read entries through it. */
  lemma EntryFields(status: Value, now: int, data: Value, fragment: Value)
    ensures Prop(EntityEntry(status, now, data), "status") == status
    ensures Prop(EntityEntry(status, now, data), "timestamp") == Num(now)
    ensures Prop(EntityEntry(status, now, data), "data") == data
    ensures Prop(QueryEntry(status, now, data, fragment), "status") == status
    ensures Prop(QueryEntry(status, now, data, fragment), "timestamp") == Num(now)
    ensures Prop(QueryEntry(status, now, data, fragment), "data") == data
    ensures Prop(QueryEntry(status, now, data, fragment), "partial") == fragment
  {
    var e: Fields := [("status", status), ("timestamp", Num(now)), ("data", data)];
    assert EntityEntry(status, now, data).fields == e;
    assert e[1..] == [("timestamp", Num(now)), ("data", data)];
    assert e[1..][1..] == [("data", data)];
    var q: Fields := [("status", status), ("timestamp", Num(now)), ("data", data), ("partial", fragment)];
    assert QueryEntry(status, now, data, fragment).fields == q;
    assert q[1..] == [("timestamp", Num(now)), ("data", data), ("partial", fragment)];
    assert q[1..][1..] == [("data", data), ("partial", fragment)];
    assert q[1..][1..][1..] == [("partial", fragment)];
    assert "status" != "timestamp" && "status" != "data" && "status" != "partial";
    assert "timestamp" != "data" && "timestamp" != "partial" && "data" != "partial";
    assert Get(e, "timestamp") == Get(e[1..], "timestamp") == Num(now);
    assert Get(e, "data") == Get(e[1..], "data") == Get(e[1..][1..], "data") == data;
    assert Get(q, "timestamp") == Get(q[1..], "timestamp") == Num(now);
    assert Get(q, "data") == Get(q[1..], "data") == Get(q[1..][1..], "data") == data;
    assert Get(q, "partial") == Get(q[1..], "partial") == Get(q[1..][1..], "partial")
      == Get(q[1..][1..][1..], "partial") == fragment;
  }

  /** `update` with an id writes `{status, timestamp, data}` into the slot, which a `fetch` then returns. */
  lemma UpdateThenFetchById(st: CacheState, d: CacheDescriptor, data: Value, status: Value, now: int)
    requires Truthy(d.id) && Truthy(data)
    ensures var (st', r) := UpdateSpec(st, d, data, status, now);
      r == Ok(EntityEntry(status, now, data)) &&
      st'.queries == st.queries &&
      FetchSpec(st', d) == Ok(FetchResult(status, Num(now), Some(data)))
  {
    EntryFields(status, now, data, Undefined);
  }

  /** The id keys of a collection are pairwise different. */
  predicate DistinctIds(items: seq<Value>)
  {
    forall i, j :: 0 <= i < j < |items| ==> ToKey(Prop(items[i], "id")) != ToKey(Prop(items[j], "id"))
  }

  predicate AllPlain(items: seq<Value>)
  {
    forall i :: 0 <= i < |items| ==> IsPlainObject(items[i])
  }

  /** What storing `items` into `cache` gave: every id in order, each slot written, other slots kept. */
  ghost predicate StoredAll(cache: Cache, items: seq<Value>, status: Value, now: int, key: string, r: (Cache, Result<seq<Value>>))
  {
    var (c, ids) := r;
    ids.Ok? && |ids.value| == |items| &&
    (forall i :: 0 <= i < |items| ==> ids.value[i] == Prop(items[i], "id")) &&
    (forall i :: 0 <= i < |items| ==> Slot(c, ToKey(Prop(items[i], "id"))) == EntityEntry(status, now, items[i])) &&
    ((forall i :: 0 <= i < |items| ==> ToKey(Prop(items[i], "id")) != key) ==> Slot(c, key) == Slot(cache, key))
  }

  /**
   * Storing a collection of plain objects writes each under its id and
   * returns the ids in order; slots of other ids are kept.
   */
  lemma {:induction false} StoreItemsStores(cache: Cache, items: seq<Value>, status: Value, now: int, key: string)
    requires AllPlain(items) && DistinctIds(items)
    ensures var (c, ids) := StoreItems(cache, items, status, now);
      ids.Ok? && |ids.value| == |items| &&
      (forall i :: 0 <= i < |items| ==> ids.value[i] == Prop(items[i], "id")) &&
      (forall i :: 0 <= i < |items| ==> Slot(c, ToKey(Prop(items[i], "id"))) == EntityEntry(status, now, items[i])) &&
      ((forall i :: 0 <= i < |items| ==> ToKey(Prop(items[i], "id")) != key) ==> Slot(c, key) == Slot(cache, key))
    decreases |items|
  {
    if items != [] {
      StoreItemsStores(cache, items[..|items| - 1], status, now, key);
      StoreItemsStep(cache, items, status, now, key);
    }
    assert StoredAll(cache, items, status, now, key, StoreItems(cache, items, status, now));
  }

  /** One more element stored after the others, under an id none of them has. */
  lemma StoreItemsStep(cache: Cache, items: seq<Value>, status: Value, now: int, key: string)
    requires items != [] && AllPlain(items) && DistinctIds(items)
    requires StoredAll(cache, items[..|items| - 1], status, now, key, StoreItems(cache, items[..|items| - 1], status, now))
    ensures StoredAll(cache, items, status, now, key, StoreItems(cache, items, status, now))
  {
    var n := |items| - 1;
    var pre := items[..n];
    var r0 := StoreItems(cache, pre, status, now);
    forall i | 0 <= i < |pre|
      ensures ToKey(Prop(pre[i], "id")) != ToKey(Prop(items[n], "id"))
    {
    }
    assert items == pre + [items[n]];
    StoredSnoc(cache, pre, items[n], r0.0, r0.1.value, status, now, key);
  }

  /** The stored collection after one more element, written under its own id. */
  lemma StoredSnoc(cache: Cache, pre: seq<Value>, item: Value, c0: Cache, ids0: seq<Value>, status: Value, now: int, key: string)
    requires StoredAll(cache, pre, status, now, key, (c0, Ok(ids0)))
    requires forall i :: 0 <= i < |pre| ==> ToKey(Prop(pre[i], "id")) != ToKey(Prop(item, "id"))
    ensures var k := ToKey(Prop(item, "id"));
      StoredAll(cache, pre + [item], status, now, key, (c0[k := EntityEntry(status, now, item)], Ok(ids0 + [Prop(item, "id")])))
  {
    var items := pre + [item];
    var k := ToKey(Prop(item, "id"));
    var c := c0[k := EntityEntry(status, now, item)];
    var ids := ids0 + [Prop(item, "id")];
    forall i | 0 <= i < |items|
      ensures ids[i] == Prop(items[i], "id")
      ensures Slot(c, ToKey(Prop(items[i], "id"))) == EntityEntry(status, now, items[i])
    {
      if i < |pre| {
        assert items[i] == pre[i];
      }
    }
    if forall i :: 0 <= i < |items| ==> ToKey(Prop(items[i], "id")) != key {
      assert key != k by {
        assert items[|pre|] == item;
      }
      forall i | 0 <= i < |pre|
        ensures ToKey(Prop(pre[i], "id")) != key
      {
        assert items[i] == pre[i];
      }
    }
  }

  /**
   * `update` of a collection by path: each element is stored under its id,
   * the query becomes the id list tagged with the fragment, and a `fetch` by
   * the same path returns the collection.
   */
  lemma UpdateCollectionThenFetch(st: CacheState, d: CacheDescriptor, items: seq<Value>, status: Value, now: int)
    requires !Truthy(d.id) && Truthy(d.path)
    requires AllPlain(items) && DistinctIds(items)
    ensures var (st', r) := UpdateSpec(st, d, Arr(items), status, now);
      var q := Get(st'.queries, ToKey(d.path));
      r.Ok? && r.value == q &&
      Prop(q, "data") == Arr(seq(|items|, i requires 0 <= i < |items| => Prop(items[i], "id"))) &&
      Prop(q, "partial") == FragmentName(d.partial) &&
      FetchSpec(st', d) == Ok(FetchResult(status, Num(now), Some(Arr(items))))
  {
    var name := PrimaryKey(d);
    var frags := WithFragment(st.fragments, name);
    StoreItemsStores(frags[name], items, status, now, "");
    var c := StoreItems(frags[name], items, status, now).0;
    var ids := StoreItems(frags[name], items, status, now).1.value;
    var entry := QueryEntry(status, now, Arr(ids), FragmentName(d.partial));
    var st' := CacheState(frags[name := c], Set(st.queries, ToKey(d.path), entry));
    assert UpdateSpec(st, d, Arr(items), status, now) == (st', Ok(entry));
    EntryFields(status, now, Arr(ids), FragmentName(d.partial));
    GetSet(st.queries, ToKey(d.path), entry, ToKey(d.path));
    assert ids == seq(|items|, i requires 0 <= i < |items| => Prop(items[i], "id"));
    DerefStored(c, items, ids, status, now);
    assert CacheOf(st'.fragments, name) == c;
    FetchIdList(c, st'.queries, ToKey(d.path), ids, items, status, now, FragmentName(d.partial));
  }

  /** A query holding a list of ids that all dereference is fetched as the list of their data. */
  lemma FetchIdList(cache: Cache, queries: Fields, pathKey: string, ids: seq<Value>, items: seq<Value>,
                    status: Value, now: int, fragment: Value)
    requires Get(queries, pathKey) == QueryEntry(status, now, Arr(ids), fragment)
    requires DerefAll(cache, ids) == Ok(items)
    ensures FetchByPath(cache, queries, pathKey) == Ok(FetchResult(status, Num(now), Some(Arr(items))))
  {
    EntryFields(status, now, Arr(ids), fragment);
  }

  /** The ids a collection update returns dereference, in the cache it built, to the collection. */
  lemma DerefStored(c: Cache, items: seq<Value>, ids: seq<Value>, status: Value, now: int)
    requires |ids| == |items|
    requires forall i :: 0 <= i < |items| ==> ids[i] == Prop(items[i], "id")
    requires forall i :: 0 <= i < |items| ==> Slot(c, ToKey(Prop(items[i], "id"))) == EntityEntry(status, now, items[i])
    ensures DerefAll(c, ids) == Ok(items)
  {
    forall i | 0 <= i < |items| ensures Prop(Slot(c, ToKey(ids[i])), "data") == items[i] {
      EntryFields(status, now, items[i], Undefined);
    }
    DerefAllLive(c, ids);
    assert DerefAll(c, ids).value == items;
  }

  /** A collection element that is not a plain object makes `update` throw a TypeError. */
  lemma {:induction false} StoreItemsRejects(cache: Cache, items: seq<Value>, status: Value, now: int, j: nat)
    requires j < |items| && !IsPlainObject(items[j])
    ensures StoreItems(cache, items, status, now).1.Err?
    ensures StoreItems(cache, items, status, now).1.failure.TypeError?
    decreases |items|
  {
    if j < |items| - 1 {
      StoreItemsRejects(cache, items[..|items| - 1], status, now, j);
    }
  }

  lemma UpdateCollectionRejects(st: CacheState, d: CacheDescriptor, items: seq<Value>, status: Value, now: int, j: nat)
    requires !Truthy(d.id) && j < |items| && !IsPlainObject(items[j])
    ensures var (st', r) := UpdateSpec(st, d, Arr(items), status, now);
      r.Err? && r.failure.TypeError? && st'.queries == st.queries
  {
    var name := PrimaryKey(d);
    StoreItemsRejects(WithFragment(st.fragments, name)[name], items, status, now, j);
  }

  /**
   * `update` of one object carrying an id, by path: the object is stored
   * under its id and the query's data becomes that id, so a `fetch` by the
   * same path dereferences it back to the object.
   */
  lemma UpdateObjectThenFetch(st: CacheState, d: CacheDescriptor, data: Value, status: Value, now: int)
    requires !Truthy(d.id) && Truthy(d.path)
    requires data.Obj? && Truthy(Prop(data, "id")) && TypeOf(Prop(data, "id")) != "object"
    ensures var (st', r) := UpdateSpec(st, d, data, status, now);
      var q := Get(st'.queries, ToKey(d.path));
      r.Ok? && Prop(q, "data") == Prop(data, "id") &&
      Lookup(st'.fragments, PrimaryKey(d), ToKey(Prop(data, "id"))) == EntityEntry(status, now, data) &&
      FetchSpec(st', d) == Ok(FetchResult(status, Num(now), Some(data)))
  {
    var name := PrimaryKey(d);
    var frags := WithFragment(st.fragments, name);
    var id := Prop(data, "id");
    var entry := QueryEntry(status, now, id, FragmentName(d.partial));
    var c := frags[name][ToKey(id) := EntityEntry(status, now, data)];
    var st' := CacheState(frags[name := c], Set(st.queries, ToKey(d.path), entry));
    assert UpdateSpec(st, d, data, status, now) == (st', Ok(entry));
    assert CacheOf(st'.fragments, name) == c;
    assert Slot(c, ToKey(id)) == EntityEntry(status, now, data);
    GetSet(st.queries, ToKey(d.path), entry, ToKey(d.path));
    EntryFields(status, now, Prop(data, "id"), FragmentName(d.partial));
    FetchOneId(c, st'.queries, ToKey(d.path), id, data, status, now, FragmentName(d.partial));
  }

  /** A query holding one id, whose entity is in the cache, is fetched as that entity's data. */
  lemma FetchOneId(cache: Cache, queries: Fields, pathKey: string, id: Value, data: Value,
                   status: Value, now: int, fragment: Value)
    requires Truthy(id) && TypeOf(id) != "object"
    requires Get(queries, pathKey) == QueryEntry(status, now, id, fragment)
    requires Slot(cache, ToKey(id)) == EntityEntry(status, now, data)
    ensures FetchByPath(cache, queries, pathKey) == Ok(FetchResult(status, Num(now), Some(data)))
  {
    EntryFields(status, now, id, fragment);
    EntryFields(status, now, data, Undefined);
    var resource := Get(queries, pathKey);
    assert Truthy(resource) && Prop(resource, "data") == id && !id.Arr?;
    var head := FetchResult(status, Num(now), None);
    assert FetchByPath(cache, queries, pathKey) == Ok(head.(data := Some(Prop(Slot(cache, ToKey(id)), "data"))));
  }

  /** Entities of a fragment that a collection update does not mention stay in place. */
  lemma UpdateCollectionKeepsOthers(st: CacheState, d: CacheDescriptor, items: seq<Value>, status: Value, now: int, n: string, key: string)
    requires !Truthy(d.id) && AllPlain(items) && DistinctIds(items)
    requires forall i :: 0 <= i < |items| ==> ToKey(Prop(items[i], "id")) != key
    ensures Lookup(UpdateSpec(st, d, Arr(items), status, now).0.fragments, n, key) == Lookup(st.fragments, n, key)
  {
    var name := PrimaryKey(d);
    StoreItemsStores(WithFragment(st.fragments, name)[name], items, status, now, key);
  }

  /* ----- delete ----- */

  /**
   * `delete` of a live id tombstones its slot (the key stays, the value is
   * `undefined`) and splices the id's first occurrence out of every
   * collection query, provided no query before it is a tombstone.
   */
  lemma DeleteLiveId(st: CacheState, d: CacheDescriptor, i: nat)
    requires Truthy(d.id) && Truthy(Lookup(st.fragments, PrimaryKey(d), ToKey(d.id)))
    requires forall q :: q in st.queries ==> !Throws(q.1)
    requires i < |st.queries|
    ensures var (st', err) := DeleteSpec(st, d);
      err.None? &&
      ToKey(d.id) in st'.fragments[PrimaryKey(d)] &&
      Lookup(st'.fragments, PrimaryKey(d), ToKey(d.id)) == Undefined &&
      |st'.queries| == |st.queries| &&
      st'.queries[i].0 == st.queries[i].0 &&
      var data := Prop(st.queries[i].1, "data");
      var data' := Prop(st'.queries[i].1, "data");
      (data.Arr? && IndexOf(data.items, d.id) >= 0 ==>
        var j := IndexOf(data.items, d.id);
        data' == Arr(data.items[..j] + data.items[j + 1..]) &&
        (forall m :: 0 <= m < j ==> !StrictEquals(data.items[m], d.id))) &&
      (!(data.Arr? && IndexOf(data.items, d.id) >= 0) ==> st'.queries[i] == st.queries[i])
  {
    assert FirstTombstone(st.queries) == None by {
      assert forall m :: 0 <= m < |st.queries| ==> st.queries[m] in st.queries;
    }
    var r := st.queries[i].1;
    var data := Prop(r, "data");
    if data.Arr? && IndexOf(data.items, d.id) >= 0 {
      var j := IndexOf(data.items, d.id);
      GetSet(r.fields, "data", Arr(data.items[..j] + data.items[j + 1..]), "data");
    }
  }

  /** `delete` of a missing or tombstoned id changes no slot and no query. */
  lemma DeleteDeadId(st: CacheState, d: CacheDescriptor, n: string, key: string)
    requires Truthy(d.id) && !Truthy(Lookup(st.fragments, PrimaryKey(d), ToKey(d.id)))
    ensures var (st', err) := DeleteSpec(st, d);
      err.None? && st'.queries == st.queries && Lookup(st'.fragments, n, key) == Lookup(st.fragments, n, key)
  {
  }

  /**
   * `delete` by path tombstones only that query entry, never a slot; a
   * `fetch` of the path then misses.
   */
  lemma DeleteByPath(st: CacheState, d: CacheDescriptor, n: string, key: string, p: string)
    requires !Truthy(d.id) && Truthy(d.path) && Truthy(Get(st.queries, ToKey(d.path)))
    ensures var (st', err) := DeleteSpec(st, d);
      err.None? &&
      HasKey(st'.queries, ToKey(d.path)) && Get(st'.queries, ToKey(d.path)) == Undefined &&
      (p != ToKey(d.path) ==> Get(st'.queries, p) == Get(st.queries, p)) &&
      Lookup(st'.fragments, n, key) == Lookup(st.fragments, n, key) &&
      FetchSpec(st', d) == Ok(Miss)
  {
    GetSet(st.queries, ToKey(d.path), Undefined, ToKey(d.path));
    GetSet(st.queries, ToKey(d.path), Undefined, p);
  }

  /**
   * Once a query entry has been tombstoned by a delete by path, every later
   * delete of a live id throws: the strip loop reads `.data` of the
   * tombstone.
   */
  lemma DeleteIdAfterPathDeleteThrows(st: CacheState, d: CacheDescriptor, dp: CacheDescriptor)
    requires !Truthy(dp.id) && Truthy(dp.path) && Truthy(Get(st.queries, ToKey(dp.path)))
    requires Truthy(d.id) && Truthy(Lookup(st.fragments, PrimaryKey(d), ToKey(d.id)))
    requires PrimaryKey(d) in st.fragments
    ensures var st1 := DeleteSpec(st, dp).0;
      DeleteSpec(st1, d).1 == Some(DataOfUndefined)
  {
    var st1 := DeleteSpec(st, dp).0;
    SetContains(st.queries, ToKey(dp.path), Undefined);
    assert (ToKey(dp.path), Undefined) in st1.queries;
  }

  /** Reading a query after the strip loop: the entry with the id spliced out. */
  lemma {:induction false} GetStripAll(queries: Fields, id: Value, k: string)
    ensures Get(StripAll(queries, id), k) == if HasKey(queries, k) then StripId(Get(queries, k), id) else Undefined
    decreases |queries|
  {
    if queries != [] {
      assert StripAll(queries, id)[1..] == StripAll(queries[1..], id);
      GetStripAll(queries[1..], id, k);
    }
  }

  /**
   * Ids are matched two ways: slots by their string key, collection queries
   * by strict equality. A collection stored with the number `n` as id, then
   * deleted by the string id `"n"` (as a reducer that stringifies ids builds
   * it), has its slot tombstoned but keeps `n` in the query, so the next
   * `fetch` of the path throws a TypeError.
   */
  lemma NumericIdSurvivesStringDelete(st: CacheState, dq: CacheDescriptor, d: CacheDescriptor, n: int, status: Value, now: int)
    requires !Truthy(dq.id) && Truthy(dq.path) && n != 0
    requires d.id == Str(IntToString(n)) && d.partial == dq.partial
    requires forall q :: q in st.queries ==> !Throws(q.1)
    ensures var st1 := UpdateSpec(st, dq, Arr([Obj([("id", Num(n))])]), status, now).0;
      var (st2, err) := DeleteSpec(st1, d);
      err.None? &&
      Lookup(st2.fragments, PrimaryKey(d), IntToString(n)) == Undefined &&
      Prop(Get(st2.queries, ToKey(dq.path)), "data") == Arr([Num(n)]) &&
      FetchSpec(st2, dq).Err? && FetchSpec(st2, dq).failure.TypeError?
  {
    var item := Obj([("id", Num(n))]);
    var name := PrimaryKey(d);
    var key := IntToString(n);
    var pk := ToKey(dq.path);
    var frags := WithFragment(st.fragments, name);
    var qentry := QueryEntry(status, now, Arr([Num(n)]), FragmentName(dq.partial));
    var c1 := frags[name][key := EntityEntry(status, now, item)];
    var st1 := CacheState(frags[name := c1], Set(st.queries, pk, qentry));
    UpdateSingle(st, dq, n, status, now);
    SetMembers(st.queries, pk, qentry);
    var st2 := CacheState(st1.fragments[name := c1[key := Undefined]], StripAll(st1.queries, d.id));
    DeleteAfterUpdate(st1, d, name, key, c1);
    EntryFields(status, now, Arr([Num(n)]), FragmentName(dq.partial));
    StripKeepsNumeric(st.queries, pk, qentry, d.id, n);
    assert Slot(CacheOf(st2.fragments, PrimaryKey(dq)), ToKey(Arr([Num(n)]).items[0])) == Undefined;
    FetchCollection(st2, dq);
  }

  /** The query written by the update survives the strip loop of a delete by a string id. */
  lemma StripKeepsNumeric(queries: Fields, pk: string, qentry: Value, id: Value, n: int)
    requires id.Str? && Prop(qentry, "data") == Arr([Num(n)])
    ensures Get(StripAll(Set(queries, pk, qentry), id), pk) == qentry
  {
    GetSet(queries, pk, qentry, pk);
    GetStripAll(Set(queries, pk, qentry), id, pk);
    assert IndexOf([Num(n)], id) == -1;
  }

  /** The update half of the scenario above: one object with a numeric id, stored by path. */
  lemma UpdateSingle(st: CacheState, dq: CacheDescriptor, n: int, status: Value, now: int)
    requires !Truthy(dq.id) && Truthy(dq.path) && n != 0
    ensures var item := Obj([("id", Num(n))]);
      var name := PrimaryKey(dq);
      var frags := WithFragment(st.fragments, name);
      UpdateSpec(st, dq, Arr([item]), status, now).0 ==
        CacheState(frags[name := frags[name][IntToString(n) := EntityEntry(status, now, item)]],
          Set(st.queries, ToKey(dq.path), QueryEntry(status, now, Arr([Num(n)]), FragmentName(dq.partial))))
  {
    var item := Obj([("id", Num(n))]);
    var name := PrimaryKey(dq);
    var frags := WithFragment(st.fragments, name);
    assert Prop(item, "id") == Num(n);
    assert ToKey(Num(n)) == IntToString(n);
    assert [item][..0] == [];
    assert StoreItems(frags[name], [], status, now) == (frags[name], Ok([]));
    assert [] + [Num(n)] == [Num(n)];
    assert StoreItems(frags[name], [item], status, now) ==
      (frags[name][IntToString(n) := EntityEntry(status, now, item)], Ok([Num(n)]));
  }

  /** The delete half of the scenario above: a live slot, and no tombstoned query. */
  lemma DeleteAfterUpdate(st1: CacheState, d: CacheDescriptor, name: string, key: string, c1: Cache)
    requires name == PrimaryKey(d) && key == ToKey(d.id) && Truthy(d.id)
    requires name in st1.fragments && st1.fragments[name] == c1 && Truthy(Slot(c1, key))
    requires forall q :: q in st1.queries ==> !Throws(q.1)
    ensures DeleteSpec(st1, d) == (CacheState(st1.fragments[name := c1[key := Undefined]], StripAll(st1.queries, d.id)), None)
  {
    assert FirstTombstone(st1.queries) == None by {
      assert forall m :: 0 <= m < |st1.queries| ==> st1.queries[m] in st1.queries;
    }
  }
}

=== FILE: legacy_fragment_map.dfy ===
/**
 * The older, action-keyed cache of `src/FragmentMap.js`.
 *
 * It keeps the same two fields as the cache of `lib/FragmentMap.js` and
 * composes entities by id the same way, but:
 *  - `fetch` without an id reads `queries[path]` whatever `path` is, and
 *    returns non-array query data as it is (a scalar is not dereferenced);
 *  - `touch` has no guard on the metadata and returns the merged entry;
 *  - `update` takes an action: `GET` writes, `SAVE` writes only a query,
 *    `DELETE` tombstones a slot or nulls a query's data.
 */
module LegacyFragmentMap {
  import opened Values
  import opened Constants
  import Utils
  import FM = FragmentMap

  type CacheState = FM.CacheState

  /** Whether the action argument is (strictly) the given action name. */
  predicate IsAction(action: Value, name: string)
  {
    StrictEquals(action, Str(name))
  }

  /** `fetch` of a descriptor without an id: `queries[path]`, with no check on the path. */
  function FetchByPath(cache: FM.Cache, queries: Fields, pathKey: string): Result<FM.FetchResult>
  {
    var resource := Get(queries, pathKey);
    if !Truthy(resource) then Ok(FM.Miss)
    else
      var head := FM.FetchResult(Prop(resource, "status"), Prop(resource, "timestamp"), None);
      var data := Prop(resource, "data");
      if data.Arr? then
        match FM.DerefAll(cache, data.items)
        case Err(e) => Err(e)
        case Ok(ds) => Ok(head.(data := Some(Arr(ds))))
      else Ok(head.(data := Some(data)))
  }

  /** What `fetch(descriptor)` returns, or the exception it throws. */
  function FetchSpec(st: CacheState, d: FM.CacheDescriptor): Result<FM.FetchResult>
  {
    if Truthy(d.id) then Ok(FM.FetchById(st.fragments, d, ToKey(d.id)))
    else FetchByPath(FM.CacheOf(st.fragments, FM.PrimaryKey(d)), st.queries, ToKey(d.path))
  }

  /** `touch(descriptor, metadata)`: the state afterwards and the merged entry, or the exception. */
  function TouchSpec(st: CacheState, d: FM.CacheDescriptor, touch: Value): (CacheState, Result<Value>)
  {
    var name := FM.PrimaryKey(d);
    var frags := FM.WithFragment(st.fragments, name);
    match Utils.OwnEntries(touch)
    case Err(e) => (FM.CacheState(frags, st.queries), Err(e))
    case Ok(entries) =>
      if Truthy(d.id) then
        var key := ToKey(d.id);
        var entry := Obj(Extend(FieldsOf(FM.Lookup(frags, name, key)), entries));
        (FM.CacheState(frags[name := frags[name][key := entry]], st.queries), Ok(entry))
      else
        var key := ToKey(d.path);
        var entry := Obj(Extend(FieldsOf(Get(st.queries, key)), entries));
        (FM.CacheState(frags, Set(st.queries, key, entry)), Ok(entry))
  }

  /** `update(descriptor, action, response, status)` at time `now`: the state afterwards and the result, or the exception. */
  function UpdateSpec(st: CacheState, d: FM.CacheDescriptor, action: Value, response: Value, status: Value, now: int)
    : (CacheState, Result<Value>)
  {
    var frags := FM.WithFragment(st.fragments, FM.PrimaryKey(d));
    if Truthy(d.id) then UpdateById(FM.CacheState(frags, st.queries), d, action, response, status, now)
    else UpdateByPath(FM.CacheState(frags, st.queries), d, action, response, status, now)
  }

  /** The id branch of `update`, once the descriptor's fragment exists. */
  function UpdateById(st: CacheState, d: FM.CacheDescriptor, action: Value, response: Value, status: Value, now: int)
    : (CacheState, Result<Value>)
    requires FM.PrimaryKey(d) in st.fragments
  {
    var name := FM.PrimaryKey(d);
    var key := ToKey(d.id);
    if IsAction(action, ACTION_FETCH) then
      var entry := FM.EntityEntry(status, now, response);
      (FM.CacheState(st.fragments[name := st.fragments[name][key := entry]], st.queries), Ok(entry))
    else if IsAction(action, ACTION_DELETE) then
      var (queries', err) := FM.StripQueries(st.queries, d.id);
      (FM.CacheState(st.fragments[name := st.fragments[name][key := Undefined]], queries'),
       if err.Some? then Err(err.value) else Ok(Obj(FM.Meta(status, now))))
    else (st, Ok(Obj(FM.Meta(status, now))))
  }

  /** The branch of `update` without an id, once the descriptor's fragment exists. */
  function UpdateByPath(st: CacheState, d: FM.CacheDescriptor, action: Value, response: Value, status: Value, now: int)
    : (CacheState, Result<Value>)
    requires FM.PrimaryKey(d) in st.fragments
  {
    var name := FM.PrimaryKey(d);
    if IsAction(action, ACTION_FETCH) then
      if response.Arr? then
        var (c, ids) := FM.StoreItems(st.fragments[name], response.items, status, now);
        if ids.Err? then (st.(fragments := st.fragments[name := c]), Err(ids.failure))
        else FM.WriteQuery(st.(fragments := st.fragments[name := c]), d.path, status, now, Arr(ids.value), d.partial)
      else FM.WriteQuery(st, d.path, status, now, response, d.partial)
    else if IsAction(action, ACTION_SAVE) then
      var entry := FM.EntityEntry(status, now, response);
      (st.(queries := Set(st.queries, ToKey(d.path), entry)), Ok(entry))
    else if IsAction(action, ACTION_DELETE) then
      var entry := FM.EntityEntry(status, now, Null);
      (st.(queries := Set(st.queries, ToKey(d.path), entry)), Ok(entry))
    else (st, Ok(Obj(FM.Meta(status, now))))
  }

  /** The path branch of `fetch`. */
  method FetchQuery(cache: FM.Cache, queries: Fields, pathKey: string) returns (r: Result<FM.FetchResult>)
    ensures r == FetchByPath(cache, queries, pathKey)
  {
    var resource := Get(queries, pathKey);
    if !Truthy(resource) {
      return Ok(FM.Miss);
    }
    var result := FM.FetchResult(Prop(resource, "status"), Prop(resource, "timestamp"), None);
    var data := Prop(resource, "data");
    if data.Arr? {
      var ds := FM.DerefEach(cache, data.items);
      if ds.Err? {
        return Err(ds.failure);
      }
      return Ok(result.(data := Some(Arr(ds.value))));
    }
    return Ok(result.(data := Some(data)));
  }

  /** A merged entry is a plain object, so writing one keeps a cache well-formed. */
  lemma MergedWellFormed(entry: Value, k: string, queries: Fields)
    requires entry.Obj?
    requires (forall q :: q in queries ==> FM.WellFormedEntry(q.1)) && UniqueKeys(queries)
    ensures (forall q :: q in Set(queries, k, entry) ==> FM.WellFormedEntry(q.1)) && UniqueKeys(Set(queries, k, entry))
  {
    FM.SetWellFormed(queries, k, entry);
  }

  /* ----- the cache object ----- */

  class FragmentMap {
    var fragments: FM.Fragments
    var queries: Fields

    ghost function State(): CacheState
      reads this
    {
      FM.CacheState(fragments, queries)
    }

    ghost predicate Valid()
      reads this
    {
      FM.WellFormed(State())
    }

    /** `initialize`: an empty cache. */
    constructor ()
      ensures Valid() && fragments == map[] && queries == []
    {
      fragments := map[];
      queries := [];
    }

    /** `_getFragment(name)`: the named fragment, created empty when missing. */
    method GetFragment(name: string) returns (cache: FM.Cache)
      requires Valid()
      modifies this
      ensures Valid()
      ensures fragments == FM.WithFragment(old(fragments), name) && queries == old(queries)
      ensures cache == fragments[name]
    {
      if name !in fragments {
        fragments := fragments[name := map[]];
      }
      cache := fragments[name];
    }

    /** `fetch(descriptor)`: as the newer cache by id; by path with no check and no dereference of scalars. */
    method Fetch(d: FM.CacheDescriptor) returns (r: Result<FM.FetchResult>)
      requires Valid()
      modifies this
      ensures Valid()
      ensures r == FetchSpec(old(State()), d)
      ensures fragments == FM.FetchFragments(old(State()), d)
      ensures queries == old(queries)
      ensures FM.OnlyAddsEmpty(old(fragments), fragments)
    {
      var name := FM.PrimaryKey(d);
      var cache := GetFragment(name);
      if Truthy(d.id) {
        var key := ToKey(d.id);
        var resource := FM.Slot(cache, key);
        var result := FM.Miss;
        if Truthy(resource) {
          result := FM.FetchResult(Prop(resource, "status"), Prop(resource, "timestamp"), Some(Prop(resource, "data")));
        }
        if !FM.HasData(result) {
          var after;
          FM.ComposeStable(old(fragments), fragments, FM.Fallbacks(d.fragments), key, result);
          result, after := FM.ComposeFallbacks(fragments, FM.Fallbacks(d.fragments), key, result);
          FM.OnlyAddsEmptyWellFormed(fragments, after);
          fragments := after;
        }
        return Ok(result);
      }
      r := FetchQuery(cache, queries, ToKey(d.path));
    }

    /** `touch(descriptor, metadata)`: merges the metadata into the slot or the query entry and returns it. */
    method Touch(d: FM.CacheDescriptor, touch: Value) returns (r: Result<Value>)
      requires Valid()
      modifies this
      ensures Valid()
      ensures (State(), r) == TouchSpec(old(State()), d, touch)
    {
      var entries := Utils.OwnEntries(touch);
      if entries.Err? {
        var _ := GetFragment(FM.PrimaryKey(d));
        return Err(entries.failure);
      }
      assert TouchSpec(State(), d, touch) == TouchSpec(State(), d, Obj(entries.value));
      if Truthy(d.id) {
        r := TouchId(d, entries.value);
      } else {
        r := TouchPath(d, entries.value);
      }
    }

    /** The id branch of `touch`, with the metadata's own entries. */
    method TouchId(d: FM.CacheDescriptor, entries: Fields) returns (r: Result<Value>)
      requires Valid() && Truthy(d.id)
      modifies this
      ensures Valid()
      ensures (State(), r) == TouchSpec(old(State()), d, Obj(entries))
    {
      var name := FM.PrimaryKey(d);
      var cache := GetFragment(name);
      var key := ToKey(d.id);
      var entry := Obj(Extend(FieldsOf(FM.Slot(cache, key)), entries));
      fragments := fragments[name := cache[key := entry]];
      return Ok(entry);
    }

    /** The branch of `touch` without an id, with the metadata's own entries. */
    method TouchPath(d: FM.CacheDescriptor, entries: Fields) returns (r: Result<Value>)
      requires Valid() && !Truthy(d.id)
      modifies this
      ensures Valid()
      ensures (State(), r) == TouchSpec(old(State()), d, Obj(entries))
    {
      var _ := GetFragment(FM.PrimaryKey(d));
      var key := ToKey(d.path);
      var entry := Obj(Extend(FieldsOf(Get(queries, key)), entries));
      MergedWellFormed(entry, key, queries);
      queries := Set(queries, key, entry);
      return Ok(entry);
    }

    /** `update(descriptor, action, response, status)` with `Date.now()` given as `now`. */
    method Update(d: FM.CacheDescriptor, action: Value, response: Value, status: Value, now: int) returns (r: Result<Value>)
      requires Valid()
      modifies this
      ensures Valid()
      ensures (State(), r) == UpdateSpec(old(State()), d, action, response, status, now)
    {
      if Truthy(d.id) {
        r := UpdateId(d, action, response, status, now);
      } else {
        r := UpdatePath(d, action, response, status, now);
      }
    }

    /** The id branch of `update`. */
    method UpdateId(d: FM.CacheDescriptor, action: Value, response: Value, status: Value, now: int) returns (r: Result<Value>)
      requires Valid() && Truthy(d.id)
      modifies this
      ensures Valid()
      ensures (State(), r) == UpdateSpec(old(State()), d, action, response, status, now)
    {
      if IsAction(action, ACTION_DELETE) {
        assert action == Str(ACTION_DELETE);
        r := DeleteId(d, response, status, now);
        return;
      }
      var name := FM.PrimaryKey(d);
      var cache := GetFragment(name);
      ghost var st := State();
      assert UpdateSpec(old(State()), d, action, response, status, now) == UpdateById(st, d, action, response, status, now);
      var key := ToKey(d.id);
      if IsAction(action, ACTION_FETCH) {
        fragments := fragments[name := cache[key := FM.EntityEntry(status, now, response)]];
        return Ok(FM.EntityEntry(status, now, response));
      }
      return Ok(Obj(FM.Meta(status, now)));
    }

    /** `update(descriptor, "DELETE", response, status)` with an id: the slot becomes a tombstone and the id leaves the query lists. */
    method DeleteId(d: FM.CacheDescriptor, response: Value, status: Value, now: int) returns (r: Result<Value>)
      requires Valid() && Truthy(d.id)
      modifies this
      ensures Valid()
      ensures (State(), r) == UpdateSpec(old(State()), d, Str(ACTION_DELETE), response, status, now)
    {
      var name := FM.PrimaryKey(d);
      var cache := GetFragment(name);
      ghost var st := State();
      assert !IsAction(Str(ACTION_DELETE), ACTION_FETCH) && IsAction(Str(ACTION_DELETE), ACTION_DELETE);
      assert UpdateSpec(old(State()), d, Str(ACTION_DELETE), response, status, now) ==
        UpdateById(st, d, Str(ACTION_DELETE), response, status, now);
      var key := ToKey(d.id);
      var q, err;
      FM.StripQueriesWellFormed(queries, d.id);
      q, err := FM.StripEach(queries, d.id);
      FM.SlotWellFormed(fragments, name, key, Undefined);
      fragments := fragments[name := cache[key := Undefined]];
      queries := q;
      assert State() == FM.CacheState(st.fragments[name := st.fragments[name][key := Undefined]], FM.StripQueries(st.queries, d.id).0);
      if err.Some? {
        return Err(err.value);
      }
      return Ok(Obj(FM.Meta(status, now)));
    }

    /** The branch of `update` without an id. */
    method UpdatePath(d: FM.CacheDescriptor, action: Value, response: Value, status: Value, now: int) returns (r: Result<Value>)
      requires Valid() && !Truthy(d.id)
      modifies this
      ensures Valid()
      ensures (State(), r) == UpdateSpec(old(State()), d, action, response, status, now)
    {
      if IsAction(action, ACTION_FETCH) {
        assert action == Str(ACTION_FETCH);
        r := UpdateQuery(d, response, status, now);
        return;
      }
      var _ := GetFragment(FM.PrimaryKey(d));
      ghost var st := State();
      assert UpdateSpec(old(State()), d, action, response, status, now) == UpdateByPath(st, d, action, response, status, now);
      if IsAction(action, ACTION_SAVE) || IsAction(action, ACTION_DELETE) {
        var entry := FM.EntityEntry(status, now, if IsAction(action, ACTION_SAVE) then response else Null);
        assert UpdateByPath(st, d, action, response, status, now) == (st.(queries := Set(queries, ToKey(d.path), entry)), Ok(entry));
        MergedWellFormed(entry, ToKey(d.path), queries);
        queries := Set(queries, ToKey(d.path), entry);
        return Ok(entry);
      }
      return Ok(Obj(FM.Meta(status, now)));
    }

    /** `update(descriptor, "GET", response, status)` without an id: the query entry, after storing each item of an array. */
    method UpdateQuery(d: FM.CacheDescriptor, response: Value, status: Value, now: int) returns (r: Result<Value>)
      requires Valid() && !Truthy(d.id)
      modifies this
      ensures Valid()
      ensures (State(), r) == UpdateSpec(old(State()), d, Str(ACTION_FETCH), response, status, now)
    {
      var name := FM.PrimaryKey(d);
      var _ := GetFragment(name);
      var qdata := response;
      if response.Arr? {
        var cache := fragments[name];
        var c, ids := FM.StoreEach(cache, response.items, status, now);
        FM.StoreItemsWellFormed(cache, response.items, status, now);
        fragments := fragments[name := c];
        if ids.Err? {
          return Err(ids.failure);
        }
        qdata := Arr(ids.value);
      }
      if Truthy(d.path) {
        var entry := FM.QueryEntry(status, now, qdata, d.partial);
        MergedWellFormed(entry, ToKey(d.path), queries);
        queries := Set(queries, ToKey(d.path), entry);
        return Ok(entry);
      }
      return Ok(Obj(FM.Meta(status, now)));
    }
  }
}

=== FILE: legacy_fragment_map_props.dfy ===
/**
 * What `src/FragmentMap.js` promises, proved about the specification
 * functions its cache object is verified against, and where it differs from
 * the newer cache.
 */
module LegacyFragmentMapProperties {
  import opened Values
  import opened Constants
  import FM = FragmentMap
  import opened LegacyFragmentMap
  import P = FragmentMapProperties

  /* ----- fetch ----- */

  /** By id, the older cache composes exactly as the newer one does. */
  lemma FetchByIdAgrees(st: CacheState, d: FM.CacheDescriptor)
    requires Truthy(d.id)
    ensures FetchSpec(st, d) == FM.FetchSpec(st, d)
  {
  }

  /**
   * A lookup with no slot data in any consulted fragment, or with no query
   * entry, is the stale miss `{status: "stale", timestamp: -1}` without data.
   */
  lemma FetchMisses(st: CacheState, d: FM.CacheDescriptor)
    ensures (Truthy(d.id) && !Truthy(FM.Lookup(st.fragments, FM.PrimaryKey(d), ToKey(d.id))) &&
      FM.Contributions(st.fragments, FM.Fallbacks(d.fragments), ToKey(d.id)) == []) ==> FetchSpec(st, d) == Ok(FM.Miss)
    ensures !Truthy(d.id) && !Truthy(Get(st.queries, ToKey(d.path))) ==> FetchSpec(st, d) == Ok(FM.Miss)
  {
    P.FetchMisses(st, d);
  }

  /**
   * Without an id, the query entry is read whatever the path is: a falsy
   * path is used as the key it converts to, where the newer cache misses.
   */
  lemma FetchUncheckedPath(st: CacheState, d: FM.CacheDescriptor)
    requires !Truthy(d.id) && !Truthy(d.path)
    requires var q := Get(st.queries, ToKey(d.path)); Truthy(q) && !Prop(q, "data").Arr?
    ensures var q := Get(st.queries, ToKey(d.path));
      FetchSpec(st, d) == Ok(FM.FetchResult(Prop(q, "status"), Prop(q, "timestamp"), Some(Prop(q, "data"))))
    ensures FM.FetchSpec(st, d) == Ok(FM.Miss)
  {
  }

  /**
   * Without an id: array data is dereferenced in list order, failing with a
   * TypeError on an id without a live slot; any other data, a scalar id
   * included, is returned as it is.
   */
  lemma FetchByPathCases(st: CacheState, d: FM.CacheDescriptor)
    requires !Truthy(d.id) && Truthy(Get(st.queries, ToKey(d.path)))
    ensures var q := Get(st.queries, ToKey(d.path));
      var data := Prop(q, "data");
      var cache := FM.CacheOf(st.fragments, FM.PrimaryKey(d));
      (!data.Arr? ==> FetchSpec(st, d) == Ok(FM.FetchResult(Prop(q, "status"), Prop(q, "timestamp"), Some(data)))) &&
      (data.Arr? && (forall i :: 0 <= i < |data.items| ==> Truthy(FM.Slot(cache, ToKey(data.items[i])))) ==>
        FetchSpec(st, d).Ok? && FetchSpec(st, d).value.data.Some? &&
        FetchSpec(st, d).value.data.value.Arr? &&
        |FetchSpec(st, d).value.data.value.items| == |data.items| &&
        (forall i :: 0 <= i < |data.items| ==>
          FetchSpec(st, d).value.data.value.items[i] == Prop(FM.Slot(cache, ToKey(data.items[i])), "data"))) &&
      (data.Arr? && (exists i :: 0 <= i < |data.items| && !Truthy(FM.Slot(cache, ToKey(data.items[i])))) ==>
        FetchSpec(st, d).Err? && FetchSpec(st, d).failure.TypeError?)
  {
    var q := Get(st.queries, ToKey(d.path));
    var data := Prop(q, "data");
    var cache := FM.CacheOf(st.fragments, FM.PrimaryKey(d));
    if data.Arr? {
      if forall i :: 0 <= i < |data.items| ==> Truthy(FM.Slot(cache, ToKey(data.items[i]))) {
        P.DerefAllLive(cache, data.items);
      } else {
        var j :| 0 <= j < |data.items| && !Truthy(FM.Slot(cache, ToKey(data.items[j])));
        P.DerefAllMissing(cache, data.items, j);
      }
    }
  }

  /* ----- touch ----- */

  /**
   * `touch` has no guard: any metadata that is not null or undefined is
   * merged into the slot (with an id) or into `queries[path]`, creating the
   * entry when absent, and the merged entry is returned. Metadata keys take
   * the new values, every other key is kept.
   */
  lemma TouchMerges(st: CacheState, d: FM.CacheDescriptor, touch: Value, k: string)
    requires touch.Obj? && UniqueKeys(touch.fields)
    ensures var (st', r) := TouchSpec(st, d, touch);
      var old_entry := if Truthy(d.id) then FM.Lookup(st.fragments, FM.PrimaryKey(d), ToKey(d.id))
                       else Get(st.queries, ToKey(d.path));
      var new_entry := if Truthy(d.id) then FM.Lookup(st'.fragments, FM.PrimaryKey(d), ToKey(d.id))
                       else Get(st'.queries, ToKey(d.path));
      r == Ok(new_entry) && new_entry.Obj? &&
      Get(new_entry.fields, k) == (if HasKey(touch.fields, k) then Get(touch.fields, k) else Get(FieldsOf(old_entry), k))
  {
    if Truthy(d.id) {
      GetExtend(FieldsOf(FM.Lookup(st.fragments, FM.PrimaryKey(d), ToKey(d.id))), touch.fields, k);
    } else {
      var entry := Obj(Extend(FieldsOf(Get(st.queries, ToKey(d.path))), touch.fields));
      GetSet(st.queries, ToKey(d.path), entry, ToKey(d.path));
      GetExtend(FieldsOf(Get(st.queries, ToKey(d.path))), touch.fields, k);
    }
  }

  /**
   * Falsy metadata other than null and undefined still writes: the entry is
   * created (as an empty object when absent) where the newer cache changes
   * nothing; null or undefined metadata throws a TypeError and writes nothing.
   */
  lemma TouchUnguarded(st: CacheState, d: FM.CacheDescriptor, touch: Value)
    requires !Truthy(d.id)
    ensures touch == Bool(false) && !HasKey(st.queries, ToKey(d.path)) ==>
      Get(TouchSpec(st, d, touch).0.queries, ToKey(d.path)) == Obj([]) &&
      FM.TouchSpec(st, d, touch).queries == st.queries
    ensures touch.Undefined? || touch.Null? ==>
      TouchSpec(st, d, touch).1.Err? && TouchSpec(st, d, touch).1.failure.TypeError? &&
      TouchSpec(st, d, touch).0.queries == st.queries
  {
    if touch == Bool(false) && !HasKey(st.queries, ToKey(d.path)) {
      GetSet(st.queries, ToKey(d.path), Obj([]), ToKey(d.path));
    }
  }

  /* ----- update ----- */

  /** `update(id, "GET")` overwrites the slot with `{status, timestamp, data}`, which a `fetch` then returns. */
  lemma UpdateGetById(st: CacheState, d: FM.CacheDescriptor, response: Value, status: Value, now: int)
    requires Truthy(d.id)
    ensures var (st', r) := UpdateSpec(st, d, Str(ACTION_FETCH), response, status, now);
      r == Ok(FM.EntityEntry(status, now, response)) &&
      FM.Lookup(st'.fragments, FM.PrimaryKey(d), ToKey(d.id)) == FM.EntityEntry(status, now, response) &&
      st'.queries == st.queries &&
      (Truthy(response) ==> FetchSpec(st', d) == Ok(FM.FetchResult(status, Num(now), Some(response))))
  {
    P.EntryFields(status, now, response, Undefined);
  }

  /**
   * `update(id, "DELETE")` tombstones the slot whether or not it was live, and
   * splices the id's first occurrence out of every array-valued query.
   */
  lemma UpdateDeleteById(st: CacheState, d: FM.CacheDescriptor, response: Value, status: Value, now: int)
    requires Truthy(d.id)
    requires forall q :: q in st.queries ==> !FM.Throws(q.1)
    ensures var (st', r) := UpdateSpec(st, d, Str(ACTION_DELETE), response, status, now);
      r == Ok(Obj(FM.Meta(status, now))) &&
      ToKey(d.id) in st'.fragments[FM.PrimaryKey(d)] &&
      FM.Lookup(st'.fragments, FM.PrimaryKey(d), ToKey(d.id)) == Undefined &&
      st'.queries == FM.StripAll(st.queries, d.id)
  {
    assert FM.FirstTombstone(st.queries) == None by {
      assert forall m :: 0 <= m < |st.queries| ==> st.queries[m] in st.queries;
    }
  }

  /** `update(id, "SAVE")` writes nothing: it only creates the descriptor's fragment if missing. */
  lemma UpdateSaveById(st: CacheState, d: FM.CacheDescriptor, response: Value, status: Value, now: int, n: string, key: string)
    requires Truthy(d.id)
    ensures var (st', r) := UpdateSpec(st, d, Str(ACTION_SAVE), response, status, now);
      r == Ok(Obj(FM.Meta(status, now))) && st'.queries == st.queries &&
      FM.Lookup(st'.fragments, n, key) == FM.Lookup(st.fragments, n, key)
  {
  }

  /**
   * `update(no id, "GET")` of a collection stores each element under its id
   * and sets the query to the id list with `descriptor.partial` as given (no
   * default to "full").
   */
  lemma UpdateGetCollection(st: CacheState, d: FM.CacheDescriptor, items: seq<Value>, status: Value, now: int)
    requires !Truthy(d.id) && Truthy(d.path)
    requires P.AllPlain(items) && P.DistinctIds(items)
    ensures var (st', r) := UpdateSpec(st, d, Str(ACTION_FETCH), Arr(items), status, now);
      var ids := Arr(seq(|items|, i requires 0 <= i < |items| => Prop(items[i], "id")));
      r == Ok(FM.QueryEntry(status, now, ids, d.partial)) &&
      Get(st'.queries, ToKey(d.path)) == FM.QueryEntry(status, now, ids, d.partial) &&
      (forall i :: 0 <= i < |items| ==>
        FM.Lookup(st'.fragments, FM.PrimaryKey(d), ToKey(Prop(items[i], "id"))) == FM.EntityEntry(status, now, items[i]))
  {
    var name := FM.PrimaryKey(d);
    var frags := FM.WithFragment(st.fragments, name);
    P.StoreItemsStores(frags[name], items, status, now, "");
    var c := FM.StoreItems(frags[name], items, status, now).0;
    var ids := FM.StoreItems(frags[name], items, status, now).1.value;
    assert ids == seq(|items|, i requires 0 <= i < |items| => Prop(items[i], "id"));
    var entry := FM.QueryEntry(status, now, Arr(ids), d.partial);
    var st' := FM.CacheState(frags[name := c], Set(st.queries, ToKey(d.path), entry));
    assert UpdateSpec(st, d, Str(ACTION_FETCH), Arr(items), status, now) == (st', Ok(entry));
    GetSet(st.queries, ToKey(d.path), entry, ToKey(d.path));
  }

  /** A collection element that is not a plain object makes `update(no id, "GET")` throw a TypeError. */
  lemma UpdateGetCollectionRejects(st: CacheState, d: FM.CacheDescriptor, items: seq<Value>, status: Value, now: int, j: nat)
    requires !Truthy(d.id) && j < |items| && !IsPlainObject(items[j])
    ensures var (st', r) := UpdateSpec(st, d, Str(ACTION_FETCH), Arr(items), status, now);
      r.Err? && r.failure.TypeError? && st'.queries == st.queries
  {
    var name := FM.PrimaryKey(d);
    P.StoreItemsRejects(FM.WithFragment(st.fragments, name)[name], items, status, now, j);
  }

  /** Without an id, `"SAVE"` stores the response as the query data, whatever the path is. */
  lemma UpdateSaveQuery(st: CacheState, d: FM.CacheDescriptor, response: Value, status: Value, now: int, p: string)
    requires !Truthy(d.id)
    ensures var (st', r) := UpdateSpec(st, d, Str(ACTION_SAVE), response, status, now);
      r == Ok(FM.EntityEntry(status, now, response)) &&
      Get(st'.queries, ToKey(d.path)) == FM.EntityEntry(status, now, response) &&
      (p != ToKey(d.path) ==> Get(st'.queries, p) == Get(st.queries, p))
  {
    var entry := FM.EntityEntry(status, now, response);
    var frags := FM.WithFragment(st.fragments, FM.PrimaryKey(d));
    assert UpdateSpec(st, d, Str(ACTION_SAVE), response, status, now)
      == (FM.CacheState(frags, Set(st.queries, ToKey(d.path), entry)), Ok(entry));
    GetSet(st.queries, ToKey(d.path), entry, ToKey(d.path));
    GetSet(st.queries, ToKey(d.path), entry, p);
  }

  /** Without an id, `"DELETE"` sets the query data to `null`: the entry is kept, not tombstoned. */
  lemma UpdateDeleteQuery(st: CacheState, d: FM.CacheDescriptor, response: Value, status: Value, now: int, p: string)
    requires !Truthy(d.id)
    ensures var (st', r) := UpdateSpec(st, d, Str(ACTION_DELETE), response, status, now);
      var q := Get(st'.queries, ToKey(d.path));
      r == Ok(q) && Truthy(q) && Prop(q, "data") == Null &&
      (p != ToKey(d.path) ==> Get(st'.queries, p) == Get(st.queries, p))
  {
    var entry := FM.EntityEntry(status, now, Null);
    var frags := FM.WithFragment(st.fragments, FM.PrimaryKey(d));
    assert UpdateSpec(st, d, Str(ACTION_DELETE), response, status, now)
      == (FM.CacheState(frags, Set(st.queries, ToKey(d.path), entry)), Ok(entry));
    GetSet(st.queries, ToKey(d.path), entry, ToKey(d.path));
    GetSet(st.queries, ToKey(d.path), entry, p);
    P.EntryFields(status, now, Null, Undefined);
  }
}

=== FILE: legacy_mixin_resolvable.dfy ===
/**
 * The older resolvable mixin of `src/MixinResolvable.js`, whose
 * `unfoldStack` rewrites the array it is given in place.
 *
 * Nodes live in the same arena as in `MixinResolvable`. The loop examines
 * `stack[i].__definition`:
 *  - an entry without a definition stays where it is;
 *  - an array definition is removed and its items inserted at its place, a
 *    resolvable item as its unfolded `resolve()`; the loop then continues
 *    after the inserted items;
 *  - a resolvable definition is replaced by its unfolded `resolve()`, but
 *    the index is not adjusted: the loop continues at the second inserted
 *    item, rescanning the rest of the substack, and an empty substack makes
 *    it step over the entry that slid into place.
 *
 * `Scan` specifies that loop compositionally: `Head` is what examining one
 * entry produces and `Continue` carries on after it. A `Run` records the
 * entries that are final, whether the loop has stepped one entry beyond
 * what it was given (`carry`), the number of iterations, and the failure
 * that stopped it, if any.
 */
module LegacyResolvable {
  import opened Values
  import opened MixinResolvable

  datatype Run = Run(out: seq<Value>, carry: bool, steps: nat, failure: Option<Failure>)

  /** A failed run keeps no entries and does not step beyond its input. */
  predicate Canonical(r: Run)
  {
    r.failure.Some? ==> r.out == [] && !r.carry
  }

  /**
   * A resolvable inside a stack whose chain ends at a node with an invoker:
   * its `resolve()` returns what the invoker returns, which is not an array.
   */
  const InvokerInStack: Failure := Error("resolve() inside a stack returned an invoker result")

  /** `n` more iterations whose final entries `p` come before those of `r`. */
  function Shift(p: seq<Value>, n: nat, r: Run): (s: Run)
  {
    if r.failure.Some? then Run([], false, n + r.steps, r.failure)
    else Run(p + r.out, r.carry, n + r.steps, None)
  }

  lemma ShiftBelow(nodes: Arena, p: seq<Value>, n: nat, r: Run, b: nat, bound: nat)
    requires AllBelow(nodes, p, bound) && b <= bound && Canonical(r)
    requires r.failure.None? ==> AllBelow(nodes, r.out, b)
    ensures Canonical(Shift(p, n, r))
    ensures Shift(p, n, r).failure.None? ==> AllBelow(nodes, Shift(p, n, r).out, bound)
  {
    if r.failure.None? {
      AllBelowMono(nodes, r.out, b, bound);
      AllBelowConcat(nodes, p, r.out, bound);
    }
  }

  /** `unfoldStack(x.resolve())` for node `a` met inside a stack. */
  function Substack(nodes: Arena, a: nat, bound: nat): (r: Result<seq<Value>>)
    requires WellFormed(nodes) && a < |nodes| && a < bound
    ensures r.Ok? ==> AllBelow(nodes, r.value, a)
    decreases a, 4, 0, 0
  {
    match Ascend(nodes, a, [], a)
    case Err(f) => Err(f)
    case Ok(Invoked(_, _)) => Err(InvokerInStack)
    case Ok(Returned(stack)) =>
      var run := Scan(nodes, stack, a);
      if run.failure.Some? then Err(run.failure.value) else Ok(run.out)
  }

  /** What one item of an array definition is inserted as. */
  function ItemExpansion(nodes: Arena, item: Value, bound: nat): (r: Result<seq<Value>>)
    requires WellFormed(nodes) && RefsBelow(nodes, item, bound)
    ensures r.Ok? ==> AllBelow(nodes, r.value, bound)
    decreases bound, 0, 0, 0
  {
    if Nullish(item) then Err(CannotRead("resolve", item))
    else if IsNode(nodes, item) then
      var r := Substack(nodes, item.addr, bound);
      if r.Ok? then AllBelowMono(nodes, r.value, item.addr, bound); r else r
    else Ok([item])
  }

  /** The items an array definition is replaced with, or the first failure among them. */
  function ExpandItems(nodes: Arena, items: seq<Value>, bound: nat): (r: Result<seq<Value>>)
    requires WellFormed(nodes) && AllBelow(nodes, items, bound)
    ensures r.Ok? ==> AllBelow(nodes, r.value, bound)
    decreases bound, 0, |items|, 1
  {
    if items == [] then Ok([])
    else
      var n := |items| - 1;
      assert AllBelow(nodes, items[..n], bound) by {
        assert forall i :: 0 <= i < n ==> items[..n][i] == items[i];
      }
      match ExpandItems(nodes, items[..n], bound)
      case Err(f) => Err(f)
      case Ok(p) =>
        match ItemExpansion(nodes, items[n], bound)
        case Err(f) => Err(f)
        case Ok(q) => AllBelowConcat(nodes, p, q, bound); Ok(p + q)
  }

  /** A failure among the first `n` items is the failure of all of them. */
  lemma {:induction false} ExpandItemsErr(nodes: Arena, items: seq<Value>, n: nat, bound: nat)
    requires WellFormed(nodes) && AllBelow(nodes, items, bound) && n <= |items|
    requires AllBelow(nodes, items[..n], bound)
    requires ExpandItems(nodes, items[..n], bound).Err?
    ensures ExpandItems(nodes, items, bound) == ExpandItems(nodes, items[..n], bound)
    decreases |items| - n
  {
    if n < |items| {
      var m := |items| - 1;
      assert AllBelow(nodes, items[..m], bound) by {
        assert forall k :: 0 <= k < m ==> items[..m][k] == items[k];
      }
      assert items[..m][..n] == items[..n];
      ExpandItemsErr(nodes, items[..m], n, bound);
    } else {
      assert items[..n] == items;
    }
  }

  /** Examining one entry: a one-iteration run, with whatever rescanning it causes. */
  function Head(nodes: Arena, e: Value, bound: nat): (r: Run)
    requires WellFormed(nodes) && RefsBelow(nodes, e, bound)
    ensures Canonical(r) && r.steps >= 1
    ensures r.failure.None? ==> AllBelow(nodes, r.out, bound)
    decreases bound, 1, 0, 0
  {
    if Nullish(e) then Run([], false, 1, Some(CannotRead("__definition", e)))
    else
      var def := Prop(e, "__definition");
      DefinitionBelowProp(nodes, e, bound);
      if !Truthy(def) then Run([e], false, 1, None)
      else if def.Arr? then
        match ExpandItems(nodes, def.items, bound)
        case Err(f) => Run([], false, 1, Some(f))
        case Ok(inserted) => Run(inserted, false, 1, None)
      else if IsNode(nodes, def) then
        match Substack(nodes, def.addr, bound)
        case Err(f) => Run([], false, 1, Some(f))
        case Ok(sub) =>
          if sub == [] then Run([], true, 1, None)
          else
            assert AllBelow(nodes, sub[1..], def.addr) by {
              assert forall i :: 0 <= i < |sub| - 1 ==> sub[1..][i] == sub[i + 1];
            }
            var rest := Scan(nodes, sub[1..], def.addr);
            AllBelowMono(nodes, sub, def.addr, bound);
            ShiftBelow(nodes, [sub[0]], 1, rest, def.addr, bound);
            Shift([sub[0]], 1, rest)
      else Run([e], false, 1, None)
  }

  /** The loop run over `s`, from its first entry. */
  function Scan(nodes: Arena, s: seq<Value>, bound: nat): (r: Run)
    requires WellFormed(nodes) && AllBelow(nodes, s, bound)
    ensures Canonical(r) && (s != [] ==> r.steps >= 1)
    ensures r.failure.None? ==> AllBelow(nodes, r.out, bound)
    decreases bound, 2, |s|, 0
  {
    if s == [] then Run([], false, 0, None)
    else
      assert AllBelow(nodes, s[1..], bound) by {
        assert forall i :: 0 <= i < |s| - 1 ==> s[1..][i] == s[i + 1];
      }
      Continue(nodes, Head(nodes, s[0], bound), s[1..], bound)
  }

  /** The loop carrying on over `t` after the run `h`; a carry steps over `t[0]`. */
  function Continue(nodes: Arena, h: Run, t: seq<Value>, bound: nat): (r: Run)
    requires WellFormed(nodes) && AllBelow(nodes, t, bound) && Canonical(h)
    requires h.failure.None? ==> AllBelow(nodes, h.out, bound)
    ensures Canonical(r) && r.steps >= h.steps
    ensures r.failure.None? ==> AllBelow(nodes, r.out, bound)
    decreases bound, 2, |t|, 1
  {
    if h.failure.Some? then h
    else if h.carry then
      if t == [] then h
      else
        assert AllBelow(nodes, t[1..], bound) by {
          assert forall i :: 0 <= i < |t| - 1 ==> t[1..][i] == t[i + 1];
        }
        var rest := Scan(nodes, t[1..], bound);
        AllBelowConcat(nodes, h.out, [t[0]], bound);
        ShiftBelow(nodes, h.out + [t[0]], h.steps, rest, bound, bound);
        Shift(h.out + [t[0]], h.steps, rest)
    else
      var rest := Scan(nodes, t, bound);
      ShiftBelow(nodes, h.out, h.steps, rest, bound, bound);
      Shift(h.out, h.steps, rest)
  }

  /** `unfoldStack(stack)`: the rewritten stack, or the TypeError it throws. */
  function Unfolded(nodes: Arena, s: seq<Value>, bound: nat): Result<seq<Value>>
    requires WellFormed(nodes) && AllBelow(nodes, s, bound)
  {
    var run := Scan(nodes, s, bound);
    if run.failure.Some? then Err(run.failure.value) else Ok(run.out)
  }

  /**
   * `resolve(stack)` on node `a`: prepend the node's `getResolvable()`, defer
   * to the parent; the root unfolds the stack in place and calls its invoker
   * if it has one.
   */
  function Ascend(nodes: Arena, a: nat, s: seq<Value>, bound: nat): (r: Result<Outcome>)
    requires WellFormed(nodes) && a < |nodes| && a <= bound && AllBelow(nodes, s, bound)
    ensures r.Ok? ==> AllBelow(nodes, r.value.stack, bound)
    decreases bound, 3, a, 0
  {
    var x := nodes[a].resolvable;
    StackBelowMono(nodes, x, a, bound);
    PrependBelow(nodes, x, s, bound);
    var s' := Prepend(x, s);
    match nodes[a].parent
    case Some(p) => Ascend(nodes, p, s', bound)
    case None =>
      var run := Scan(nodes, s', bound);
      if run.failure.Some? then Err(run.failure.value)
      else if nodes[a].invoker then Ok(Invoked(a, run.out))
      else Ok(Returned(run.out))
  }

  /** `node.resolve(arg)` for node `a` of the arena. */
  function ResolveFrom(nodes: Arena, a: nat, arg: Value): Result<Outcome>
    requires WellFormed(nodes) && a < |nodes|
  {
    var s := StackArg(arg);
    assert AllBelow(nodes, s, |nodes|) by {
      forall i | 0 <= i < |s|
        ensures RefsBelow(nodes, s[i], |nodes|)
      {
        RefsBelowArena(nodes, s[i]);
      }
    }
    Ascend(nodes, a, s, |nodes|)
  }

  /* ----- the loop run, rearranged ----- */

  /** The bound only serves termination: any bound above the stack's references gives the same run. */
  lemma {:induction false} ScanBound(nodes: Arena, s: seq<Value>, b1: nat, b2: nat)
    requires WellFormed(nodes) && AllBelow(nodes, s, b1) && b1 <= b2
    ensures AllBelow(nodes, s, b2)
    ensures Scan(nodes, s, b1) == Scan(nodes, s, b2)
    decreases |s|, 0
  {
    AllBelowMono(nodes, s, b1, b2);
    if s != [] {
      assert AllBelow(nodes, s[1..], b1) by {
        assert forall i :: 0 <= i < |s| - 1 ==> s[1..][i] == s[i + 1];
      }
      HeadBound(nodes, s[0], b1, b2);
      ContinueBound(nodes, Head(nodes, s[0], b1), s[1..], b1, b2);
    }
  }

  lemma {:induction false} ContinueBound(nodes: Arena, h: Run, t: seq<Value>, b1: nat, b2: nat)
    requires WellFormed(nodes) && AllBelow(nodes, t, b1) && b1 <= b2 && Canonical(h)
    requires h.failure.None? ==> AllBelow(nodes, h.out, b1)
    ensures AllBelow(nodes, t, b2) && (h.failure.None? ==> AllBelow(nodes, h.out, b2))
    ensures Continue(nodes, h, t, b1) == Continue(nodes, h, t, b2)
    decreases |t|, 1
  {
    AllBelowMono(nodes, t, b1, b2);
    if h.failure.None? {
      AllBelowMono(nodes, h.out, b1, b2);
      if h.carry {
        if t != [] {
          assert AllBelow(nodes, t[1..], b1) by {
            assert forall i :: 0 <= i < |t| - 1 ==> t[1..][i] == t[i + 1];
          }
          ScanBound(nodes, t[1..], b1, b2);
        }
      } else {
        ScanBound(nodes, t, b1, b2);
      }
    }
  }

  lemma {:induction false} ExpandItemsBound(nodes: Arena, items: seq<Value>, b1: nat, b2: nat)
    requires WellFormed(nodes) && AllBelow(nodes, items, b1) && b1 <= b2
    ensures AllBelow(nodes, items, b2)
    ensures ExpandItems(nodes, items, b1) == ExpandItems(nodes, items, b2)
    decreases |items|
  {
    AllBelowMono(nodes, items, b1, b2);
    if items != [] {
      var n := |items| - 1;
      assert AllBelow(nodes, items[..n], b1) by {
        assert forall i :: 0 <= i < n ==> items[..n][i] == items[i];
      }
      ExpandItemsBound(nodes, items[..n], b1, b2);
      assert ItemExpansion(nodes, items[n], b1) == ItemExpansion(nodes, items[n], b2);
    }
  }

  lemma HeadBound(nodes: Arena, e: Value, b1: nat, b2: nat)
    requires WellFormed(nodes) && RefsBelow(nodes, e, b1) && b1 <= b2
    ensures RefsBelow(nodes, e, b2)
    ensures Head(nodes, e, b1) == Head(nodes, e, b2)
  {
    RefsBelowMono(nodes, e, b1, b2);
    if !Nullish(e) {
      var def := Prop(e, "__definition");
      DefinitionBelowProp(nodes, e, b1);
      if Truthy(def) && def.Arr? {
        ExpandItemsBound(nodes, def.items, b1, b2);
      }
    }
  }

  /** Prefixes compose. */
  lemma ShiftShift(p: seq<Value>, n: nat, q: seq<Value>, m: nat, r: Run)
    ensures Shift(p, n, Shift(q, m, r)) == Shift(p + q, n + m, r)
  {
    if r.failure.None? {
      assert p + (q + r.out) == p + q + r.out;
    }
  }

  lemma ContinueShift(nodes: Arena, p: seq<Value>, n: nat, r: Run, t: seq<Value>, bound: nat)
    requires WellFormed(nodes) && AllBelow(nodes, t, bound) && Canonical(r)
    requires r.failure.None? ==> AllBelow(nodes, p, bound) && AllBelow(nodes, r.out, bound)
    ensures Canonical(Shift(p, n, r))
    ensures Shift(p, n, r).failure.None? ==> AllBelow(nodes, Shift(p, n, r).out, bound)
    ensures Continue(nodes, Shift(p, n, r), t, bound) == Shift(p, n, Continue(nodes, r, t, bound))
  {
    if r.failure.None? {
      AllBelowConcat(nodes, p, r.out, bound);
      if r.carry {
        if t != [] {
          assert AllBelow(nodes, t[1..], bound) by {
            assert forall i :: 0 <= i < |t| - 1 ==> t[1..][i] == t[i + 1];
          }
          ShiftShift(p, n, r.out + [t[0]], r.steps, Scan(nodes, t[1..], bound));
          assert p + r.out + [t[0]] == p + (r.out + [t[0]]);
        }
      } else {
        ShiftShift(p, n, r.out, r.steps, Scan(nodes, t, bound));
      }
    }
  }

  /** The loop over a concatenation is the loop over the first part, carried on over the second. */
  lemma {:induction false} ScanConcat(nodes: Arena, x: seq<Value>, y: seq<Value>, bound: nat)
    requires WellFormed(nodes) && AllBelow(nodes, x, bound) && AllBelow(nodes, y, bound)
    ensures AllBelow(nodes, x + y, bound)
    ensures Scan(nodes, x + y, bound) == Continue(nodes, Scan(nodes, x, bound), y, bound)
    decreases |x|, 0
  {
    AllBelowConcat(nodes, x, y, bound);
    if x == [] {
      assert x + y == y;
      var r := Scan(nodes, y, bound);
      assert Shift([], 0, r) == r by {
        if r.failure.None? {
          assert [] + r.out == r.out;
        }
      }
    } else {
      assert (x + y)[0] == x[0] && (x + y)[1..] == x[1..] + y;
      assert AllBelow(nodes, x[1..], bound) by {
        assert forall i :: 0 <= i < |x| - 1 ==> x[1..][i] == x[i + 1];
      }
      ContinueAssoc(nodes, Head(nodes, x[0], bound), x[1..], y, bound);
    }
  }

  lemma {:induction false} ContinueAssoc(nodes: Arena, h: Run, x: seq<Value>, y: seq<Value>, bound: nat)
    requires WellFormed(nodes) && AllBelow(nodes, x, bound) && AllBelow(nodes, y, bound) && Canonical(h)
    requires h.failure.None? ==> AllBelow(nodes, h.out, bound)
    ensures AllBelow(nodes, x + y, bound)
    ensures Continue(nodes, h, x + y, bound) == Continue(nodes, Continue(nodes, h, x, bound), y, bound)
    decreases |x|, 1
  {
    AllBelowConcat(nodes, x, y, bound);
    if h.failure.None? {
      if h.carry {
        if x == [] {
          assert x + y == y;
        } else {
          assert (x + y)[0] == x[0] && (x + y)[1..] == x[1..] + y;
          assert AllBelow(nodes, x[1..], bound) by {
            assert forall i :: 0 <= i < |x| - 1 ==> x[1..][i] == x[i + 1];
          }
          ScanConcat(nodes, x[1..], y, bound);
          AllBelowConcat(nodes, h.out, [x[0]], bound);
          ContinueShift(nodes, h.out + [x[0]], h.steps, Scan(nodes, x[1..], bound), y, bound);
        }
      } else {
        ScanConcat(nodes, x, y, bound);
        ContinueShift(nodes, h.out, h.steps, Scan(nodes, x, bound), y, bound);
      }
    }
  }

  /* ----- one iteration, as a splice ----- */

  /** What the loop body splices in at position `i`, and how far it moves `i`. */
  datatype Splice = Splice(items: seq<Value>, advance: nat)

  function Replacement(nodes: Arena, e: Value, bound: nat): (r: Result<Splice>)
    requires WellFormed(nodes) && RefsBelow(nodes, e, bound)
    ensures r.Ok? ==> AllBelow(nodes, r.value.items, bound)
    ensures r.Ok? ==> r.value.advance <= |r.value.items| || r.value == Splice([], 1)
  {
    if Nullish(e) then Err(CannotRead("__definition", e))
    else
      var def := Prop(e, "__definition");
      DefinitionBelowProp(nodes, e, bound);
      if !Truthy(def) then Ok(Splice([e], 1))
      else if def.Arr? then
        match ExpandItems(nodes, def.items, bound)
        case Err(f) => Err(f)
        case Ok(inserted) => Ok(Splice(inserted, |inserted|))
      else if IsNode(nodes, def) then
        match Substack(nodes, def.addr, bound)
        case Err(f) => Err(f)
        case Ok(sub) => AllBelowMono(nodes, sub, def.addr, bound); Ok(Splice(sub, 1))
      else Ok(Splice([e], 1))
  }

  /**
   * One iteration in place: with `t` the stack from `e` on after the splice,
   * the entries the index moves over are final and the loop goes on from
   * there; an index moved beyond the end stops the loop with a carry.
   */
  lemma ScanSplice(nodes: Arena, e: Value, post: seq<Value>, bound: nat)
    requires WellFormed(nodes) && RefsBelow(nodes, e, bound) && AllBelow(nodes, post, bound)
    ensures AllBelow(nodes, [e] + post, bound)
    ensures Replacement(nodes, e, bound).Err? ==>
      Scan(nodes, [e] + post, bound) == Run([], false, 1, Some(Replacement(nodes, e, bound).failure))
    ensures Replacement(nodes, e, bound).Ok? ==>
      var sp := Replacement(nodes, e, bound).value;
      var t := sp.items + post;
      AllBelow(nodes, t, bound) &&
      Scan(nodes, [e] + post, bound) ==
        if sp.advance <= |t| then Shift(t[..sp.advance], 1, Scan(nodes, t[sp.advance..], bound))
        else Run([], true, 1, None)
  {
    AllBelowConcat(nodes, [e], post, bound);
    var s := [e] + post;
    assert s[0] == e && s[1..] == post;
    var h := Head(nodes, e, bound);
    assert Scan(nodes, s, bound) == Continue(nodes, h, post, bound);
    var rep := Replacement(nodes, e, bound);
    if rep.Ok? {
      var sp := rep.value;
      var t := sp.items + post;
      AllBelowConcat(nodes, sp.items, post, bound);
      if !Nullish(e) {
        var def := Prop(e, "__definition");
        DefinitionBelowProp(nodes, e, bound);
        if Truthy(def) && !def.Arr? && IsNode(nodes, def) {
          var sub := Substack(nodes, def.addr, bound).value;
          assert sp.items == sub;
          if sub == [] {
            assert t == post;
            if post != [] {
              assert t[..1] == [] + [post[0]];
            }
          } else {
            ScanSpliceResolved(nodes, e, post, bound);
            assert t[..1] == [sub[0]] && t[1..] == sub[1..] + post;
          }
        } else {
          assert t[..sp.advance] == sp.items && t[sp.advance..] == post;
        }
      }
    }
  }

  /** The resolvable-definition case of `ScanSplice`, when the substack is not empty. */
  lemma ScanSpliceResolved(nodes: Arena, e: Value, post: seq<Value>, bound: nat)
    requires WellFormed(nodes) && RefsBelow(nodes, e, bound) && AllBelow(nodes, post, bound)
    requires !Nullish(e) && Truthy(Prop(e, "__definition")) && !Prop(e, "__definition").Arr?
    requires IsNode(nodes, Prop(e, "__definition")) && Prop(e, "__definition").addr < bound
    requires Substack(nodes, Prop(e, "__definition").addr, bound).Ok?
    requires Substack(nodes, Prop(e, "__definition").addr, bound).value != []
    ensures var sub := Substack(nodes, Prop(e, "__definition").addr, bound).value;
      AllBelow(nodes, sub[1..] + post, bound) &&
      Continue(nodes, Head(nodes, e, bound), post, bound) == Shift([sub[0]], 1, Scan(nodes, sub[1..] + post, bound))
  {
    var a := Prop(e, "__definition").addr;
    var sub := Substack(nodes, a, bound).value;
    assert AllBelow(nodes, sub[1..], a) by {
      assert forall i :: 0 <= i < |sub| - 1 ==> sub[1..][i] == sub[i + 1];
    }
    assert Head(nodes, e, bound) == Shift([sub[0]], 1, Scan(nodes, sub[1..], a));
    ScanBound(nodes, sub[1..], a, bound);
    ScanConcat(nodes, sub[1..], post, bound);
    AllBelowMono(nodes, sub, a, bound);
    assert AllBelow(nodes, [sub[0]], bound);
    ContinueShift(nodes, [sub[0]], 1, Scan(nodes, sub[1..], bound), post, bound);
  }

  /**
   * One pass of the loop body, seen from the loop: the run still to come
   * after the splice is one iteration shorter, and together with the
   * entries now behind the index it is the same run as before.
   */
  lemma LoopStep(nodes: Arena, before: seq<Value>, i: nat, after: seq<Value>, done: nat, bound: nat)
    requires WellFormed(nodes) && AllBelow(nodes, before, bound) && i < |before|
    requires Replacement(nodes, before[i], bound).Ok? ==>
      after == before[..i] + Replacement(nodes, before[i], bound).value.items + before[i + 1..]
    ensures AllBelow(nodes, before[i..], bound)
    ensures Replacement(nodes, before[i], bound).Err? ==>
      Shift(before[..i], done, Scan(nodes, before[i..], bound)).failure == Some(Replacement(nodes, before[i], bound).failure)
    ensures Replacement(nodes, before[i], bound).Ok? ==>
      var j := i + Replacement(nodes, before[i], bound).value.advance;
      AllBelow(nodes, after, bound) && j <= |after| + 1 &&
      (j <= |after| ==>
        AllBelow(nodes, after[j..], bound) &&
        Scan(nodes, after[j..], bound).steps < Scan(nodes, before[i..], bound).steps &&
        Shift(before[..i], done, Scan(nodes, before[i..], bound)) == Shift(after[..j], done + 1, Scan(nodes, after[j..], bound))) &&
      (j > |after| ==> Shift(before[..i], done, Scan(nodes, before[i..], bound)) == Run(after, true, done + 1, None))
  {
    SliceAt(nodes, before, i, bound);
    if Replacement(nodes, before[i], bound).Ok? {
      LoopStepSpliced(nodes, before, i, after, done, bound);
    } else {
      ScanSplice(nodes, before[i], before[i + 1..], bound);
    }
  }

  /** `LoopStep` when the entry is replaced. */
  lemma LoopStepSpliced(nodes: Arena, before: seq<Value>, i: nat, after: seq<Value>, done: nat, bound: nat)
    requires WellFormed(nodes) && AllBelow(nodes, before, bound) && i < |before|
    requires Replacement(nodes, before[i], bound).Ok?
    requires after == before[..i] + Replacement(nodes, before[i], bound).value.items + before[i + 1..]
    ensures var j := i + Replacement(nodes, before[i], bound).value.advance;
      AllBelow(nodes, before[i..], bound) && AllBelow(nodes, after, bound) && j <= |after| + 1 &&
      (j <= |after| ==>
        AllBelow(nodes, after[j..], bound) &&
        Scan(nodes, after[j..], bound).steps < Scan(nodes, before[i..], bound).steps &&
        Shift(before[..i], done, Scan(nodes, before[i..], bound)) == Shift(after[..j], done + 1, Scan(nodes, after[j..], bound))) &&
      (j > |after| ==> Shift(before[..i], done, Scan(nodes, before[i..], bound)) == Run(after, true, done + 1, None))
  {
    SliceAt(nodes, before, i, bound);
    SplicedRun(nodes, before, i, bound);
    var rep := Replacement(nodes, before[i], bound).value;
    var pre, t := before[..i], rep.items + before[i + 1..];
    Regroup(pre, rep.items, before[i + 1..], after);
    SpliceShift(nodes, pre, t, after, rep.advance, i + rep.advance, done, Scan(nodes, before[i..], bound), bound);
  }

  /** `ScanSplice` at index `i` of a stack. */
  lemma SplicedRun(nodes: Arena, before: seq<Value>, i: nat, bound: nat)
    requires WellFormed(nodes) && AllBelow(nodes, before, bound) && i < |before|
    requires Replacement(nodes, before[i], bound).Ok?
    ensures AllBelow(nodes, before[i..], bound)
    ensures var sp := Replacement(nodes, before[i], bound).value;
      var t := sp.items + before[i + 1..];
      AllBelow(nodes, t, bound) &&
      (sp.advance <= |t| ==> Scan(nodes, before[i..], bound) == Shift(t[..sp.advance], 1, Scan(nodes, t[sp.advance..], bound))) &&
      (sp.advance > |t| ==> Scan(nodes, before[i..], bound) == Run([], true, 1, None) && sp.advance == 1 && t == [])
  {
    SliceAt(nodes, before, i, bound);
    ScanSplice(nodes, before[i], before[i + 1..], bound);
  }

  lemma Regroup(a: seq<Value>, b: seq<Value>, c: seq<Value>, s: seq<Value>)
    requires s == a + b + c
    ensures |a| <= |s| && s == a + (b + c)
  {
  }

  /** The pieces of a stack around index `i` refer to no node the stack does not. */
  lemma SliceAt(nodes: Arena, s: seq<Value>, i: nat, bound: nat)
    requires AllBelow(nodes, s, bound) && i < |s|
    ensures s[i..] == [s[i]] + s[i + 1..]
    ensures AllBelow(nodes, s[..i], bound) && AllBelow(nodes, s[i..], bound) && AllBelow(nodes, s[i + 1..], bound)
    ensures RefsBelow(nodes, s[i], bound)
  {
    assert forall k :: 0 <= k < |s| - i ==> s[i..][k] == s[i + k];
    var t := s[i + 1..];
    assert forall k :: 0 <= k < |t| ==> t[k] == s[i + 1 + k];
    assert forall k :: 0 <= k < i ==> s[..i][k] == s[k];
  }

  /** The sequence bookkeeping of `LoopStep`, with the stack after the splice `after == pre + t` and `j` past the spliced entries. */
  lemma SpliceShift(nodes: Arena, pre: seq<Value>, t: seq<Value>, after: seq<Value>, adv: nat, j: nat, done: nat, r: Run, bound: nat)
    requires WellFormed(nodes) && AllBelow(nodes, pre, bound) && AllBelow(nodes, t, bound)
    requires after == pre + t && j == |pre| + adv
    requires adv <= |t| ==> r == Shift(t[..adv], 1, Scan(nodes, t[adv..], bound))
    requires adv > |t| ==> r == Run([], true, 1, None) && adv == 1 && t == []
    ensures AllBelow(nodes, after, bound) && j <= |after| + 1
    ensures j <= |after| ==>
      AllBelow(nodes, after[j..], bound) &&
      r.steps > Scan(nodes, after[j..], bound).steps &&
      Shift(pre, done, r) == Shift(after[..j], done + 1, Scan(nodes, after[j..], bound))
    ensures j > |after| ==> Shift(pre, done, r) == Run(after, true, done + 1, None)
  {
    AllBelowConcat(nodes, pre, t, bound);
    if adv <= |t| {
      assert after[..j] == pre + t[..adv];
      assert after[j..] == t[adv..];
      ShiftShift(pre, done, t[..adv], 1, Scan(nodes, t[adv..], bound));
    } else {
      assert t == [] && after == pre;
    }
  }

  /* ----- the methods ----- */

  /**
   * The invariant of the `unfoldStack` loop: the entries behind `i` and the
   * run still to come from `i` on make up the run over the original stack
   * `s0`; an index beyond the end means the loop stopped with a carry.
   */
  ghost predicate Progress(nodes: Arena, s0: seq<Value>, items: seq<Value>, i: nat, done: nat, bound: nat)
    requires WellFormed(nodes) && AllBelow(nodes, s0, bound)
  {
    i <= |items| + 1 && AllBelow(nodes, items, bound) &&
    (i <= |items| ==> AllBelow(nodes, items[i..], bound) && Scan(nodes, s0, bound) == Shift(items[..i], done, Scan(nodes, items[i..], bound))) &&
    (i > |items| ==> Scan(nodes, s0, bound) == Run(items, true, done, None))
  }

  /** The iterations the loop has left. */
  ghost function Remaining(nodes: Arena, items: seq<Value>, i: nat, bound: nat): nat
    requires WellFormed(nodes)
  {
    if i <= |items| && AllBelow(nodes, items[i..], bound) then Scan(nodes, items[i..], bound).steps else 0
  }

  /** `LoopStep` as the loop sees it: the invariant is kept and fewer iterations are left, or the run fails as the body does. */
  lemma ProgressStep(nodes: Arena, s0: seq<Value>, before: seq<Value>, i: nat, after: seq<Value>, done: nat, bound: nat)
    requires WellFormed(nodes) && AllBelow(nodes, s0, bound)
    requires Progress(nodes, s0, before, i, done, bound) && i < |before|
    requires Replacement(nodes, before[i], bound).Ok? ==>
      after == before[..i] + Replacement(nodes, before[i], bound).value.items + before[i + 1..]
    ensures Replacement(nodes, before[i], bound).Err? ==>
      Scan(nodes, s0, bound).failure == Some(Replacement(nodes, before[i], bound).failure)
    ensures Replacement(nodes, before[i], bound).Ok? ==>
      var j := i + Replacement(nodes, before[i], bound).value.advance;
      Progress(nodes, s0, after, j, done + 1, bound) &&
      Remaining(nodes, after, j, bound) < Remaining(nodes, before, i, bound)
  {
    LoopStep(nodes, before, i, after, done, bound);
  }


  /**
   * `unfoldStack(stack)`: rewrites `stack` in place and returns that same
   * array, or throws the TypeError of the first entry it cannot read.
   */
  method UnfoldInPlace(nodes: Arena, stack: JsArray, bound: nat) returns (r: Result<JsArray>)
    requires WellFormed(nodes) && AllBelow(nodes, stack.items, bound)
    modifies stack
    ensures Scan(nodes, old(stack.items), bound).failure.Some? ==> r == Err(Scan(nodes, old(stack.items), bound).failure.value)
    ensures Scan(nodes, old(stack.items), bound).failure.None? ==> r == Ok(stack) && stack.items == Scan(nodes, old(stack.items), bound).out
    decreases bound, 2, 0, 0
  {
    ghost var s0 := stack.items;
    ghost var done: nat := 0;
    var i: nat := 0;
    while i < |stack.items|
      invariant Progress(nodes, s0, stack.items, i, done, bound)
      decreases Remaining(nodes, stack.items, i, bound)
    {
      ghost var before := stack.items;
      var next := Examine(nodes, stack, i, bound);
      ProgressStep(nodes, s0, before, i, stack.items, done, bound);
      if next.Err? {
        return Err(next.failure);
      }
      i := next.value + 1;
      done := done + 1;
    }
    if i == |stack.items| {
      assert stack.items[i..] == [] && stack.items[..i] == stack.items;
    }
    return Ok(stack);
  }

  /**
   * The body of the `unfoldStack` loop at index `i`: splices what
   * `stack[i]` is replaced with into the array and returns the index the
   * body leaves behind (the loop's `i++` follows).
   */
  method Examine(nodes: Arena, stack: JsArray, i: nat, bound: nat) returns (r: Result<int>)
    requires WellFormed(nodes) && AllBelow(nodes, stack.items, bound) && i < |stack.items|
    modifies stack
    ensures var rep := Replacement(nodes, old(stack.items[i]), bound);
      (rep.Err? ==> r == Err(rep.failure)) &&
      (rep.Ok? ==> (r == Ok(i + rep.value.advance - 1) &&
        stack.items == old(stack.items[..i]) + rep.value.items + old(stack.items[i + 1..])))
    decreases bound, 1, 0, 0
  {
    var element := stack.items[i];
    if Nullish(element) {
      return Err(CannotRead("__definition", element));
    }
    var definition := Prop(element, "__definition");
    DefinitionBelowProp(nodes, element, bound);
    if !Truthy(definition) {
      return Ok(i);
    }
    if definition.Arr? {
      r := SpliceArray(nodes, stack, i, definition.items, bound);
      return;
    } else if IsNode(nodes, definition) {
      var sub := ResolveSubstack(nodes, definition.addr, bound);
      if sub.Err? {
        return Err(sub.failure);
      }
      stack.items := stack.items[..i] + sub.value + stack.items[i + 1..];
      return Ok(i);
    }
    return Ok(i);
  }

  /**
   * The array branch of the loop body: remove `stack[i]`, insert what each
   * item expands to at the moving index, and step back once (`i--`).
   */
  method SpliceArray(nodes: Arena, stack: JsArray, i: nat, items: seq<Value>, bound: nat) returns (r: Result<int>)
    requires WellFormed(nodes) && AllBelow(nodes, items, bound) && i < |stack.items|
    modifies stack
    ensures var ex := ExpandItems(nodes, items, bound);
      (ex.Err? ==> r == Err(ex.failure)) &&
      (ex.Ok? ==> (r == Ok(i + |ex.value| - 1) &&
        stack.items == old(stack.items[..i]) + ex.value + old(stack.items[i + 1..])))
    decreases bound, 0, 1, 0
  {
    var pre, post := stack.items[..i], stack.items[i + 1..];
    stack.items := pre + post;
    var j := i;
    var l := 0;
    while l < |items|
      invariant 0 <= l <= |items|
      invariant AllBelow(nodes, items[..l], bound)
      invariant ExpandItems(nodes, items[..l], bound).Ok?
      invariant j == i + |ExpandItems(nodes, items[..l], bound).value|
      invariant stack.items == pre + ExpandItems(nodes, items[..l], bound).value + post
    {
      assert items[..l + 1][..l] == items[..l];
      assert AllBelow(nodes, items[..l + 1], bound) by {
        assert forall k :: 0 <= k < l + 1 ==> items[..l + 1][k] == items[k];
      }
      var sub := ExpandItem(nodes, items[l], bound);
      assert items[..l + 1][l] == items[l];
      if sub.Err? {
        ExpandItemsErr(nodes, items, l + 1, bound);
        return Err(sub.failure);
      }
      stack.items := stack.items[..j] + sub.value + stack.items[j..];
      j := j + |sub.value|;
      l := l + 1;
    }
    assert items[..l] == items;
    return Ok(j - 1);
  }

  /** One item of an array definition: its unfolded `resolve()` when resolvable, else itself. */
  method ExpandItem(nodes: Arena, item: Value, bound: nat) returns (r: Result<seq<Value>>)
    requires WellFormed(nodes) && RefsBelow(nodes, item, bound)
    ensures r == ItemExpansion(nodes, item, bound)
    decreases bound, 0, 0, 0
  {
    if Nullish(item) {
      return Err(CannotRead("resolve", item));
    }
    if IsNode(nodes, item) {
      r := ResolveSubstack(nodes, item.addr, bound);
      return;
    }
    return Ok([item]);
  }

  /** `unfoldStack(x.resolve())` for node `a`: the array `resolve` returns, unfolded again. */
  method ResolveSubstack(nodes: Arena, a: nat, bound: nat) returns (r: Result<seq<Value>>)
    requires WellFormed(nodes) && a < |nodes| && a < bound
    ensures r == Substack(nodes, a, bound)
    decreases a, 4, 0, 0
  {
    var outcome := AscendChain(nodes, a, [], a);
    if outcome.Err? {
      return Err(outcome.failure);
    }
    if outcome.value.Invoked? {
      return Err(InvokerInStack);
    }
    var arr := new JsArray(outcome.value.stack);
    var u := UnfoldInPlace(nodes, arr, a);
    if u.Err? {
      return Err(u.failure);
    }
    return Ok(arr.items);
  }

  /** `resolve(stack)` on node `a`, climbing the parent chain; the root unfolds a fresh array in place. */
  method AscendChain(nodes: Arena, a: nat, s: seq<Value>, bound: nat) returns (r: Result<Outcome>)
    requires WellFormed(nodes) && a < |nodes| && a <= bound && AllBelow(nodes, s, bound)
    ensures r == Ascend(nodes, a, s, bound)
    decreases bound, 3, a, 0
  {
    StackBelowMono(nodes, nodes[a].resolvable, a, bound);
    PrependBelow(nodes, nodes[a].resolvable, s, bound);
    var stack := Prepend(nodes[a].resolvable, s);
    if nodes[a].parent.Some? {
      r := AscendChain(nodes, nodes[a].parent.value, stack, bound);
      return;
    }
    var arr := new JsArray(stack);
    var u := UnfoldInPlace(nodes, arr, bound);
    if u.Err? {
      return Err(u.failure);
    }
    r := if nodes[a].invoker then Ok(Invoked(a, arr.items)) else Ok(Returned(arr.items));
  }

  /** `node.resolve(arg)` for node `a`. */
  method ResolveAt(nodes: Arena, a: nat, arg: Value) returns (r: Result<Outcome>)
    requires WellFormed(nodes) && a < |nodes|
    ensures r == ResolveFrom(nodes, a, arg)
  {
    var s := StackArg(arg);
    assert AllBelow(nodes, s, |nodes|) by {
      forall i | 0 <= i < |s|
        ensures RefsBelow(nodes, s[i], |nodes|)
      {
        RefsBelowArena(nodes, s[i]);
      }
    }
    r := AscendChain(nodes, a, s, |nodes|);
  }
}

=== FILE: legacy_mixin_resolvable_props.dfy ===
/**
 * Properties of the in-place `unfoldStack` and `resolve` of
 * `src/MixinResolvable.js`.
 */
module LegacyResolvableProperties {
  import opened Values
  import opened MixinResolvable
  import opened MixinResolvableProperties
  import opened LegacyResolvable

  /** An entry the loop leaves where it is: readable, with no truthy `__definition`. */
  predicate Plain(e: Value)
  {
    !Nullish(e) && !Truthy(Prop(e, "__definition"))
  }

  /** A stack without definitions comes back unchanged, one iteration per entry. */
  lemma {:induction false} PlainStackUnchanged(nodes: Arena, s: seq<Value>, bound: nat)
    requires WellFormed(nodes) && AllBelow(nodes, s, bound)
    requires forall i :: 0 <= i < |s| ==> Plain(s[i])
    ensures Scan(nodes, s, bound) == Run(s, false, |s|, None)
    ensures Unfolded(nodes, s, bound) == Ok(s)
    decreases |s|
  {
    if s != [] {
      assert AllBelow(nodes, s[1..], bound) by {
        assert forall i :: 0 <= i < |s| - 1 ==> s[1..][i] == s[i + 1];
      }
      assert forall i :: 0 <= i < |s| - 1 ==> s[1..][i] == s[i + 1];
      PlainStackUnchanged(nodes, s[1..], bound);
      assert Head(nodes, s[0], bound) == Run([s[0]], false, 1, None);
      assert [s[0]] + s[1..] == s;
    }
  }

  /** An entry the loop keeps: readable, with a definition that is neither an array nor a resolvable. */
  predicate Kept(nodes: Arena, e: Value)
  {
    !Nullish(e) && !Prop(e, "__definition").Arr? && !IsNode(nodes, Prop(e, "__definition"))
  }

  /** A stack of kept entries comes back unchanged, whatever their definitions hold. */
  lemma {:induction false} KeptStackUnchanged(nodes: Arena, s: seq<Value>, bound: nat)
    requires WellFormed(nodes) && AllBelow(nodes, s, bound)
    requires forall i :: 0 <= i < |s| ==> Kept(nodes, s[i])
    ensures Scan(nodes, s, bound) == Run(s, false, |s|, None)
    ensures Unfolded(nodes, s, bound) == Ok(s)
    decreases |s|
  {
    if s != [] {
      assert AllBelow(nodes, s[1..], bound) by {
        assert forall i :: 0 <= i < |s| - 1 ==> s[1..][i] == s[i + 1];
      }
      assert forall i :: 0 <= i < |s| - 1 ==> s[1..][i] == s[i + 1];
      KeptStackUnchanged(nodes, s[1..], bound);
      assert Head(nodes, s[0], bound) == Run([s[0]], false, 1, None);
      assert [s[0]] + s[1..] == s;
    }
  }

  /** Reading `__definition` of a `null` or `undefined` entry throws, whatever follows it. */
  lemma NullishEntryThrows(nodes: Arena, e: Value, post: seq<Value>, bound: nat)
    requires WellFormed(nodes) && AllBelow(nodes, [e] + post, bound) && Nullish(e)
    ensures Unfolded(nodes, [e] + post, bound) == Err(CannotRead("__definition", e))
  {
    var s := [e] + post;
    assert s[0] == e && s[1..] == post;
    var h := Head(nodes, e, bound);
    assert h == Run([], false, 1, Some(CannotRead("__definition", e)));
    assert Scan(nodes, s, bound) == Continue(nodes, h, post, bound);
  }

  /** A run that is `p` in front of the run over `t` unfolds to `p` in front of what `t` unfolds to. */
  lemma UnfoldedOfShift(nodes: Arena, s: seq<Value>, p: seq<Value>, n: nat, t: seq<Value>, bound: nat)
    requires WellFormed(nodes) && AllBelow(nodes, s, bound) && AllBelow(nodes, t, bound)
    requires Scan(nodes, s, bound) == Shift(p, n, Scan(nodes, t, bound))
    ensures Unfolded(nodes, s, bound) ==
      match Unfolded(nodes, t, bound)
      case Err(f) => Err(f)
      case Ok(rest) => Ok(p + rest)
  {
  }

  /**
   * An array definition is replaced by its items in order, each resolvable
   * item by its unfolded `resolve()`; the inserted items are not examined
   * again and the loop carries on with what followed the entry.
   */
  lemma ArrayDefinitionSpliced(nodes: Arena, e: Value, post: seq<Value>, bound: nat)
    requires WellFormed(nodes) && AllBelow(nodes, [e] + post, bound)
    requires !Nullish(e) && Prop(e, "__definition").Arr?
    ensures RefsBelow(nodes, e, bound) && AllBelow(nodes, post, bound)
    ensures AllBelow(nodes, Prop(e, "__definition").items, bound)
    ensures var ex := ExpandItems(nodes, Prop(e, "__definition").items, bound);
      Unfolded(nodes, [e] + post, bound) ==
        if ex.Err? then Err(ex.failure)
        else match Unfolded(nodes, post, bound)
          case Err(f) => Err(f)
          case Ok(rest) => Ok(ex.value + rest)
  {
    var s := [e] + post;
    assert s[0] == e && s[1..] == post;
    assert AllBelow(nodes, post, bound) by {
      assert forall i :: 0 <= i < |post| ==> post[i] == s[i + 1];
    }
    DefinitionBelowProp(nodes, e, bound);
    ScanSplice(nodes, e, post, bound);
    var ex := ExpandItems(nodes, Prop(e, "__definition").items, bound);
    if ex.Ok? {
      var t := ex.value + post;
      assert t[..|ex.value|] == ex.value && t[|ex.value|..] == post;
      UnfoldedOfShift(nodes, s, ex.value, 1, post, bound);
    }
  }

  /**
   * A resolvable definition is replaced by its unfolded `resolve()`. The
   * loop goes on at the substack's second item, so everything after the
   * first is examined again; an empty substack lets the following entry
   * slide into place unexamined.
   */
  lemma ResolvedDefinitionSpliced(nodes: Arena, e: Value, post: seq<Value>, bound: nat)
    requires WellFormed(nodes) && AllBelow(nodes, [e] + post, bound)
    requires !Nullish(e) && IsNode(nodes, Prop(e, "__definition"))
    ensures RefsBelow(nodes, e, bound) && Prop(e, "__definition").addr < bound
    ensures AllBelow(nodes, post, bound) && (post != [] ==> AllBelow(nodes, post[1..], bound))
    ensures var sub := Substack(nodes, Prop(e, "__definition").addr, bound);
      sub.Ok? && sub.value != [] ==> AllBelow(nodes, sub.value[1..] + post, bound)
    ensures var sub := Substack(nodes, Prop(e, "__definition").addr, bound);
      Unfolded(nodes, [e] + post, bound) ==
        if sub.Err? then Err(sub.failure)
        else if sub.value == [] then
          if post == [] then Ok([])
          else match Unfolded(nodes, post[1..], bound)
            case Err(f) => Err(f)
            case Ok(rest) => Ok([post[0]] + rest)
        else match Unfolded(nodes, sub.value[1..] + post, bound)
          case Err(f) => Err(f)
          case Ok(rest) => Ok([sub.value[0]] + rest)
  {
    var s := [e] + post;
    assert s[0] == e && s[1..] == post;
    assert AllBelow(nodes, post, bound) by {
      assert forall i :: 0 <= i < |post| ==> post[i] == s[i + 1];
    }
    DefinitionBelowProp(nodes, e, bound);
    var sub := Substack(nodes, Prop(e, "__definition").addr, bound);
    if post != [] {
      assert AllBelow(nodes, post[1..], bound) by {
        assert forall i :: 0 <= i < |post| - 1 ==> post[1..][i] == post[i + 1];
      }
    }
    if sub.Err? {
      ScanSplice(nodes, e, post, bound);
    } else if sub.value == [] {
      EmptySubstackSkips(nodes, e, post, bound);
      if post != [] {
        UnfoldedOfShift(nodes, s, [post[0]], 1, post[1..], bound);
      }
    } else {
      SubstackRescanned(nodes, e, post, bound);
      UnfoldedOfShift(nodes, s, [sub.value[0]], 1, sub.value[1..] + post, bound);
    }
  }

  lemma EmptySubstackSkips(nodes: Arena, e: Value, post: seq<Value>, bound: nat)
    requires WellFormed(nodes) && RefsBelow(nodes, e, bound) && AllBelow(nodes, post, bound)
    requires !Nullish(e) && IsNode(nodes, Prop(e, "__definition")) && Prop(e, "__definition").addr < bound
    requires Substack(nodes, Prop(e, "__definition").addr, bound) == Ok([])
    ensures AllBelow(nodes, [e] + post, bound)
    ensures post == [] ==> Scan(nodes, [e] + post, bound) == Run([], true, 1, None)
    ensures post != [] ==> (AllBelow(nodes, post[1..], bound) &&
      Scan(nodes, [e] + post, bound) == Shift([post[0]], 1, Scan(nodes, post[1..], bound)))
  {
    ScanSplice(nodes, e, post, bound);
    assert Replacement(nodes, e, bound) == Ok(Splice([], 1));
    assert [] + post == post;
    if post != [] {
      assert post[..1] == [post[0]];
    }
  }

  lemma SubstackRescanned(nodes: Arena, e: Value, post: seq<Value>, bound: nat)
    requires WellFormed(nodes) && RefsBelow(nodes, e, bound) && AllBelow(nodes, post, bound)
    requires !Nullish(e) && IsNode(nodes, Prop(e, "__definition")) && Prop(e, "__definition").addr < bound
    requires Substack(nodes, Prop(e, "__definition").addr, bound).Ok?
    requires Substack(nodes, Prop(e, "__definition").addr, bound).value != []
    ensures var sub := Substack(nodes, Prop(e, "__definition").addr, bound).value;
      AllBelow(nodes, [e] + post, bound) && AllBelow(nodes, sub[1..] + post, bound) &&
      Scan(nodes, [e] + post, bound) == Shift([sub[0]], 1, Scan(nodes, sub[1..] + post, bound))
  {
    var sub := Substack(nodes, Prop(e, "__definition").addr, bound).value;
    ScanSplice(nodes, e, post, bound);
    var t := sub + post;
    assert t[..1] == [sub[0]] && t[1..] == sub[1..] + post;
  }

  /* ----- a concrete stack ----- */

  /** A root whose `getResolvable` returns `[]`, and one returning `null` as the default does. */
  const Roots: Arena := [Node(Arr([]), None, false), Node(DefaultResolvable, None, false)]

  lemma RootsWellFormed()
    ensures WellFormed(Roots)
  {
    assert RefsBelow(Roots, Arr([]), 0);
  }

  /**
   * With the default `getResolvable`, `resolve()` builds `[null]` and the
   * in-place `unfoldStack` throws on it; the fresh-array version drops the
   * `null` and resolves to `[]`.
   */
  lemma DefaultResolvableThrows()
    ensures WellFormed(Roots)
    ensures ResolveFrom(Roots, 1, Undefined) == Err(CannotRead("__definition", Null))
    ensures Resolve(Roots, 1, Undefined) == Returned([])
  {
    RootsWellFormed();
    assert StackArg(Undefined) == [];
    assert Prepend(Null, []) == [Null];
    assert [Null][0] == Null && [Null][1..] == [];
    assert Head(Roots, Null, 2) == Run([], false, 1, Some(CannotRead("__definition", Null)));
    assert Scan(Roots, [Null], 2).failure == Some(CannotRead("__definition", Null));
    assert Ascend(Roots, 1, [], 2) == Err(CannotRead("__definition", Null));
    assert Unfold(Roots, [Null], 2) == [];
  }

  /**
   * `[{__definition: r}, {__definition: ["x"]}]` with `r` resolving to `[]`:
   * the second entry slides into the first place and is stepped over, so
   * its array definition is never unfolded.
   */
  lemma SkipAfterEmptySubstack()
    ensures WellFormed(Roots)
    ensures var second := Obj([("__definition", Arr([Str("x")]))]);
      Unfolded(Roots, [Obj([("__definition", Ref(0))]), second], 2) == Ok([second])
  {
    SkipAfterEmptySubstackRun();
  }

  lemma SkipAfterEmptySubstackRun()
    ensures WellFormed(Roots)
    ensures var s := [Obj([("__definition", Ref(0))]), Obj([("__definition", Arr([Str("x")]))])];
      AllBelow(Roots, s, 2) && Scan(Roots, s, 2) == Run([s[1]], false, 1, None)
  {
    RootsWellFormed();
    var first := Obj([("__definition", Ref(0))]);
    var second := Obj([("__definition", Arr([Str("x")]))]);
    assert Prop(first, "__definition") == Ref(0);
    RootEmpty();
    SecondBelow();
    EmptySubstackSkips(Roots, first, [second], 2);
    assert [first] + [second] == [first, second];
    assert [second][1..] == [];
    assert Scan(Roots, [], 2) == Run([], false, 0, None);
  }

  lemma SecondBelow()
    ensures AllBelow(Roots, [Obj([("__definition", Arr([Str("x")]))])], 2)
  {
    assert RefsBelow(Roots, Arr([Str("x")]), 2);
  }

  lemma RootEmpty()
    ensures WellFormed(Roots)
    ensures Substack(Roots, 0, 2) == Ok([])
  {
    RootsWellFormed();
    assert Prepend(Arr([]), []) == [];
    assert Ascend(Roots, 0, [], 0) == Ok(Returned([]));
  }

  /* ----- resolve ----- */

  /**
   * `resolve(arg)` on node `a`: the root unfolds, in place, the root's
   * getResolvable result first, then each descendant's down to `a`, then
   * the argument's entries; only the root's invoker is called.
   */
  lemma {:induction false} AscendCollects(nodes: Arena, a: nat, s: seq<Value>, bound: nat)
    requires WellFormed(nodes) && a < |nodes| && a <= bound && AllBelow(nodes, s, bound)
    ensures AllBelow(nodes, ChainItems(nodes, a) + s, bound)
    ensures Ascend(nodes, a, s, bound) ==
      match Unfolded(nodes, ChainItems(nodes, a) + s, bound)
      case Err(f) => Err(f)
      case Ok(u) => if nodes[RootOf(nodes, a)].invoker then Ok(Invoked(RootOf(nodes, a), u)) else Ok(Returned(u))
    decreases a
  {
    ChainBelow(nodes, a, bound);
    AllBelowConcat(nodes, ChainItems(nodes, a), s, bound);
    var x := nodes[a].resolvable;
    assert StackBelow(nodes, x, a);
    StackBelowMono(nodes, x, a, bound);
    PrependBelow(nodes, x, s, bound);
    if nodes[a].parent.Some? {
      var p := nodes[a].parent.value;
      ChainParent(nodes, a, p, s);
      assert Ascend(nodes, a, s, bound) == Ascend(nodes, p, Prepend(x, s), bound);
      AscendCollects(nodes, p, Prepend(x, s), bound);
    } else {
      ChainRoot(nodes, a, s);
    }
  }

  lemma ResolveFromCollects(nodes: Arena, a: nat, arg: Value)
    requires WellFormed(nodes) && a < |nodes|
    ensures AllBelow(nodes, ChainItems(nodes, a) + StackArg(arg), |nodes|)
    ensures ResolveFrom(nodes, a, arg) ==
      match Unfolded(nodes, ChainItems(nodes, a) + StackArg(arg), |nodes|)
      case Err(f) => Err(f)
      case Ok(u) => if nodes[RootOf(nodes, a)].invoker then Ok(Invoked(RootOf(nodes, a), u)) else Ok(Returned(u))
  {
    var s := StackArg(arg);
    assert AllBelow(nodes, s, |nodes|) by {
      forall i | 0 <= i < |s|
        ensures RefsBelow(nodes, s[i], |nodes|)
      {
        RefsBelowArena(nodes, s[i]);
      }
    }
    AscendCollects(nodes, a, s, |nodes|);
  }

  /* ----- a store and its datasets ----- */

  /** The in-place `resolve()` on the store's dataset also hands over the store's entry, then its own. */
  lemma LegacyStoreDatasetResolve(sdef: Value, ddef: Value)
    requires IsPlainObject(sdef) && IsPlainObject(ddef)
    ensures WellFormed(StoreAndDatasets(sdef, ddef))
    ensures var nodes := StoreAndDatasets(sdef, ddef);
      ResolveFrom(nodes, 1, Undefined) == Ok(Returned([nodes[0].resolvable, nodes[1].resolvable]))
  {
    StoreAndDatasetsWellFormed(sdef, ddef);
    var nodes := StoreAndDatasets(sdef, ddef);
    var se, de := nodes[0].resolvable, nodes[1].resolvable;
    SRG.ResolvableFields(0, sdef);
    DatasetDefinition(de, ddef, 1);
    ResolveFromCollects(nodes, 1, Undefined);
    ChainParent(nodes, 1, 0, []);
    ChainRoot(nodes, 0, [de]);
    assert ChainItems(nodes, 1) + StackArg(Undefined) == [se, de];
    KeptStackUnchanged(nodes, [se, de], 3);
  }

  /** The store inside a stack is replaced by its own entry. */
  lemma LegacySubstackStore(sdef: Value, ddef: Value)
    requires IsPlainObject(sdef) && IsPlainObject(ddef)
    ensures WellFormed(StoreAndDatasets(sdef, ddef))
    ensures var nodes := StoreAndDatasets(sdef, ddef);
      Substack(nodes, 0, 3) == Ok([nodes[0].resolvable])
  {
    StoreAndDatasetsWellFormed(sdef, ddef);
    var nodes := StoreAndDatasets(sdef, ddef);
    var se := nodes[0].resolvable;
    SRG.ResolvableFields(0, sdef);
    AscendCollects(nodes, 0, [], 0);
    ChainRoot(nodes, 0, []);
    assert Prepend(se, []) == [se];
    KeptStackUnchanged(nodes, [se], 0);
  }

  /** The store's dataset inside a stack is replaced by the store's entry and its own. */
  lemma LegacySubstackDataset(sdef: Value, ddef: Value)
    requires IsPlainObject(sdef) && IsPlainObject(ddef)
    ensures WellFormed(StoreAndDatasets(sdef, ddef))
    ensures var nodes := StoreAndDatasets(sdef, ddef);
      Substack(nodes, 1, 3) == Ok([nodes[0].resolvable, nodes[1].resolvable])
  {
    StoreAndDatasetsWellFormed(sdef, ddef);
    var nodes := StoreAndDatasets(sdef, ddef);
    var se, de := nodes[0].resolvable, nodes[1].resolvable;
    SRG.ResolvableFields(0, sdef);
    DatasetDefinition(de, ddef, 1);
    AscendCollects(nodes, 1, [], 1);
    ChainParent(nodes, 1, 0, []);
    ChainRoot(nodes, 0, [de]);
    assert ChainItems(nodes, 1) + [] == [se, de];
    KeptStackUnchanged(nodes, [se, de], 1);
  }

  /**
   * The in-place `resolve()` on the free-standing dataset replaces its
   * array definition by its members' substacks, in order, as the
   * fresh-array version does.
   */
  lemma LegacyMembersDatasetResolve(sdef: Value, ddef: Value)
    requires IsPlainObject(sdef) && IsPlainObject(ddef)
    ensures WellFormed(StoreAndDatasets(sdef, ddef))
    ensures var nodes := StoreAndDatasets(sdef, ddef);
      ResolveFrom(nodes, 2, Undefined) == Ok(Returned([nodes[0].resolvable, nodes[0].resolvable, nodes[1].resolvable]))
  {
    StoreAndDatasetsWellFormed(sdef, ddef);
    var nodes := StoreAndDatasets(sdef, ddef);
    var e2 := nodes[2].resolvable;
    ResolveFromCollects(nodes, 2, Undefined);
    ChainRoot(nodes, 2, []);
    assert Prepend(e2, []) == [e2];
    assert ChainItems(nodes, 2) + StackArg(Undefined) == [e2];
    LegacyMembersHead(sdef, ddef);
    var out := [nodes[0].resolvable, nodes[0].resolvable, nodes[1].resolvable];
    assert [e2][0] == e2 && [e2][1..] == [];
    assert Scan(nodes, [], 3) == Run([], false, 0, None);
    assert Continue(nodes, Run(out, false, 1, None), [], 3) == Run(out, false, 1, None);
    assert Scan(nodes, [e2], 3) == Run(out, false, 1, None);
  }

  lemma LegacyMembersHead(sdef: Value, ddef: Value)
    requires IsPlainObject(sdef) && IsPlainObject(ddef)
    ensures WellFormed(StoreAndDatasets(sdef, ddef))
    ensures var nodes := StoreAndDatasets(sdef, ddef);
      RefsBelow(nodes, nodes[2].resolvable, 3) &&
      Head(nodes, nodes[2].resolvable, 3) == Run([nodes[0].resolvable, nodes[0].resolvable, nodes[1].resolvable], false, 1, None)
  {
    StoreAndDatasetsWellFormed(sdef, ddef);
    var nodes := StoreAndDatasets(sdef, ddef);
    var se, de, e2 := nodes[0].resolvable, nodes[1].resolvable, nodes[2].resolvable;
    var items := [Ref(0), Ref(1)];
    DatasetMembers();
    DatasetDefinition(e2, Arr(items), 2);
    assert StackBelow(nodes, e2, 2);
    RefsBelowMono(nodes, e2, 2, 3);
    LegacyMembersItems(sdef, ddef);
    assert Truthy(Arr(items)) && !Nullish(e2);
  }

  lemma LegacyMembersItems(sdef: Value, ddef: Value)
    requires IsPlainObject(sdef) && IsPlainObject(ddef)
    ensures WellFormed(StoreAndDatasets(sdef, ddef))
    ensures var nodes := StoreAndDatasets(sdef, ddef);
      AllBelow(nodes, [Ref(0), Ref(1)], 3) &&
      ExpandItems(nodes, [Ref(0), Ref(1)], 3) == Ok([nodes[0].resolvable, nodes[0].resolvable, nodes[1].resolvable])
  {
    StoreAndDatasetsWellFormed(sdef, ddef);
    var nodes := StoreAndDatasets(sdef, ddef);
    var se, de := nodes[0].resolvable, nodes[1].resolvable;
    LegacySubstackStore(sdef, ddef);
    LegacySubstackDataset(sdef, ddef);
    assert ItemExpansion(nodes, Ref(0), 3) == Ok([se]);
    assert ItemExpansion(nodes, Ref(1), 3) == Ok([se, de]);
    ExpandTwoItems(nodes, Ref(0), Ref(1), [se], [se, de], 3);
    assert [se] + [se, de] == [se, se, de];
  }

  /** Two items expanded one after the other. */
  lemma ExpandTwoItems(nodes: Arena, i1: Value, i2: Value, p: seq<Value>, q: seq<Value>, bound: nat)
    requires WellFormed(nodes) && RefsBelow(nodes, i1, bound) && RefsBelow(nodes, i2, bound)
    requires ItemExpansion(nodes, i1, bound) == Ok(p) && ItemExpansion(nodes, i2, bound) == Ok(q)
    ensures AllBelow(nodes, [i1, i2], bound)
    ensures ExpandItems(nodes, [i1, i2], bound) == Ok(p + q)
  {
    var items := [i1, i2];
    assert items[..1] == [i1] && items[..1][..0] == [];
    assert ExpandItems(nodes, [], bound) == Ok([]);
    assert ExpandItems(nodes, [i1], bound) == Ok([] + p);
    assert [] + p == p;
  }
}

=== FILE: legacy_stack_invoker.dfy ===
/**
 * The older invoker of `src/StackInvoker.js`, over the stores of
 * `src/createStore.js`.
 *
 * The verb scan is the same as the library's. The differences lie in the
 * resolvers: `get` through `invoke` announces its touch, every request
 * touches with an object literal of its own, `fetch` has no `__getable`
 * gate, and a request made on something that is not a store rejects its
 * promise instead of throwing. When a request is answered, a GET reaches
 * for a `responseHandler` the older package does not export, a DELETE for a
 * `deleteResource` its stores do not have, and a save hands its arguments
 * to `updateResource` one place to the left.
 *
 * `src/StackReducer.js` is not part of this model: the reducer is the
 * parameter `reduce`.
 */
module LegacyStackInvoker {
  import opened Values
  import opened Constants
  import FM = FragmentMap
  import LFM = LegacyFragmentMap
  import SR = StackReducer
  import opened StoreRegistry
  import opened LegacyStoreRegistry
  import SI = StackInvoker

  /** What `invoke` returns: the descriptor, a request's promise, a promise rejected at once, or a cache snapshot. */
  datatype Dispatched =
    | Reduced(descriptor: SR.Descriptor)
    | Sent(request: SI.Request)
    | Aborted(error: Failure)
    | Snapshot(resource: FM.FetchResult, pending: Option<SI.Request>)

  /** `store.touchResource(descriptor, action, metadata)` on the store at `a`. */
  function TouchedAt(h: Heap, a: nat, d: SR.Descriptor, metadata: Value): Heap
    requires a in h.instances
  {
    Put(h, a, h.instances[a].(cache := LFM.TouchSpec(h.instances[a].cache, CacheDescriptorOf(d), metadata).0))
  }

  /** `store.fetchResource(descriptor)` on the store at `a`. */
  function FetchAt(h: Heap, a: nat, d: SR.Descriptor): (r: (Heap, Result<FM.FetchResult>))
    requires HeapValid(h) && a in h.instances
    ensures HeapValid(r.0) && a in r.0.instances
  {
    (Put(h, a, h.instances[a].(cache := FetchState(h.instances[a].cache, CacheDescriptorOf(d)))),
     LFM.FetchSpec(h.instances[a].cache, CacheDescriptorOf(d)))
  }

  /** What each request resolver touches its slot with. */
  function TouchFor(name: string): Value
  {
    if name == "get" then Obj([("status", Str(STATUS_STALE)), ("timestamp", Num(TIMESTAMP_LOADING))])
    else Obj([("timestamp", Num(TIMESTAMP_LOADING))])
  }

  /** The request each resolver sends: `get` and `delete` carry no body, `create` and `update` the payload. */
  function RequestFor(name: string, d: SR.Descriptor, a: nat): SI.Request
  {
    if name == "get" then SI.Request("get", d.path, Undefined, ACTION_FETCH, a, d)
    else if name == "create" then SI.Request("post", d.path, Obj(d.payload), ACTION_SAVE, a, d)
    else if name == "update" then SI.Request("put", d.path, Obj(d.payload), ACTION_SAVE, a, d)
    else SI.Request("delete", d.path, Undefined, ACTION_DELETE, a, d)
  }

  /** A request resolver on the store at `a`: touch, announce unless `quiet`, send. */
  function SendAt(h: Heap, a: nat, name: string, d: SR.Descriptor, quiet: bool): (r: (Heap, SI.Request))
    requires HeapValid(h) && a in h.instances
    ensures HeapValid(r.0) && a in r.0.instances
  {
    var h1 := TouchedAt(h, a, d, TouchFor(name));
    (if quiet then h1 else SI.Notified(h1, a, d), RequestFor(name, d, a))
  }

  /** A request resolver on the descriptor's store; on anything else the promise rejects. */
  function SendSpec(h: Heap, name: string, d: SR.Descriptor, quiet: bool): (r: (Heap, Dispatched))
    requires HeapValid(h)
    ensures HeapValid(r.0)
  {
    match StoreAt(h, d.store)
    case None => (h, Aborted(NotAFunction("touchResource")))
    case Some(a) =>
      var (h1, req) := SendAt(h, a, name, d, quiet);
      (h1, Sent(req))
  }

  /** The `fetch` resolver: the snapshot, or a quiet `get` and a second read when it has no data or is older than loading. */
  function FetchResolver(h: Heap, d: SR.Descriptor): (r: (Heap, Result<Dispatched>))
    requires HeapValid(h)
    ensures HeapValid(r.0)
  {
    match StoreAt(h, d.store)
    case None => (h, Err(NotAFunction("fetchResource")))
    case Some(a) =>
      var (h1, first) := FetchAt(h, a, d);
      if first.Err? then (h1, Err(first.failure))
      else if !SI.NeedsLoad(first.value) then (h1, Ok(Snapshot(first.value, None)))
      else
        var (h2, req) := SendAt(h1, a, "get", d, true);
        var (h3, second) := FetchAt(h2, a, d);
        (h3, if second.Err? then Err(second.failure) else Ok(Snapshot(second.value, Some(req))))
  }

  /** `Resolvers[verb].call(Resolvers, descriptor, stack)`: `get` gets no `noNotify` this way. */
  function ResolveSpec(h: Heap, verb: Value, d: SR.Descriptor): (r: (Heap, Result<Dispatched>))
    requires HeapValid(h)
    ensures HeapValid(r.0)
  {
    var name := ToKey(verb);
    if name == "fetch" then FetchResolver(h, d)
    else if name in {"get", "create", "update", "delete"} then
      var (h1, x) := SendSpec(h, name, d, false);
      (h1, Ok(x))
    else (h, Err(SI.CannotResolve(verb)))
  }

  /** `invoke(stack)` with `reduce` standing for the older reducer. */
  function InvokeSpec(h: Heap, items: seq<Value>, reduce: seq<Value> -> Result<SR.Descriptor>): (r: (Heap, seq<Value>, Result<Dispatched>))
    requires HeapValid(h)
    ensures HeapValid(r.0)
  {
    var (rest, scanned) := SI.ScanVerbs(items, 0, Null);
    match scanned
    case Err(e) => (h, rest, Err(e))
    case Ok(verb) =>
      match reduce(rest)
      case Err(e) => (h, rest, Err(e))
      case Ok(d) =>
        if !Truthy(verb) || !Truthy(d.store) then (h, rest, Ok(Reduced(d)))
        else
          var (h1, r) := ResolveSpec(h, verb, d);
          (h1, rest, r)
  }

  /**
   * `hookRequest`'s callbacks. An answered GET reads `default` of the
   * missing `RPS.responseHandler` and an answered DELETE calls the missing
   * `store.deleteResource`: both throw, and the promise stays pending. An
   * answered save calls `updateResource(descriptor, data, "success")`,
   * which the store reads as action `data`, data "success", no status.
   */
  function CompleteSpec(h: Heap, req: SI.Request, outcome: SI.Outcome, now: int): (r: (Heap, SI.Settlement))
    requires HeapValid(h) && req.store in h.instances
    ensures HeapValid(r.0)
  {
    var a := req.store;
    var d := req.descriptor;
    match outcome
    case Answered(response) =>
      if req.action == ACTION_FETCH then (h, SI.Pending(CannotRead("default", Undefined)))
      else if req.action == ACTION_DELETE then (h, SI.Pending(NotAFunction("deleteResource")))
      else
        var (c, w) := LFM.UpdateSpec(h.instances[a].cache, CacheDescriptorOf(d), SI.ResponseData(response), Str(STATUS_SUCCESS), Undefined, now);
        var h1 := Put(h, a, h.instances[a].(cache := c));
        if w.Err? then (h1, SI.Pending(w.failure))
        else (SI.Notified(h1, a, d), SI.Resolved(response))
    case Refused(response) =>
      (SI.Notified(TouchedAt(h, a, d, Obj([("timestamp", Num(now))])), a, d), SI.Rejected(response))
  }

  /* ----- the same, step by step on the registry ----- */

  /** `invoke(stack)`. */
  method Invoke(reg: LegacyRegistry, stack: JsArray, reduce: seq<Value> -> Result<SR.Descriptor>) returns (r: Result<Dispatched>)
    requires reg.Valid()
    modifies reg, stack
    ensures reg.Valid()
    ensures (reg.State(), stack.items, r) == InvokeSpec(old(reg.State()), old(stack.items), reduce)
  {
    var scanned := SI.ConsumeVerbs(stack);
    if scanned.Err? {
      return Err(scanned.failure);
    }
    var verb := scanned.value;
    var reduced := reduce(stack.items);
    if reduced.Err? {
      return Err(reduced.failure);
    }
    var d := reduced.value;
    if !Truthy(verb) || !Truthy(d.store) {
      return Ok(Reduced(d));
    }
    r := Resolve(reg, verb, d);
  }

  /** `Resolvers[verb]` called with the descriptor, or the error for a verb it lacks. */
  method Resolve(reg: LegacyRegistry, verb: Value, d: SR.Descriptor) returns (r: Result<Dispatched>)
    requires reg.Valid()
    modifies reg
    ensures reg.Valid()
    ensures (reg.State(), r) == ResolveSpec(old(reg.State()), verb, d)
  {
    var name := ToKey(verb);
    if name == "fetch" {
      r := Fetch(reg, d);
    } else if name in {"get", "create", "update", "delete"} {
      var x := Send(reg, name, d, false);
      r := Ok(x);
    } else {
      r := Err(SI.CannotResolve(verb));
    }
  }

  /** The body of a request resolver's promise, up to the request. */
  method Send(reg: LegacyRegistry, name: string, d: SR.Descriptor, quiet: bool) returns (r: Dispatched)
    requires reg.Valid()
    modifies reg
    ensures reg.Valid()
    ensures (reg.State(), r) == SendSpec(old(reg.State()), name, d, quiet)
  {
    var store := StoreAt(reg.State(), d.store);
    if store.None? {
      return Aborted(NotAFunction("touchResource"));
    }
    var a := store.value;
    var _ := reg.TouchResource(a, CacheDescriptorOf(d), TouchFor(name));
    if !quiet {
      reg.NotifyChange(a, d);
    }
    r := Sent(RequestFor(name, d, a));
  }

  /** The `fetch` resolver. */
  method Fetch(reg: LegacyRegistry, d: SR.Descriptor) returns (r: Result<Dispatched>)
    requires reg.Valid()
    modifies reg
    ensures reg.Valid()
    ensures (reg.State(), r) == FetchResolver(old(reg.State()), d)
  {
    var store := StoreAt(reg.State(), d.store);
    if store.None? {
      return Err(NotAFunction("fetchResource"));
    }
    var a := store.value;
    var resource := reg.FetchResource(a, CacheDescriptorOf(d));
    if resource.Err? {
      return Err(resource.failure);
    }
    if !SI.NeedsLoad(resource.value) {
      return Ok(Snapshot(resource.value, None));
    }
    var sent := Send(reg, "get", d, true);
    var again := reg.FetchResource(a, CacheDescriptorOf(d));
    r := if again.Err? then Err(again.failure) else Ok(Snapshot(again.value, Some(RequestFor("get", d, a))));
  }

  /** `hookRequest`'s callbacks, once the transport has answered. */
  method Complete(reg: LegacyRegistry, req: SI.Request, outcome: SI.Outcome, now: int) returns (r: SI.Settlement)
    requires reg.Valid() && req.store in reg.instances
    modifies reg
    ensures reg.Valid()
    ensures (reg.State(), r) == CompleteSpec(old(reg.State()), req, outcome, now)
  {
    var a := req.store;
    match outcome
    case Refused(response) =>
      var _ := reg.TouchResource(a, CacheDescriptorOf(req.descriptor), Obj([("timestamp", Num(now))]));
      reg.NotifyChange(a, req.descriptor);
      r := SI.Rejected(response);
    case Answered(response) =>
      if req.action == ACTION_FETCH {
        return SI.Pending(CannotRead("default", Undefined));
      }
      if req.action == ACTION_DELETE {
        return SI.Pending(NotAFunction("deleteResource"));
      }
      var err := reg.UpdateResource(a, CacheDescriptorOf(req.descriptor), SI.ResponseData(response), Str(STATUS_SUCCESS), Undefined, now);
      if err.Some? {
        return SI.Pending(err.value);
      }
      reg.NotifyChange(a, req.descriptor);
      r := SI.Resolved(response);
  }
}

=== FILE: legacy_stack_invoker_props.dfy ===
/**
 * Properties of the older invoker of `src/StackInvoker.js`: what each
 * resolver does to the older cache and to the change events, and what an
 * answered or refused request leaves behind.
 */
module LegacyStackInvokerProperties {
  import opened Values
  import opened Constants
  import FM = FragmentMap
  import LFM = LegacyFragmentMap
  import LFMP = LegacyFragmentMapProperties
  import SR = StackReducer
  import opened StoreRegistry
  import SI = StackInvoker
  import SIP = StackInvokerProperties
  import opened LegacyStackInvoker

  /** The entry of the older cache a descriptor touches: its slot with an id, `queries[path]` without. */
  function Slot(st: FM.CacheState, cd: FM.CacheDescriptor): Value
  {
    if Truthy(cd.id) then FM.Lookup(st.fragments, FM.PrimaryKey(cd), ToKey(cd.id))
    else Get(st.queries, ToKey(cd.path))
  }

  /** What each resolver touches with: `get` sets status and timestamp, the writes only the timestamp. */
  lemma TouchForFields(name: string, k: string)
    ensures TouchFor(name).Obj? && UniqueKeys(TouchFor(name).fields)
    ensures var f := TouchFor(name).fields;
      HasKey(f, "timestamp") && Get(f, "timestamp") == Num(TIMESTAMP_LOADING) &&
      (name == "get" ==> HasKey(f, "status") && Get(f, "status") == Str(STATUS_STALE)) &&
      (k != "timestamp" && (name == "get" ==> k != "status") ==> !HasKey(f, k))
  {
    var f := TouchFor(name).fields;
    if name == "get" {
      assert Keys(f) == ["status", "timestamp"];
    } else {
      assert Keys(f) == ["timestamp"];
    }
  }

  /** The touch of a refused request: only the timestamp. */
  lemma StampFields(now: int, k: string)
    ensures var f: Fields := [("timestamp", Num(now))];
      UniqueKeys(f) && HasKey(f, "timestamp") && Get(f, "timestamp") == Num(now) &&
      (k != "timestamp" ==> !HasKey(f, k))
  {
    var f: Fields := [("timestamp", Num(now))];
    assert Keys(f) == ["timestamp"];
  }

  /* ----- invoke ----- */

  /** Without a verb, `invoke` is the reducer: it returns the descriptor and touches nothing. */
  lemma WithoutVerbReduced(h: Heap, items: seq<Value>, reduce: seq<Value> -> Result<SR.Descriptor>)
    requires HeapValid(h)
    requires forall j :: 0 <= j < |items| ==> SIP.Plain(items[j])
    ensures InvokeSpec(h, items, reduce) ==
      (h, items, match reduce(items) case Err(e) => Err(e) case Ok(d) => Ok(Reduced(d)))
  {
    SIP.NoVerbKeepsStack(items);
  }

  /** A trailing verb no resolver has throws once the descriptor names a store, and nothing changes. */
  lemma UnknownVerbRejected(h: Heap, items: seq<Value>, reduce: seq<Value> -> Result<SR.Descriptor>)
    requires HeapValid(h)
    requires |items| >= 1 && SIP.Verb(items[|items| - 1])
    requires forall j :: 0 <= j < |items| - 1 ==> SIP.Plain(items[j])
    requires ToKey(Prop(items[|items| - 1], "__resolve")) !in {"get", "create", "update", "delete", "fetch"}
    requires reduce(items[..|items| - 1]).Ok? && Truthy(reduce(items[..|items| - 1]).value.store)
    ensures InvokeSpec(h, items, reduce) ==
      (h, items[..|items| - 1], Err(SI.CannotResolve(Prop(items[|items| - 1], "__resolve"))))
  {
    SIP.TrailingVerbTaken(items);
  }

  /* ----- the resolvers ----- */

  /**
   * `get` through `invoke` is not quiet: it marks the slot stale and
   * loading, keeps its other fields, announces the change and sends a GET
   * of the path without a body.
   */
  lemma GetAnnounced(h: Heap, d: SR.Descriptor, a: nat, k: string)
    requires HeapValid(h) && d.store == Ref(a) && a in h.instances
    ensures var (h', r) := ResolveSpec(h, Str("get"), d);
      var cd := CacheDescriptorOf(d);
      var slot := Slot(h'.instances[a].cache, cd);
      r == Ok(Sent(SI.Request("get", d.path, Undefined, ACTION_FETCH, a, d))) &&
      h'.instances[a].events == h.instances[a].events + ChangeEvents(d) &&
      slot.Obj? && Get(slot.fields, "status") == Str(STATUS_STALE) &&
      Get(slot.fields, "timestamp") == Num(TIMESTAMP_LOADING) &&
      (k != "status" && k != "timestamp" ==> Get(slot.fields, k) == Get(FieldsOf(Slot(h.instances[a].cache, cd)), k))
  {
    var cd := CacheDescriptorOf(d);
    var touch := TouchFor("get");
    TouchForFields("get", k);
    LFMP.TouchMerges(h.instances[a].cache, cd, touch, "status");
    LFMP.TouchMerges(h.instances[a].cache, cd, touch, "timestamp");
    LFMP.TouchMerges(h.instances[a].cache, cd, touch, k);
  }

  /** The HTTP method and action of each write verb. */
  function WriteMethod(name: string): (string, string)
  {
    if name == "create" then ("post", ACTION_SAVE)
    else if name == "update" then ("put", ACTION_SAVE)
    else ("delete", ACTION_DELETE)
  }

  /**
   * A write marks its slot loading and keeps every other field, status
   * included; it announces the change and sends the payload (`create`,
   * `update`) or nothing (`delete`).
   */
  lemma WritesAnnounced(h: Heap, verb: Value, d: SR.Descriptor, a: nat, k: string)
    requires HeapValid(h) && d.store == Ref(a) && a in h.instances
    requires ToKey(verb) in {"create", "update", "delete"}
    ensures var (h', r) := ResolveSpec(h, verb, d);
      var cd := CacheDescriptorOf(d);
      var slot := Slot(h'.instances[a].cache, cd);
      var m := WriteMethod(ToKey(verb));
      r == Ok(Sent(SI.Request(m.0, d.path, if ToKey(verb) == "delete" then Undefined else Obj(d.payload), m.1, a, d))) &&
      h'.instances[a].events == h.instances[a].events + ChangeEvents(d) &&
      slot.Obj? && Get(slot.fields, "timestamp") == Num(TIMESTAMP_LOADING) &&
      (k != "timestamp" ==> Get(slot.fields, k) == Get(FieldsOf(Slot(h.instances[a].cache, cd)), k))
  {
    var cd := CacheDescriptorOf(d);
    var touch := TouchFor(ToKey(verb));
    TouchForFields(ToKey(verb), k);
    LFMP.TouchMerges(h.instances[a].cache, cd, touch, "timestamp");
    LFMP.TouchMerges(h.instances[a].cache, cd, touch, k);
  }

  /** A request resolver called on a descriptor whose `store` is not a store instance rejects its promise and changes nothing; `fetch` throws. */
  lemma WithoutStoreAborted(h: Heap, verb: Value, d: SR.Descriptor)
    requires HeapValid(h) && StoreAt(h, d.store).None?
    requires ToKey(verb) in {"get", "create", "update", "delete", "fetch"}
    ensures ResolveSpec(h, verb, d) ==
      if ToKey(verb) == "fetch" then (h, Err(NotAFunction("fetchResource")))
      else (h, Ok(Aborted(NotAFunction("touchResource"))))
  {
  }

  /**
   * `fetch` has no `__getable` gate: a snapshot without data, or older than
   * loading, starts a quiet `get` whatever the parameters say, and the
   * second snapshot is returned with the request.
   */
  lemma FetchLoads(h: Heap, d: SR.Descriptor, a: nat)
    requires HeapValid(h) && d.store == Ref(a) && a in h.instances
    requires var first := LFM.FetchSpec(h.instances[a].cache, CacheDescriptorOf(d));
      first.Ok? && SI.NeedsLoad(first.value)
    ensures var (h', r) := ResolveSpec(h, Str("fetch"), d);
      h'.instances[a].events == h.instances[a].events &&
      (r.Ok? ==> r.value == Snapshot(r.value.resource, Some(SI.Request("get", d.path, Undefined, ACTION_FETCH, a, d))))
  {
  }

  /** A snapshot with data, loading or newer, is returned as it is, and no request is made. */
  lemma FreshFetchAnswered(h: Heap, d: SR.Descriptor, a: nat)
    requires HeapValid(h) && d.store == Ref(a) && a in h.instances
    requires var first := LFM.FetchSpec(h.instances[a].cache, CacheDescriptorOf(d));
      first.Ok? && first.value.data.Some? && Truthy(first.value.data.value) &&
      (first.value.timestamp.Num? ==> first.value.timestamp.n >= TIMESTAMP_LOADING)
    ensures var (h', r) := ResolveSpec(h, Str("fetch"), d);
      h' == FetchAt(h, a, d).0 && h'.instances[a].events == h.instances[a].events &&
      r == Ok(Snapshot(LFM.FetchSpec(h.instances[a].cache, CacheDescriptorOf(d)).value, None))
  {
  }

  /* ----- settling a request ----- */

  /**
   * A refused request stamps its slot with the time of the refusal, keeps
   * every other field, announces the change and rejects with the response.
   */
  lemma RefusalStamped(h: Heap, req: SI.Request, response: Value, now: int, k: string)
    requires HeapValid(h) && req.store in h.instances
    ensures var (h', s) := CompleteSpec(h, req, SI.Refused(response), now);
      var a := req.store;
      var cd := CacheDescriptorOf(req.descriptor);
      var slot := Slot(h'.instances[a].cache, cd);
      s == SI.Rejected(response) &&
      h'.instances[a].events == h.instances[a].events + ChangeEvents(req.descriptor) &&
      slot.Obj? && Get(slot.fields, "timestamp") == Num(now) &&
      (k != "timestamp" ==> Get(slot.fields, k) == Get(FieldsOf(Slot(h.instances[a].cache, cd)), k))
  {
    var touch := Obj([("timestamp", Num(now))]);
    var cd := CacheDescriptorOf(req.descriptor);
    StampFields(now, k);
    LFMP.TouchMerges(h.instances[req.store].cache, cd, touch, "timestamp");
    LFMP.TouchMerges(h.instances[req.store].cache, cd, touch, k);
  }

  /** An answered GET or DELETE throws inside the callback: nothing changes and the promise never settles. */
  lemma FetchAndDeleteAnswersPending(h: Heap, req: SI.Request, response: Value, now: int)
    requires HeapValid(h) && req.store in h.instances
    requires req.action in {ACTION_FETCH, ACTION_DELETE}
    ensures var (h', s) := CompleteSpec(h, req, SI.Answered(response), now);
      h' == h && s.Pending? &&
      s.error == (if req.action == ACTION_FETCH then CannotRead("default", Undefined) else NotAFunction("deleteResource"))
  {
  }

  /**
   * An answered save hands the response data to `updateResource` as its
   * action. Unless that data is itself one of the action names, the cache
   * only gains the descriptor's (empty) fragment: nothing of the answer is
   * stored. The change is still announced and the promise resolves.
   */
  lemma SaveAnswerDiscarded(h: Heap, req: SI.Request, response: Value, now: int)
    requires HeapValid(h) && req.store in h.instances
    requires req.action == ACTION_SAVE
    requires SI.ResponseData(response) !in {Str(ACTION_FETCH), Str(ACTION_SAVE), Str(ACTION_DELETE)}
    ensures var (h', s) := CompleteSpec(h, req, SI.Answered(response), now);
      var a := req.store;
      var st := h.instances[a].cache;
      var cd := CacheDescriptorOf(req.descriptor);
      s == SI.Resolved(response) &&
      h'.instances[a].cache == FM.CacheState(FM.WithFragment(st.fragments, FM.PrimaryKey(cd)), st.queries) &&
      h'.instances[a].events == h.instances[a].events + ChangeEvents(req.descriptor) &&
      h'.instances[a].definition == h.instances[a].definition
  {
    var data := SI.ResponseData(response);
    assert !LFM.IsAction(data, ACTION_FETCH) && !LFM.IsAction(data, ACTION_SAVE) && !LFM.IsAction(data, ACTION_DELETE);
  }
}

=== FILE: legacy_store.dfy ===
/**
 * The older store registry of `src/createStore.js`.
 *
 * Unlike the registry of `lib/createStore.js`, only a string first argument
 * names a store; an object argument always makes an anonymous store, which
 * is never registered. A name already taken returns the registered store as
 * it is. Validation checks the types of a few options and lets unknown keys
 * through. A store's cache is the older, action-keyed one.
 */
module LegacyStoreRegistry {
  import opened Values
  import FM = FragmentMap
  import LFM = LegacyFragmentMap
  import SR = StackReducer
  import opened StoreRegistry

  /* ----- validateDefinition ----- */

  function InvalidType(v: Value): Failure
  {
    TypeError("createStore: You're attempting to pass an invalid definition of type `" + TypeOf(v) + "`. " +
      "A valid definition type is a regular object containing key values or a single string value denoting " +
      "the collection type.")
  }

  function NotAString(option: string, v: Value): Failure
  {
    TypeError("createStore: Option `" + option + "` can only be of type String but found type `" + TypeOf(v) + "`.")
  }

  function NotAnObject(option: string, v: Value): Failure
  {
    TypeError("createStore: Option `" + option + "` can only be of type Object but found " +
      "type `" + TypeOf(v) + "`.")
  }

  /** The first check a definition fails, in the order `validateDefinition` makes them. */
  function Invalid(def: Value): Option<Failure>
  {
    if !IsPlainObject(def) then Some(InvalidType(def))
    else
      var t := Prop(def, "type");
      var ip := Prop(def, "initialParams");
      var uri := Prop(def, "uri");
      var acts := Prop(def, "actions");
      var only := Prop(def, "onlyActions");
      if Truthy(t) && !t.Str? then Some(NotAString("type", t))
      else if Truthy(ip) && !IsPlainObject(ip) then Some(NotAnObject("initialParams", ip))
      else if Truthy(uri) && !uri.Str? then Some(NotAString("uri", uri))
      else if Truthy(acts) && !IsPlainObject(acts) then Some(NotAnObject("actions", acts))
      else if Truthy(only) && !IsPlainObject(only) then Some(NotAnObject("onlyActions", only))
      else None
  }

  /* ----- the registry ----- */

  /** The name a call asks for (empty for none) and the definition it uses, `{}` for a falsy one. */
  function Arguments(first: Value, second: Value): (string, Value)
  {
    var (name, def) := if first.Str? then (first.s, second) else ("", first);
    (name, if Truthy(def) then def else Obj([]))
  }

  /** `new Store(definition)` at the next free address, with no name. */
  function Allocate(h: Heap, def: Value): Heap
  {
    h.(instances := h.instances[h.next := NewStore(def)], next := h.next + 1)
  }

  /** `createStore(first, second)`: the heap afterwards and the address of the store returned, or the exception. */
  function CreateStoreSpec(h: Heap, first: Value, second: Value): (r: (Heap, Result<nat>))
    requires HeapValid(h)
    ensures HeapValid(r.0)
    ensures r.1.Ok? ==> r.1.value in r.0.instances
  {
    var (name, def) := Arguments(first, second);
    if name != "" && name in h.names then (h, Ok(h.names[name]))
    else
      match Invalid(def)
      case Some(e) => (h, Err(e))
      case None => (if name != "" then Register(h, name, def) else Allocate(h, def), Ok(h.next))
  }

  /** The registry of `src/createStore.js` (`StoreSet`), with the instances it refers to. */
  class LegacyRegistry {
    var names: map<string, nat>
    var instances: map<nat, StoreRecord>
    var next: nat

    function State(): Heap
      reads this
    {
      Heap(names, instances, next)
    }

    ghost predicate Valid()
      reads this
    {
      HeapValid(State())
    }

    constructor ()
      ensures Valid() && State() == Heap(map[], map[], 0)
    {
      names := map[];
      instances := map[];
      next := 0;
    }

    /** `createStore(first, second)`. */
    method CreateStore(first: Value, second: Value) returns (r: Result<nat>)
      requires Valid()
      modifies this
      ensures Valid()
      ensures (State(), r) == CreateStoreSpec(old(State()), first, second)
    {
      var (name, def) := Arguments(first, second);
      if name != "" && name in names {
        return Ok(names[name]);
      }
      var invalid := Invalid(def);
      if invalid.Some? {
        return Err(invalid.value);
      }
      r := Ok(next);
      Install(name, def);
    }

    /** `new Store(definition)`, kept under `StoreSet[name]` when there is a name. */
    method Install(name: string, def: Value)
      requires Valid()
      modifies this
      ensures Valid()
      ensures State() == if name != "" then Register(old(State()), name, def) else Allocate(old(State()), def)
    {
      instances := instances[next := NewStore(def)];
      if name != "" {
        names := names[name := next];
      }
      next := next + 1;
    }

    /** `store.notifyChange(descriptor)`. */
    method NotifyChange(a: nat, d: SR.Descriptor)
      requires Valid() && a in instances
      modifies this
      ensures Valid()
      ensures State() == Put(old(State()), a, old(instances)[a].(events := old(instances)[a].events + ChangeEvents(d)))
    {
      instances := instances[a := instances[a].(events := instances[a].events + ChangeEvents(d))];
    }

    /** `store.fetchResource(descriptor)` on the older cache. */
    method FetchResource(a: nat, d: FM.CacheDescriptor) returns (r: Result<FM.FetchResult>)
      requires Valid() && a in instances
      modifies this
      ensures Valid()
      ensures r == LFM.FetchSpec(old(instances)[a].cache, d)
      ensures State() == Put(old(State()), a, old(instances)[a].(cache := FetchState(old(instances)[a].cache, d)))
    {
      r := LFM.FetchSpec(instances[a].cache, d);
      instances := instances[a := instances[a].(cache := FetchState(instances[a].cache, d))];
    }

    /** `store.touchResource(descriptor, action, metadata)`: the action is ignored; the error is what the touch throws. */
    method TouchResource(a: nat, d: FM.CacheDescriptor, touch: Value) returns (err: Option<Failure>)
      requires Valid() && a in instances
      modifies this
      ensures Valid()
      ensures var (c, r) := LFM.TouchSpec(old(instances)[a].cache, d, touch);
        State() == Put(old(State()), a, old(instances)[a].(cache := c)) &&
        err == (if r.Err? then Some(r.failure) else None)
    {
      var (c, r) := LFM.TouchSpec(instances[a].cache, d, touch);
      instances := instances[a := instances[a].(cache := c)];
      err := if r.Err? then Some(r.failure) else None;
    }

    /** `store.updateResource(descriptor, action, data, status)` at time `now`. */
    method UpdateResource(a: nat, d: FM.CacheDescriptor, action: Value, data: Value, status: Value, now: int)
      returns (err: Option<Failure>)
      requires Valid() && a in instances
      modifies this
      ensures Valid()
      ensures var (c, r) := LFM.UpdateSpec(old(instances)[a].cache, d, action, data, status, now);
        State() == Put(old(State()), a, old(instances)[a].(cache := c)) &&
        err == (if r.Err? then Some(r.failure) else None)
    {
      var (c, r) := LFM.UpdateSpec(instances[a].cache, d, action, data, status, now);
      instances := instances[a := instances[a].(cache := c)];
      err := if r.Err? then Some(r.failure) else None;
    }
  }
}

=== FILE: legacy_store_props.dfy ===
/**
 * Properties of the older `createStore` of `src/createStore.js`.
 */
module LegacyStoreRegistryProperties {
  import opened Values
  import opened StoreRegistry
  import opened LegacyStoreRegistry

  /** A name already taken returns the registered store, even with a definition that would not validate. */
  lemma ExistingReturned(h: Heap, name: string, def: Value)
    requires HeapValid(h) && name != "" && name in h.names
    ensures CreateStoreSpec(h, Str(name), def) == (h, Ok(h.names[name]))
  {
  }

  /** A new name registers a new store with the (defaulted) definition at the next free address. */
  lemma NamedRegistered(h: Heap, name: string, def: Value)
    requires HeapValid(h) && name != "" && name !in h.names
    requires Invalid(if Truthy(def) then def else Obj([])).None?
    ensures var def' := if Truthy(def) then def else Obj([]);
      CreateStoreSpec(h, Str(name), def) == (Register(h, name, def'), Ok(h.next))
    ensures h.next !in h.instances
  {
  }

  /**
   * A first argument that is not a string is the definition, and the store
   * is anonymous: the names are unchanged even when the definition carries
   * a `type`.
   */
  lemma ObjectArgumentAnonymous(h: Heap, def: Value, second: Value)
    requires HeapValid(h) && !def.Str?
    requires Invalid(if Truthy(def) then def else Obj([])).None?
    ensures var (h', r) := CreateStoreSpec(h, def, second);
      h'.names == h.names && r == Ok(h.next) &&
      h'.instances == h.instances[h.next := NewStore(if Truthy(def) then def else Obj([]))] &&
      h.next !in h.instances
  {
  }

  /** The empty string names nothing either: the second argument makes an anonymous store. */
  lemma EmptyNameAnonymous(h: Heap, def: Value)
    requires HeapValid(h)
    requires Invalid(if Truthy(def) then def else Obj([])).None?
    ensures var (h', r) := CreateStoreSpec(h, Str(""), def);
      h'.names == h.names && r == Ok(h.next) &&
      h'.instances == h.instances[h.next := NewStore(if Truthy(def) then def else Obj([]))]
  {
  }

  /** A definition that fails validation throws before anything is registered or allocated. */
  lemma InvalidRejected(h: Heap, first: Value, second: Value)
    requires HeapValid(h)
    requires var (name, def) := Arguments(first, second); name !in h.names && Invalid(def).Some?
    ensures CreateStoreSpec(h, first, second) == (h, Err(Invalid(Arguments(first, second).1).value))
  {
  }

  /** `createStore("name")` records no type: the definition is `{}`. */
  lemma StringOnlyDefinitionEmpty(h: Heap, name: string)
    requires HeapValid(h) && name != "" && name !in h.names
    ensures CreateStoreSpec(h, Str(name), Undefined) == (Register(h, name, Obj([])), Ok(h.next))
  {
    assert Invalid(Obj([])) == None;
  }

  /** Keys outside the checked options are let through. */
  lemma NoWhitelist(k: string, v: Value)
    requires k !in {"type", "initialParams", "uri", "actions", "onlyActions"}
    ensures Invalid(Obj([(k, v)])) == None
  {
    var f: Fields := [(k, v)];
    assert f[1..] == [];
  }

  /** `onlyActions` must be a plain object: an array of actions is refused. */
  lemma OnlyActionsArrayRejected(xs: seq<Value>)
    ensures Invalid(Obj([("onlyActions", Arr(xs))])) == Some(NotAnObject("onlyActions", Arr(xs)))
  {
    var f: Fields := [("onlyActions", Arr(xs))];
    assert f[1..] == [];
  }

  /** Every check reports the option it found at fault, with a TypeError. */
  lemma RejectionsAreTypeErrors(def: Value)
    ensures Invalid(def).Some? ==> Invalid(def).value.TypeError?
    ensures !IsPlainObject(def) ==> Invalid(def) == Some(InvalidType(def))
  {
  }

  /** `createStore` never rebinds a name nor replaces an existing store. */
  lemma CreateKeepsStores(h: Heap, first: Value, second: Value)
    requires HeapValid(h)
    ensures var h' := CreateStoreSpec(h, first, second).0;
      (forall n :: n in h.names ==> n in h'.names && h'.names[n] == h.names[n]) &&
      (forall a :: a in h.instances ==> a in h'.instances && h'.instances[a] == h.instances[a])
  {
    var (name, def) := Arguments(first, second);
    if !(name != "" && name in h.names) && Invalid(def).None? {
      assert h.next !in h.instances;
      var h' := if name != "" then Register(h, name, def) else Allocate(h, def);
      assert CreateStoreSpec(h, first, second).0 == h';
      assert h'.instances == h.instances[h.next := NewStore(def)];
    }
  }
}

=== FILE: mixin_resolvable.dfy ===
/**
 * The resolvable mixin of `lib/MixinResolvable.js`: how a chain of stores
 * and datasets turns into the flat stack the reducer reads.
 *
 * Resolvable instances live in an arena: node `a` knows what its
 * `getResolvable` returns, its parent, and whether it carries a
 * `__resolveInvoker`. In stack entries an instance is the reference
 * `Ref(a)`. A parent has a smaller index than its child, and every node
 * that unfolding the stack of node `a` can reach has a smaller index than
 * `a`; together these exclude cycles, which would make the source loop
 * forever. Unfolding follows an entry that is an instance, an entry's
 * `__definition`, and the items of an array definition, and nothing else:
 * the `__reference` and `__ref` that a store's or a dataset's
 * `getResolvable` carries back to the instance itself are never followed,
 * so they are not bounded.
 *
 * The invoker is only ever reached at the root; what it returns (a
 * descriptor or a promise) is an object that is not array-like, so
 * unfolding it yields nothing.
 */
module MixinResolvable {
  import opened Values

  datatype Node = Node(resolvable: Value, parent: Option<nat>, invoker: bool)

  type Arena = seq<Node>

  /** What `resolve` hands back: the invoker called at `root` with the stack, or the stack itself. */
  datatype Outcome = Invoked(root: nat, stack: seq<Value>) | Returned(stack: seq<Value>)

  /** The default `getResolvable` returns null. */
  const DefaultResolvable: Value := Null

  /** Whether a value is a resolvable instance (it has both `resolve` and `getResolvable`). */
  predicate IsNode(nodes: Arena, v: Value)
  {
    v.Ref? && v.addr < |nodes|
  }

  /** A property read on an object is smaller than the object. */
  lemma PropSmaller(v: Value, k: string)
    requires Prop(v, k).Arr?
    ensures SizeSeq(Prop(v, k).items) < Size(v)
  {
    SizeGet(v.fields, k);
  }

  /* ----- references into the arena ----- */

  /**
   * Every node that unfolding `v` as a stack entry can reach has an index
   * below `bound`: `v` itself when it is an instance, and what its
   * `__definition` leads to.
   */
  predicate RefsBelow(nodes: Arena, v: Value, bound: nat)
    decreases v, 1
  {
    match v
    case Ref(a) => a < |nodes| ==> a < bound
    case Obj(fields) =>
      forall i :: 0 <= i < |fields| && fields[i].0 == "__definition" ==> DefinitionBelow(nodes, fields[i].1, bound)
    case _ => true
  }

  /** What a `__definition` leads to lies below `bound`: the instance it is, or every item of the array it is. */
  predicate DefinitionBelow(nodes: Arena, d: Value, bound: nat)
    decreases d, 0
  {
    match d
    case Ref(a) => a < |nodes| ==> a < bound
    case Arr(items) => forall i :: 0 <= i < |items| ==> RefsBelow(nodes, items[i], bound)
    case _ => true
  }

  /** The entries `[].concat(x, stack)` puts in front of a stack lie below `bound`. */
  predicate StackBelow(nodes: Arena, x: Value, bound: nat)
  {
    if x.Arr? then AllBelow(nodes, x.items, bound) else RefsBelow(nodes, x, bound)
  }

  predicate AllBelow(nodes: Arena, s: seq<Value>, bound: nat)
  {
    forall i :: 0 <= i < |s| ==> RefsBelow(nodes, s[i], bound)
  }

  /** Parents and the nodes a node's own entries lead to come earlier in the arena. */
  predicate WellFormed(nodes: Arena)
  {
    forall a :: 0 <= a < |nodes| ==>
      (nodes[a].parent.Some? ==> nodes[a].parent.value < a) &&
      StackBelow(nodes, nodes[a].resolvable, a)
  }

  lemma {:induction false} RefsBelowMono(nodes: Arena, v: Value, b1: nat, b2: nat)
    requires RefsBelow(nodes, v, b1) && b1 <= b2
    ensures RefsBelow(nodes, v, b2)
    decreases v, 1
  {
    match v
    case Obj(fields) =>
      forall i | 0 <= i < |fields| && fields[i].0 == "__definition"
        ensures DefinitionBelow(nodes, fields[i].1, b2)
      {
        var p := fields[i];
        assert p.1 < p;
        DefinitionBelowMono(nodes, p.1, b1, b2);
      }
    case _ =>
  }

  lemma {:induction false} DefinitionBelowMono(nodes: Arena, d: Value, b1: nat, b2: nat)
    requires DefinitionBelow(nodes, d, b1) && b1 <= b2
    ensures DefinitionBelow(nodes, d, b2)
    decreases d, 0
  {
    match d
    case Arr(items) =>
      forall i | 0 <= i < |items|
        ensures RefsBelow(nodes, items[i], b2)
      {
        RefsBelowMono(nodes, items[i], b1, b2);
      }
    case _ =>
  }

  lemma StackBelowMono(nodes: Arena, x: Value, b1: nat, b2: nat)
    requires StackBelow(nodes, x, b1) && b1 <= b2
    ensures StackBelow(nodes, x, b2)
  {
    if x.Arr? {
      AllBelowMono(nodes, x.items, b1, b2);
    } else {
      RefsBelowMono(nodes, x, b1, b2);
    }
  }

  /** Every value leads to nodes of the arena only below its size. */
  lemma {:induction false} RefsBelowArena(nodes: Arena, v: Value)
    ensures RefsBelow(nodes, v, |nodes|)
    decreases v, 1
  {
    match v
    case Obj(fields) =>
      forall i | 0 <= i < |fields| && fields[i].0 == "__definition"
        ensures DefinitionBelow(nodes, fields[i].1, |nodes|)
      {
        var p := fields[i];
        assert p.1 < p;
        DefinitionBelowArena(nodes, p.1);
      }
    case _ =>
  }

  lemma {:induction false} DefinitionBelowArena(nodes: Arena, d: Value)
    ensures DefinitionBelow(nodes, d, |nodes|)
    decreases d, 0
  {
    match d
    case Arr(items) =>
      forall i | 0 <= i < |items|
        ensures RefsBelow(nodes, items[i], |nodes|)
      {
        RefsBelowArena(nodes, items[i]);
      }
    case _ =>
  }

  lemma {:induction false} DefinitionBelowGet(nodes: Arena, f: Fields, bound: nat)
    requires forall i :: 0 <= i < |f| && f[i].0 == "__definition" ==> DefinitionBelow(nodes, f[i].1, bound)
    ensures DefinitionBelow(nodes, Get(f, "__definition"), bound)
    decreases f
  {
    if f != [] && f[0].0 != "__definition" {
      DefinitionBelowGet(nodes, f[1..], bound);
    }
  }

  /** An entry's `__definition` leads to no node the entry does not lead to. */
  lemma DefinitionBelowProp(nodes: Arena, v: Value, bound: nat)
    requires RefsBelow(nodes, v, bound)
    ensures DefinitionBelow(nodes, Prop(v, "__definition"), bound)
  {
    if v.Obj? {
      DefinitionBelowGet(nodes, v.fields, bound);
    }
  }

  lemma AllBelowConcat(nodes: Arena, s1: seq<Value>, s2: seq<Value>, bound: nat)
    requires AllBelow(nodes, s1, bound) && AllBelow(nodes, s2, bound)
    ensures AllBelow(nodes, s1 + s2, bound)
  {
    forall i | 0 <= i < |s1 + s2|
      ensures RefsBelow(nodes, (s1 + s2)[i], bound)
    {
      if i < |s1| {
        assert (s1 + s2)[i] == s1[i];
      } else {
        assert (s1 + s2)[i] == s2[i - |s1|];
      }
    }
  }

  lemma AllBelowMono(nodes: Arena, s: seq<Value>, b1: nat, b2: nat)
    requires AllBelow(nodes, s, b1) && b1 <= b2
    ensures AllBelow(nodes, s, b2)
  {
    forall i | 0 <= i < |s|
      ensures RefsBelow(nodes, s[i], b2)
    {
      RefsBelowMono(nodes, s[i], b1, b2);
    }
  }

  /* ----- unfoldStack and resolve ----- */

  /** An entry `unfoldStack` keeps as it is: truthy, not resolvable, and not carrying a resolvable or an array as `__definition`. */
  predicate Flat(nodes: Arena, e: Value)
  {
    Truthy(e) && !IsNode(nodes, e) && !IsNode(nodes, Prop(e, "__definition")) && !Prop(e, "__definition").Arr?
  }

  predicate AllFlat(nodes: Arena, s: seq<Value>)
  {
    forall i :: 0 <= i < |s| ==> Flat(nodes, s[i])
  }

  /** `[].concat(x, stack)`: an array's items, or the value itself, in front of the stack. */
  function Prepend(x: Value, stack: seq<Value>): seq<Value>
  {
    if x.Arr? then x.items + stack else [x] + stack
  }

  /** `[].concat(stack || [])` for the argument of `resolve`. */
  function StackArg(arg: Value): seq<Value>
  {
    if !Truthy(arg) then [] else if arg.Arr? then arg.items else [arg]
  }

  /** The items of `[].concat(x, stack)` refer to no node that `x` or the stack does not. */
  lemma PrependBelow(nodes: Arena, x: Value, s: seq<Value>, bound: nat)
    requires StackBelow(nodes, x, bound) && AllBelow(nodes, s, bound)
    ensures AllBelow(nodes, Prepend(x, s), bound)
  {
    var s' := Prepend(x, s);
    if x.Arr? {
      assert forall i :: 0 <= i < |x.items| ==> s'[i] == x.items[i];
      assert forall i :: |x.items| <= i < |s'| ==> s'[i] == s[i - |x.items|];
    } else {
      assert forall i :: 1 <= i < |s'| ==> s'[i] == s[i - 1];
    }
  }

  /**
   * `unfoldStack(stack)`: a fresh array holding what each entry unfolds to,
   * in order.
   */
  function Unfold(nodes: Arena, s: seq<Value>, bound: nat): (r: seq<Value>)
    requires WellFormed(nodes) && AllBelow(nodes, s, bound)
    ensures AllBelow(nodes, r, bound) && AllFlat(nodes, r)
    decreases bound, 0, SizeSeq(s), 1
  {
    if s == [] then []
    else
      assert AllBelow(nodes, s[1..], bound) by {
        assert forall i :: 0 <= i < |s[1..]| ==> s[1..][i] == s[i + 1];
      }
      UnfoldEntry(nodes, s[0], bound) + Unfold(nodes, s[1..], bound)
  }

  /**
   * What one entry unfolds to: nothing for a falsy entry; the unfolded
   * result of `resolve()` for a resolvable entry or an entry whose
   * `__definition` is resolvable; the unfolded items for an entry whose
   * `__definition` is an array; the entry itself otherwise.
   */
  function UnfoldEntry(nodes: Arena, e: Value, bound: nat): (r: seq<Value>)
    requires WellFormed(nodes) && RefsBelow(nodes, e, bound)
    ensures AllBelow(nodes, r, bound) && AllFlat(nodes, r)
    decreases bound, 0, Size(e), 0
  {
    var def := Prop(e, "__definition");
    DefinitionBelowProp(nodes, e, bound);
    if !Truthy(e) then []
    else if IsNode(nodes, e) then Expand(nodes, e.addr, bound)
    else if IsNode(nodes, def) then Expand(nodes, def.addr, bound)
    else if def.Arr? then (PropSmaller(e, "__definition"); Unfold(nodes, def.items, bound))
    else [e]
  }

  /** `unfoldStack(x.resolve())` for the resolvable node `a`, as met inside a stack. */
  function Expand(nodes: Arena, a: nat, bound: nat): (r: seq<Value>)
    requires WellFormed(nodes) && a < |nodes| && a < bound
    ensures AllBelow(nodes, r, bound) && AllFlat(nodes, r)
    decreases a, 2, 0, 0
  {
    match Climb(nodes, a, [], a)
    case Invoked(_, _) => []
    case Returned(stack) =>
      var r := Unfold(nodes, stack, a);
      assert AllBelow(nodes, r, bound) by {
        forall i | 0 <= i < |r|
          ensures RefsBelow(nodes, r[i], bound)
        {
          RefsBelowMono(nodes, r[i], a, bound);
        }
      }
      r
  }

  /**
   * `resolve(stack)` on node `a`, once the argument is an array: prepend
   * the node's `getResolvable()` and defer to the parent; the root unfolds
   * the stack and calls its invoker if it has one.
   */
  function Climb(nodes: Arena, a: nat, s: seq<Value>, bound: nat): (r: Outcome)
    requires WellFormed(nodes) && a < |nodes| && a <= bound && AllBelow(nodes, s, bound)
    ensures AllBelow(nodes, r.stack, bound) && AllFlat(nodes, r.stack)
    decreases bound, 1, a, 0
  {
    var x := nodes[a].resolvable;
    StackBelowMono(nodes, x, a, bound);
    PrependBelow(nodes, x, s, bound);
    var s' := Prepend(x, s);
    match nodes[a].parent
    case Some(p) => Climb(nodes, p, s', bound)
    case None =>
      var u := Unfold(nodes, s', bound);
      if nodes[a].invoker then Invoked(a, u) else Returned(u)
  }

  /** `node.resolve(arg)` for node `a` of the arena. */
  function Resolve(nodes: Arena, a: nat, arg: Value): Outcome
    requires WellFormed(nodes) && a < |nodes|
  {
    var s := StackArg(arg);
    assert AllBelow(nodes, s, |nodes|) by {
      forall i | 0 <= i < |s|
        ensures RefsBelow(nodes, s[i], |nodes|)
      {
        RefsBelowArena(nodes, s[i]);
      }
    }
    Climb(nodes, a, s, |nodes|)
  }

  /* ----- the loops ----- */

  /** `unfoldStack`, with its loop building a fresh `results` array. */
  method UnfoldStack(nodes: Arena, s: seq<Value>, bound: nat) returns (results: seq<Value>)
    requires WellFormed(nodes) && AllBelow(nodes, s, bound)
    ensures results == Unfold(nodes, s, bound)
    decreases bound, 0, SizeSeq(s), 1
  {
    results := [];
    var i := 0;
    while i < |s|
      invariant 0 <= i <= |s|
      invariant AllBelow(nodes, s[i..], bound)
      invariant results + Unfold(nodes, s[i..], bound) == Unfold(nodes, s, bound)
    {
      assert s[i..][0] == s[i] && s[i..][1..] == s[i + 1..];
      SizeSeqElem(s, i);
      var sub := UnfoldElement(nodes, s[i], bound);
      results := results + sub;
      i := i + 1;
    }
    assert s[i..] == [];
  }

  /** One iteration of the `unfoldStack` loop: what the element adds to `results`. */
  method UnfoldElement(nodes: Arena, element: Value, bound: nat) returns (r: seq<Value>)
    requires WellFormed(nodes) && RefsBelow(nodes, element, bound)
    ensures r == UnfoldEntry(nodes, element, bound)
    decreases bound, 0, Size(element), 0
  {
    var definition := Prop(element, "__definition");
    DefinitionBelowProp(nodes, element, bound);
    if !Truthy(element) {
      r := [];
    } else if IsNode(nodes, element) {
      r := ExpandNode(nodes, element.addr, bound);
    } else if IsNode(nodes, definition) {
      r := ExpandNode(nodes, definition.addr, bound);
    } else if definition.Arr? {
      PropSmaller(element, "__definition");
      r := UnfoldStack(nodes, definition.items, bound);
    } else {
      r := [element];
    }
  }

  /** `unfoldStack(x.resolve())` for a resolvable met inside a stack. */
  method ExpandNode(nodes: Arena, a: nat, bound: nat) returns (r: seq<Value>)
    requires WellFormed(nodes) && a < |nodes| && a < bound
    ensures r == Expand(nodes, a, bound)
    decreases a, 2, 0, 0
  {
    var definition := ClimbUp(nodes, a, [], a);
    if definition.Invoked? {
      return [];
    }
    r := UnfoldStack(nodes, definition.stack, a);
  }

  /** `resolve` on node `a` with an array argument, recursing up the parent chain. */
  method ClimbUp(nodes: Arena, a: nat, s: seq<Value>, bound: nat) returns (r: Outcome)
    requires WellFormed(nodes) && a < |nodes| && a <= bound && AllBelow(nodes, s, bound)
    ensures r == Climb(nodes, a, s, bound)
    decreases bound, 1, a, 0
  {
    StackBelowMono(nodes, nodes[a].resolvable, a, bound);
    PrependBelow(nodes, nodes[a].resolvable, s, bound);
    var stack := Prepend(nodes[a].resolvable, s);
    assert Climb(nodes, a, s, bound) == (match nodes[a].parent
      case Some(p) => Climb(nodes, p, stack, bound)
      case None => var u := Unfold(nodes, stack, bound); if nodes[a].invoker then Invoked(a, u) else Returned(u));
    if nodes[a].parent.Some? {
      r := ClimbUp(nodes, nodes[a].parent.value, stack, bound);
    } else {
      var u := UnfoldStack(nodes, stack, bound);
      r := if nodes[a].invoker then Invoked(a, u) else Returned(u);
    }
  }

  /** `resolve(arg)` on node `a`. */
  method ResolveNode(nodes: Arena, a: nat, arg: Value) returns (r: Outcome)
    requires WellFormed(nodes) && a < |nodes|
    ensures r == Resolve(nodes, a, arg)
  {
    var s := StackArg(arg);
    assert AllBelow(nodes, s, |nodes|) by {
      forall i | 0 <= i < |s|
        ensures RefsBelow(nodes, s[i], |nodes|)
      {
        RefsBelowArena(nodes, s[i]);
      }
    }
    r := ClimbUp(nodes, a, s, |nodes|);
  }
}

=== FILE: mixin_resolvable_props.dfy ===
/**
 * Properties of `unfoldStack` and `resolve`: unfolding works entry by
 * entry, leaves flat stacks alone, and `resolve` hands the root the
 * getResolvable results of the whole chain, root first.
 */
module MixinResolvableProperties {
  import opened Values
  import opened MixinResolvable
  import SRG = StoreRegistry
  import DS = Dataset

  /** Unfolding distributes over concatenation: every entry unfolds in place, in order. */
  lemma {:induction false} UnfoldConcat(nodes: Arena, s1: seq<Value>, s2: seq<Value>, bound: nat)
    requires WellFormed(nodes) && AllBelow(nodes, s1, bound) && AllBelow(nodes, s2, bound)
    ensures AllBelow(nodes, s1 + s2, bound)
    ensures Unfold(nodes, s1 + s2, bound) == Unfold(nodes, s1, bound) + Unfold(nodes, s2, bound)
    decreases |s1|
  {
    var s := s1 + s2;
    assert forall i :: 0 <= i < |s| ==> s[i] == if i < |s1| then s1[i] else s2[i - |s1|];
    if s1 != [] {
      assert s[0] == s1[0] && s[1..] == s1[1..] + s2;
      assert AllBelow(nodes, s1[1..], bound) by {
        assert forall i :: 0 <= i < |s1[1..]| ==> s1[1..][i] == s1[i + 1];
      }
      UnfoldConcat(nodes, s1[1..], s2, bound);
    } else {
      assert s == s2;
    }
  }

  /** A stack of entries that need no unfolding is returned as it is. */
  lemma {:induction false} UnfoldFlat(nodes: Arena, s: seq<Value>, bound: nat)
    requires WellFormed(nodes) && AllBelow(nodes, s, bound) && AllFlat(nodes, s)
    ensures Unfold(nodes, s, bound) == s
    decreases |s|
  {
    if s != [] {
      assert AllBelow(nodes, s[1..], bound) && AllFlat(nodes, s[1..]) by {
        assert forall i :: 0 <= i < |s[1..]| ==> s[1..][i] == s[i + 1];
      }
      UnfoldFlat(nodes, s[1..], bound);
      assert Flat(nodes, s[0]);
      assert [s[0]] + s[1..] == s;
    }
  }

  /** Unfolding twice is unfolding once. */
  lemma UnfoldIdempotent(nodes: Arena, s: seq<Value>, bound: nat)
    requires WellFormed(nodes) && AllBelow(nodes, s, bound)
    ensures Unfold(nodes, Unfold(nodes, s, bound), bound) == Unfold(nodes, s, bound)
  {
    UnfoldFlat(nodes, Unfold(nodes, s, bound), bound);
  }

  /**
   * An entry that needs no unfolding keeps its place: whatever stands before
   * and after it is unfolded around it.
   */
  lemma UnfoldKeeps(nodes: Arena, before: seq<Value>, e: Value, after: seq<Value>, bound: nat)
    requires WellFormed(nodes) && AllBelow(nodes, before + [e] + after, bound) && Flat(nodes, e)
    ensures AllBelow(nodes, before, bound) && AllBelow(nodes, after, bound)
    ensures Unfold(nodes, before + [e] + after, bound) == Unfold(nodes, before, bound) + [e] + Unfold(nodes, after, bound)
  {
    AllBelowSplit(nodes, before, e, after, bound);
    UnfoldConcat(nodes, before, [e], bound);
    UnfoldConcat(nodes, before + [e], after, bound);
    UnfoldFlat(nodes, [e], bound);
  }

  /** A falsy entry is dropped wherever it stands. */
  lemma UnfoldDropsFalsy(nodes: Arena, before: seq<Value>, e: Value, after: seq<Value>, bound: nat)
    requires WellFormed(nodes) && AllBelow(nodes, before + [e] + after, bound) && !Truthy(e)
    ensures AllBelow(nodes, before + after, bound)
    ensures Unfold(nodes, before + [e] + after, bound) == Unfold(nodes, before + after, bound)
  {
    AllBelowSplit(nodes, before, e, after, bound);
    UnfoldConcat(nodes, before, [e], bound);
    UnfoldConcat(nodes, before + [e], after, bound);
    UnfoldConcat(nodes, before, after, bound);
    assert Unfold(nodes, [e], bound) == [] by {
      UnfoldOne(nodes, e, bound);
    }
  }

  lemma AllBelowSplit(nodes: Arena, before: seq<Value>, e: Value, after: seq<Value>, bound: nat)
    requires AllBelow(nodes, before + [e] + after, bound)
    ensures AllBelow(nodes, before, bound) && AllBelow(nodes, [e], bound) && AllBelow(nodes, after, bound)
    ensures AllBelow(nodes, before + [e], bound) && RefsBelow(nodes, e, bound)
  {
    var s := before + [e] + after;
    assert forall i :: 0 <= i < |before| ==> s[i] == before[i];
    assert forall i :: 0 <= i < |after| ==> s[|before| + 1 + i] == after[i];
    assert s[|before|] == e;
    assert forall i :: 0 <= i < |before| + 1 ==> (before + [e])[i] == s[i];
  }

  /* ----- the chain of parents ----- */

  /** The root of node `a`: the ancestor without a parent. */
  function RootOf(nodes: Arena, a: nat): (r: nat)
    requires WellFormed(nodes) && a < |nodes|
    ensures r <= a && nodes[r].parent.None?
    decreases a
  {
    match nodes[a].parent
    case Some(p) => RootOf(nodes, p)
    case None => a
  }

  /** The getResolvable results of the chain from the root down to `a`, flattened one level. */
  function ChainItems(nodes: Arena, a: nat): seq<Value>
    requires WellFormed(nodes) && a < |nodes|
    decreases a
  {
    (match nodes[a].parent
     case Some(p) => ChainItems(nodes, p)
     case None => []) + Prepend(nodes[a].resolvable, [])
  }

  lemma {:induction false} ChainBelow(nodes: Arena, a: nat, bound: nat)
    requires WellFormed(nodes) && a < |nodes| && a <= bound
    ensures AllBelow(nodes, ChainItems(nodes, a), bound)
    decreases a
  {
    var x := nodes[a].resolvable;
    assert StackBelow(nodes, x, a);
    StackBelowMono(nodes, x, a, bound);
    PrependBelow(nodes, x, [], bound);
    if nodes[a].parent.Some? {
      var p := nodes[a].parent.value;
      ChainBelow(nodes, p, bound);
      AllBelowConcat(nodes, ChainItems(nodes, p), Prepend(x, []), bound);
      assert ChainItems(nodes, a) == ChainItems(nodes, p) + Prepend(x, []);
    } else {
      assert ChainItems(nodes, a) == [] + Prepend(x, []);
    }
  }

  /**
   * Climbing from `a` reaches the root with the chain's getResolvable
   * results, root first, in front of the stack; the root unfolds that and
   * calls its own invoker when it has one. No other node's invoker is used.
   */
  lemma {:induction false} ClimbCollects(nodes: Arena, a: nat, s: seq<Value>, bound: nat)
    requires WellFormed(nodes) && a < |nodes| && a <= bound && AllBelow(nodes, s, bound)
    ensures AllBelow(nodes, ChainItems(nodes, a) + s, bound)
    ensures Climb(nodes, a, s, bound) ==
      (var u := Unfold(nodes, ChainItems(nodes, a) + s, bound);
       if nodes[RootOf(nodes, a)].invoker then Invoked(RootOf(nodes, a), u) else Returned(u))
    decreases a
  {
    var x := nodes[a].resolvable;
    assert StackBelow(nodes, x, a);
    StackBelowMono(nodes, x, a, bound);
    PrependBelow(nodes, x, s, bound);
    if nodes[a].parent.Some? {
      var p := nodes[a].parent.value;
      ChainParent(nodes, a, p, s);
      assert Climb(nodes, a, s, bound) == Climb(nodes, p, Prepend(x, s), bound);
      ClimbCollects(nodes, p, Prepend(x, s), bound);
    } else {
      ChainRoot(nodes, a, s);
    }
  }

  /** One step up the chain: the node's result joins the stack below its parent's, and the root stays the same. */
  lemma ChainParent(nodes: Arena, a: nat, p: nat, s: seq<Value>)
    requires WellFormed(nodes) && a < |nodes| && nodes[a].parent == Some(p)
    ensures p < a
    ensures ChainItems(nodes, p) + Prepend(nodes[a].resolvable, s) == ChainItems(nodes, a) + s
    ensures RootOf(nodes, a) == RootOf(nodes, p)
  {
    var x := nodes[a].resolvable;
    var c := ChainItems(nodes, p);
    assert ChainItems(nodes, a) == c + Prepend(x, []);
    PrependAppend(x, s);
    assert c + Prepend(x, []) + s == c + (Prepend(x, []) + s);
  }

  /** At the root the chain is the root's own result. */
  lemma ChainRoot(nodes: Arena, a: nat, s: seq<Value>)
    requires WellFormed(nodes) && a < |nodes| && nodes[a].parent.None?
    ensures ChainItems(nodes, a) + s == Prepend(nodes[a].resolvable, s)
    ensures RootOf(nodes, a) == a
  {
    var x := nodes[a].resolvable;
    assert ChainItems(nodes, a) == [] + Prepend(x, []);
    PrependAppend(x, s);
  }

  lemma PrependAppend(x: Value, s: seq<Value>)
    ensures Prepend(x, []) + s == Prepend(x, s)
  {
    if x.Arr? {
      assert x.items + [] == x.items;
    }
  }


  /**
   * `resolve(arg)` on node `a`: the root sees the root's getResolvable
   * result first, then each descendant's down to `a`, then the argument's
   * entries, all unfolded; only the root's invoker is called.
   */
  lemma ResolveCollects(nodes: Arena, a: nat, arg: Value)
    requires WellFormed(nodes) && a < |nodes|
    ensures AllBelow(nodes, ChainItems(nodes, a) + StackArg(arg), |nodes|)
    ensures Resolve(nodes, a, arg).stack == Unfold(nodes, ChainItems(nodes, a) + StackArg(arg), |nodes|)
    ensures Resolve(nodes, a, arg).Invoked? <==> nodes[RootOf(nodes, a)].invoker
    ensures Resolve(nodes, a, arg).Invoked? ==> Resolve(nodes, a, arg).root == RootOf(nodes, a)
  {
    var s := StackArg(arg);
    assert AllBelow(nodes, s, |nodes|) by {
      forall i | 0 <= i < |s|
        ensures RefsBelow(nodes, s[i], |nodes|)
      {
        RefsBelowArena(nodes, s[i]);
      }
    }
    ClimbCollects(nodes, a, s, |nodes|);
  }

  /* ----- single steps of unfolding ----- */

  lemma UnfoldOne(nodes: Arena, e: Value, bound: nat)
    requires WellFormed(nodes) && RefsBelow(nodes, e, bound)
    ensures AllBelow(nodes, [e], bound)
    ensures Unfold(nodes, [e], bound) == UnfoldEntry(nodes, e, bound)
  {
    assert [e][1..] == [];
  }

  lemma UnfoldTwo(nodes: Arena, e1: Value, e2: Value, bound: nat)
    requires WellFormed(nodes) && RefsBelow(nodes, e1, bound) && RefsBelow(nodes, e2, bound)
    ensures AllBelow(nodes, [e1, e2], bound)
    ensures Unfold(nodes, [e1, e2], bound) == UnfoldEntry(nodes, e1, bound) + UnfoldEntry(nodes, e2, bound)
  {
    assert [e1, e2][1..] == [e2];
    UnfoldOne(nodes, e2, bound);
  }

  /** An entry carrying an array as `__definition` unfolds to the unfolded array. */
  lemma UnfoldDefinitions(nodes: Arena, e: Value, bound: nat)
    requires WellFormed(nodes) && RefsBelow(nodes, e, bound)
    requires Truthy(e) && !IsNode(nodes, e) && Prop(e, "__definition").Arr?
    ensures AllBelow(nodes, Prop(e, "__definition").items, bound)
    ensures UnfoldEntry(nodes, e, bound) == Unfold(nodes, Prop(e, "__definition").items, bound)
  {
    DefinitionBelowProp(nodes, e, bound);
  }

  /** A root that is not an invoker expands to its own unfolded getResolvable result. */
  lemma ExpandRoot(nodes: Arena, a: nat, bound: nat)
    requires WellFormed(nodes) && a < |nodes| && a < bound
    requires nodes[a].parent.None? && !nodes[a].invoker
    ensures AllBelow(nodes, Prepend(nodes[a].resolvable, []), a)
    ensures Expand(nodes, a, bound) == Unfold(nodes, Prepend(nodes[a].resolvable, []), a)
  {
    var x := nodes[a].resolvable;
    PrependBelow(nodes, x, [], a);
    assert Climb(nodes, a, [], a) == Returned(Unfold(nodes, Prepend(x, []), a));
    UnfoldIdempotent(nodes, Prepend(x, []), a);
  }

  /* ----- a store and its datasets ----- */

  /**
   * A store (node 0) with the dataset `store.createDataset(ddef)` (node 1),
   * and a free-standing `createDataset(store, dataset)` (node 2), each
   * node's `getResolvable` encoded as the registry and `createDataset`
   * encode it, `__reference`/`__ref` back to itself included.
   */
  function StoreAndDatasets(sdef: Value, ddef: Value): Arena
  {
    [Node(SRG.Resolvable(0, sdef), None, false),
     Node(DS.Resolvable(DS.Dataset(1, DS.Single(ddef), Ref(0))), Some(0), false),
     Node(DS.Resolvable(DS.Dataset(2, DS.Members([DS.Kept(Ref(0)), DS.Kept(Ref(1))]), Undefined)), None, false)]
  }

  /** The arena is well-formed for any plain-object definitions: the self-references are never followed. */
  lemma StoreAndDatasetsWellFormed(sdef: Value, ddef: Value)
    requires IsPlainObject(sdef) && IsPlainObject(ddef)
    ensures WellFormed(StoreAndDatasets(sdef, ddef))
  {
    var nodes := StoreAndDatasets(sdef, ddef);
    DatasetMembers();
    assert StackBelow(nodes, nodes[0].resolvable, 0);
    assert StackBelow(nodes, nodes[1].resolvable, 1);
    assert DefinitionBelow(nodes, Arr([Ref(0), Ref(1)]), 2);
  }

  /** The members of `createDataset(store, dataset)` are the two instances, in order. */
  lemma DatasetMembers()
    ensures DS.DefinitionValue(DS.Members([DS.Kept(Ref(0)), DS.Kept(Ref(1))])) == Arr([Ref(0), Ref(1)])
  {
    var ms := [DS.Kept(Ref(0)), DS.Kept(Ref(1))];
    assert ms[..1][..0] == [];
    assert ms[..1] == [DS.Kept(Ref(0))];
  }

  /** A dataset's resolvable hands its definition to unfolding. */
  lemma DatasetDefinition(e: Value, def: Value, addr: nat)
    requires e == Obj([("__type", Str("dataset")), ("__definition", def), ("__ref", Ref(addr))])
    ensures Prop(e, "__definition") == def
  {
    GetAt(e.fields, 1, "__definition");
  }

  /** `resolve()` on the store's dataset hands over the store's entry, then the dataset's own. */
  lemma StoreDatasetResolve(sdef: Value, ddef: Value)
    requires IsPlainObject(sdef) && IsPlainObject(ddef)
    ensures WellFormed(StoreAndDatasets(sdef, ddef))
    ensures var nodes := StoreAndDatasets(sdef, ddef);
      Resolve(nodes, 1, Undefined) == Returned([nodes[0].resolvable, nodes[1].resolvable])
  {
    StoreAndDatasetsWellFormed(sdef, ddef);
    var nodes := StoreAndDatasets(sdef, ddef);
    var se, de := nodes[0].resolvable, nodes[1].resolvable;
    SRG.ResolvableFields(0, sdef);
    DatasetDefinition(de, ddef, 1);
    assert Flat(nodes, se) && Flat(nodes, de);
    ResolveCollects(nodes, 1, Undefined);
    ChainParent(nodes, 1, 0, []);
    ChainRoot(nodes, 0, [de]);
    assert ChainItems(nodes, 1) + StackArg(Undefined) == [se, de];
    UnfoldFlat(nodes, [se, de], 3);
  }

  /**
   * `resolve()` on the free-standing dataset unfolds its members in order:
   * the store's entry, then the first dataset's whole chain.
   */
  lemma MembersDatasetResolve(sdef: Value, ddef: Value)
    requires IsPlainObject(sdef) && IsPlainObject(ddef)
    ensures WellFormed(StoreAndDatasets(sdef, ddef))
    ensures var nodes := StoreAndDatasets(sdef, ddef);
      Resolve(nodes, 2, Undefined) == Returned([nodes[0].resolvable, nodes[0].resolvable, nodes[1].resolvable])
  {
    StoreAndDatasetsWellFormed(sdef, ddef);
    var nodes := StoreAndDatasets(sdef, ddef);
    var e2 := nodes[2].resolvable;
    ResolveCollects(nodes, 2, Undefined);
    ChainRoot(nodes, 2, []);
    assert Prepend(e2, []) == [e2];
    assert ChainItems(nodes, 2) + StackArg(Undefined) == [e2];
    UnfoldOne(nodes, e2, 3);
    MembersEntry(sdef, ddef);
  }

  /** The free-standing dataset's entry unfolds to its members' stacks, in order. */
  lemma MembersEntry(sdef: Value, ddef: Value)
    requires IsPlainObject(sdef) && IsPlainObject(ddef)
    ensures WellFormed(StoreAndDatasets(sdef, ddef))
    ensures var nodes := StoreAndDatasets(sdef, ddef);
      RefsBelow(nodes, nodes[2].resolvable, 3) &&
      UnfoldEntry(nodes, nodes[2].resolvable, 3) == [nodes[0].resolvable, nodes[0].resolvable, nodes[1].resolvable]
  {
    StoreAndDatasetsWellFormed(sdef, ddef);
    var nodes := StoreAndDatasets(sdef, ddef);
    var e2 := nodes[2].resolvable;
    var members := Arr([Ref(0), Ref(1)]);
    DatasetMembers();
    DatasetDefinition(e2, members, 2);
    assert StackBelow(nodes, e2, 2);
    RefsBelowMono(nodes, e2, 2, 3);
    assert UnfoldEntry(nodes, e2, 3) == Unfold(nodes, [Ref(0), Ref(1)], 3);
    UnfoldTwo(nodes, Ref(0), Ref(1), 3);
    assert UnfoldEntry(nodes, Ref(0), 3) == Expand(nodes, 0, 3);
    assert UnfoldEntry(nodes, Ref(1), 3) == Expand(nodes, 1, 3);
    ExpandStore(sdef, ddef);
    ExpandStoreDataset(sdef, ddef);
  }

  /** The store met inside a stack unfolds to its own entry. */
  lemma ExpandStore(sdef: Value, ddef: Value)
    requires IsPlainObject(sdef) && IsPlainObject(ddef)
    ensures WellFormed(StoreAndDatasets(sdef, ddef))
    ensures Expand(StoreAndDatasets(sdef, ddef), 0, 3) == [StoreAndDatasets(sdef, ddef)[0].resolvable]
  {
    StoreAndDatasetsWellFormed(sdef, ddef);
    var nodes := StoreAndDatasets(sdef, ddef);
    var se := nodes[0].resolvable;
    SRG.ResolvableFields(0, sdef);
    ExpandRoot(nodes, 0, 3);
    assert Prepend(se, []) == [se];
    assert Flat(nodes, se);
    UnfoldFlat(nodes, [se], 0);
  }

  /** The store's dataset met inside a stack unfolds to the store's entry and its own. */
  lemma ExpandStoreDataset(sdef: Value, ddef: Value)
    requires IsPlainObject(sdef) && IsPlainObject(ddef)
    ensures WellFormed(StoreAndDatasets(sdef, ddef))
    ensures var nodes := StoreAndDatasets(sdef, ddef);
      Expand(nodes, 1, 3) == [nodes[0].resolvable, nodes[1].resolvable]
  {
    StoreAndDatasetsWellFormed(sdef, ddef);
    var nodes := StoreAndDatasets(sdef, ddef);
    var se, de := nodes[0].resolvable, nodes[1].resolvable;
    SRG.ResolvableFields(0, sdef);
    DatasetDefinition(de, ddef, 1);
    assert Flat(nodes, se) && Flat(nodes, de);
    ClimbCollects(nodes, 1, [], 1);
    ChainParent(nodes, 1, 0, []);
    ChainRoot(nodes, 0, [de]);
    assert ChainItems(nodes, 1) + [] == [se, de];
    UnfoldFlat(nodes, [se, de], 1);
    assert Climb(nodes, 1, [], 1) == Returned([se, de]);
  }

  /* ----- a chain of five nodes ----- */

  /**
   * Two leaves returning `"foobar"` and `123`, a node returning
   * `{__definition: [one, two]}`, and a child of a default root returning
   * `{__definition: [four, four]}`.
   */
  const Nested: Arena := [
    Node(Str("foobar"), None, false),
    Node(Num(123), None, false),
    Node(Obj([("__definition", Arr([Ref(0), Ref(1)]))]), None, false),
    Node(DefaultResolvable, None, false),
    Node(Obj([("__definition", Arr([Ref(2), Ref(2)]))]), Some(3), false)]

  lemma NestedWellFormed()
    ensures WellFormed(Nested)
  {
    assert RefsBelow(Nested, Arr([Ref(0), Ref(1)]), 2);
    assert RefsBelow(Nested, Arr([Ref(2), Ref(2)]), 4);
  }

  lemma NestedLeaf(a: nat, bound: nat)
    requires a < 2 && 2 <= bound
    ensures WellFormed(Nested)
    ensures Expand(Nested, a, bound) == [Nested[a].resolvable]
  {
    NestedWellFormed();
    var x := Nested[a].resolvable;
    ExpandRoot(Nested, a, bound);
    assert Prepend(x, []) == [x];
    UnfoldFlat(Nested, [x], a);
  }

  lemma NestedLeaves(bound: nat)
    requires 2 <= bound
    ensures WellFormed(Nested)
    ensures Expand(Nested, 0, bound) == [Str("foobar")] && Expand(Nested, 1, bound) == [Num(123)]
  {
    NestedLeaf(0, bound);
    NestedLeaf(1, bound);
  }

  lemma NestedPairItems()
    ensures WellFormed(Nested)
    ensures Unfold(Nested, [Ref(0), Ref(1)], 2) == [Str("foobar"), Num(123)]
  {
    NestedWellFormed();
    UnfoldTwo(Nested, Ref(0), Ref(1), 2);
    NestedLeaves(2);
  }

  lemma NestedFour()
    ensures WellFormed(Nested)
    ensures Unfold(Nested, [Nested[2].resolvable], 2) == [Str("foobar"), Num(123)]
  {
    NestedWellFormed();
    var four := Nested[2].resolvable;
    assert RefsBelow(Nested, four, 2);
    assert Prop(four, "__definition") == Arr([Ref(0), Ref(1)]);
    UnfoldOne(Nested, four, 2);
    UnfoldDefinitions(Nested, four, 2);
    NestedPairItems();
  }

  lemma NestedPair(bound: nat)
    requires 3 <= bound
    ensures WellFormed(Nested)
    ensures Expand(Nested, 2, bound) == [Str("foobar"), Num(123)]
  {
    NestedWellFormed();
    var four := Nested[2].resolvable;
    ExpandRoot(Nested, 2, bound);
    assert Prepend(four, []) == [four];
    NestedFour();
  }

  lemma NestedTwice()
    ensures WellFormed(Nested)
    ensures Unfold(Nested, [Ref(2), Ref(2)], 5) == [Str("foobar"), Num(123), Str("foobar"), Num(123)]
  {
    NestedWellFormed();
    UnfoldTwo(Nested, Ref(2), Ref(2), 5);
    NestedPair(5);
  }

  lemma NestedFive()
    ensures WellFormed(Nested)
    ensures Unfold(Nested, [Nested[4].resolvable], 5) == [Str("foobar"), Num(123), Str("foobar"), Num(123)]
  {
    NestedWellFormed();
    var five := Nested[4].resolvable;
    assert RefsBelow(Nested, five, 4);
    RefsBelowMono(Nested, five, 4, 5);
    assert Prop(five, "__definition") == Arr([Ref(2), Ref(2)]);
    UnfoldOne(Nested, five, 5);
    UnfoldDefinitions(Nested, five, 5);
    NestedTwice();
  }

  /**
   * A node whose getResolvable returns an object carrying an array of
   * resolvables as `__definition` resolves to their results in order: two
   * copies of `{__definition: [one, two]}` give `["foobar", 123, "foobar", 123]`.
   */
  lemma NestedDefinitionsExample()
    ensures WellFormed(Nested)
    ensures Resolve(Nested, 4, Undefined) == Returned([Str("foobar"), Num(123), Str("foobar"), Num(123)])
  {
    NestedWellFormed();
    assert StackArg(Undefined) == [];
    assert Resolve(Nested, 4, Undefined) == Climb(Nested, 4, [], 5);
    NestedClimbChild();
    NestedClimbRoot();
    NestedRootUnfold();
  }

  /** The child hands its own resolvable up to its parent. */
  lemma NestedClimbChild()
    ensures WellFormed(Nested)
    ensures Climb(Nested, 4, [], 5) == Climb(Nested, 3, [Nested[4].resolvable], 5)
  {
    NestedWellFormed();
    var five := Nested[4].resolvable;
    assert Prepend(five, []) == [five];
  }

  /** The default root adds its null result in front and unfolds the stack. */
  lemma NestedClimbRoot()
    ensures WellFormed(Nested)
    ensures AllBelow(Nested, [Nested[4].resolvable], 5)
    ensures Climb(Nested, 3, [Nested[4].resolvable], 5) == Returned(Unfold(Nested, [DefaultResolvable, Nested[4].resolvable], 5))
  {
    NestedWellFormed();
    var five := Nested[4].resolvable;
    assert RefsBelow(Nested, five, 4);
    RefsBelowMono(Nested, five, 4, 5);
    assert Prepend(DefaultResolvable, [five]) == [DefaultResolvable, five];
  }

  lemma NestedRootUnfold()
    ensures WellFormed(Nested)
    ensures Unfold(Nested, [DefaultResolvable, Nested[4].resolvable], 5) == [Str("foobar"), Num(123), Str("foobar"), Num(123)]
  {
    NestedWellFormed();
    var five := Nested[4].resolvable;
    assert RefsBelow(Nested, five, 4);
    RefsBelowMono(Nested, five, 4, 5);
    UnfoldTwo(Nested, DefaultResolvable, five, 5);
    UnfoldOne(Nested, five, 5);
    NestedFive();
  }
}

=== FILE: response_import.dfy ===
/**
 * Importing response data into the stores: `responseHandler` of
 * `lib/responseHandler.js` and the `containerless_unnested` handler of
 * `lib/handlers/containerless_unnested.js`.
 *
 * Both resolve a collection type, find the store registered for it and
 * write the data into that store's cache with status "success". The
 * importer also imports every array or object nested in the data, before
 * the data itself, each into the store of its own type.
 *
 * The default handler `responseHandler` calls (`containerless_nested`) is
 * not part of this model: what it returns is an input, `result`.
 */
module ResponseImport {
  import opened Values
  import opened Constants
  import SR = StackReducer
  import opened StoreRegistry

  /* ----- responseHandler ----- */

  function MissingType(who: string): Failure
  {
    TypeError(who + ": Failed to resolve data type.")
  }

  function MissingStore(who: string, t: Value): Failure
  {
    TypeError(who + ": Failed to resolve store for data type `" + ToKey(t) + "`.")
  }

  /** `descriptor && descriptor.type || result.type`. */
  function HandlerType(descriptor: Value, result: Value): Result<Value>
  {
    var own := if Truthy(descriptor) then Prop(descriptor, "type") else descriptor;
    if Truthy(own) then Ok(own)
    else if Nullish(result) then Err(CannotRead("type", result))
    else Ok(Prop(result, "type"))
  }

  /** `descriptor.partial || result.partial || "full"`. */
  function HandlerPartial(descriptor: Value, result: Value): Result<Value>
  {
    if Truthy(Prop(descriptor, "partial")) then Ok(Prop(descriptor, "partial"))
    else if Nullish(result) then Err(CannotRead("partial", result))
    else if Truthy(Prop(result, "partial")) then Ok(Prop(result, "partial"))
    else Ok(Str(DEFAULT_FRAGMENT))
  }

  /** The store registered for a type, `StoreSet[type]`. */
  function Lookup(h: Heap, t: Value): (r: Option<nat>)
    requires HeapValid(h)
    ensures r.Some? ==> r.value in h.instances
  {
    if ToKey(t) in h.names then Some(h.names[ToKey(t)]) else None
  }

  /** The descriptor a missing one is replaced with: the reduced stack of the store, or `{}`. */
  function HandlerDescriptor(h: Heap, descriptor: Value, store: Option<nat>, hostname: string): Result<Value>
    requires store.Some? ==> store.value in h.instances
  {
    if Truthy(descriptor) then Ok(descriptor)
    else if store.None? then Ok(Obj([]))
    else
      match SR.Reduce(Arr([Resolvable(store.value, h.instances[store.value].definition)]), hostname)
      case Err(e) => Err(e)
      case Ok(d) => Ok(DescriptorValue(d))
  }

  /** `store.updateResource(descriptor, data, "success")`; the handlers' own result is the descriptor as they leave it. */
  function StoreWrite(h: Heap, a: nat, descriptor: Value, data: Value, now: int): (Heap, Result<Value>)
    requires a in h.instances
  {
    var (h1, r) := WriteResource(h, a, CacheView(descriptor), data, Str(STATUS_SUCCESS), now);
    (h1, if r.Err? then Err(r.failure) else Ok(descriptor))
  }

  /** `store.updateResource(descriptor, result.data, "success")`: reading `data` of a missing result throws first. */
  function HandlerWrite(h: Heap, a: nat, descriptor: Value, result: Value, now: int): (Heap, Result<Value>)
    requires a in h.instances
  {
    if Nullish(result) then (h, Err(CannotRead("data", result)))
    else StoreWrite(h, a, descriptor, Prop(result, "data"), now)
  }

  /** The shadow definition a prefetch registers for an unknown type. */
  function ShadowDefinition(t: Value): Value
  {
    Obj([("type", t), ("_shadow", Bool(true))])
  }

  /** Where `responseHandler` writes once the descriptor is settled: the store found, or a shadow store a prefetch creates. */
  function HandlerTarget(h: Heap, store: Option<nat>, t: Value, d: Value, result: Value, now: int, draw: nat -> string): (Heap, Result<Value>)
    requires HeapValid(h) && Injective(draw)
    requires store.Some? ==> store.value in h.instances
  {
    if store.Some? then HandlerWrite(h, store.value, d, result, now)
    else if !Truthy(Prop(d, "isPrefetch")) then (h, Err(MissingStore("responseHandler", t)))
    else ShadowTarget(h, t, d, result, now, draw)
  }

  /** A prefetch of an unknown type: `createStore({type, _shadow: true})`, then write into what it returned. */
  function ShadowTarget(h: Heap, t: Value, d: Value, result: Value, now: int, draw: nat -> string): (Heap, Result<Value>)
    requires HeapValid(h) && Injective(draw)
  {
    var (h1, created) := CreateSpec(h, ShadowDefinition(t), Undefined, draw);
    CreatedWrite(h1, created, d, result, now)
  }

  /** `store.updateResource(...)` on what `createStore` returned: only a store has that method. */
  function CreatedWrite(h: Heap, created: Result<Created>, d: Value, result: Value, now: int): (Heap, Result<Value>)
  {
    match created
    case Err(e) => (h, Err(e))
    case Ok(c) =>
      if c.StoreCreated? && c.addr in h.instances then HandlerWrite(h, c.addr, d, result, now)
      else if Nullish(result) then (h, Err(CannotRead("data", result)))
      else (h, Err(NotAFunction("updateResource")))
  }

  /**
   * `responseHandler(data, descriptor)` where the handler returned `result`:
   * the registry afterwards, and the descriptor as it leaves it or the
   * error it throws.
   */
  function HandleSpec(h: Heap, descriptor: Value, result: Value, hostname: string, now: int, draw: nat -> string): (Heap, Result<Value>)
    requires HeapValid(h) && Injective(draw)
  {
    match HandlerType(descriptor, result)
    case Err(e) => (h, Err(e))
    case Ok(t) =>
      if !Truthy(t) then (h, Err(MissingType("responseHandler")))
      else
        var store := Lookup(h, t);
        match HandlerDescriptor(h, descriptor, store, hostname)
        case Err(e) => (h, Err(e))
        case Ok(d0) =>
          var d1 := SetProp(d0, "type", t);
          match HandlerPartial(d1, result)
          case Err(e) => (h, Err(e))
          case Ok(p) => HandlerTarget(h, store, t, SetProp(d1, "partial", p), result, now, draw)
  }

  /** `responseHandler` keeps the registry well formed and never drops a store. */
  lemma HandleKeepsStores(h: Heap, descriptor: Value, result: Value, hostname: string, now: int, draw: nat -> string)
    requires HeapValid(h) && Injective(draw)
    ensures HeapValid(HandleSpec(h, descriptor, result, hostname, now, draw).0)
    ensures h.instances.Keys <= HandleSpec(h, descriptor, result, hostname, now, draw).0.instances.Keys
  {
    var t := HandlerType(descriptor, result);
    if t.Ok? && Truthy(t.value) {
      var store := Lookup(h, t.value);
      var d0 := HandlerDescriptor(h, descriptor, store, hostname);
      if d0.Ok? {
        var d1 := SetProp(d0.value, "type", t.value);
        var p := HandlerPartial(d1, result);
        if p.Ok? {
          var d := SetProp(d1, "partial", p.value);
          assert HandleSpec(h, descriptor, result, hostname, now, draw) == HandlerTarget(h, store, t.value, d, result, now, draw);
          TargetKeepsStores(h, store, t.value, d, result, now, draw);
        }
      }
    }
  }

  /** Nor does the write it ends in. */
  lemma TargetKeepsStores(h: Heap, store: Option<nat>, t: Value, d: Value, result: Value, now: int, draw: nat -> string)
    requires HeapValid(h) && Injective(draw)
    requires store.Some? ==> store.value in h.instances
    ensures HeapValid(HandlerTarget(h, store, t, d, result, now, draw).0)
    ensures h.instances.Keys <= HandlerTarget(h, store, t, d, result, now, draw).0.instances.Keys
  {
    if store.Some? {
      assert HandlerTarget(h, store, t, d, result, now, draw) == HandlerWrite(h, store.value, d, result, now);
      WriteKeepsStores(h, store.value, d, result, now);
    } else if Truthy(Prop(d, "isPrefetch")) {
      assert HandlerTarget(h, store, t, d, result, now, draw) == ShadowTarget(h, t, d, result, now, draw);
      ShadowKeepsStores(h, t, d, result, now, draw);
    }
  }

  lemma ShadowKeepsStores(h: Heap, t: Value, d: Value, result: Value, now: int, draw: nat -> string)
    requires HeapValid(h) && Injective(draw)
    ensures HeapValid(ShadowTarget(h, t, d, result, now, draw).0)
    ensures h.instances.Keys <= ShadowTarget(h, t, d, result, now, draw).0.instances.Keys
  {
    CreateKeepsNames(h, ShadowDefinition(t), Undefined, draw);
    var (h1, created) := CreateSpec(h, ShadowDefinition(t), Undefined, draw);
    CreatedWriteKeepsStores(h1, created, d, result, now);
  }

  lemma CreatedWriteKeepsStores(h: Heap, created: Result<Created>, d: Value, result: Value, now: int)
    requires HeapValid(h)
    ensures HeapValid(CreatedWrite(h, created, d, result, now).0)
    ensures CreatedWrite(h, created, d, result, now).0.instances.Keys == h.instances.Keys
  {
    if created.Ok? && created.value.StoreCreated? && created.value.addr in h.instances {
      WriteKeepsStores(h, created.value.addr, d, result, now);
    }
  }

  lemma WriteKeepsStores(h: Heap, a: nat, d: Value, result: Value, now: int)
    requires HeapValid(h) && a in h.instances
    ensures HeapValid(HandlerWrite(h, a, d, result, now).0)
    ensures HandlerWrite(h, a, d, result, now).0.instances.Keys == h.instances.Keys
  {
  }

  /** `responseHandler`, step by step on the registry. */
  method ResponseHandler(reg: Registry, descriptor: Value, result: Value, hostname: string, now: int, draw: nat -> string)
    returns (r: Result<Value>)
    requires reg.Valid() && Injective(draw)
    modifies reg
    ensures reg.Valid()
    ensures (reg.State(), r) == HandleSpec(old(reg.State()), descriptor, result, hostname, now, draw)
  {
    var typed := HandlerType(descriptor, result);
    if typed.Err? {
      return Err(typed.failure);
    }
    var t := typed.value;
    if !Truthy(t) {
      return Err(MissingType("responseHandler"));
    }
    var store := Lookup(reg.State(), t);
    var d0 := HandlerDescriptor(reg.State(), descriptor, store, hostname);
    if d0.Err? {
      return Err(d0.failure);
    }
    var d := SetProp(d0.value, "type", t);
    var p := HandlerPartial(d, result);
    if p.Err? {
      return Err(p.failure);
    }
    d := SetProp(d, "partial", p.value);
    assert HandleSpec(reg.State(), descriptor, result, hostname, now, draw) ==
      HandlerTarget(reg.State(), store, t, d, result, now, draw);
    r := WriteTarget(reg, store, t, d, result, now, draw);
  }

  /** The end of `responseHandler`: find or create the store, then `store.updateResource(descriptor, result.data, "success")`. */
  method WriteTarget(reg: Registry, store: Option<nat>, t: Value, d: Value, result: Value, now: int, draw: nat -> string)
    returns (r: Result<Value>)
    requires reg.Valid() && Injective(draw)
    requires store.Some? ==> store.value in reg.instances
    modifies reg
    ensures reg.Valid()
    ensures (reg.State(), r) == HandlerTarget(old(reg.State()), store, t, d, result, now, draw)
  {
    if store.Some? {
      r := WriteData(reg, store.value, d, result, now);
    } else if !Truthy(Prop(d, "isPrefetch")) {
      r := Err(MissingStore("responseHandler", t));
    } else {
      r := WriteShadow(reg, t, d, result, now, draw);
    }
  }

  /** The prefetch branch of `responseHandler`: create the shadow store, then write into it. */
  method WriteShadow(reg: Registry, t: Value, d: Value, result: Value, now: int, draw: nat -> string)
    returns (r: Result<Value>)
    requires reg.Valid() && Injective(draw)
    modifies reg
    ensures reg.Valid()
    ensures (reg.State(), r) == ShadowTarget(old(reg.State()), t, d, result, now, draw)
  {
    var created := reg.CreateStore(ShadowDefinition(t), Undefined, draw);
    r := WriteCreated(reg, created, d, result, now);
  }

  /** Writes into the store `createStore` returned, or fails as calling a missing method does. */
  method WriteCreated(reg: Registry, created: Result<Created>, d: Value, result: Value, now: int)
    returns (r: Result<Value>)
    requires reg.Valid()
    modifies reg
    ensures reg.Valid()
    ensures (reg.State(), r) == CreatedWrite(old(reg.State()), created, d, result, now)
  {
    ghost var h0 := reg.State();
    if created.Err? {
      r := Err(created.failure);
    } else if created.value.StoreCreated? && created.value.addr in reg.instances {
      var a := created.value.addr;
      assert CreatedWrite(h0, created, d, result, now) == HandlerWrite(h0, a, d, result, now);
      r := WriteData(reg, a, d, result, now);
    } else if Nullish(result) {
      r := Err(CannotRead("data", result));
    } else {
      r := Err(NotAFunction("updateResource"));
    }
  }

  /** `store.updateResource(descriptor, result.data, "success")`. */
  method WriteData(reg: Registry, a: nat, d: Value, result: Value, now: int) returns (r: Result<Value>)
    requires reg.Valid() && a in reg.instances
    modifies reg
    ensures reg.Valid()
    ensures (reg.State(), r) == HandlerWrite(old(reg.State()), a, d, result, now)
  {
    if Nullish(result) {
      return Err(CannotRead("data", result));
    }
    r := WriteStore(reg, a, d, Prop(result, "data"), now);
  }

  /** `store.updateResource(descriptor, data, "success")`. */
  method WriteStore(reg: Registry, a: nat, d: Value, data: Value, now: int) returns (r: Result<Value>)
    requires reg.Valid() && a in reg.instances
    modifies reg
    ensures reg.Valid()
    ensures (reg.State(), r) == StoreWrite(old(reg.State()), a, d, data, now)
  {
    var w := reg.UpdateResource(a, CacheView(d), data, Str(STATUS_SUCCESS), now);
    r := if w.Err? then Err(w.failure) else Ok(d);
  }

  /* ----- containerless_unnested ----- */

  /** What `parseObject` returns: the scalar data, and `_type` and `_partial` when present. */
  datatype Parsed = Parsed(data: Fields, typ: Value, partial: Value)

  /** What the importer has found: the data to write, the discovered type and partial. */
  datatype Found = Found(result: Value, typ: Value, partial: Value)

  /** What the array loop has collected so far: the items' data, the type and partial discovered. */
  datatype Collected = Collected(items: seq<Value>, typ: Value, partial: Value)

  function NotAnObjectToParse(v: Value): Failure
  {
    TypeError("containerless_unnested:parseObject: expected object type but found `" + TypeOf(v) + "`.")
  }

  function Conflict(what: string, before: Value, after: Value): Failure
  {
    TypeError("containerless_unnested: Found conflicting " + what + " inside array of `" + ToKey(before) + "` and `" + ToKey(after) + "`.")
  }

  /** Whether an object key is metadata: it starts with an underscore. */
  predicate IsMeta(key: string)
  {
    |key| > 0 && key[0] == '_'
  }

  /** Whether a value is embedded data, imported on its own. */
  predicate IsEmbedded(v: Value)
  {
    v.Arr? || v.Obj?
  }

  /** The metadata entry `key: value` recorded in `acc`. */
  function Meta(acc: Parsed, key: string, value: Value): Parsed
  {
    if key == "_type" then acc.(typ := value)
    else if key == "_partial" then acc.(partial := value)
    else acc
  }

  /** `parseObject(object)`: the registry after the embedded imports, and what was parsed. */
  function ParseSpec(h: Heap, obj: Value, now: int, draw: nat -> string): (r: (Heap, Result<Parsed>))
    requires HeapValid(h) && Injective(draw)
    ensures HeapValid(r.0) && h.instances.Keys <= r.0.instances.Keys
    decreases Size(obj), 1
  {
    if !obj.Obj? then (h, Err(NotAnObjectToParse(obj)))
    else ParseFields(h, obj.fields, Parsed([], Undefined, Undefined), now, draw)
  }

  /** The rest of `parseObject`'s walk over the entries `f`, with `acc` parsed so far. */
  function ParseFields(h: Heap, f: Fields, acc: Parsed, now: int, draw: nat -> string): (r: (Heap, Result<Parsed>))
    requires HeapValid(h) && Injective(draw)
    ensures HeapValid(r.0) && h.instances.Keys <= r.0.instances.Keys
    decreases SizeFields(f), 4
  {
    if f == [] then (h, Ok(acc))
    else
      var key := f[0].0;
      var value := f[0].1;
      if IsMeta(key) then ParseFields(h, f[1..], Meta(acc, key, value), now, draw)
      else if IsEmbedded(value) then
        assert Size(value) <= SizeFields(f);
        var (h1, r) := ImportSpec(h, value, Undefined, now, draw);
        if r.Err? then (h1, Err(r.failure))
        else ParseFields(h1, f[1..], acc, now, draw)
      else ParseFields(h, f[1..], acc.(data := Set(acc.data, key, value)), now, draw)
  }

  /** The rest of the array loop over `items`, with what was found so far. */
  function ParseItems(h: Heap, items: seq<Value>, acc: Collected, now: int, draw: nat -> string): (r: (Heap, Result<Collected>))
    requires HeapValid(h) && Injective(draw)
    ensures HeapValid(r.0) && h.instances.Keys <= r.0.instances.Keys
    decreases SizeSeq(items), 4
  {
    if items == [] then (h, Ok(acc))
    else
      SizeSeqElem(items, 0);
      var (h1, r) := ParseSpec(h, items[0], now, draw);
      if r.Err? then (h1, Err(r.failure))
      else
        match Absorb(acc, r.value)
        case Err(e) => (h1, Err(e))
        case Ok(acc') => ParseItems(h1, items[1..], acc', now, draw)
  }

  /**
   * One parsed item taken into the collection: its data is appended, and a
   * type or partial it carries must agree with the one found before.
   */
  function Absorb(acc: Collected, e: Parsed): (r: Result<Collected>)
    ensures r.Ok? <==>
      !(Truthy(e.typ) && Truthy(acc.typ) && !StrictEquals(acc.typ, e.typ)) &&
      !(Truthy(e.partial) && Truthy(acc.partial) && !StrictEquals(acc.partial, e.partial))
    ensures r.Ok? ==>
      r.value.items == acc.items + [Obj(e.data)] &&
      r.value.typ == (if Truthy(e.typ) then e.typ else acc.typ) &&
      r.value.partial == (if Truthy(e.partial) then e.partial else acc.partial)
  {
    if Truthy(e.typ) && Truthy(acc.typ) && !StrictEquals(acc.typ, e.typ) then Err(Conflict("types", acc.typ, e.typ))
    else
      var t := if Truthy(e.typ) then e.typ else acc.typ;
      if Truthy(e.partial) && Truthy(acc.partial) && !StrictEquals(acc.partial, e.partial) then
        Err(Conflict("partials", acc.partial, e.partial))
      else
        var p := if Truthy(e.partial) then e.partial else acc.partial;
        Ok(Collected(acc.items + [Obj(e.data)], t, p))
  }

  /** The collection or the single object parsed. */
  function DiscoverSpec(h: Heap, data: Value, now: int, draw: nat -> string): (r: (Heap, Result<Found>))
    requires HeapValid(h) && Injective(draw)
    ensures HeapValid(r.0) && h.instances.Keys <= r.0.instances.Keys
    decreases Size(data), 2
  {
    if data.Arr? then
      var (h1, r) := ParseItems(h, data.items, Collected([], Null, Null), now, draw);
      (h1, if r.Err? then Err(r.failure) else Ok(Found(Arr(r.value.items), r.value.typ, r.value.partial)))
    else
      var (h1, r) := ParseSpec(h, data, now, draw);
      (h1, if r.Err? then Err(r.failure) else Ok(Found(Obj(r.value.data), r.value.typ, r.value.partial)))
  }

  /** What the importer does once the data is parsed: resolve type, partial and store, then write. */
  function SettleSpec(h: Heap, descriptor: Value, found: Found, now: int, draw: nat -> string): (r: (Heap, Result<Value>))
    requires HeapValid(h) && Injective(draw)
    ensures HeapValid(r.0) && h.instances.Keys <= r.0.instances.Keys
  {
    var t := if Truthy(Prop(descriptor, "type")) then Prop(descriptor, "type") else found.typ;
    var d1 := SetProp(descriptor, "type", t);
    var p := if Truthy(Prop(d1, "partial")) then Prop(d1, "partial")
             else if Truthy(found.partial) then found.partial
             else Str(DEFAULT_FRAGMENT);
    var d := SetProp(d1, "partial", p);
    if !Truthy(t) then (h, Err(MissingType("containerless_unnested")))
    else
      match Lookup(h, t)
      case Some(a) => StoreWrite(h, a, d, found.result, now)
      case None =>
        if !Truthy(Prop(d, "isPrefetch")) then (h, Err(MissingStore("containerless_unnested", t)))
        else
          var (h1, created) := CreateSpec(h, t, ShadowDataset, draw);
          CreateKeepsNames(h, t, ShadowDataset, draw);
          CreatedStoreWrite(h1, created, d, found.result, now)
  }

  /** `store.updateResource(descriptor, data, "success")` on what `createStore` returned: only a store has that method. */
  function CreatedStoreWrite(h: Heap, created: Result<Created>, d: Value, data: Value, now: int): (r: (Heap, Result<Value>))
    requires HeapValid(h)
    ensures HeapValid(r.0) && h.instances.Keys <= r.0.instances.Keys
  {
    match created
    case Err(e) => (h, Err(e))
    case Ok(c) =>
      if c.StoreCreated? && c.addr in h.instances then StoreWrite(h, c.addr, d, data, now)
      else (h, Err(NotAFunction("updateResource")))
  }

  /** The second argument of the importer's `createStore(type, {_shadow: true})`, which is a dataset definition. */
  const ShadowDataset := Obj([("_shadow", Bool(true))])

  /**
   * `containerless_unnested(data, descriptor)`: the registry afterwards, and
   * the descriptor as it leaves it (the handler itself returns nothing) or
   * the error it throws.
   */
  function ImportSpec(h: Heap, data: Value, descriptor: Value, now: int, draw: nat -> string): (r: (Heap, Result<Value>))
    requires HeapValid(h) && Injective(draw)
    ensures HeapValid(r.0) && h.instances.Keys <= r.0.instances.Keys
    decreases Size(data), 3
  {
    var d := if Truthy(descriptor) then descriptor else Obj([]);
    var (h1, found) := DiscoverSpec(h, data, now, draw);
    if found.Err? then (h1, Err(found.failure))
    else SettleSpec(h1, d, found.value, now, draw)
  }

  /** `containerless_unnested(data, descriptor)`, step by step on the registry. */
  method Import(reg: Registry, data: Value, descriptor: Value, now: int, draw: nat -> string) returns (r: Result<Value>)
    requires reg.Valid() && Injective(draw)
    modifies reg
    ensures reg.Valid()
    ensures (reg.State(), r) == ImportSpec(old(reg.State()), data, descriptor, now, draw)
    decreases Size(data), 3
  {
    var d := if Truthy(descriptor) then descriptor else Obj([]);
    var found := Discover(reg, data, now, draw);
    if found.Err? {
      return Err(found.failure);
    }
    r := Settle(reg, d, found.value, now, draw);
  }

  /** The collection loop, or the single object parsed. */
  method Discover(reg: Registry, data: Value, now: int, draw: nat -> string) returns (r: Result<Found>)
    requires reg.Valid() && Injective(draw)
    modifies reg
    ensures reg.Valid()
    ensures (reg.State(), r) == DiscoverSpec(old(reg.State()), data, now, draw)
    decreases Size(data), 2
  {
    if !data.Arr? {
      var resource := ParseObject(reg, data, now, draw);
      r := if resource.Err? then Err(resource.failure)
           else Ok(Found(Obj(resource.value.data), resource.value.typ, resource.value.partial));
      return;
    }
    ghost var h0 := reg.State();
    var items := data.items;
    var acc := Collected([], Null, Null);
    var i := 0;
    while i < |items|
      invariant 0 <= i <= |items|
      invariant reg.Valid()
      invariant ParseItems(h0, items, Collected([], Null, Null), now, draw) ==
        ParseItems(reg.State(), items[i..], acc, now, draw)
    {
      assert items[i..][0] == items[i] && items[i..][1..] == items[i + 1..];
      SizeSeqElem(items, i);
      var entry := ParseObject(reg, items[i], now, draw);
      if entry.Err? {
        return Err(entry.failure);
      }
      var merged := Merge(acc, entry.value);
      if merged.Err? {
        return Err(merged.failure);
      }
      acc := merged.value;
      i := i + 1;
    }
    r := Ok(Found(Arr(acc.items), acc.typ, acc.partial));
  }

  /** The body of the collection loop after an item is parsed: the checks and updates in their order. */
  method Merge(acc: Collected, e: Parsed) returns (r: Result<Collected>)
    ensures r == Absorb(acc, e)
  {
    var next := acc;
    if Truthy(e.typ) {
      if Truthy(acc.typ) && !StrictEquals(acc.typ, e.typ) {
        return Err(Conflict("types", acc.typ, e.typ));
      }
      next := next.(typ := e.typ);
    }
    if Truthy(e.partial) {
      if Truthy(acc.partial) && !StrictEquals(acc.partial, e.partial) {
        return Err(Conflict("partials", acc.partial, e.partial));
      }
      next := next.(partial := e.partial);
    }
    r := Ok(next.(items := acc.items + [Obj(e.data)]));
  }

  /** `parseObject(object)`: the walk over the entries, importing the embedded ones as it goes. */
  method ParseObject(reg: Registry, obj: Value, now: int, draw: nat -> string) returns (r: Result<Parsed>)
    requires reg.Valid() && Injective(draw)
    modifies reg
    ensures reg.Valid()
    ensures (reg.State(), r) == ParseSpec(old(reg.State()), obj, now, draw)
    decreases Size(obj), 1
  {
    if !obj.Obj? {
      return Err(NotAnObjectToParse(obj));
    }
    ghost var h0 := reg.State();
    var f := obj.fields;
    var acc := Parsed([], Undefined, Undefined);
    var i := 0;
    while i < |f|
      invariant 0 <= i <= |f|
      invariant reg.Valid()
      invariant ParseFields(h0, f, Parsed([], Undefined, Undefined), now, draw) ==
        ParseFields(reg.State(), f[i..], acc, now, draw)
    {
      assert f[i..][0] == f[i] && f[i..][1..] == f[i + 1..];
      var (key, value) := f[i];
      if IsMeta(key) {
        acc := Meta(acc, key, value);
      } else if IsEmbedded(value) {
        SizeFieldsElem(f, i);
        var imported := Import(reg, value, Undefined, now, draw);
        if imported.Err? {
          return Err(imported.failure);
        }
      } else {
        acc := acc.(data := Set(acc.data, key, value));
      }
      i := i + 1;
    }
    r := Ok(acc);
  }

  /** The end of `containerless_unnested`: settle type and partial, find or create the store, write. */
  method Settle(reg: Registry, descriptor: Value, found: Found, now: int, draw: nat -> string) returns (r: Result<Value>)
    requires reg.Valid() && Injective(draw)
    modifies reg
    ensures reg.Valid()
    ensures (reg.State(), r) == SettleSpec(old(reg.State()), descriptor, found, now, draw)
  {
    var t := if Truthy(Prop(descriptor, "type")) then Prop(descriptor, "type") else found.typ;
    var d := SetProp(descriptor, "type", t);
    var store := Lookup(reg.State(), t);
    var p := if Truthy(Prop(d, "partial")) then Prop(d, "partial")
             else if Truthy(found.partial) then found.partial
             else Str(DEFAULT_FRAGMENT);
    d := SetProp(d, "partial", p);
    if !Truthy(t) {
      return Err(MissingType("containerless_unnested"));
    }
    if store.Some? {
      r := WriteStore(reg, store.value, d, found.result, now);
      return;
    }
    if !Truthy(Prop(d, "isPrefetch")) {
      return Err(MissingStore("containerless_unnested", t));
    }
    var created := reg.CreateStore(t, ShadowDataset, draw);
    r := WriteCreatedStore(reg, created, d, found.result, now);
  }

  /** Writes into the store `createStore` returned, or fails as calling a missing method does. */
  method WriteCreatedStore(reg: Registry, created: Result<Created>, d: Value, data: Value, now: int)
    returns (r: Result<Value>)
    requires reg.Valid()
    modifies reg
    ensures reg.Valid()
    ensures (reg.State(), r) == CreatedStoreWrite(old(reg.State()), created, d, data, now)
  {
    if created.Err? {
      r := Err(created.failure);
    } else if created.value.StoreCreated? && created.value.addr in reg.instances {
      var a := created.value.addr;
      assert CreatedStoreWrite(reg.State(), created, d, data, now) == StoreWrite(reg.State(), a, d, data, now);
      r := WriteStore(reg, a, d, data, now);
    } else {
      r := Err(NotAFunction("updateResource"));
    }
  }

  /* ----- responseHandler with its handler ----- */

  /**
   * The handler `responseHandler` calls: `containerless_unnested`, which
   * writes the data itself and returns nothing, or a handler outside this
   * model, given by the result it returns.
   */
  datatype Handler = Unnested | Returning(result: Value)

  /**
   * `responseHandler(data, descriptor)` with `containerless_unnested` as the
   * handler. The importer runs on the caller's descriptor object, so
   * `responseHandler` goes on with the descriptor as the importer left it,
   * and with the importer's result, `undefined`. A falsy descriptor is
   * replaced by a fresh object inside the importer only.
   */
  function UnnestedHandleSpec(h: Heap, data: Value, descriptor: Value, hostname: string, now: int, draw: nat -> string): (r: (Heap, Result<Value>))
    requires HeapValid(h) && Injective(draw)
    ensures HeapValid(r.0) && h.instances.Keys <= r.0.instances.Keys
  {
    var (h1, imported) := ImportSpec(h, data, descriptor, now, draw);
    match imported
    case Err(e) => (h1, Err(e))
    case Ok(d) =>
      var d' := if Truthy(descriptor) then d else descriptor;
      HandleKeepsStores(h1, d', Undefined, hostname, now, draw);
      HandleSpec(h1, d', Undefined, hostname, now, draw)
  }

  /** `responseHandler(data, descriptor)` with the given handler. */
  function RespondSpec(h: Heap, data: Value, descriptor: Value, handler: Handler, hostname: string, now: int, draw: nat -> string): (r: (Heap, Result<Value>))
    requires HeapValid(h) && Injective(draw)
    ensures HeapValid(r.0) && h.instances.Keys <= r.0.instances.Keys
  {
    match handler
    case Unnested => UnnestedHandleSpec(h, data, descriptor, hostname, now, draw)
    case Returning(result) =>
      HandleKeepsStores(h, descriptor, result, hostname, now, draw);
      HandleSpec(h, descriptor, result, hostname, now, draw)
  }

  /** `responseHandler(data, descriptor)`: the handler, then the rest of `responseHandler`, on the registry. */
  method Respond(reg: Registry, data: Value, descriptor: Value, handler: Handler, hostname: string, now: int, draw: nat -> string)
    returns (r: Result<Value>)
    requires reg.Valid() && Injective(draw)
    modifies reg
    ensures reg.Valid()
    ensures (reg.State(), r) == RespondSpec(old(reg.State()), data, descriptor, handler, hostname, now, draw)
  {
    var d := descriptor;
    var result := Undefined;
    if handler.Unnested? {
      var imported := Import(reg, data, descriptor, now, draw);
      if imported.Err? {
        return Err(imported.failure);
      }
      if Truthy(descriptor) {
        d := imported.value;
      }
    } else {
      result := handler.result;
    }
    r := ResponseHandler(reg, d, result, hostname, now, draw);
  }
}

=== FILE: response_import_props.dfy ===
/**
 * Properties of `responseHandler` and of the `containerless_unnested`
 * importer: where the type, the partial and the store come from, which
 * inputs make them throw, and what a response without nested data writes.
 */
module ResponseImportProperties {
  import opened Values
  import opened Constants
  import FM = FragmentMap
  import SR = StackReducer
  import opened StoreRegistry
  import opened ResponseImport
  import StoreRegistryProperties
  import DS = Dataset

  /* ----- writing into a store ----- */

  /** `updateResource` changes the cache of the store written to, as the cache's own update does, and nothing else. */
  lemma StoreWriteEffects(h: Heap, a: nat, d: Value, data: Value, now: int)
    requires a in h.instances
    ensures var c := FM.UpdateSpec(h.instances[a].cache, CacheView(d), data, Str(STATUS_SUCCESS), now);
      var w := StoreWrite(h, a, d, data, now);
      w.0.names == h.names && w.0.next == h.next && w.0.instances.Keys == h.instances.Keys &&
      w.0.instances[a] == h.instances[a].(cache := c.0) &&
      (forall b :: b in h.instances && b != a ==> w.0.instances[b] == h.instances[b]) &&
      (w.1.Ok? <==> c.1.Ok?) && (w.1.Ok? ==> w.1.value == d)
  {
  }

  /* ----- responseHandler ----- */

  /** With no type on the descriptor nor on the result, `responseHandler` throws and changes nothing. */
  lemma MissingTypeRejected(h: Heap, descriptor: Value, result: Value, hostname: string, now: int, draw: nat -> string)
    requires HeapValid(h) && Injective(draw)
    requires !(Truthy(descriptor) && Truthy(Prop(descriptor, "type")))
    requires !Nullish(result) && !Truthy(Prop(result, "type"))
    ensures HandleSpec(h, descriptor, result, hostname, now, draw) == (h, Err(MissingType("responseHandler")))
  {
  }

  /** Setting `type` and then `partial` on a descriptor object leaves every other property as it was. */
  lemma SettledProps(descriptor: Value, t: Value, p: Value, k: string)
    requires descriptor.Obj?
    ensures var d := SetProp(SetProp(descriptor, "type", t), "partial", p);
      d.Obj? && Prop(d, "type") == t && Prop(d, "partial") == p &&
      (k != "type" && k != "partial" ==> Prop(d, k) == Prop(descriptor, k))
  {
    var d1 := SetProp(descriptor, "type", t);
    GetSet(descriptor.fields, "type", t, k);
    GetSet(d1.fields, "partial", p, k);
    GetSet(d1.fields, "partial", p, "type");
  }

  /** The partial `responseHandler` settles on: the descriptor's, else the result's, else "full". */
  function ChosenPartial(descriptor: Value, result: Value): Value
  {
    if Truthy(Prop(descriptor, "partial")) then Prop(descriptor, "partial")
    else if Truthy(Prop(result, "partial")) then Prop(result, "partial")
    else Str(DEFAULT_FRAGMENT)
  }

  /** The descriptor object as `responseHandler` leaves it, its type and partial settled. */
  function Settled(descriptor: Value, result: Value): Value
  {
    SetProp(SetProp(descriptor, "type", Prop(descriptor, "type")), "partial", ChosenPartial(descriptor, result))
  }

  /** Once the descriptor's type is known, `responseHandler` goes on to the store with the settled descriptor. */
  lemma HandlerSettles(h: Heap, descriptor: Value, result: Value, hostname: string, now: int, draw: nat -> string)
    requires HeapValid(h) && Injective(draw)
    requires descriptor.Obj? && Truthy(Prop(descriptor, "type")) && !Nullish(result)
    ensures HandleSpec(h, descriptor, result, hostname, now, draw) ==
      HandlerTarget(h, Lookup(h, Prop(descriptor, "type")), Prop(descriptor, "type"), Settled(descriptor, result), result, now, draw)
  {
    var t := Prop(descriptor, "type");
    var d1 := SetProp(descriptor, "type", t);
    GetSet(descriptor.fields, "type", t, "partial");
    assert HandlerType(descriptor, result) == Ok(t);
    assert HandlerDescriptor(h, descriptor, Lookup(h, t), hostname) == Ok(descriptor);
    assert HandlerPartial(d1, result) == Ok(ChosenPartial(descriptor, result));
  }

  /** A type no store is registered for throws, unless the descriptor is a prefetch's; nothing changes. */
  lemma MissingStoreRejected(h: Heap, descriptor: Value, result: Value, hostname: string, now: int, draw: nat -> string)
    requires HeapValid(h) && Injective(draw)
    requires descriptor.Obj? && Truthy(Prop(descriptor, "type")) && ToKey(Prop(descriptor, "type")) !in h.names
    requires !Truthy(Prop(descriptor, "isPrefetch")) && !Nullish(result)
    ensures HandleSpec(h, descriptor, result, hostname, now, draw) ==
      (h, Err(MissingStore("responseHandler", Prop(descriptor, "type"))))
  {
    var t := Prop(descriptor, "type");
    SettledProps(descriptor, t, ChosenPartial(descriptor, result), "isPrefetch");
    assert "isPrefetch" != "type" && "isPrefetch" != "partial";
    HandlerSettles(h, descriptor, result, hostname, now, draw);
  }

  /**
   * A prefetch of a type no store is registered for does not get a shadow
   * store: `createStore` rejects the `_shadow` option it is given, so
   * `responseHandler` throws and nothing changes.
   */
  lemma PrefetchShadowRejected(h: Heap, descriptor: Value, result: Value, hostname: string, now: int, draw: nat -> string)
    requires HeapValid(h) && Injective(draw)
    requires descriptor.Obj? && Truthy(Prop(descriptor, "type")) && ToKey(Prop(descriptor, "type")) !in h.names
    requires Truthy(Prop(descriptor, "isPrefetch")) && !Nullish(result)
    ensures HandleSpec(h, descriptor, result, hostname, now, draw) ==
      (h, Err(TypeError("createStore: Invalid definition option `" + "_shadow" + "`.")))
  {
    var t := Prop(descriptor, "type");
    SettledProps(descriptor, t, ChosenPartial(descriptor, result), "isPrefetch");
    assert "isPrefetch" != "type" && "isPrefetch" != "partial";
    HandlerSettles(h, descriptor, result, hostname, now, draw);
    ShadowRejected(h, t, Settled(descriptor, result), result, now, draw);
  }

  /** The shadow store `responseHandler` asks for is never created: the call throws before anything changes. */
  lemma ShadowRejected(h: Heap, t: Value, d: Value, result: Value, now: int, draw: nat -> string)
    requires HeapValid(h) && Injective(draw)
    ensures ShadowTarget(h, t, d, result, now, draw) ==
      (h, Err(TypeError("createStore: Invalid definition option `" + "_shadow" + "`.")))
  {
    ShadowDefinitionRejected(t);
    assert Normalize(ShadowDefinition(t)) == ShadowDefinition(t);
  }

  /** With the type's store registered, the result's data goes into that store under the settled descriptor. */
  lemma RegisteredStoreWritten(h: Heap, descriptor: Value, result: Value, hostname: string, now: int, draw: nat -> string)
    requires HeapValid(h) && Injective(draw)
    requires descriptor.Obj? && Truthy(Prop(descriptor, "type")) && ToKey(Prop(descriptor, "type")) in h.names
    requires !Nullish(result)
    ensures var t := Prop(descriptor, "type");
      var d := SetProp(SetProp(descriptor, "type", t), "partial", ChosenPartial(descriptor, result));
      HandleSpec(h, descriptor, result, hostname, now, draw) == StoreWrite(h, h.names[ToKey(t)], d, Prop(result, "data"), now) &&
      Prop(d, "type") == t && Prop(d, "partial") == ChosenPartial(descriptor, result)
  {
    var t := Prop(descriptor, "type");
    SettledProps(descriptor, t, ChosenPartial(descriptor, result), "partial");
    var d1 := SetProp(descriptor, "type", t);
    GetSet(descriptor.fields, "type", t, "partial");
    assert Prop(d1, "partial") == Prop(descriptor, "partial");
  }

  /** Without a descriptor, a plain store's own stack gives one: the write goes to the path of the host, with no id. */
  lemma MissingDescriptorFromStore(h: Heap, a: nat, hostname: string)
    requires a in h.instances && StoreRegistryProperties.PlainStoreDefinition(h.instances[a].definition)
    ensures HandlerDescriptor(h, Undefined, Some(a), hostname).Ok?
    ensures CacheView(HandlerDescriptor(h, Undefined, Some(a), hostname).value) ==
      FM.CacheDescriptor(Undefined, Str(hostname), Null, Arr([]))
  {
    var def := h.instances[a].definition;
    StoreRegistryProperties.StoreStack(a, def, hostname);
    var d := SR.Reduce(Arr([Resolvable(a, def)]), hostname).value;
    DescriptorView(d);
  }

  /**
   * Once its handler has returned nothing, `responseHandler` throws, and
   * its own steps change nothing. What the handler itself wrote stays:
   * see `UnnestedHandlerFails`.
   */
  lemma UndefinedResultFails(h: Heap, descriptor: Value, hostname: string, now: int, draw: nat -> string)
    requires HeapValid(h) && Injective(draw)
    ensures HandleSpec(h, descriptor, Undefined, hostname, now, draw).0 == h
    ensures HandleSpec(h, descriptor, Undefined, hostname, now, draw).1.Err?
  {
    match HandlerType(descriptor, Undefined)
    case Err(_) =>
    case Ok(t) =>
      if Truthy(t) {
        ShadowDefinitionRejected(t);
        assert Normalize(ShadowDefinition(t)) == ShadowDefinition(t);
      }
  }

  /**
   * With `containerless_unnested` as its handler, `responseHandler` always
   * throws, and the registry is the one the importer left: the importer's
   * writes stay and `responseHandler` adds none.
   */
  lemma UnnestedHandlerFails(h: Heap, data: Value, descriptor: Value, hostname: string, now: int, draw: nat -> string)
    requires HeapValid(h) && Injective(draw)
    ensures UnnestedHandleSpec(h, data, descriptor, hostname, now, draw).0 == ImportSpec(h, data, descriptor, now, draw).0
    ensures UnnestedHandleSpec(h, data, descriptor, hostname, now, draw).1.Err?
  {
    var (h1, imported) := ImportSpec(h, data, descriptor, now, draw);
    if imported.Ok? {
      UndefinedResultFails(h1, if Truthy(descriptor) then imported.value else descriptor, hostname, now, draw);
    }
  }

  /* ----- containerless_unnested ----- */

  /** `parseObject` of anything but an object literal throws, before anything is imported. */
  lemma ParseRejectsNonObject(h: Heap, v: Value, now: int, draw: nat -> string)
    requires HeapValid(h) && Injective(draw) && !v.Obj?
    ensures ParseSpec(h, v, now, draw) == (h, Err(NotAnObjectToParse(v)))
  {
  }

  /** The entries `parseObject` keeps as data, in their order: neither metadata nor nested data. */
  function Scalars(f: Fields): Fields
  {
    if f == [] then []
    else (if IsMeta(f[0].0) || IsEmbedded(f[0].1) then [] else [f[0]]) + Scalars(f[1..])
  }

  /** The value of the entry `k` of `f`, or `absent` when there is none. */
  function MetaOr(f: Fields, k: string, absent: Value): Value
  {
    if HasKey(f, k) then Get(f, k) else absent
  }

  /** No entry other than metadata holds an array or an object. */
  predicate Flat(f: Fields)
  {
    forall i :: 0 <= i < |f| ==> IsMeta(f[i].0) || !IsEmbedded(f[i].1)
  }

  /** An object without nested data stays so without its first entry. */
  lemma FlatTail(f: Fields)
    requires f != []
    ensures Flat(f) ==> Flat(f[1..])
  {
    if Flat(f) {
      forall i | 0 <= i < |f[1..]|
        ensures IsMeta(f[1..][i].0) || !IsEmbedded(f[1..][i].1)
      {
        assert f[1..][i] == f[i + 1];
      }
    }
  }

  /** Reading the data `parseObject` keeps: a scalar entry as it was; metadata and nested data are absent. */
  lemma {:induction false} ScalarsGet(f: Fields, k: string)
    requires UniqueKeys(f)
    ensures Get(Scalars(f), k) == if IsMeta(k) || IsEmbedded(Get(f, k)) then Undefined else Get(f, k)
    decreases f
  {
    if f != [] {
      var rest := f[1..];
      forall i | 0 <= i < |rest|
        ensures Keys(rest)[i] != f[0].0
      {
        KeysAt(rest, i);
      }
      assert !HasKey(rest, f[0].0);
      ScalarsGet(rest, k);
      var s := Scalars(rest);
      if !(IsMeta(f[0].0) || IsEmbedded(f[0].1)) {
        assert Scalars(f) == [f[0]] + s;
        assert ([f[0]] + s)[1..] == s;
      } else {
        assert Scalars(f) == s;
      }
    }
  }

  /** What `parseObject`'s walk over `f` yields from `acc`, as the next lemma states it. */
  ghost predicate WalkYields(h: Heap, f: Fields, acc: Parsed, now: int, draw: nat -> string)
    requires HeapValid(h) && Injective(draw)
  {
    var w := ParseFields(h, f, acc, now, draw);
    (Flat(f) ==> w.0 == h && w.1.Ok?) &&
    (w.1.Ok? ==> w.1.value == Parsed(acc.data + Scalars(f), MetaOr(f, "_type", acc.typ), MetaOr(f, "_partial", acc.partial)))
  }

  /**
   * `parseObject`'s walk, from any point: it collects the scalar entries
   * after those it has, and takes `_type` and `_partial` from the entries
   * when they are there. Without nested data it imports nothing and never
   * throws.
   */
  lemma {:induction false} ParsedFields(h: Heap, f: Fields, acc: Parsed, now: int, draw: nat -> string)
    requires HeapValid(h) && Injective(draw) && UniqueKeys(f)
    requires forall i :: 0 <= i < |f| ==> !HasKey(acc.data, f[i].0)
    ensures WalkYields(h, f, acc, now, draw)
    decreases f
  {
    if f == [] {
      assert acc.data + [] == acc.data;
    } else {
      var k := f[0].0;
      var v := f[0].1;
      var rest := f[1..];
      UniqueTail(f);
      if IsMeta(k) {
        ParsedFields(h, rest, Meta(acc, k, v), now, draw);
        MetaStep(h, f, acc, now, draw);
      } else if IsEmbedded(v) {
        var (h1, r) := ImportSpec(h, v, Undefined, now, draw);
        if r.Ok? {
          ParsedFields(h1, rest, acc, now, draw);
        }
        EmbeddedStep(h, f, acc, now, draw);
      } else {
        var acc1 := acc.(data := Set(acc.data, k, v));
        SetAppends(acc.data, k, v);
        KeysSnoc(acc.data, (k, v));
        forall i | 0 <= i < |rest|
          ensures !HasKey(acc1.data, rest[i].0)
        {
          assert rest[i] == f[i + 1];
          KeysAt(rest, i);
        }
        ParsedFields(h, rest, acc1, now, draw);
        ScalarStep(h, f, acc, now, draw);
      }
    }
  }

  /** The keys after the first of an object with unique keys are unique and never the first. */
  lemma UniqueTail(f: Fields)
    requires f != [] && UniqueKeys(f)
    ensures UniqueKeys(f[1..]) && !HasKey(f[1..], f[0].0) && Keys(f) == [f[0].0] + Keys(f[1..])
  {
    var rest := f[1..];
    forall i | 0 <= i < |rest|
      ensures Keys(rest)[i] != f[0].0
    {
      KeysAt(rest, i);
    }
  }

  /** A metadata entry first: the walk goes on with it recorded. */
  lemma MetaStep(h: Heap, f: Fields, acc: Parsed, now: int, draw: nat -> string)
    requires HeapValid(h) && Injective(draw) && f != [] && IsMeta(f[0].0)
    requires !HasKey(f[1..], f[0].0) && Keys(f) == [f[0].0] + Keys(f[1..])
    requires WalkYields(h, f[1..], Meta(acc, f[0].0, f[0].1), now, draw)
    ensures WalkYields(h, f, acc, now, draw)
  {
    assert ParseFields(h, f, acc, now, draw) == ParseFields(h, f[1..], Meta(acc, f[0].0, f[0].1), now, draw);
    assert Scalars(f) == Scalars(f[1..]);
    FlatTail(f);
  }

  /** A nested value first: it is imported, then the walk goes on with the data as it was. */
  lemma EmbeddedStep(h: Heap, f: Fields, acc: Parsed, now: int, draw: nat -> string)
    requires HeapValid(h) && Injective(draw) && f != [] && !IsMeta(f[0].0) && IsEmbedded(f[0].1)
    requires var r := ImportSpec(h, f[0].1, Undefined, now, draw);
      r.1.Ok? ==> WalkYields(r.0, f[1..], acc, now, draw)
    requires !HasKey(f[1..], f[0].0) && Keys(f) == [f[0].0] + Keys(f[1..])
    ensures WalkYields(h, f, acc, now, draw)
  {
    var r := ImportSpec(h, f[0].1, Undefined, now, draw);
    assert ParseFields(h, f, acc, now, draw) ==
      if r.1.Err? then (r.0, Err(r.1.failure)) else ParseFields(r.0, f[1..], acc, now, draw);
    assert Scalars(f) == Scalars(f[1..]);
    assert !Flat(f) by {
      assert !(IsMeta(f[0].0) || !IsEmbedded(f[0].1));
    }
    assert f[0].0 != "_type" && f[0].0 != "_partial" by {
      assert "_type"[0] == '_' && "_partial"[0] == '_';
    }
  }

  /** A scalar entry first: it is appended to the data, then the walk goes on. */
  lemma ScalarStep(h: Heap, f: Fields, acc: Parsed, now: int, draw: nat -> string)
    requires HeapValid(h) && Injective(draw) && f != [] && !IsMeta(f[0].0) && !IsEmbedded(f[0].1)
    requires !HasKey(acc.data, f[0].0) && Keys(f) == [f[0].0] + Keys(f[1..])
    requires WalkYields(h, f[1..], acc.(data := acc.data + [f[0]]), now, draw)
    ensures WalkYields(h, f, acc, now, draw)
  {
    SetAppends(acc.data, f[0].0, f[0].1);
    assert ParseFields(h, f, acc, now, draw) == ParseFields(h, f[1..], acc.(data := acc.data + [f[0]]), now, draw);
    assert Scalars(f) == [f[0]] + Scalars(f[1..]);
    assert acc.data + [f[0]] + Scalars(f[1..]) == acc.data + Scalars(f);
    assert f[0].0 != "_type" && f[0].0 != "_partial" by {
      assert "_type"[0] == '_' && "_partial"[0] == '_';
    }
    FlatTail(f);
  }

  /** An object without nested data parses without importing anything: its scalar entries, its `_type` and its `_partial`. */
  lemma FlatObjectParsed(h: Heap, f: Fields, now: int, draw: nat -> string)
    requires HeapValid(h) && Injective(draw) && UniqueKeys(f) && Flat(f)
    ensures ParseSpec(h, Obj(f), now, draw) ==
      (h, Ok(Parsed(Scalars(f), MetaOr(f, "_type", Undefined), MetaOr(f, "_partial", Undefined))))
  {
    ParsedFields(h, f, Parsed([], Undefined, Undefined), now, draw);
    assert [] + Scalars(f) == Scalars(f);
    assert WalkYields(h, f, Parsed([], Undefined, Undefined), now, draw);
  }

  /** An array or object nested under a key is imported on its own, with no descriptor, and is not part of the data. */
  lemma EmbeddedImported(h: Heap, k: string, v: Value, now: int, draw: nat -> string)
    requires HeapValid(h) && Injective(draw) && !IsMeta(k) && IsEmbedded(v)
    ensures var imported := ImportSpec(h, v, Undefined, now, draw);
      ParseSpec(h, Obj([(k, v)]), now, draw) ==
        (imported.0, if imported.1.Err? then Err(imported.1.failure) else Ok(Parsed([], Undefined, Undefined)))
  {
    var f: Fields := [(k, v)];
    var none := Parsed([], Undefined, Undefined);
    assert f[1..] == [];
    var r := ImportSpec(h, v, Undefined, now, draw);
    if r.1.Ok? {
      assert ParseFields(r.0, f[1..], none, now, draw) == (r.0, Ok(none));
    }
    assert ParseFields(h, f, none, now, draw) ==
      if r.1.Err? then (r.0, Err(r.1.failure)) else ParseFields(r.0, f[1..], none, now, draw);
  }

  /** An array element without nested data. */
  predicate FlatItem(v: Value)
  {
    v.Obj? && UniqueKeys(v.fields) && Flat(v.fields)
  }

  /** The `_type` of an element, or `undefined`. */
  function ItemType(v: Value): Value
  {
    MetaOr(FieldsOf(v), "_type", Undefined)
  }

  /** The `_partial` of an element, or `undefined`. */
  function ItemPartial(v: Value): Value
  {
    MetaOr(FieldsOf(v), "_partial", Undefined)
  }

  /** The data of each element, in element order. */
  function ItemsData(items: seq<Value>): (r: seq<Value>)
    ensures |r| == |items|
  {
    if items == [] then [] else [Obj(Scalars(FieldsOf(items[0])))] + ItemsData(items[1..])
  }

  /** `===` holds only between equal values. */
  lemma StrictEqualsEqual(a: Value, b: Value)
    requires StrictEquals(a, b)
    ensures a == b
  {
  }

  /** What the collection loop over `items` yields from `acc`, as the next lemma states it. */
  ghost predicate CollectYields(h: Heap, items: seq<Value>, acc: Collected, now: int, draw: nat -> string)
    requires HeapValid(h) && Injective(draw)
  {
    var w := ParseItems(h, items, acc, now, draw);
    w.0 == h &&
    (w.1.Ok? ==>
      w.1.value.items == acc.items + ItemsData(items) &&
      (Truthy(acc.typ) ==> w.1.value.typ == acc.typ) &&
      (Truthy(acc.partial) ==> w.1.value.partial == acc.partial) &&
      (forall i :: 0 <= i < |items| && Truthy(ItemType(items[i])) ==> w.1.value.typ == ItemType(items[i])) &&
      (forall i :: 0 <= i < |items| && Truthy(ItemPartial(items[i])) ==> w.1.value.partial == ItemPartial(items[i])))
  }

  /**
   * The collection loop over elements without nested data imports nothing.
   * When it does not throw, it has kept the data of every element in
   * order, and every element's truthy `_type` (and `_partial`) is the one
   * discovered.
   */
  lemma {:induction false} FlatItemsCollected(h: Heap, items: seq<Value>, acc: Collected, now: int, draw: nat -> string)
    requires HeapValid(h) && Injective(draw)
    requires forall i :: 0 <= i < |items| ==> FlatItem(items[i])
    ensures CollectYields(h, items, acc, now, draw)
    decreases items
  {
    if items == [] {
      assert acc.items + [] == acc.items;
    } else {
      FlatItemsCollected(h, items[1..], NextCollected(acc, items[0]), now, draw);
      ItemStep(h, items, acc, now, draw);
    }
  }

  /** What the loop has after a flat element that does not conflict with what it had. */
  function NextCollected(acc: Collected, v: Value): Collected
  {
    Collected(acc.items + [Obj(Scalars(FieldsOf(v)))],
      if Truthy(ItemType(v)) then ItemType(v) else acc.typ,
      if Truthy(ItemPartial(v)) then ItemPartial(v) else acc.partial)
  }

  /** One turn of the collection loop over a flat element. */
  lemma ItemStep(h: Heap, items: seq<Value>, acc: Collected, now: int, draw: nat -> string)
    requires HeapValid(h) && Injective(draw) && items != [] && FlatItem(items[0])
    requires CollectYields(h, items[1..], NextCollected(acc, items[0]), now, draw)
    ensures CollectYields(h, items, acc, now, draw)
  {
    var v := items[0];
    FlatObjectParsed(h, v.fields, now, draw);
    var e := Parsed(Scalars(v.fields), ItemType(v), ItemPartial(v));
    assert ParseItems(h, items, acc, now, draw) ==
      match Absorb(acc, e)
      case Err(x) => (h, Err(x))
      case Ok(acc') => ParseItems(h, items[1..], acc', now, draw);
    if Absorb(acc, e).Ok? {
      AbsorbFlat(acc, v);
      ItemsDataCons(items);
    }
  }

  /** A flat element taken in without conflict: what it adds, and the type and partial it keeps. */
  lemma AbsorbFlat(acc: Collected, v: Value)
    requires v.Obj?
    requires Absorb(acc, Parsed(Scalars(v.fields), ItemType(v), ItemPartial(v))).Ok?
    ensures Absorb(acc, Parsed(Scalars(v.fields), ItemType(v), ItemPartial(v))).value == NextCollected(acc, v)
    ensures Truthy(acc.typ) ==> NextCollected(acc, v).typ == acc.typ
    ensures Truthy(acc.partial) ==> NextCollected(acc, v).partial == acc.partial
  {
    if Truthy(ItemType(v)) && Truthy(acc.typ) {
      StrictEqualsEqual(acc.typ, ItemType(v));
    }
    if Truthy(ItemPartial(v)) && Truthy(acc.partial) {
      StrictEqualsEqual(acc.partial, ItemPartial(v));
    }
  }

  /** The data of the elements is that of the first, then that of the rest. */
  lemma ItemsDataCons(items: seq<Value>)
    requires items != []
    ensures forall acc: seq<Value> {:trigger acc + ItemsData(items)} ::
      acc + [Obj(Scalars(FieldsOf(items[0])))] + ItemsData(items[1..]) == acc + ItemsData(items)
    ensures forall i :: 1 <= i < |items| ==> items[i] == items[1..][i - 1]
  {
  }

  /** Two elements whose types differ make the import throw, naming both types, with nothing imported. */
  lemma ConflictingTypesRejected(h: Heap, a: Value, b: Value, now: int, draw: nat -> string)
    requires HeapValid(h) && Injective(draw) && FlatItem(a) && FlatItem(b)
    requires Truthy(ItemType(a)) && Truthy(ItemType(b)) && !StrictEquals(ItemType(a), ItemType(b))
    ensures DiscoverSpec(h, Arr([a, b]), now, draw) == (h, Err(Conflict("types", ItemType(a), ItemType(b))))
  {
    FlatObjectParsed(h, a.fields, now, draw);
    FlatObjectParsed(h, b.fields, now, draw);
    var items := [a, b];
    assert items[1..] == [b];
    var ea := ParseSpec(h, a, now, draw).1.value;
    var acc1 := Collected([Obj(ea.data)], ea.typ, if Truthy(ea.partial) then ea.partial else Null);
    assert ParseItems(h, items, Collected([], Null, Null), now, draw) == ParseItems(h, [b], acc1, now, draw);
  }

  /** Two elements whose types agree but whose partials differ make the import throw, naming both partials. */
  lemma ConflictingPartialsRejected(h: Heap, a: Value, b: Value, now: int, draw: nat -> string)
    requires HeapValid(h) && Injective(draw) && FlatItem(a) && FlatItem(b)
    requires !(Truthy(ItemType(a)) && Truthy(ItemType(b)) && !StrictEquals(ItemType(a), ItemType(b)))
    requires Truthy(ItemPartial(a)) && Truthy(ItemPartial(b)) && !StrictEquals(ItemPartial(a), ItemPartial(b))
    ensures DiscoverSpec(h, Arr([a, b]), now, draw) == (h, Err(Conflict("partials", ItemPartial(a), ItemPartial(b))))
  {
    FlatObjectParsed(h, a.fields, now, draw);
    FlatObjectParsed(h, b.fields, now, draw);
    var items := [a, b];
    assert items[1..] == [b];
    var ea := ParseSpec(h, a, now, draw).1.value;
    var acc1 := Collected([Obj(ea.data)], if Truthy(ea.typ) then ea.typ else Null, ea.partial);
    assert ParseItems(h, items, Collected([], Null, Null), now, draw) == ParseItems(h, [b], acc1, now, draw);
  }

  /** An array of elements without nested data: nothing imported, and the data of the elements, in element order. */
  lemma FlatArrayDiscovered(h: Heap, items: seq<Value>, now: int, draw: nat -> string)
    requires HeapValid(h) && Injective(draw)
    requires forall i :: 0 <= i < |items| ==> FlatItem(items[i])
    ensures DiscoverSpec(h, Arr(items), now, draw).0 == h
    ensures var r := DiscoverSpec(h, Arr(items), now, draw).1;
      r.Ok? ==> (r.value.result == Arr(ItemsData(items)) &&
        forall i :: 0 <= i < |items| && Truthy(ItemType(items[i])) ==> r.value.typ == ItemType(items[i]))
  {
    FlatItemsCollected(h, items, Collected([], Null, Null), now, draw);
    assert [] + ItemsData(items) == ItemsData(items);
  }

  /** Writing a property leaves every other one as it was. */
  lemma SetPropOther(v: Value, k: string, x: Value, j: string)
    requires j != k
    ensures Prop(SetProp(v, k, x), j) == Prop(v, j)
  {
    if v.Obj? {
      GetSet(v.fields, k, x, j);
    }
  }

  /** The type the importer settles on: the descriptor's, else the one found. */
  function SettledType(descriptor: Value, found: Found): Value
  {
    if Truthy(Prop(descriptor, "type")) then Prop(descriptor, "type") else found.typ
  }

  /** The partial the importer settles on: the descriptor's, else the one found, else "full". */
  function SettledPartial(descriptor: Value, found: Found): Value
  {
    if Truthy(Prop(descriptor, "partial")) then Prop(descriptor, "partial")
    else if Truthy(found.partial) then found.partial
    else Str(DEFAULT_FRAGMENT)
  }

  /** The descriptor as the importer leaves it. */
  function SettledDescriptor(descriptor: Value, found: Found): Value
  {
    SetProp(SetProp(descriptor, "type", SettledType(descriptor, found)), "partial", SettledPartial(descriptor, found))
  }

  /** The descriptor's own properties other than `type` and `partial` survive the settling. */
  lemma SettledKeeps(descriptor: Value, found: Found, k: string)
    requires k != "type" && k != "partial"
    ensures Prop(SettledDescriptor(descriptor, found), k) == Prop(descriptor, k)
  {
    var d1 := SetProp(descriptor, "type", SettledType(descriptor, found));
    SetPropOther(descriptor, "type", SettledType(descriptor, found), k);
    SetPropOther(d1, "partial", SettledPartial(descriptor, found), k);
  }

  /** The importer settles the descriptor before it looks at the store. */
  lemma SettleUnfolds(h: Heap, descriptor: Value, found: Found, now: int, draw: nat -> string)
    requires HeapValid(h) && Injective(draw)
    ensures var d1 := SetProp(descriptor, "type", SettledType(descriptor, found));
      Prop(d1, "partial") == Prop(descriptor, "partial") &&
      SetProp(d1, "partial", SettledPartial(descriptor, found)) == SettledDescriptor(descriptor, found)
  {
    SetPropOther(descriptor, "type", SettledType(descriptor, found), "partial");
  }

  /** Without a type from the descriptor or the data, the importer throws and writes nothing. */
  lemma ImportMissingType(h: Heap, descriptor: Value, found: Found, now: int, draw: nat -> string)
    requires HeapValid(h) && Injective(draw) && !Truthy(SettledType(descriptor, found))
    ensures SettleSpec(h, descriptor, found, now, draw) == (h, Err(MissingType("containerless_unnested")))
  {
  }

  /** A type no store is registered for throws unless the descriptor is a prefetch's, and writes nothing. */
  lemma ImportMissingStore(h: Heap, descriptor: Value, found: Found, now: int, draw: nat -> string)
    requires HeapValid(h) && Injective(draw)
    requires Truthy(SettledType(descriptor, found)) && ToKey(SettledType(descriptor, found)) !in h.names
    requires !Truthy(Prop(descriptor, "isPrefetch"))
    ensures SettleSpec(h, descriptor, found, now, draw) ==
      (h, Err(MissingStore("containerless_unnested", SettledType(descriptor, found))))
  {
    SettleUnfolds(h, descriptor, found, now, draw);
    SettledKeeps(descriptor, found, "isPrefetch");
  }

  /** With the type's store registered, the data goes into that store under the settled descriptor. */
  lemma ImportWritten(h: Heap, descriptor: Value, found: Found, now: int, draw: nat -> string)
    requires HeapValid(h) && Injective(draw)
    requires Truthy(SettledType(descriptor, found)) && ToKey(SettledType(descriptor, found)) in h.names
    ensures SettleSpec(h, descriptor, found, now, draw) ==
      StoreWrite(h, h.names[ToKey(SettledType(descriptor, found))], SettledDescriptor(descriptor, found), found.result, now)
    ensures descriptor.Obj? ==>
      Prop(SettledDescriptor(descriptor, found), "type") == SettledType(descriptor, found) &&
      Prop(SettledDescriptor(descriptor, found), "partial") == SettledPartial(descriptor, found)
  {
    SettleUnfolds(h, descriptor, found, now, draw);
    if descriptor.Obj? {
      SettledProps(descriptor, SettledType(descriptor, found), SettledPartial(descriptor, found), "partial");
    }
  }

  /** `{_shadow: true}` is not a dataset definition. */
  lemma ShadowDatasetRejected()
    ensures DS.ValidateDefinition(ShadowDataset) == Err(TypeError("createDataset: Invalid definition option `" + "_shadow" + "`."))
  {
    var f := ShadowDataset.fields;
    assert Keys(f) == ["_shadow"];
    assert DS.FirstOutside(Keys(f), DS.DefinitionKeys) == Some("_shadow");
  }

  /**
   * A prefetch of a type no store is registered for: `createStore(type,
   * {_shadow: true})` registers the store, then fails to create the
   * dataset it was given, so the importer throws with the store left
   * registered and nothing written.
   */
  lemma ImportShadowRegistersThenThrows(h: Heap, descriptor: Value, found: Found, s: string, now: int, draw: nat -> string)
    requires HeapValid(h) && Injective(draw)
    requires SettledType(descriptor, found) == Str(s) && s != "" && s !in h.names
    requires Truthy(Prop(descriptor, "isPrefetch"))
    ensures SettleSpec(h, descriptor, found, now, draw) ==
      (Register(h, s, Obj([("type", Str(s))])), Err(TypeError("createDataset: Invalid definition option `" + "_shadow" + "`.")))
  {
    SettleUnfolds(h, descriptor, found, now, draw);
    SettledKeeps(descriptor, found, "isPrefetch");
    ShadowCreateRegisters(h, s, draw);
  }

  /** `createStore(type, {_shadow: true})` for a new type registers the store and then throws on the dataset. */
  lemma ShadowCreateRegisters(h: Heap, s: string, draw: nat -> string)
    requires HeapValid(h) && Injective(draw) && s != "" && s !in h.names
    ensures CreateSpec(h, Str(s), ShadowDataset, draw) ==
      (Register(h, s, Obj([("type", Str(s))])), Err(TypeError("createDataset: Invalid definition option `" + "_shadow" + "`.")))
  {
    var def := Obj([("type", Str(s))]);
    var f: Fields := [("type", Str(s))];
    assert f[1..] == [];
    assert Keys(f) == ["type"];
    assert DS.FirstOutside(Keys(f)[1..], DefinitionKeys) == None;
    assert ValidateDefinition(def) == None;
    assert Normalize(Str(s)) == def;
    assert Place(h, def, draw) == Ok((Register(h, s, def), h.next));
    ShadowDatasetRejected();
    var h1 := Register(h, s, def);
    assert DS.CreateDataset([ShadowDataset], h1.next) == Err(TypeError("createDataset: Invalid definition option `" + "_shadow" + "`."));
  }

  /** An object without nested data, of a type with a registered store, is written whole into that store. */
  lemma FlatObjectImported(h: Heap, f: Fields, descriptor: Value, now: int, draw: nat -> string)
    requires HeapValid(h) && Injective(draw) && UniqueKeys(f) && Flat(f) && descriptor.Obj?
    requires var found := Found(Obj(Scalars(f)), MetaOr(f, "_type", Undefined), MetaOr(f, "_partial", Undefined));
      Truthy(SettledType(descriptor, found)) && ToKey(SettledType(descriptor, found)) in h.names
    ensures var found := Found(Obj(Scalars(f)), MetaOr(f, "_type", Undefined), MetaOr(f, "_partial", Undefined));
      ImportSpec(h, Obj(f), descriptor, now, draw) ==
        StoreWrite(h, h.names[ToKey(SettledType(descriptor, found))], SettledDescriptor(descriptor, found), Obj(Scalars(f)), now)
  {
    var found := Found(Obj(Scalars(f)), MetaOr(f, "_type", Undefined), MetaOr(f, "_partial", Undefined));
    FlatObjectParsed(h, f, now, draw);
    assert DiscoverSpec(h, Obj(f), now, draw) == (h, Ok(found));
    ImportWritten(h, descriptor, found, now, draw);
  }
}

=== FILE: stack_invoker.dfy ===
/**
 * `lib/StackInvoker.js`: `invoke` takes the verb off a resolved stack,
 * reduces what is left to a descriptor and hands it to the resolver of the
 * verb. The request resolvers touch the cache slot of the descriptor and
 * start a request; when the request settles, its outcome is written into
 * the cache and a change is announced. `fetch` answers from the cache and
 * may start a quiet `get`.
 *
 * The transport is not modelled: a request is the value describing it, and
 * its outcome is an input to `Complete`. `Date.now()` is the parameter
 * `now`; the handler `responseHandler` calls is the parameter `handler`.
 */
module StackInvoker {
  import opened Values
  import opened Constants
  import FM = FragmentMap
  import SR = StackReducer
  import opened StoreRegistry
  import RI = ResponseImport

  /* ----- the verb scan of invoke ----- */

  /**
   * `invoke`'s loop from index `i`, with `verb` the `__resolve` read last:
   * the stack as the loop leaves it, and the final verb or the error of
   * reading `__resolve` of a missing entry. An entry with a verb is spliced
   * out and the index still moves on, so the entry after it is not read.
   */
  function ScanVerbs(items: seq<Value>, i: nat, verb: Value): (seq<Value>, Result<Value>)
    decreases |items| + 1 - i
  {
    if i >= |items| then (items, Ok(verb))
    else if Nullish(items[i]) then (items, Err(CannotRead("__resolve", items[i])))
    else
      var v := Prop(items[i], "__resolve");
      if Truthy(v) then ScanVerbs(items[..i] + items[i + 1..], i + 1, v)
      else ScanVerbs(items, i + 1, v)
  }

  /** The loop of `invoke`, splicing the caller's array in place. */
  method ConsumeVerbs(stack: JsArray) returns (verb: Result<Value>)
    modifies stack
    ensures (stack.items, verb) == ScanVerbs(old(stack.items), 0, Null)
  {
    var resolveAction := Null;
    var i := 0;
    while i < |stack.items|
      invariant ScanVerbs(old(stack.items), 0, Null) == ScanVerbs(stack.items, i, resolveAction)
      decreases |stack.items| + 1 - i
    {
      if Nullish(stack.items[i]) {
        return Err(CannotRead("__resolve", stack.items[i]));
      }
      resolveAction := Prop(stack.items[i], "__resolve");
      if Truthy(resolveAction) {
        stack.items := stack.items[..i] + stack.items[i + 1..];
      }
      i := i + 1;
    }
    verb := Ok(resolveAction);
  }

  /* ----- requests ----- */

  /** A request in flight: its HTTP method, URL and body, the cache action it ends in, and where the answer goes. */
  datatype Request = Request(httpMethod: string, url: string, data: Value, action: string, store: nat, descriptor: SR.Descriptor)

  /** What `invoke` returns: the descriptor itself, a request's promise, or a cache snapshot (with the quiet `get` it may have started). */
  datatype Invoked =
    | Described(descriptor: SR.Descriptor)
    | Requested(request: Request)
    | Fetched(resource: FM.FetchResult, pending: Option<Request>)

  /** `store.notifyChange(descriptor)` on the store at `a`. */
  function Notified(h: Heap, a: nat, d: SR.Descriptor): Heap
    requires a in h.instances
  {
    Put(h, a, h.instances[a].(events := h.instances[a].events + ChangeEvents(d)))
  }

  /** `store.touchResource(descriptor, metadata)` on the store at `a`. */
  function Touched(h: Heap, a: nat, d: SR.Descriptor, metadata: Value): Heap
    requires a in h.instances
  {
    Put(h, a, h.instances[a].(cache := FM.TouchSpec(h.instances[a].cache, CacheDescriptorOf(d), metadata)))
  }

  /** `_.extend({timestamp: 0}, touchParams)`: what a request touches its slot with. */
  function TouchParams(extra: Fields): Value
  {
    Obj(Extend([("timestamp", Num(TIMESTAMP_LOADING))], extra))
  }

  /** `get`'s extra touch parameters. */
  const StaleParams: Fields := [("status", Str(STATUS_STALE))]

  /**
   * `makeRequest(method, descriptor, action, touchParams, noTouchNotify)`
   * on the store at `a`, up to the moment the request leaves: the slot is
   * touched, and change is announced unless `quiet`.
   */
  function RequestAt(h: Heap, a: nat, httpMethod: string, d: SR.Descriptor, action: string, extra: Fields, quiet: bool): (r: (Heap, Request))
    requires HeapValid(h) && a in h.instances
    ensures HeapValid(r.0) && a in r.0.instances
  {
    var h1 := Touched(h, a, d, TouchParams(extra));
    (if quiet then h1 else Notified(h1, a, d), Request(httpMethod, d.path, Obj(d.payload), action, a, d))
  }

  /** `makeRequest` on the descriptor's store; touching anything else than a store throws. */
  function MakeRequest(h: Heap, httpMethod: string, d: SR.Descriptor, action: string, extra: Fields, quiet: bool): (r: (Heap, Result<Request>))
    requires HeapValid(h)
    ensures HeapValid(r.0)
  {
    match StoreAt(h, d.store)
    case None => (h, Err(NotAFunction("touchResource")))
    case Some(a) =>
      var (h1, req) := RequestAt(h, a, httpMethod, d, action, extra, quiet);
      (h1, Ok(req))
  }

  /** Whether a snapshot has no data or a timestamp below the loading mark. */
  predicate NeedsLoad(resource: FM.FetchResult)
  {
    (resource.data.None? || !Truthy(resource.data.value)) ||
    (resource.timestamp.Num? && resource.timestamp.n < TIMESTAMP_LOADING)
  }

  /** `store.fetchResource(descriptor)` on the store at `a`: the snapshot, and the cache with the fragments it consulted. */
  function FetchAt(h: Heap, a: nat, d: SR.Descriptor): (r: (Heap, Result<FM.FetchResult>))
    requires HeapValid(h) && a in h.instances
    ensures HeapValid(r.0) && a in r.0.instances
  {
    (Put(h, a, h.instances[a].(cache := FetchState(h.instances[a].cache, CacheDescriptorOf(d)))),
     FM.FetchSpec(h.instances[a].cache, CacheDescriptorOf(d)))
  }

  /**
   * The `fetch` resolver: the snapshot; when `params.__getable` is set and
   * the snapshot needs loading, a quiet `get` and a second read.
   */
  function FetchResolver(h: Heap, d: SR.Descriptor): (r: (Heap, Result<Invoked>))
    requires HeapValid(h)
    ensures HeapValid(r.0)
  {
    match StoreAt(h, d.store)
    case None => (h, Err(NotAFunction("fetchResource")))
    case Some(a) =>
      var (h1, first) := FetchAt(h, a, d);
      if first.Err? then (h1, Err(first.failure))
      else if !Truthy(Get(d.params, "__getable")) || !NeedsLoad(first.value) then (h1, Ok(Fetched(first.value, None)))
      else
        var (h2, req) := RequestAt(h1, a, "get", d, ACTION_FETCH, StaleParams, true);
        var (h3, second) := FetchAt(h2, a, d);
        (h3, if second.Err? then Err(second.failure) else Ok(Fetched(second.value, Some(req))))
  }

  function CannotResolve(verb: Value): Failure
  {
    Error("Invoker cannot resolve `" + ToKey(verb) + "`")
  }

  /**
   * `Resolvers[verb].call(Resolvers, descriptor, stack)`. The stack, an
   * array, is `get`'s `noTouchNotify`, so a `get` through `invoke` never
   * announces its touch.
   */
  function ResolveSpec(h: Heap, verb: Value, d: SR.Descriptor): (r: (Heap, Result<Invoked>))
    requires HeapValid(h)
    ensures HeapValid(r.0)
  {
    var name := ToKey(verb);
    if name == "fetch" then FetchResolver(h, d)
    else if name !in {"get", "create", "update", "delete"} then (h, Err(CannotResolve(verb)))
    else
      var (h1, req) :=
        if name == "get" then MakeRequest(h, "get", d, ACTION_FETCH, StaleParams, true)
        else if name == "create" then MakeRequest(h, "post", d, ACTION_SAVE, [], false)
        else if name == "update" then MakeRequest(h, "put", d, ACTION_SAVE, [], false)
        else MakeRequest(h, "delete", d, ACTION_DELETE, [], false);
      (h1, if req.Err? then Err(req.failure) else Ok(Requested(req.value)))
  }

  /** `invoke(stack)`: the registry and the caller's stack afterwards, and what it returns or throws. */
  function InvokeSpec(h: Heap, items: seq<Value>, hostname: string): (r: (Heap, seq<Value>, Result<Invoked>))
    requires HeapValid(h)
    ensures HeapValid(r.0)
  {
    var (rest, scanned) := ScanVerbs(items, 0, Null);
    match scanned
    case Err(e) => (h, rest, Err(e))
    case Ok(verb) =>
      match SR.Reduce(Arr(rest), hostname)
      case Err(e) => (h, rest, Err(e))
      case Ok(d) =>
        if !Truthy(verb) || !Truthy(d.store) then (h, rest, Ok(Described(d)))
        else
          var (h1, r) := ResolveSpec(h, verb, d);
          (h1, rest, r)
  }

  /* ----- when the request settles ----- */

  /** How the transport answered. */
  datatype Outcome = Answered(response: Value) | Refused(response: Value)

  /** What becomes of the promise `makeRequest` returned; `Pending` when applying the answer threw. */
  datatype Settlement = Resolved(response: Value) | Rejected(response: Value) | Pending(error: Failure)

  /** `response && response.data || {}`. */
  function ResponseData(response: Value): Value
  {
    if Truthy(response) && Truthy(Prop(response, "data")) then Prop(response, "data") else Obj([])
  }

  /** `RPS.responseHandler(data, descriptor)` for a GET, with `handler` the handler it calls; the error is what it throws. */
  function Reimport(h: Heap, d: SR.Descriptor, data: Value, handler: RI.Handler, hostname: string, now: int, draw: nat -> string): (r: (Heap, Option<Failure>))
    requires HeapValid(h) && Injective(draw)
    ensures HeapValid(r.0) && h.instances.Keys <= r.0.instances.Keys
  {
    var handled := RI.RespondSpec(h, data, DescriptorValue(d), handler, hostname, now, draw);
    (handled.0, if handled.1.Err? then Some(handled.1.failure) else None)
  }

  /**
   * `updateStoreResource(store, descriptor, data, action)`: a GET goes
   * through `responseHandler`, a DELETE deletes, anything else is written
   * with status "success". The error is what it throws.
   */
  function ApplySpec(h: Heap, req: Request, data: Value, handler: RI.Handler, hostname: string, now: int, draw: nat -> string): (r: (Heap, Option<Failure>))
    requires HeapValid(h) && Injective(draw) && req.store in h.instances
    ensures HeapValid(r.0) && req.store in r.0.instances
  {
    if req.action == ACTION_FETCH then Reimport(h, req.descriptor, data, handler, hostname, now, draw)
    else StoreAnswer(h, req, data, now)
  }

  /** `updateStoreResource` for an answer that is not a GET: a DELETE deletes, anything else is written with status "success". */
  function StoreAnswer(h: Heap, req: Request, data: Value, now: int): (r: (Heap, Option<Failure>))
    requires HeapValid(h) && req.store in h.instances
    ensures HeapValid(r.0) && r.0.instances.Keys == h.instances.Keys
  {
    var a := req.store;
    if req.action == ACTION_DELETE then
      var (c, err) := FM.DeleteSpec(h.instances[a].cache, CacheDescriptorOf(req.descriptor));
      (Put(h, a, h.instances[a].(cache := c)), err)
    else
      var (h1, r) := WriteResource(h, a, CacheDescriptorOf(req.descriptor), data, Str(STATUS_SUCCESS), now);
      (h1, if r.Err? then Some(r.failure) else None)
  }

  /** The two callbacks of `makeRequest`'s promise. */
  function CompleteSpec(h: Heap, req: Request, outcome: Outcome, handler: RI.Handler, hostname: string, now: int, draw: nat -> string): (r: (Heap, Settlement))
    requires HeapValid(h) && Injective(draw) && req.store in h.instances
    ensures HeapValid(r.0)
  {
    var a := req.store;
    match outcome
    case Answered(response) =>
      var (h1, err) := ApplySpec(h, req, ResponseData(response), handler, hostname, now, draw);
      if err.Some? then (h1, Pending(err.value))
      else (Notified(h1, a, req.descriptor), Resolved(response))
    case Refused(response) =>
      (Notified(Touched(h, a, req.descriptor, Obj([("timestamp", Num(now))])), a, req.descriptor), Rejected(response))
  }

  /* ----- the same, step by step on the registry ----- */

  /** `invoke(stack)`: consumes the verbs of the caller's array, reduces it and calls the resolver. */
  method Invoke(reg: Registry, stack: JsArray, hostname: string) returns (r: Result<Invoked>)
    requires reg.Valid()
    modifies reg, stack
    ensures reg.Valid()
    ensures (reg.State(), stack.items, r) == InvokeSpec(old(reg.State()), old(stack.items), hostname)
  {
    var scanned := ConsumeVerbs(stack);
    if scanned.Err? {
      return Err(scanned.failure);
    }
    var verb := scanned.value;
    var reduced := SR.Reduce(Arr(stack.items), hostname);
    if reduced.Err? {
      return Err(reduced.failure);
    }
    var d := reduced.value;
    if !Truthy(verb) || !Truthy(d.store) {
      return Ok(Described(d));
    }
    r := Resolve(reg, verb, d);
  }

  /** `Resolvers[verb]` called with the descriptor, or the error for a verb it lacks. */
  method Resolve(reg: Registry, verb: Value, d: SR.Descriptor) returns (r: Result<Invoked>)
    requires reg.Valid()
    modifies reg
    ensures reg.Valid()
    ensures (reg.State(), r) == ResolveSpec(old(reg.State()), verb, d)
  {
    var name := ToKey(verb);
    if name == "fetch" {
      r := Fetch(reg, d);
      return;
    }
    var req: Result<Request>;
    if name == "get" {
      req := SendRequest(reg, "get", d, ACTION_FETCH, StaleParams, true);
    } else if name == "create" {
      req := SendRequest(reg, "post", d, ACTION_SAVE, [], false);
    } else if name == "update" {
      req := SendRequest(reg, "put", d, ACTION_SAVE, [], false);
    } else if name == "delete" {
      req := SendRequest(reg, "delete", d, ACTION_DELETE, [], false);
    } else {
      return Err(CannotResolve(verb));
    }
    r := if req.Err? then Err(req.failure) else Ok(Requested(req.value));
  }

  /** `makeRequest`: touch the slot, announce it unless `quiet`, and describe the request. */
  method SendRequest(reg: Registry, httpMethod: string, d: SR.Descriptor, action: string, extra: Fields, quiet: bool)
    returns (r: Result<Request>)
    requires reg.Valid()
    modifies reg
    ensures reg.Valid()
    ensures (reg.State(), r) == MakeRequest(old(reg.State()), httpMethod, d, action, extra, quiet)
  {
    var store := StoreAt(reg.State(), d.store);
    if store.None? {
      return Err(NotAFunction("touchResource"));
    }
    var a := store.value;
    reg.TouchResource(a, CacheDescriptorOf(d), TouchParams(extra));
    if !quiet {
      reg.NotifyChange(a, d);
    }
    r := Ok(Request(httpMethod, d.path, Obj(d.payload), action, a, d));
  }

  /** The `fetch` resolver. */
  method Fetch(reg: Registry, d: SR.Descriptor) returns (r: Result<Invoked>)
    requires reg.Valid()
    modifies reg
    ensures reg.Valid()
    ensures (reg.State(), r) == FetchResolver(old(reg.State()), d)
  {
    var store := StoreAt(reg.State(), d.store);
    if store.None? {
      return Err(NotAFunction("fetchResource"));
    }
    var a := store.value;
    var resource := reg.FetchResource(a, CacheDescriptorOf(d));
    if resource.Err? {
      return Err(resource.failure);
    }
    if !Truthy(Get(d.params, "__getable")) || !NeedsLoad(resource.value) {
      return Ok(Fetched(resource.value, None));
    }
    var req := SendRequest(reg, "get", d, ACTION_FETCH, StaleParams, true);
    var again := reg.FetchResource(a, CacheDescriptorOf(d));
    r := if again.Err? then Err(again.failure) else Ok(Fetched(again.value, Some(req.value)));
  }

  /** The callbacks of the request's promise, once the transport has answered. */
  method Complete(reg: Registry, req: Request, outcome: Outcome, handler: RI.Handler, hostname: string, now: int, draw: nat -> string)
    returns (r: Settlement)
    requires reg.Valid() && Injective(draw) && req.store in reg.instances
    modifies reg
    ensures reg.Valid()
    ensures (reg.State(), r) == CompleteSpec(old(reg.State()), req, outcome, handler, hostname, now, draw)
  {
    var a := req.store;
    match outcome
    case Refused(response) =>
      reg.TouchResource(a, CacheDescriptorOf(req.descriptor), Obj([("timestamp", Num(now))]));
      reg.NotifyChange(a, req.descriptor);
      r := Rejected(response);
    case Answered(response) =>
      var err := Apply(reg, req, ResponseData(response), handler, hostname, now, draw);
      if err.Some? {
        return Pending(err.value);
      }
      reg.NotifyChange(a, req.descriptor);
      r := Resolved(response);
  }

  /** `RPS.responseHandler(data, descriptor)` for a GET, on the registry. */
  method Reimported(reg: Registry, d: SR.Descriptor, data: Value, handler: RI.Handler, hostname: string, now: int, draw: nat -> string)
    returns (err: Option<Failure>)
    requires reg.Valid() && Injective(draw)
    modifies reg
    ensures reg.Valid()
    ensures (reg.State(), err) == Reimport(old(reg.State()), d, data, handler, hostname, now, draw)
  {
    var r := RI.Respond(reg, data, DescriptorValue(d), handler, hostname, now, draw);
    err := if r.Err? then Some(r.failure) else None;
  }

  /** `updateStoreResource`. */
  method Apply(reg: Registry, req: Request, data: Value, handler: RI.Handler, hostname: string, now: int, draw: nat -> string)
    returns (err: Option<Failure>)
    requires reg.Valid() && Injective(draw) && req.store in reg.instances
    modifies reg
    ensures reg.Valid()
    ensures (reg.State(), err) == ApplySpec(old(reg.State()), req, data, handler, hostname, now, draw)
  {
    if req.action == ACTION_FETCH {
      err := Reimported(reg, req.descriptor, data, handler, hostname, now, draw);
    } else {
      err := Store(reg, req, data, now);
    }
  }

  /** `updateStoreResource` for an answer that is not a GET. */
  method Store(reg: Registry, req: Request, data: Value, now: int) returns (err: Option<Failure>)
    requires reg.Valid() && req.store in reg.instances
    modifies reg
    ensures reg.Valid()
    ensures (reg.State(), err) == StoreAnswer(old(reg.State()), req, data, now)
  {
    var a := req.store;
    if req.action == ACTION_DELETE {
      err := reg.DeleteResource(a, CacheDescriptorOf(req.descriptor));
    } else {
      var r := reg.UpdateResource(a, CacheDescriptorOf(req.descriptor), data, Str(STATUS_SUCCESS), now);
      err := if r.Err? then Some(r.failure) else None;
    }
  }
}

=== FILE: stack_invoker_props.dfy ===
/**
 * Properties of `lib/StackInvoker.js`: which verb `invoke` settles on and
 * what it leaves of the stack, what each resolver does to the cache and to
 * the change events, and what an answered or refused request leaves behind.
 */
module StackInvokerProperties {
  import opened Values
  import opened Constants
  import FM = FragmentMap
  import FMP = FragmentMapProperties
  import SR = StackReducer
  import opened StoreRegistry
  import RI = ResponseImport
  import RIP = ResponseImportProperties
  import opened StackInvoker

  /* ----- the verb scan ----- */

  /** A stack entry `invoke` reads without finding a verb. */
  predicate Plain(x: Value)
  {
    !Nullish(x) && !Truthy(Prop(x, "__resolve"))
  }

  /** A stack entry carrying a verb, as the actions `get`, `create`, ... add. */
  predicate Verb(x: Value)
  {
    !Nullish(x) && Truthy(Prop(x, "__resolve"))
  }

  /** Entries without a verb are read and left in place; the verb is the last one read. */
  lemma {:induction false} ScanSkipsPlain(items: seq<Value>, i: nat, k: nat, verb: Value)
    requires i <= k <= |items|
    requires forall j :: i <= j < k ==> Plain(items[j])
    ensures ScanVerbs(items, i, verb) == ScanVerbs(items, k, if i < k then Prop(items[k - 1], "__resolve") else verb)
    decreases k - i
  {
    if i < k {
      ScanSkipsPlain(items, i + 1, k, Prop(items[i], "__resolve"));
    }
  }

  /** A stack without verbs comes out of the scan whole, with a falsy verb. */
  lemma NoVerbKeepsStack(items: seq<Value>)
    requires forall j :: 0 <= j < |items| ==> Plain(items[j])
    ensures ScanVerbs(items, 0, Null).0 == items
    ensures ScanVerbs(items, 0, Null).1.Ok? && !Truthy(ScanVerbs(items, 0, Null).1.value)
  {
    ScanSkipsPlain(items, 0, |items|, Null);
  }

  /** The usual stack, whose one verb entry comes last: that verb is taken and its entry dropped. */
  lemma TrailingVerbTaken(items: seq<Value>)
    requires |items| >= 1 && Verb(items[|items| - 1])
    requires forall j :: 0 <= j < |items| - 1 ==> Plain(items[j])
    ensures ScanVerbs(items, 0, Null) == (items[..|items| - 1], Ok(Prop(items[|items| - 1], "__resolve")))
  {
    var n := |items| - 1;
    ScanSkipsPlain(items, 0, n, Null);
    assert items[..n] + items[n + 1..] == items[..n];
  }

  /**
   * Two verb entries in a row: the loop splices the first out and moves
   * past the second, which stays on the stack and whose verb is never read.
   */
  lemma AdjacentVerbSkipped(x: Value, y: Value)
    requires Verb(x) && Verb(y)
    ensures ScanVerbs([x, y], 0, Null) == ([y], Ok(Prop(x, "__resolve")))
  {
    assert [x, y][..0] + [x, y][1..] == [y];
  }

  /** Splicing out entry `i` removes one occurrence of it and nothing else. */
  lemma SpliceRemovesOne(items: seq<Value>, i: nat)
    requires i < |items|
    ensures multiset(items[..i] + items[i + 1..]) == multiset(items) - multiset{items[i]}
    ensures multiset(items[..i] + items[i + 1..]) <= multiset(items)
    ensures forall x :: x != items[i] ==> multiset(items[..i] + items[i + 1..])[x] == multiset(items)[x]
  {
    assert items == items[..i] + [items[i]] + items[i + 1..];
  }

  /** The scan only removes entries, and never one without a verb. */
  lemma {:induction false} ScanKeepsPlain(items: seq<Value>, i: nat, verb: Value)
    ensures multiset(ScanVerbs(items, i, verb).0) <= multiset(items)
    ensures forall x :: !Truthy(Prop(x, "__resolve")) ==>
      multiset(ScanVerbs(items, i, verb).0)[x] == multiset(items)[x]
    decreases |items| + 1 - i
  {
    if i < |items| && !Nullish(items[i]) {
      var v := Prop(items[i], "__resolve");
      if Truthy(v) {
        var rest := items[..i] + items[i + 1..];
        assert ScanVerbs(items, i, verb) == ScanVerbs(rest, i + 1, v);
        SpliceRemovesOne(items, i);
        ScanKeepsPlain(rest, i + 1, v);
      } else {
        assert ScanVerbs(items, i, verb) == ScanVerbs(items, i + 1, v);
        ScanKeepsPlain(items, i + 1, v);
      }
    }
  }

  /* ----- invoke ----- */

  /** Without a verb, `invoke` is the reducer: it returns the descriptor and touches nothing. */
  lemma WithoutVerbDescribes(h: Heap, items: seq<Value>, hostname: string)
    requires HeapValid(h)
    requires forall j :: 0 <= j < |items| ==> Plain(items[j])
    ensures InvokeSpec(h, items, hostname).0 == h
    ensures InvokeSpec(h, items, hostname).1 == items
    ensures InvokeSpec(h, items, hostname).2 ==
      match SR.Reduce(Arr(items), hostname)
      case Err(e) => Err(e)
      case Ok(d) => Ok(Described(d))
  {
    NoVerbKeepsStack(items);
  }

  /** A trailing verb no resolver has throws once the descriptor names a store, and nothing changes. */
  lemma UnknownVerbRejected(h: Heap, items: seq<Value>, hostname: string)
    requires HeapValid(h)
    requires |items| >= 1 && Verb(items[|items| - 1])
    requires forall j :: 0 <= j < |items| - 1 ==> Plain(items[j])
    requires ToKey(Prop(items[|items| - 1], "__resolve")) !in {"get", "create", "update", "delete", "fetch"}
    requires SR.Reduce(Arr(items[..|items| - 1]), hostname).Ok?
    requires Truthy(SR.Reduce(Arr(items[..|items| - 1]), hostname).value.store)
    ensures InvokeSpec(h, items, hostname) ==
      (h, items[..|items| - 1], Err(CannotResolve(Prop(items[|items| - 1], "__resolve"))))
  {
    TrailingVerbTaken(items);
  }

  /** A trailing verb is resolved on the descriptor of the rest of the stack. */
  lemma TrailingVerbResolved(h: Heap, items: seq<Value>, hostname: string)
    requires HeapValid(h)
    requires |items| >= 1 && Verb(items[|items| - 1])
    requires forall j :: 0 <= j < |items| - 1 ==> Plain(items[j])
    requires SR.Reduce(Arr(items[..|items| - 1]), hostname).Ok?
    requires Truthy(SR.Reduce(Arr(items[..|items| - 1]), hostname).value.store)
    ensures var r := ResolveSpec(h, Prop(items[|items| - 1], "__resolve"), SR.Reduce(Arr(items[..|items| - 1]), hostname).value);
      InvokeSpec(h, items, hostname) == (r.0, items[..|items| - 1], r.1)
  {
    TrailingVerbTaken(items);
  }

  /* ----- the resolvers ----- */

  /** What a request touches its slot with: `timestamp` 0 unless the extra parameters say otherwise, and those. */
  lemma TouchParamsFields(extra: Fields, k: string)
    requires UniqueKeys(extra)
    ensures UniqueKeys(TouchParams(extra).fields)
    ensures Get(TouchParams(extra).fields, k) ==
      if HasKey(extra, k) then Get(extra, k)
      else if k == "timestamp" then Num(TIMESTAMP_LOADING) else Undefined
  {
    var base: Fields := [("timestamp", Num(TIMESTAMP_LOADING))];
    GetExtend(base, extra, k);
    ExtendKeepsUnique(base, extra);
  }

  /** `get` through `invoke` touches its slot quietly and describes a GET of the descriptor's path. */
  lemma GetQuiet(h: Heap, d: SR.Descriptor, a: nat)
    requires HeapValid(h) && d.store == Ref(a) && a in h.instances
    ensures ResolveSpec(h, Str("get"), d) ==
      (Touched(h, a, d, TouchParams(StaleParams)), Ok(Requested(Request("get", d.path, Obj(d.payload), ACTION_FETCH, a, d))))
    ensures ResolveSpec(h, Str("get"), d).0.instances[a].events == h.instances[a].events
  {
  }

  /** `get`'s touch parameters: timestamp 0 and status "stale". */
  lemma StaleParamsValue(k: string)
    ensures TouchParams(StaleParams) == Obj([("timestamp", Num(TIMESTAMP_LOADING)), ("status", Str(STATUS_STALE))])
    ensures var f := TouchParams(StaleParams).fields;
      UniqueKeys(f) && HasKey(f, "status") && HasKey(f, "timestamp") &&
      Get(f, "status") == Str(STATUS_STALE) && Get(f, "timestamp") == Num(TIMESTAMP_LOADING) &&
      (k != "status" && k != "timestamp" ==> !HasKey(f, k))
  {
    var base: Fields := [("timestamp", Num(TIMESTAMP_LOADING))];
    assert StaleParams[..0] == [];
    assert Extend(base, StaleParams) == Set(base, "status", Str(STATUS_STALE));
    assert base[1..] == [];
    var f: Fields := [("timestamp", Num(TIMESTAMP_LOADING)), ("status", Str(STATUS_STALE))];
    assert Keys(f) == ["timestamp", "status"];
  }

  /** Touching with `get`'s parameters makes a slot with an id stale and loading, and keeps its other fields. */
  lemma StaleTouch(st: FM.CacheState, cd: FM.CacheDescriptor, k: string)
    requires Truthy(cd.id)
    ensures var slot := FM.Lookup(FM.TouchSpec(st, cd, TouchParams(StaleParams)).fragments, FM.PrimaryKey(cd), ToKey(cd.id));
      var before := FM.Lookup(st.fragments, FM.PrimaryKey(cd), ToKey(cd.id));
      slot.Obj? && Get(slot.fields, "status") == Str(STATUS_STALE) &&
      Get(slot.fields, "timestamp") == Num(TIMESTAMP_LOADING) &&
      (k != "status" && k != "timestamp" ==> Get(slot.fields, k) == Get(FieldsOf(before), k))
  {
    var touch := TouchParams(StaleParams);
    StaleParamsValue(k);
    FMP.TouchById(st, cd, touch, "", "", "status");
    FMP.TouchById(st, cd, touch, "", "", "timestamp");
    FMP.TouchById(st, cd, touch, "", "", k);
  }

  /**
   * `get` through `invoke` marks a slot with an id stale and loading: its
   * status "stale", its timestamp 0, every other field kept, and no change
   * announced.
   */
  lemma GetMarksStale(h: Heap, d: SR.Descriptor, a: nat, k: string)
    requires HeapValid(h) && d.store == Ref(a) && a in h.instances && Truthy(d.id)
    ensures var h' := ResolveSpec(h, Str("get"), d).0;
      var slot := FM.Lookup(h'.instances[a].cache.fragments, FM.PrimaryKey(CacheDescriptorOf(d)), ToKey(d.id));
      var before := FM.Lookup(h.instances[a].cache.fragments, FM.PrimaryKey(CacheDescriptorOf(d)), ToKey(d.id));
      h'.instances[a].events == h.instances[a].events &&
      slot.Obj? && Get(slot.fields, "status") == Str(STATUS_STALE) &&
      Get(slot.fields, "timestamp") == Num(TIMESTAMP_LOADING) &&
      (k != "status" && k != "timestamp" ==> Get(slot.fields, k) == Get(FieldsOf(before), k))
  {
    GetQuiet(h, d, a);
    StaleTouch(h.instances[a].cache, CacheDescriptorOf(d), k);
  }

  /** The verbs that write: the HTTP method each sends and the cache action its answer ends in. */
  function WriteMethod(name: string): (string, string)
  {
    if name == "create" then ("post", ACTION_SAVE)
    else if name == "update" then ("put", ACTION_SAVE)
    else ("delete", ACTION_DELETE)
  }

  /**
   * `create`, `update` and `delete` touch their slot with `{timestamp: 0}`,
   * always announce the change, and describe the request.
   */
  lemma WritesAnnounced(h: Heap, verb: Value, d: SR.Descriptor, a: nat)
    requires HeapValid(h) && d.store == Ref(a) && a in h.instances
    requires ToKey(verb) in {"create", "update", "delete"}
    ensures var m := WriteMethod(ToKey(verb));
      ResolveSpec(h, verb, d) ==
        (Notified(Touched(h, a, d, Obj([("timestamp", Num(TIMESTAMP_LOADING))])), a, d),
         Ok(Requested(Request(m.0, d.path, Obj(d.payload), m.1, a, d))))
    ensures var h' := ResolveSpec(h, verb, d).0;
      h'.instances[a].events == h.instances[a].events + ChangeEvents(d)
  {
    ExtendEmpty([("timestamp", Num(TIMESTAMP_LOADING))]);
  }

  /** A resolver on a descriptor whose store is not one throws at the first store method it calls, and nothing changes. */
  lemma WithoutStoreRejected(h: Heap, verb: Value, d: SR.Descriptor)
    requires HeapValid(h) && StoreAt(h, d.store).None?
    requires ToKey(verb) in {"get", "create", "update", "delete", "fetch"}
    ensures ResolveSpec(h, verb, d) ==
      (h, Err(NotAFunction(if ToKey(verb) == "fetch" then "fetchResource" else "touchResource")))
  {
  }

  /** Without `params.__getable`, `fetch` answers with the cache's snapshot and starts nothing. */
  lemma FetchWithoutGetable(h: Heap, d: SR.Descriptor, a: nat)
    requires HeapValid(h) && d.store == Ref(a) && a in h.instances
    requires !Truthy(Get(d.params, "__getable"))
    ensures var (h', r) := ResolveSpec(h, Str("fetch"), d);
      var snapshot := FM.FetchSpec(h.instances[a].cache, CacheDescriptorOf(d));
      r == (if snapshot.Err? then Err(snapshot.failure) else Ok(Fetched(snapshot.value, None))) &&
      h'.instances[a].events == h.instances[a].events &&
      h'.instances[a].cache == FetchState(h.instances[a].cache, CacheDescriptorOf(d))
  {
  }

  /**
   * With `params.__getable` and a snapshot without data, `fetch` starts a
   * quiet `get` and answers with a second read, taken after the touch.
   */
  lemma FetchStartsGet(h: Heap, d: SR.Descriptor, a: nat)
    requires HeapValid(h) && d.store == Ref(a) && a in h.instances
    requires Truthy(Get(d.params, "__getable"))
    requires var snapshot := FM.FetchSpec(h.instances[a].cache, CacheDescriptorOf(d));
      snapshot.Ok? && NeedsLoad(snapshot.value)
    ensures var (h', r) := ResolveSpec(h, Str("fetch"), d);
      var cd := CacheDescriptorOf(d);
      var touched := FM.TouchSpec(FetchState(h.instances[a].cache, cd), cd, TouchParams(StaleParams));
      var again := FM.FetchSpec(touched, cd);
      r == (if again.Err? then Err(again.failure)
            else Ok(Fetched(again.value, Some(Request("get", d.path, Obj(d.payload), ACTION_FETCH, a, d))))) &&
      h'.instances[a].events == h.instances[a].events &&
      h'.instances[a].cache == FetchState(touched, cd)
  {
  }

  /** A snapshot that has data and a timestamp at or above the loading mark is answered as it is, `__getable` or not. */
  lemma FreshFetchAnswered(h: Heap, d: SR.Descriptor, a: nat)
    requires HeapValid(h) && d.store == Ref(a) && a in h.instances
    requires var snapshot := FM.FetchSpec(h.instances[a].cache, CacheDescriptorOf(d));
      snapshot.Ok? && snapshot.value.data.Some? && Truthy(snapshot.value.data.value) &&
      (snapshot.value.timestamp.Num? ==> snapshot.value.timestamp.n >= TIMESTAMP_LOADING)
    ensures ResolveSpec(h, Str("fetch"), d).1 ==
      Ok(Fetched(FM.FetchSpec(h.instances[a].cache, CacheDescriptorOf(d)).value, None))
  {
  }

  /* ----- completion ----- */

  /** What an answer writes is never falsy: a missing body becomes `{}`. */
  lemma ResponseDataTruthy(response: Value)
    ensures Truthy(ResponseData(response))
    ensures Truthy(response) && Truthy(Prop(response, "data")) ==> ResponseData(response) == Prop(response, "data")
    ensures !Truthy(response) ==> ResponseData(response) == Obj([])
  {
  }

  /**
   * A refused request stamps its slot with the time of the refusal,
   * keeps every other field, announces the change and rejects with the
   * response.
   */
  lemma RefusalStamped(h: Heap, req: Request, response: Value, handler: RI.Handler, hostname: string, now: int, draw: nat -> string, k: string)
    requires HeapValid(h) && Injective(draw) && req.store in h.instances && Truthy(req.descriptor.id)
    ensures var (h', s) := CompleteSpec(h, req, Refused(response), handler, hostname, now, draw);
      var a := req.store;
      var cd := CacheDescriptorOf(req.descriptor);
      var slot := FM.Lookup(h'.instances[a].cache.fragments, FM.PrimaryKey(cd), ToKey(req.descriptor.id));
      var before := FM.Lookup(h.instances[a].cache.fragments, FM.PrimaryKey(cd), ToKey(req.descriptor.id));
      s == Rejected(response) &&
      h'.instances[a].events == h.instances[a].events + ChangeEvents(req.descriptor) &&
      slot.Obj? && Get(slot.fields, "timestamp") == Num(now) &&
      (k != "timestamp" ==> Get(slot.fields, k) == Get(FieldsOf(before), k))
  {
    var touch := Obj([("timestamp", Num(now))]);
    var cd := CacheDescriptorOf(req.descriptor);
    FMP.TouchById(h.instances[req.store].cache, cd, touch, "", "", "timestamp");
    FMP.TouchById(h.instances[req.store].cache, cd, touch, "", "", k);
  }

  /**
   * An answered save of a resource with an id stores the answer's data
   * with status "success" and the time of the answer, so that fetching the
   * descriptor returns exactly that; then the change is announced and the
   * promise resolves with the response.
   */
  lemma SaveThenFetch(h: Heap, req: Request, response: Value, handler: RI.Handler, hostname: string, now: int, draw: nat -> string)
    requires HeapValid(h) && Injective(draw) && req.store in h.instances
    requires req.action == ACTION_SAVE && Truthy(req.descriptor.id)
    ensures var (h', s) := CompleteSpec(h, req, Answered(response), handler, hostname, now, draw);
      var a := req.store;
      s == Resolved(response) &&
      h'.instances[a].events == h.instances[a].events + ChangeEvents(req.descriptor) &&
      FM.FetchSpec(h'.instances[a].cache, CacheDescriptorOf(req.descriptor)) ==
        Ok(FM.FetchResult(Str(STATUS_SUCCESS), Num(now), Some(ResponseData(response))))
  {
    ResponseDataTruthy(response);
    FMP.UpdateThenFetchById(h.instances[req.store].cache, CacheDescriptorOf(req.descriptor), ResponseData(response), Str(STATUS_SUCCESS), now);
  }

  /**
   * An answered save whose write throws leaves the promise pending with
   * the error, keeps what the write did, and announces nothing.
   */
  lemma FailedWritePending(h: Heap, req: Request, response: Value, handler: RI.Handler, hostname: string, now: int, draw: nat -> string)
    requires HeapValid(h) && Injective(draw) && req.store in h.instances
    requires req.action == ACTION_SAVE
    requires FM.UpdateSpec(h.instances[req.store].cache, CacheDescriptorOf(req.descriptor), ResponseData(response), Str(STATUS_SUCCESS), now).1.Err?
    ensures var (c, w) := FM.UpdateSpec(h.instances[req.store].cache, CacheDescriptorOf(req.descriptor), ResponseData(response), Str(STATUS_SUCCESS), now);
      CompleteSpec(h, req, Answered(response), handler, hostname, now, draw) ==
        (Put(h, req.store, h.instances[req.store].(cache := c)), Pending(w.failure))
  {
  }

  /** An answered delete deletes the slot, then announces the change unless the delete threw. */
  lemma DeleteAnswered(h: Heap, req: Request, response: Value, handler: RI.Handler, hostname: string, now: int, draw: nat -> string)
    requires HeapValid(h) && Injective(draw) && req.store in h.instances
    requires req.action == ACTION_DELETE
    ensures var a := req.store;
      var (c, err) := FM.DeleteSpec(h.instances[a].cache, CacheDescriptorOf(req.descriptor));
      var h1 := Put(h, a, h.instances[a].(cache := c));
      CompleteSpec(h, req, Answered(response), handler, hostname, now, draw) ==
        if err.Some? then (h1, Pending(err.value)) else (Notified(h1, a, req.descriptor), Resolved(response))
  {
  }

  /**
   * An answered GET goes through `responseHandler`. With
   * `containerless_unnested` as its handler, the importer writes the
   * response into the stores and returns nothing, so `responseHandler`
   * then throws: the importer's writes stay, the promise stays pending and
   * no change is announced.
   */
  lemma UnnestedGetPending(h: Heap, req: Request, response: Value, hostname: string, now: int, draw: nat -> string)
    requires HeapValid(h) && Injective(draw) && req.store in h.instances
    requires req.action == ACTION_FETCH
    ensures CompleteSpec(h, req, Answered(response), RI.Unnested, hostname, now, draw).0 ==
      RI.ImportSpec(h, ResponseData(response), DescriptorValue(req.descriptor), now, draw).0
    ensures CompleteSpec(h, req, Answered(response), RI.Unnested, hostname, now, draw).1.Pending?
  {
    RIP.UnnestedHandlerFails(h, ResponseData(response), DescriptorValue(req.descriptor), hostname, now, draw);
  }
}

=== FILE: stack_reducer.dfy ===
/**
 * The stack reducer of `lib/StackReducer.js`: folds a flat stack of
 * configuration entries into a resource descriptor.
 *
 * A stack entry is one of
 *  - a definition entry `{__type, __definition, __reference}` (a store or a
 *    dataset, as `getResolvable` builds it);
 *  - a parameters entry `{__params: {...}}`;
 *  - any other plain object, merged into the payload.
 *
 * The first pass collects parameters, the parameter map, the partial, the
 * store, the actions, the fragments, the pending `paramId` and the payload;
 * the second pass fills the URI templates with the collected parameters.
 * The host name that prefixes every path is a parameter here.
 */
module StackReducer {
  import opened Values
  import Utils
  import Actions

  /** The ten keys of the descriptor the reducer returns (`type` is `storeType`). */
  datatype Descriptor = Descriptor(
    actions: Fields,
    event: string,
    partial: Value,
    id: Value,
    params: Fields,
    fragments: seq<Value>,
    path: string,
    payload: Fields,
    store: Value,
    storeType: Value)

  /* ----- fillURI ----- */

  /** A character of the regular-expression class `\w`. */
  predicate IsWordChar(c: char)
  {
    'a' <= c <= 'z' || 'A' <= c <= 'Z' || '0' <= c <= '9' || c == '_'
  }

  /** The end of the run of word characters that starts at `i`. */
  function WordEnd(s: string, i: nat): (j: nat)
    requires i <= |s|
    ensures i <= j <= |s|
    ensures forall k :: i <= k < j ==> IsWordChar(s[k])
    ensures j == |s| || !IsWordChar(s[j])
    decreases |s| - i
  {
    if i < |s| && IsWordChar(s[i]) then WordEnd(s, i + 1) else i
  }

  /** A template token: a colon followed by one or more word characters. */
  predicate IsToken(t: string)
  {
    |t| >= 2 && t[0] == ':' && forall k :: 1 <= k < |t| ==> IsWordChar(t[k])
  }

  predicate AllTokens(ts: seq<string>)
  {
    forall i :: 0 <= i < |ts| ==> IsToken(ts[i])
  }

  /** `s.match(/:(\w+)/g)` from position `i`: the tokens, left to right, each as long as it can be. */
  function TokensFrom(s: string, i: nat): (r: seq<string>)
    requires i <= |s|
    ensures AllTokens(r)
    decreases |s| - i
  {
    if i + 1 >= |s| then []
    else if s[i] == ':' && IsWordChar(s[i + 1]) then
      var j := WordEnd(s, i + 1);
      [s[i..j]] + TokensFrom(s, j)
    else TokensFrom(s, i + 1)
  }

  function Tokens(s: string): (r: seq<string>)
    ensures AllTokens(r)
  {
    TokensFrom(s, 0)
  }

  /** Whether `pat` occurs in `s` at position `k`. */
  predicate OccursAt(s: string, pat: string, k: nat)
  {
    k + |pat| <= |s| && s[k..k + |pat|] == pat
  }

  /** The first position at or after `from` where `pat` occurs in `s`, or -1. */
  function FindFrom(s: string, pat: string, from: nat): (r: int)
    requires from <= |s|
    ensures r == -1 || (from <= r && OccursAt(s, pat, r))
    ensures forall k: nat :: from <= k && (r == -1 || k < r) ==> !OccursAt(s, pat, k)
    decreases |s| - from
  {
    if from + |pat| > |s| then -1
    else if OccursAt(s, pat, from) then from
    else if from == |s| then -1
    else FindFrom(s, pat, from + 1)
  }

  /**
   * The replacement template of `String.prototype.replace` with a string
   * pattern (no capture groups): `$$` stands for `$`, `$&` for the matched
   * text, `` $` `` for the text before the match and `$'` for the text after
   * it; any other `$` is kept as it is. The template is read left to right.
   */
  function Substitute(rep: string, matched: string, before: string, after: string): string
    decreases |rep|
  {
    if rep == [] then []
    else if rep[0] != '$' || |rep| == 1 then [rep[0]] + Substitute(rep[1..], matched, before, after)
    else if rep[1] == '$' then "$" + Substitute(rep[2..], matched, before, after)
    else if rep[1] == '&' then matched + Substitute(rep[2..], matched, before, after)
    else if rep[1] == '`' then before + Substitute(rep[2..], matched, before, after)
    else if rep[1] == '\'' then after + Substitute(rep[2..], matched, before, after)
    else "$" + Substitute(rep[1..], matched, before, after)
  }

  /** `s.replace(pat, rep)` with a string pattern and a string replacement: the first occurrence only. */
  function ReplaceFirst(s: string, pat: string, rep: string): string
  {
    var i := FindFrom(s, pat, 0);
    if i < 0 then s
    else s[..i] + Substitute(rep, pat, s[..i], s[i + |pat|..]) + s[i + |pat|..]
  }

  /** The parameter key a template name stands for: its `paramMap` alias when that is truthy. */
  function Alias(name: string, paramMap: Fields): Value
  {
    if Truthy(Get(paramMap, name)) then Get(paramMap, name) else Str(name)
  }

  /** The state of the `fillURI` loop: the URI so far and the last parameter key. */
  datatype Filled = Filled(uri: string, lastParamKey: Value)

  function MissingComponent(key: Value, uri: string): Failure
  {
    TypeError("Failed to map path component `" + ToKey(key) + "` for `" + uri + "` while using params: ")
  }

  /** One iteration of the `fillURI` loop. */
  function FillStep(acc: Filled, token: string, params: Fields, paramMap: Fields): Result<Filled>
    requires IsToken(token)
  {
    var key := Alias(token[1..], paramMap);
    var value := Get(params, ToKey(key));
    if Truthy(value) then Ok(Filled(ReplaceFirst(acc.uri, token, ToKey(value)), key))
    else Err(MissingComponent(key, acc.uri))
  }

  /** The `fillURI` loop over the given tokens. */
  function FillTokens(acc: Filled, tokens: seq<string>, params: Fields, paramMap: Fields): Result<Filled>
    requires AllTokens(tokens)
    decreases |tokens|
  {
    if tokens == [] then Ok(acc)
    else
      match FillTokens(acc, tokens[..|tokens| - 1], params, paramMap)
      case Err(e) => Err(e)
      case Ok(a) => FillStep(a, tokens[|tokens| - 1], params, paramMap)
  }

  /** `fillURI(uri, params, paramMap)`: the filled URI and the last key, or the TypeError thrown. */
  function FillURI(uri: Value, params: Fields, paramMap: Fields): Result<Filled>
  {
    if !uri.Str? then Err(TypeError("uri.match is not a function"))
    else FillTokens(Filled(uri.s, Null), Tokens(uri.s), params, paramMap)
  }

  lemma {:induction false} FillTokensErrSticky(acc: Filled, tokens: seq<string>, n: nat, params: Fields, paramMap: Fields)
    requires n <= |tokens| && AllTokens(tokens)
    requires FillTokens(acc, tokens[..n], params, paramMap).Err?
    ensures FillTokens(acc, tokens, params, paramMap) == FillTokens(acc, tokens[..n], params, paramMap)
    decreases |tokens| - n
  {
    if n < |tokens| {
      assert tokens[..n + 1][..n] == tokens[..n];
      FillTokensErrSticky(acc, tokens, n + 1, params, paramMap);
    } else {
      assert tokens[..n] == tokens;
    }
  }

  /** `fillURI`, with its loop over the tokens. */
  method FillUri(uri: Value, params: Fields, paramMap: Fields) returns (r: Result<Filled>)
    ensures r == FillURI(uri, params, paramMap)
  {
    if !uri.Str? {
      return Err(TypeError("uri.match is not a function"));
    }
    var vars := Tokens(uri.s);
    var acc := Filled(uri.s, Null);
    var i := 0;
    while i < |vars|
      invariant 0 <= i <= |vars|
      invariant FillTokens(Filled(uri.s, Null), vars[..i], params, paramMap) == Ok(acc)
    {
      var v := vars[i];
      assert vars[..i + 1][..i] == vars[..i];
      var key := Alias(v[1..], paramMap);
      var value := Get(params, ToKey(key));
      if !Truthy(value) {
        FillTokensErrSticky(Filled(uri.s, Null), vars, i + 1, params, paramMap);
        return Err(MissingComponent(key, acc.uri));
      }
      acc := Filled(ReplaceFirst(acc.uri, v, ToKey(value)), key);
      i := i + 1;
    }
    assert vars[..i] == vars;
    return Ok(acc);
  }

  /* ----- the first pass ----- */

  /** `_.concatUnique(list, items)` (its module is not part of this model): the items not already present appended in order. */
  function ConcatUnique(list: seq<Value>, items: Value): seq<Value>
  {
    AppendNew(list, if items.Arr? then items.items else [items])
  }

  predicate Contains(list: seq<Value>, x: Value)
  {
    exists i :: 0 <= i < |list| && StrictEquals(list[i], x)
  }

  function AppendNew(list: seq<Value>, items: seq<Value>): seq<Value>
    decreases |items|
  {
    if items == [] then list
    else
      var l := AppendNew(list, items[..|items| - 1]);
      var x := items[|items| - 1];
      if Contains(l, x) then l else l + [x]
  }

  /** The accumulators of the first pass. */
  datatype Scan = Scan(
    params: Fields,
    paramMap: Fields,
    partial: Value,
    storeType: Value,
    store: Value,
    actions: Fields,
    fragments: seq<Value>,
    paramId: Value,
    payload: Fields)

  /** The accumulators before the first entry; the actions start as a copy of the defaults. */
  function InitialScan(): Scan
  {
    Scan([], [], Null, Null, Null, Extend([], Actions.DefaultActions()), [], Null, [])
  }

  /** `extend(fields, v)` for a source that is neither null nor undefined. */
  function MergeValue(f: Fields, v: Value): Fields
    requires !v.Undefined? && !v.Null?
  {
    Extend(f, Utils.OwnEntries(v).value)
  }

  predicate IsType(op: Value, t: string)
  {
    StrictEquals(Prop(op, "__type"), Str(t))
  }

  /** Whether an entry is a definition entry. */
  predicate IsDefinition(op: Value)
  {
    Truthy(Prop(op, "__definition"))
  }

  /** Whether an entry feeds the parameters. */
  predicate IsParams(op: Value)
  {
    !IsDefinition(op) && Truthy(Prop(op, "__params"))
  }

  /** Whether an entry feeds the payload. */
  predicate IsPayload(op: Value)
  {
    !IsDefinition(op) && !Truthy(Prop(op, "__params")) && IsPlainObject(op)
  }

  function NotAnObject(what: string, v: Value): Failure
  {
    TypeError(what + " was not an object, but of type \"" + TypeOf(v) + "\"")
  }

  /** The store and dataset rules of one definition entry. */
  function ScanTyped(acc: Scan, op: Value, def: Value): Scan
  {
    var a := if IsType(op, "store") then
        acc.(store := Prop(op, "__reference"),
             storeType := if Truthy(Prop(def, "type")) then Prop(def, "type") else acc.storeType)
      else acc;
    if IsType(op, "dataset") then
      a.(paramMap := if Truthy(Prop(def, "paramMap")) then MergeValue(a.paramMap, Prop(def, "paramMap")) else a.paramMap,
         partial := if Truthy(Prop(def, "partial")) then Prop(def, "partial") else a.partial,
         fragments := if Truthy(Prop(def, "fragments")) then ConcatUnique(a.fragments, Prop(def, "fragments")) else a.fragments)
    else a
  }

  /** The action options of one definition entry. */
  function ScanActions(acc: Scan, def: Value): Result<Scan>
  {
    var only := Prop(def, "onlyActions");
    var acts := Prop(def, "actions");
    if Truthy(only) && !IsPlainObject(only) then Err(NotAnObject("onlyActions", only))
    else
      var a := if Truthy(only) then acc.(actions := Extend([], only.fields)) else acc;
      if Truthy(acts) && !IsPlainObject(acts) then Err(NotAnObject("actions", acts))
      else Ok(if Truthy(acts) then a.(actions := Extend(a.actions, acts.fields)) else a)
  }

  /** One iteration of the first pass; reading `__definition` of null or undefined throws. */
  function ScanStep(acc: Scan, op: Value): Result<Scan>
  {
    if op.Undefined? || op.Null? then Err(TypeError("Cannot read property '__definition' of " + ToKey(op)))
    else if IsDefinition(op) then
      var def := Prop(op, "__definition");
      var a := ScanTyped(acc, op, def);
      var pid := Prop(def, "paramId");
      ScanActions(a.(paramId := if Truthy(pid) then pid else Undefined), def)
    else if IsParams(op) then Ok(acc.(params := MergeValue(acc.params, Prop(op, "__params"))))
    else if IsPlainObject(op) then Ok(acc.(payload := Extend(acc.payload, op.fields)))
    else Ok(acc)
  }

  /** The first pass over the given entries. */
  function ScanAll(ops: seq<Value>): Result<Scan>
    decreases |ops|
  {
    if ops == [] then Ok(InitialScan())
    else
      match ScanAll(ops[..|ops| - 1])
      case Err(e) => Err(e)
      case Ok(a) => ScanStep(a, ops[|ops| - 1])
  }

  /* ----- the second pass ----- */

  /** The accumulators of the second pass: the concatenated path and the last URI's last key. */
  datatype Paths = Paths(path: string, lastKey: Value)

  function PathStep(acc: Paths, op: Value, params: Fields, paramMap: Fields): Result<Paths>
  {
    var def := Prop(op, "__definition");
    if Truthy(def) && Truthy(Prop(def, "uri")) then
      match FillURI(Prop(def, "uri"), params, paramMap)
      case Err(e) => Err(e)
      case Ok(f) => Ok(Paths(acc.path + f.uri, f.lastParamKey))
    else Ok(acc)
  }

  function PathAll(ops: seq<Value>, params: Fields, paramMap: Fields): Result<Paths>
    decreases |ops|
  {
    if ops == [] then Ok(Paths("", Null))
    else
      match PathAll(ops[..|ops| - 1], params, paramMap)
      case Err(e) => Err(e)
      case Ok(a) => PathStep(a, ops[|ops| - 1], params, paramMap)
  }

  /* ----- the descriptor ----- */

  function Reverse(s: seq<Value>): (r: seq<Value>)
    ensures |r| == |s| && forall i :: 0 <= i < |s| ==> r[i] == s[|s| - 1 - i]
  {
    if s == [] then [] else Reverse(s[1..]) + [s[0]]
  }

  /** The parameter key the id is read from: `paramId`, else the last URI key, else "id", then aliased. */
  function IdKey(scan: Scan, paths: Paths): Value
  {
    var key := if Truthy(scan.paramId) then scan.paramId
               else if Truthy(paths.lastKey) then paths.lastKey
               else Str("id");
    if Truthy(Get(scan.paramMap, ToKey(key))) then Get(scan.paramMap, ToKey(key)) else key
  }

  /** The id: the parameter's value as a string when truthy, the falsy value itself otherwise. */
  function IdOf(raw: Value): Value
  {
    if Truthy(raw) then Str(ToKey(raw)) else raw
  }

  function EventOf(id: Value): string
  {
    if Truthy(id) then "change:" + ToKey(id) else "change"
  }

  function Finish(scan: Scan, paths: Paths, hostname: string): Descriptor
  {
    var id := IdOf(Get(scan.params, ToKey(IdKey(scan, paths))));
    Descriptor(scan.actions, EventOf(id), scan.partial, id, scan.params, Reverse(scan.fragments),
      hostname + paths.path, scan.payload, scan.store, scan.storeType)
  }

  /**
   * The entries the loops visit: `stack || []` read by index up to its
   * `length`; a string yields its characters, any other non-array none.
   */
  function Entries(stack: Value): seq<Value>
  {
    match stack
    case Arr(items) => items
    case Str(s) => Utils.CharValues(s)
    case _ => []
  }

  /** What the reducer returns for `stack`, or the TypeError it throws. */
  function Reduce(stack: Value, hostname: string): Result<Descriptor>
  {
    var ops := Entries(stack);
    match ScanAll(ops)
    case Err(e) => Err(e)
    case Ok(scan) =>
      match PathAll(ops, scan.params, scan.paramMap)
      case Err(e) => Err(e)
      case Ok(paths) => Ok(Finish(scan, paths, hostname))
  }

  lemma {:induction false} ScanErrSticky(ops: seq<Value>, n: nat)
    requires n <= |ops| && ScanAll(ops[..n]).Err?
    ensures ScanAll(ops) == ScanAll(ops[..n])
    decreases |ops| - n
  {
    if n < |ops| {
      assert ops[..n + 1][..n] == ops[..n];
      ScanErrSticky(ops, n + 1);
    } else {
      assert ops[..n] == ops;
    }
  }

  lemma {:induction false} PathErrSticky(ops: seq<Value>, n: nat, params: Fields, paramMap: Fields)
    requires n <= |ops| && PathAll(ops[..n], params, paramMap).Err?
    ensures PathAll(ops, params, paramMap) == PathAll(ops[..n], params, paramMap)
    decreases |ops| - n
  {
    if n < |ops| {
      assert ops[..n + 1][..n] == ops[..n];
      PathErrSticky(ops, n + 1, params, paramMap);
    } else {
      assert ops[..n] == ops;
    }
  }

  /** The first pass, with its loop. */
  method ScanLoop(ops: seq<Value>) returns (r: Result<Scan>)
    ensures r == ScanAll(ops)
  {
    var acc := InitialScan();
    var i := 0;
    while i < |ops|
      invariant 0 <= i <= |ops|
      invariant ScanAll(ops[..i]) == Ok(acc)
    {
      assert ops[..i + 1][..i] == ops[..i];
      var next := ScanStep(acc, ops[i]);
      if next.Err? {
        ScanErrSticky(ops, i + 1);
        return next;
      }
      acc := next.value;
      i := i + 1;
    }
    assert ops[..i] == ops;
    return Ok(acc);
  }

  /** The second pass, with its loop. */
  method PathLoop(ops: seq<Value>, params: Fields, paramMap: Fields) returns (r: Result<Paths>)
    ensures r == PathAll(ops, params, paramMap)
  {
    var acc := Paths("", Null);
    var i := 0;
    while i < |ops|
      invariant 0 <= i <= |ops|
      invariant PathAll(ops[..i], params, paramMap) == Ok(acc)
    {
      assert ops[..i + 1][..i] == ops[..i];
      var def := Prop(ops[i], "__definition");
      if Truthy(def) && Truthy(Prop(def, "uri")) {
        var f := FillUri(Prop(def, "uri"), params, paramMap);
        if f.Err? {
          PathErrSticky(ops, i + 1, params, paramMap);
          return Err(f.failure);
        }
        acc := Paths(acc.path + f.value.uri, f.value.lastParamKey);
      }
      i := i + 1;
    }
    assert ops[..i] == ops;
    return Ok(acc);
  }

  /** The reducer: both passes, then the id, the event and the path. */
  method ReduceStack(stack: Value, hostname: string) returns (r: Result<Descriptor>)
    ensures r == Reduce(stack, hostname)
  {
    var ops := Entries(stack);
    var scan := ScanLoop(ops);
    if scan.Err? {
      return Err(scan.failure);
    }
    var paths := PathLoop(ops, scan.value.params, scan.value.paramMap);
    if paths.Err? {
      return Err(paths.failure);
    }
    return Ok(Finish(scan.value, paths.value, hostname));
  }
}

=== FILE: stack_reducer_props.dfy ===
/**
 * Properties of the stack reducer: what each descriptor field is in terms
 * of the stack entries, read from the back of the stack, and when the
 * reducer throws.
 */
module StackReducerProperties {
  import opened Values
  import Utils
  import Actions
  import opened StackReducer

  /* ----- the empty stack ----- */

  /** The descriptor of an absent or empty stack: the defaults, no id, and the bare host name as path. */
  lemma ReduceEmpty(stack: Value, hostname: string)
    requires !Truthy(stack) || stack == Arr([])
    ensures Reduce(stack, hostname) == Ok(Descriptor(Actions.DefaultActions(), "change", Null, Undefined, [], [], hostname, [], Null, Null))
  {
    Actions.DefaultActionsTable();
    ExtendEmpty(Actions.DefaultActions());
    if stack.Str? {
      assert stack.s == [];
    }
    assert Entries(stack) == [];
    var scan := InitialScan();
    assert ScanAll([]) == Ok(scan);
    assert PathAll([], scan.params, scan.paramMap) == Ok(Paths("", Null));
    assert IdKey(scan, Paths("", Null)) == Str("id");
    assert hostname + "" == hostname;
  }

  /* ----- one entry at a time ----- */

  /** The first pass over a non-empty stack is the pass over all but the last entry, then one step. */
  lemma ScanSnoc(ops: seq<Value>)
    requires ops != [] && ScanAll(ops).Ok?
    ensures ScanAll(ops[..|ops| - 1]).Ok?
    ensures ScanAll(ops) == ScanStep(ScanAll(ops[..|ops| - 1]).value, ops[|ops| - 1])
  {
  }

  /** Only parameter entries change the parameters, and only payload entries the payload. */
  lemma StepMerges(acc: Scan, op: Value)
    requires ScanStep(acc, op).Ok?
    ensures ScanStep(acc, op).value.params == if IsParams(op) then MergeValue(acc.params, Prop(op, "__params")) else acc.params
    ensures ScanStep(acc, op).value.payload == if IsPayload(op) then Extend(acc.payload, op.fields) else acc.payload
  {
  }

  /** What a definition entry does to the store, the type, the partial and the pending `paramId`. */
  lemma StepDefinition(acc: Scan, op: Value)
    requires ScanStep(acc, op).Ok?
    ensures var a := ScanStep(acc, op).value;
      a.store == (if IsStoreEntry(op) then Prop(op, "__reference") else acc.store) &&
      a.storeType == (if IsStoreEntry(op) && Truthy(Def(op, "type")) then Def(op, "type") else acc.storeType) &&
      a.partial == (if IsDatasetEntry(op) && Truthy(Def(op, "partial")) then Def(op, "partial") else acc.partial) &&
      a.paramId == (if !IsDefinition(op) then acc.paramId else if Truthy(Def(op, "paramId")) then Def(op, "paramId") else Undefined) &&
      a.fragments == (if IsDatasetEntry(op) && Truthy(Def(op, "fragments")) then ConcatUnique(acc.fragments, Def(op, "fragments")) else acc.fragments)
  {
    if IsDefinition(op) {
      var def := Prop(op, "__definition");
      var t := ScanTyped(acc, op, def);
      var pid := Prop(def, "paramId");
      var b := t.(paramId := if Truthy(pid) then pid else Undefined);
      assert ScanStep(acc, op) == ScanActions(b, def);
      ActionsOnly(b, def);
    }
  }

  /** The action options change the action table and nothing else. */
  lemma ActionsOnly(acc: Scan, def: Value)
    ensures ScanActions(acc, def).Ok? ==> ScanActions(acc, def).value == acc.(actions := ScanActions(acc, def).value.actions)
  {
  }

  /** What a definition entry does to the action table. */
  lemma StepActions(acc: Scan, op: Value)
    requires ScanStep(acc, op).Ok?
    ensures IsDefinition(op) && Truthy(Def(op, "onlyActions")) ==> Def(op, "onlyActions").Obj?
    ensures IsDefinition(op) && Truthy(Def(op, "actions")) ==> Def(op, "actions").Obj?
    ensures var base := if IsDefinition(op) && Truthy(Def(op, "onlyActions")) then Extend([], FieldsOf(Def(op, "onlyActions"))) else acc.actions;
      ScanStep(acc, op).value.actions == if IsDefinition(op) && Truthy(Def(op, "actions")) then Extend(base, FieldsOf(Def(op, "actions"))) else base
  {
  }

  /* ----- parameters and payload ----- */

  /** The `__params` objects of the parameter entries, in stack order. */
  function ParamSources(ops: seq<Value>): seq<Value>
    decreases |ops|
  {
    if ops == [] then []
    else
      var op := ops[|ops| - 1];
      ParamSources(ops[..|ops| - 1]) + if IsParams(op) then [Prop(op, "__params")] else []
  }

  /** The plain objects that are neither definition nor parameter entries, in stack order. */
  function PayloadSources(ops: seq<Value>): seq<Value>
    decreases |ops|
  {
    if ops == [] then []
    else
      var op := ops[|ops| - 1];
      PayloadSources(ops[..|ops| - 1]) + if IsPayload(op) then [op] else []
  }

  /**
   * The parameters and the payload are right-biased merges: each key has the
   * value of the last parameter entry (payload entry) that sets it, and is
   * absent when none does. Entries of the other kinds never touch them.
   */
  lemma {:induction false} ScanMerges(ops: seq<Value>, k: string)
    requires ScanAll(ops).Ok?
    requires Utils.PlainSources(ParamSources(ops)) && Utils.PlainSources(PayloadSources(ops))
    ensures Get(ScanAll(ops).value.params, k) == Utils.LastValue(ParamSources(ops), k, Undefined)
    ensures Get(ScanAll(ops).value.payload, k) == Utils.LastValue(PayloadSources(ops), k, Undefined)
    decreases |ops|
  {
    if ops != [] {
      var p := ops[..|ops| - 1];
      var op := ops[|ops| - 1];
      ScanSnoc(ops);
      var a := ScanAll(p).value;
      StepMerges(a, op);
      assert ParamSources(ops) == ParamSources(p) + if IsParams(op) then [Prop(op, "__params")] else [];
      assert PayloadSources(ops) == PayloadSources(p) + if IsPayload(op) then [op] else [];
      assert Utils.PlainSources(ParamSources(p)) && Utils.PlainSources(PayloadSources(p)) by {
        assert forall i :: 0 <= i < |ParamSources(p)| ==> ParamSources(p)[i] == ParamSources(ops)[i];
        assert forall i :: 0 <= i < |PayloadSources(p)| ==> PayloadSources(p)[i] == PayloadSources(ops)[i];
      }
      ScanMerges(p, k);
      var ps, ys := ParamSources(ops), PayloadSources(ops);
      if IsParams(op) {
        assert Prop(op, "__params") == ps[|ps| - 1];
        assert ps[|ps| - 1].Obj?;
        var f := Prop(op, "__params").fields;
        assert ps[..|ps| - 1] == ParamSources(p);
        assert ScanAll(ops).value.params == Extend(a.params, f);
        GetExtend(a.params, f, k);
        assert Utils.LastValue(ps, k, Undefined) == if HasKey(f, k) then Get(f, k) else Utils.LastValue(ParamSources(p), k, Undefined);
      } else {
        assert ps == ParamSources(p);
      }
      if IsPayload(op) {
        assert op == ys[|ys| - 1];
        assert ys[..|ys| - 1] == PayloadSources(p);
        assert ScanAll(ops).value.payload == Extend(a.payload, op.fields);
        GetExtend(a.payload, op.fields, k);
        assert Utils.LastValue(ys, k, Undefined) == if HasKey(op.fields, k) then Get(op.fields, k) else Utils.LastValue(PayloadSources(p), k, Undefined);
      } else {
        assert ys == PayloadSources(p);
      }
    }
  }

  /* ----- store, type, partial and paramId: the last definition that sets them ----- */

  /** The descriptor fields a definition entry sets when it carries them. */
  datatype Setting = StoreRef | StoreType | Partial | ParamId

  /** Whether an entry sets the field. */
  predicate Sets(field: Setting, op: Value)
  {
    match field
    case StoreRef => IsStoreEntry(op)
    case StoreType => IsStoreEntry(op) && Truthy(Def(op, "type"))
    case Partial => IsDatasetEntry(op) && Truthy(Def(op, "partial"))
    case ParamId => IsDefinition(op)
  }

  /** The value an entry sets the field to. */
  function SetTo(field: Setting, op: Value): Value
  {
    match field
    case StoreRef => Prop(op, "__reference")
    case StoreType => Def(op, "type")
    case Partial => Def(op, "partial")
    case ParamId => if Truthy(Def(op, "paramId")) then Def(op, "paramId") else Undefined
  }

  /** The field as the last entry that sets it sets it, or null when none does. */
  function LastSet(ops: seq<Value>, field: Setting): Value
    decreases |ops|
  {
    if ops == [] then Null
    else if Sets(field, ops[|ops| - 1]) then SetTo(field, ops[|ops| - 1])
    else LastSet(ops[..|ops| - 1], field)
  }

  predicate IsStoreEntry(op: Value) { IsDefinition(op) && IsType(op, "store") }

  predicate IsDatasetEntry(op: Value) { IsDefinition(op) && IsType(op, "dataset") }

  function Def(op: Value, k: string): Value { Prop(Prop(op, "__definition"), k) }

  /** The last entry that sets a field decides it. */
  lemma {:induction false} LastSetAt(ops: seq<Value>, field: Setting, d: nat)
    requires d < |ops| && Sets(field, ops[d])
    requires forall i :: d < i < |ops| ==> !Sets(field, ops[i])
    ensures LastSet(ops, field) == SetTo(field, ops[d])
    decreases |ops|
  {
    if d < |ops| - 1 {
      var p := ops[..|ops| - 1];
      assert p[d] == ops[d];
      assert forall i :: d < i < |p| ==> p[i] == ops[i];
      LastSetAt(p, field, d);
    }
  }

  /**
   * The store is the reference of the last store entry; the type is the
   * `type` of the last store entry that has a truthy one; the partial is
   * the `partial` of the last dataset entry that has a truthy one; each is
   * null when no entry qualifies. The pending `paramId` is the last
   * definition's own `paramId` when truthy and undefined otherwise, so a
   * later definition without one clears it; it is null with no definitions.
   */
  lemma {:induction false} ScanLastDefinition(ops: seq<Value>)
    requires ScanAll(ops).Ok?
    ensures ScanAll(ops).value.store == LastSet(ops, StoreRef)
    ensures ScanAll(ops).value.storeType == LastSet(ops, StoreType)
    ensures ScanAll(ops).value.partial == LastSet(ops, Partial)
    ensures ScanAll(ops).value.paramId == LastSet(ops, ParamId)
    decreases |ops|
  {
    if ops != [] {
      ScanSnoc(ops);
      StepDefinition(ScanAll(ops[..|ops| - 1]).value, ops[|ops| - 1]);
      ScanLastDefinition(ops[..|ops| - 1]);
    }
  }

  /* ----- actions ----- */

  /**
   * The action bound to `k`, searched from the back: the last definition
   * whose `actions` has `k` wins; a definition with `onlyActions` ends the
   * search there (its own entry for `k`, or none); without either, the
   * default table decides.
   */
  function ActionFor(ops: seq<Value>, k: string): Value
    decreases |ops|
  {
    if ops == [] then Get(Actions.DefaultActions(), k)
    else
      var op := ops[|ops| - 1];
      if IsDefinition(op) && Truthy(Def(op, "actions")) && HasKey(FieldsOf(Def(op, "actions")), k) then Get(FieldsOf(Def(op, "actions")), k)
      else if IsDefinition(op) && Truthy(Def(op, "onlyActions")) then Get(FieldsOf(Def(op, "onlyActions")), k)
      else ActionFor(ops[..|ops| - 1], k)
  }

  /** Every truthy `actions` and `onlyActions` option is an object with distinct keys. */
  predicate ActionOptionsUnique(ops: seq<Value>)
  {
    forall i :: 0 <= i < |ops| && IsDefinition(ops[i]) ==>
      UniqueKeys(FieldsOf(Def(ops[i], "actions"))) && UniqueKeys(FieldsOf(Def(ops[i], "onlyActions")))
  }

  /** The reduced action table binds each name as `ActionFor` reads it from the stack. */
  lemma {:induction false} ScanActionsFor(ops: seq<Value>, k: string)
    requires ScanAll(ops).Ok? && ActionOptionsUnique(ops)
    ensures Get(ScanAll(ops).value.actions, k) == ActionFor(ops, k)
    decreases |ops|
  {
    if ops == [] {
      Actions.DefaultActionsTable();
      ExtendEmpty(Actions.DefaultActions());
    } else {
      var p := ops[..|ops| - 1];
      var op := ops[|ops| - 1];
      ScanActionsFor(p, k);
      if IsDefinition(op) {
        var def := Prop(op, "__definition");
        var only := Prop(def, "onlyActions");
        var acts := Prop(def, "actions");
        var a := ScanTyped(ScanAll(p).value, op, def);
        var b := if Truthy(only) then a.(actions := Extend([], only.fields)) else a;
        assert a.actions == ScanAll(p).value.actions;
        if Truthy(only) {
          GetExtend([], only.fields, k);
        }
        if Truthy(acts) {
          GetExtend(b.actions, acts.fields, k);
        }
      }
    }
  }

  /** Without `onlyActions` anywhere, the default actions keep their place at the head of the table. */
  lemma {:induction false} ScanKeepsDefaultOrder(ops: seq<Value>)
    requires ScanAll(ops).Ok?
    requires forall i :: 0 <= i < |ops| ==> !(IsDefinition(ops[i]) && Truthy(Def(ops[i], "onlyActions")))
    ensures |Keys(Actions.DefaultActions())| <= |Keys(ScanAll(ops).value.actions)|
    ensures Keys(ScanAll(ops).value.actions)[..|Keys(Actions.DefaultActions())|] == Keys(Actions.DefaultActions())
    decreases |ops|
  {
    if ops == [] {
      Actions.DefaultActionsTable();
      ExtendEmpty(Actions.DefaultActions());
    } else {
      var p := ops[..|ops| - 1];
      assert forall i :: 0 <= i < |p| ==> p[i] == ops[i];
      ScanKeepsDefaultOrder(p);
      StepKeepsActionOrder(ScanAll(p).value, ops[|ops| - 1], |Keys(Actions.DefaultActions())|);
    }
  }

  /** One entry without `onlyActions` keeps the first `n` action names where they are. */
  lemma StepKeepsActionOrder(a: Scan, op: Value, n: nat)
    requires ScanStep(a, op).Ok? && !(IsDefinition(op) && Truthy(Def(op, "onlyActions")))
    requires n <= |Keys(a.actions)|
    ensures n <= |Keys(ScanStep(a, op).value.actions)|
    ensures Keys(ScanStep(a, op).value.actions)[..n] == Keys(a.actions)[..n]
  {
    if IsDefinition(op) && Truthy(Def(op, "actions")) {
      var acts := Def(op, "actions").fields;
      KeysExtend(a.actions, acts);
      var k := Keys(Extend(a.actions, acts));
      assert k[..n] == k[..|Keys(a.actions)|][..n];
    }
  }

  /** A truthy action option that is not a plain object makes the reducer throw, naming its type. */
  lemma ActionOptionRejected(acc: Scan, op: Value)
    requires IsDefinition(op)
    ensures Truthy(Def(op, "onlyActions")) && !IsPlainObject(Def(op, "onlyActions")) ==>
      ScanStep(acc, op) == Err(NotAnObject("onlyActions", Def(op, "onlyActions")))
    ensures !(Truthy(Def(op, "onlyActions")) && !IsPlainObject(Def(op, "onlyActions"))) && Truthy(Def(op, "actions")) && !IsPlainObject(Def(op, "actions")) ==>
      ScanStep(acc, op) == Err(NotAnObject("actions", Def(op, "actions")))
    ensures ScanStep(acc, op).Err? <==>
      (Truthy(Def(op, "onlyActions")) && !IsPlainObject(Def(op, "onlyActions"))) || (Truthy(Def(op, "actions")) && !IsPlainObject(Def(op, "actions")))
  {
  }

  /** Only a null or undefined entry or a bad action option makes the first pass throw. */
  lemma {:induction false} ScanFails(ops: seq<Value>)
    ensures ScanAll(ops).Err? <==> exists i :: 0 <= i < |ops| && StepFails(ops[i])
    decreases |ops|
  {
    if ops != [] {
      var p := ops[..|ops| - 1];
      ScanFails(p);
      if ScanAll(p).Ok? && IsDefinition(ops[|ops| - 1]) {
        ActionOptionRejected(ScanAll(p).value, ops[|ops| - 1]);
      }
      if exists i :: 0 <= i < |p| && StepFails(p[i]) {
        var i :| 0 <= i < |p| && StepFails(p[i]);
        assert ops[i] == p[i];
      }
      if exists i :: 0 <= i < |ops| && StepFails(ops[i]) {
        var i :| 0 <= i < |ops| && StepFails(ops[i]);
        if i < |p| {
          assert p[i] == ops[i];
        }
      }
    }
  }

  /** The entries that make the first pass throw. */
  predicate StepFails(op: Value)
  {
    op.Undefined? || op.Null? ||
    (IsDefinition(op) &&
      ((Truthy(Def(op, "onlyActions")) && !IsPlainObject(Def(op, "onlyActions"))) ||
       (Truthy(Def(op, "actions")) && !IsPlainObject(Def(op, "actions")))))
  }

  /* ----- fragments ----- */

  /** No two fragment names are strictly equal. */
  predicate Distinct(list: seq<Value>)
  {
    forall i, j :: 0 <= i < j < |list| ==> !StrictEquals(list[i], list[j])
  }

  lemma StrictEqualsTransitive(a: Value, b: Value, c: Value)
    requires StrictEquals(a, b) && StrictEquals(b, c)
    ensures StrictEquals(a, c)
  {
  }

  /**
   * `concatUnique` keeps the list as its prefix, adds only given items, keeps
   * the names distinct, and afterwards contains exactly what the list or the
   * items contained.
   */
  lemma {:induction false} AppendNewProps(list: seq<Value>, items: seq<Value>, x: Value)
    requires Distinct(list)
    ensures |list| <= |AppendNew(list, items)| && AppendNew(list, items)[..|list|] == list
    ensures forall v :: v in AppendNew(list, items) ==> v in list || v in items
    ensures Distinct(AppendNew(list, items))
    ensures Contains(AppendNew(list, items), x) <==> Contains(list, x) || Contains(items, x)
    decreases |items|
  {
    if items != [] {
      var p := items[..|items| - 1];
      var y := items[|items| - 1];
      AppendNewProps(list, p, x);
      AppendNewProps(list, p, y);
      var l := AppendNew(list, p);
      assert items == p + [y];
      ContainsConcat(p, [y], x);
      ContainsOne(y, x);
      if Contains(l, y) {
        if StrictEquals(y, x) {
          var i :| 0 <= i < |l| && StrictEquals(l[i], y);
          StrictEqualsTransitive(l[i], y, x);
        }
      } else {
        var r := l + [y];
        assert r[..|list|] == list by {
          assert r[..|list|] == l[..|list|];
        }
        ContainsConcat(l, [y], x);
        DistinctSnoc(l, y);
      }
    }
  }

  lemma ContainsOne(y: Value, x: Value)
    ensures Contains([y], x) <==> StrictEquals(y, x)
  {
    assert [y][0] == y;
  }

  /** A name the list does not contain keeps it distinct when appended. */
  lemma DistinctSnoc(l: seq<Value>, y: Value)
    requires Distinct(l) && !Contains(l, y)
    ensures Distinct(l + [y])
  {
    var r := l + [y];
    forall i, j | 0 <= i < j < |r|
      ensures !StrictEquals(r[i], r[j])
    {
      if j < |l| {
        assert r[i] == l[i] && r[j] == l[j];
      } else {
        assert r[i] == l[i] && r[j] == y;
      }
    }
  }

  lemma ContainsConcat(a: seq<Value>, b: seq<Value>, x: Value)
    ensures Contains(a + b, x) <==> Contains(a, x) || Contains(b, x)
  {
    var s := a + b;
    if Contains(s, x) {
      var i :| 0 <= i < |s| && StrictEquals(s[i], x);
      if i < |a| {
        assert s[i] == a[i];
      } else {
        assert s[i] == b[i - |a|];
      }
    }
    if Contains(a, x) {
      var i :| 0 <= i < |a| && StrictEquals(a[i], x);
      assert s[i] == a[i];
    }
    if Contains(b, x) {
      var i :| 0 <= i < |b| && StrictEquals(b[i], x);
      assert s[|a| + i] == b[i];
    }
  }

  /** The fragments of the dataset entries, in stack order, each list as `concatUnique` reads it. */
  function FragmentSources(ops: seq<Value>): seq<Value>
    decreases |ops|
  {
    if ops == [] then []
    else
      var op := ops[|ops| - 1];
      var fs := Def(op, "fragments");
      FragmentSources(ops[..|ops| - 1]) +
        if IsDatasetEntry(op) && Truthy(fs) then (if fs.Arr? then fs.items else [fs]) else []
  }

  /**
   * The collected fragments are distinct, contain exactly the names the
   * dataset entries list (store entries' fragments are ignored), and keep
   * the order of first appearance; the descriptor returns them reversed.
   */
  lemma {:induction false} ScanFragments(ops: seq<Value>, x: Value)
    requires ScanAll(ops).Ok?
    ensures Distinct(ScanAll(ops).value.fragments)
    ensures Contains(ScanAll(ops).value.fragments, x) <==> Contains(FragmentSources(ops), x)
    ensures forall v :: v in ScanAll(ops).value.fragments ==> v in FragmentSources(ops)
    decreases |ops|
  {
    if ops != [] {
      var p := ops[..|ops| - 1];
      var op := ops[|ops| - 1];
      ScanSnoc(ops);
      var a := ScanAll(p).value;
      StepDefinition(a, op);
      ScanFragments(p, x);
      var fs := Def(op, "fragments");
      if IsDatasetEntry(op) && Truthy(fs) {
        var items := if fs.Arr? then fs.items else [fs];
        AppendNewProps(a.fragments, items, x);
        assert FragmentSources(ops) == FragmentSources(p) + items;
        ContainsConcat(FragmentSources(p), items, x);
        assert forall v :: v in FragmentSources(ops) <==> v in FragmentSources(p) || v in items;
      } else {
        assert FragmentSources(ops) == FragmentSources(p);
      }
    }
  }

  /** Two dataset entries listing `["foo", "bar"]` then `["baz"]` give `["baz", "bar", "foo"]`. */
  lemma FragmentsExample()
    ensures Reverse(ConcatUnique(ConcatUnique([], Arr([Str("foo"), Str("bar")])), Arr([Str("baz")]))) == [Str("baz"), Str("bar"), Str("foo")]
    ensures Reverse(ConcatUnique(ConcatUnique([], Arr([Str("foo"), Str("bar")])), Arr([Str("bar")]))) == [Str("bar"), Str("foo")]
  {
    FooBar();
    FooBarBaz();
    FooBarBar();
  }

  lemma FooBar()
    ensures ConcatUnique([], Arr([Str("foo"), Str("bar")])) == [Str("foo"), Str("bar")]
  {
    assert AppendNew([], [Str("foo")]) == [Str("foo")];
    assert [Str("foo"), Str("bar")][..1] == [Str("foo")];
    assert !Contains([Str("foo")], Str("bar")) by {
      assert "foo"[0] != "bar"[0];
    }
  }

  lemma FooBarBaz()
    ensures ConcatUnique([Str("foo"), Str("bar")], Arr([Str("baz")])) == [Str("foo"), Str("bar"), Str("baz")]
  {
    var l := [Str("foo"), Str("bar")];
    assert [Str("baz")][..0] == [];
    assert !Contains(l, Str("baz")) by {
      assert "foo"[0] != "baz"[0];
      assert "bar"[2] != "baz"[2];
    }
  }

  lemma FooBarBar()
    ensures ConcatUnique([Str("foo"), Str("bar")], Arr([Str("bar")])) == [Str("foo"), Str("bar")]
  {
    var l := [Str("foo"), Str("bar")];
    assert [Str("bar")][..0] == [];
    assert Contains(l, Str("bar")) by {
      assert StrictEquals(l[1], Str("bar"));
    }
  }

  /* ----- fillURI ----- */

  /** Whether the parameter a template token stands for has a truthy value. */
  predicate Mapped(token: string, params: Fields, paramMap: Fields)
    requires |token| >= 1
  {
    Truthy(Get(params, ToKey(Alias(token[1..], paramMap))))
  }

  /**
   * Filling succeeds exactly when every token's parameter (after aliasing)
   * is truthy; the last key is then the alias of the last token, or the
   * initial one when there are no tokens.
   */
  lemma {:induction false} FillTokensOk(acc: Filled, tokens: seq<string>, params: Fields, paramMap: Fields)
    requires AllTokens(tokens)
    ensures FillTokens(acc, tokens, params, paramMap).Ok? <==> forall i :: 0 <= i < |tokens| ==> Mapped(tokens[i], params, paramMap)
    ensures FillTokens(acc, tokens, params, paramMap).Ok? ==>
      FillTokens(acc, tokens, params, paramMap).value.lastParamKey ==
        if tokens == [] then acc.lastParamKey else Alias(tokens[|tokens| - 1][1..], paramMap)
    decreases |tokens|
  {
    if tokens != [] {
      var p := tokens[..|tokens| - 1];
      FillTokensOk(acc, p, params, paramMap);
      assert forall i :: 0 <= i < |p| ==> p[i] == tokens[i];
    }
  }

  /**
   * When filling fails, the TypeError names the (aliased) key of the first
   * token whose parameter is falsy, and the template as filled up to it.
   */
  lemma FillTokensFirstMissing(acc: Filled, tokens: seq<string>, params: Fields, paramMap: Fields, i: nat)
    requires AllTokens(tokens) && i < |tokens|
    requires !Mapped(tokens[i], params, paramMap)
    requires forall j :: 0 <= j < i ==> Mapped(tokens[j], params, paramMap)
    ensures FillTokens(acc, tokens[..i], params, paramMap).Ok?
    ensures FillTokens(acc, tokens, params, paramMap) ==
      Err(MissingComponent(Alias(tokens[i][1..], paramMap), FillTokens(acc, tokens[..i], params, paramMap).value.uri))
  {
    FillTokensOk(acc, tokens[..i], params, paramMap);
    assert tokens[..i + 1][..i] == tokens[..i];
    FillTokensErrSticky(acc, tokens, i + 1, params, paramMap);
  }

  /** A template without a colon is its own path and leaves the last key null. */
  lemma NoTokensUnchanged(s: string, params: Fields, paramMap: Fields)
    requires ':' !in s
    ensures FillURI(Str(s), params, paramMap) == Ok(Filled(s, Null))
  {
    NoColonNoTokens(s, 0);
  }

  lemma {:induction false} NoColonNoTokens(s: string, i: nat)
    requires i <= |s| && ':' !in s
    ensures TokensFrom(s, i) == []
    decreases |s| - i
  {
    if i + 1 < |s| {
      assert s[i] in s;
      NoColonNoTokens(s, i + 1);
    }
  }

  /* ----- the replacement template ----- */

  /** A value without `$` is inserted as it is. */
  lemma {:induction false} SubstituteLiteral(rep: string, matched: string, before: string, after: string)
    requires '$' !in rep
    ensures Substitute(rep, matched, before, after) == rep
    decreases |rep|
  {
    if rep != [] {
      assert rep[0] in rep;
      assert forall c :: c in rep[1..] ==> c in rep;
      SubstituteLiteral(rep[1..], matched, before, after);
      assert [rep[0]] + rep[1..] == rep;
    }
  }

  /** With a value without `$`, the first occurrence of the pattern is replaced by the value itself. */
  lemma ReplaceFirstLiteral(s: string, pat: string, rep: string)
    requires '$' !in rep
    ensures var i := FindFrom(s, pat, 0);
      ReplaceFirst(s, pat, rep) == if i < 0 then s else s[..i] + rep + s[i + |pat|..]
  {
    var i := FindFrom(s, pat, 0);
    if i >= 0 {
      SubstituteLiteral(rep, pat, s[..i], s[i + |pat|..]);
    }
  }

  /** `t.replace(/\$/g, "$$$$")`: every `$` doubled. */
  function Escape(t: string): (r: string)
    ensures |r| >= |t|
  {
    if t == [] then []
    else (if t[0] == '$' then "$$" else [t[0]]) + Escape(t[1..])
  }

  /** A value whose every `$` is doubled is inserted as the original text, whatever the match. */
  lemma {:induction false} SubstituteEscaped(t: string, matched: string, before: string, after: string)
    ensures Substitute(Escape(t), matched, before, after) == t
    decreases |t|
  {
    if t != [] {
      var e := Escape(t[1..]);
      SubstituteEscaped(t[1..], matched, before, after);
      if t[0] == '$' {
        assert Escape(t) == "$$" + e;
        assert ("$$" + e)[2..] == e;
      } else {
        assert Escape(t) == [t[0]] + e;
        assert ([t[0]] + e)[1..] == e;
      }
      assert [t[0]] + t[1..] == t;
    }
  }

  /** `fillURI("/u/:id", {id: "a$&b"})` is `"/u/a:idb"`: `$&` stands for the token it replaces. */
  lemma MatchedPatternInserted()
    ensures FillURI(Str("/u/:id"), [("id", Str("a$&b"))], []) == Ok(Filled("/u/a:idb", Str("id")))
  {
    var s := "/u/:id";
    assert WordEnd(s, 6) == 6;
    assert WordEnd(s, 4) == 6;
    assert TokensFrom(s, 6) == [];
    assert s[3..6] == ":id";
    assert TokensFrom(s, 3) == [":id"];
    assert TokensFrom(s, 0) == [":id"];
    assert [":id"][..0] == [];
    assert ":id"[1..] == "id";
    assert Alias("id", []) == Str("id");
    assert OccursAt(s, ":id", 3);
    assert FindFrom(s, ":id", 0) == 3;
    assert Substitute("a$&b", ":id", "/u/", "") == "a:idb" by {
      assert "a$&b"[1..] == "$&b";
      assert "$&b"[2..] == "b";
      assert Substitute("b", ":id", "/u/", "") == "b";
    }
    assert s[..3] == "/u/" && s[6..] == "";
    assert ReplaceFirst(s, ":id", "a$&b") == "/u/a:idb";
    var params := [("id", Str("a$&b"))];
    assert Get(params, "id") == Str("a$&b");
    var acc := Filled(s, Null);
    assert FillStep(acc, ":id", params, []) == Ok(Filled("/u/a:idb", Str("id")));
    assert FillTokens(acc, [], params, []) == Ok(acc);
  }

  /* ----- id and event ----- */

  /**
   * The id is the parameter under the chosen key, as a string when truthy
   * (and then the event is `change:<id>`), or that falsy value itself (and
   * the event is plain `change`).
   */
  lemma IdAndEvent(stack: Value, hostname: string)
    requires Reduce(stack, hostname).Ok?
    ensures var d := Reduce(stack, hostname).value;
      (Truthy(d.id) ==> d.id.Str? && d.event == "change:" + d.id.s) &&
      (!Truthy(d.id) ==> d.event == "change") &&
      |hostname| <= |d.path| && d.path[..|hostname|] == hostname
  {
  }

  /**
   * A definition without a `paramId` after one with a `paramId` clears it:
   * with no URI templates, the id is then read from the `id` parameter (or
   * its alias), never from the earlier `paramId`.
   */
  lemma ParamIdCleared(ops: seq<Value>, d: nat)
    requires ScanAll(ops).Ok? && d < |ops|
    requires IsDefinition(ops[d]) && !Truthy(Def(ops[d], "paramId"))
    requires forall i :: d < i < |ops| ==> !IsDefinition(ops[i])
    requires forall i :: 0 <= i < |ops| ==> !Truthy(Def(ops[i], "uri"))
    ensures PathAll(ops, ScanAll(ops).value.params, ScanAll(ops).value.paramMap) == Ok(Paths("", Null))
    ensures IdKey(ScanAll(ops).value, Paths("", Null)) == Alias("id", ScanAll(ops).value.paramMap)
  {
    ScanLastDefinition(ops);
    LastSetAt(ops, ParamId, d);
    var scan := ScanAll(ops).value;
    NoUriPaths(ops, scan.params, scan.paramMap);
    assert scan.paramId == Undefined;
    IdKeyDefault(scan);
  }

  /** Both passes succeeding, the reducer returns their combination. */
  lemma ReduceArray(ops: seq<Value>, hostname: string)
    requires ScanAll(ops).Ok?
    requires PathAll(ops, ScanAll(ops).value.params, ScanAll(ops).value.paramMap).Ok?
    ensures Reduce(Arr(ops), hostname) ==
      Ok(Finish(ScanAll(ops).value, PathAll(ops, ScanAll(ops).value.params, ScanAll(ops).value.paramMap).value, hostname))
  {
  }

  /** Without a pending `paramId` or a URI key, the id is read from `id` or its alias. */
  lemma IdKeyDefault(scan: Scan)
    requires !Truthy(scan.paramId)
    ensures IdKey(scan, Paths("", Null)) == Alias("id", scan.paramMap)
  {
    assert ToKey(Str("id")) == "id";
  }

  lemma {:induction false} NoUriPaths(ops: seq<Value>, params: Fields, paramMap: Fields)
    requires forall i :: 0 <= i < |ops| ==> !Truthy(Def(ops[i], "uri"))
    ensures PathAll(ops, params, paramMap) == Ok(Paths("", Null))
    decreases |ops|
  {
    if ops != [] {
      NoUriPaths(ops[..|ops| - 1], params, paramMap);
      assert !Truthy(Def(ops[|ops| - 1], "uri"));
    }
  }
}

=== FILE: store.dfy ===
/**
 * Stores and their registry, `StoreSet`, as `lib/createStore.js` and
 * `resetStores` of `lib/index.js` keep them.
 *
 * The registry maps a collection type to the store registered for it. A
 * store is an instance with an address (the `Ref` value that stands for it),
 * a definition, a cache (the state of its `FragmentMap`) and the log of the
 * events it has triggered. Stores and datasets draw their addresses from
 * one counter, the next free address.
 */
module StoreRegistry {
  import opened Values
  import opened Constants
  import FM = FragmentMap
  import DS = Dataset
  import SR = StackReducer

  /* ----- validateDefinition ----- */

  /** The options a store definition may have. */
  const DefinitionKeys: seq<string> := ["type", "actions", "onlyActions"]

  function OptionType(option: string, expected: string, v: Value): Failure
  {
    TypeError("createStore: Option `" + option + "` can only be of type " + expected + " but found type `" + TypeOf(v) + "`.")
  }

  /** `validateDefinition(definition)`: nothing when it passes, or the TypeError it throws. */
  function ValidateDefinition(def: Value): (r: Option<Failure>)
    ensures r.None? ==> def.Obj?
  {
    if !def.Obj? then
      Some(TypeError("createStore: You're attempting to pass an invalid definition of type `" + TypeOf(def) + "`. " +
        "A valid definition type is a regular object containing key values or a single string value denoting " +
        "the collection type."))
    else
      match DS.FirstOutside(Keys(def.fields), DefinitionKeys)
      case Some(k) => Some(TypeError("createStore: Invalid definition option `" + k + "`."))
      case None =>
        var t := Prop(def, "type");
        var acts := Prop(def, "actions");
        var only := Prop(def, "onlyActions");
        if Truthy(t) && TypeOf(t) != "string" then Some(OptionType("type", "String", t))
        else if Truthy(acts) && !acts.Obj? then Some(OptionType("actions", "Object", acts))
        else if Truthy(only) && !(only.Obj? || only.Arr?) then Some(OptionType("onlyActions", "Object or Array", only))
        else None
  }

  /** What a definition must be for `createStore` to accept it, stated option by option. */
  predicate Acceptable(def: Value)
  {
    def.Obj? &&
    (forall k :: k in Keys(def.fields) ==> k in DefinitionKeys) &&
    (Truthy(Prop(def, "type")) ==> Prop(def, "type").Str?) &&
    (Truthy(Prop(def, "actions")) ==> Prop(def, "actions").Obj?) &&
    (Truthy(Prop(def, "onlyActions")) ==> Prop(def, "onlyActions").Obj? || Prop(def, "onlyActions").Arr?)
  }

  /** The validator accepts exactly the acceptable definitions. */
  lemma ValidateAccepts(def: Value)
    ensures ValidateDefinition(def).None? <==> Acceptable(def)
  {
    if def.Obj? {
      DS.FirstOutsideFinds(Keys(def.fields), DefinitionKeys);
    }
  }

  /** A definition with a key outside the whitelist is rejected, naming the first such key. */
  lemma UnknownKeyRejected(def: Value, i: nat)
    requires def.Obj? && i < |def.fields| && def.fields[i].0 !in DefinitionKeys
    requires forall j :: 0 <= j < i ==> def.fields[j].0 in DefinitionKeys
    ensures ValidateDefinition(def) == Some(TypeError("createStore: Invalid definition option `" + def.fields[i].0 + "`."))
  {
    var keys := Keys(def.fields);
    KeysAt(def.fields, i);
    forall j | 0 <= j < i
      ensures keys[j] in DefinitionKeys
    {
      KeysAt(def.fields, j);
    }
    DS.FirstOutsideAt(keys, DefinitionKeys, i);
  }

  /** Unlike a dataset definition, a store definition accepts an `onlyActions` array. */
  lemma OnlyActionsArrayAccepted()
    ensures ValidateDefinition(Obj([("onlyActions", Arr([]))])) == None
  {
    assert Keys([("onlyActions", Arr([]))]) == ["onlyActions"];
  }

  /** The definition a missing store is given on a prefetch: always rejected, for its `_shadow` key. */
  lemma ShadowDefinitionRejected(t: Value)
    ensures ValidateDefinition(Obj([("type", t), ("_shadow", Bool(true))])) ==
      Some(TypeError("createStore: Invalid definition option `" + "_shadow" + "`."))
  {
    var f: Fields := [("type", t), ("_shadow", Bool(true))];
    assert f[1..] == [("_shadow", Bool(true))];
    assert f[1..][1..] == [];
    assert Keys(f[1..]) == ["_shadow"];
    var keys := Keys(f);
    assert keys == ["type", "_shadow"];
    assert keys[1..] == ["_shadow"];
    assert "_shadow" !in DefinitionKeys;
    assert DS.FirstOutside(keys[1..], DefinitionKeys) == Some("_shadow");
    assert DS.FirstOutside(keys, DefinitionKeys) == Some("_shadow");
  }

  /* ----- stores ----- */

  datatype StoreRecord = StoreRecord(definition: Value, cache: FM.CacheState, events: seq<string>)

  /** The registry and every store instance, by address. */
  datatype Heap = Heap(names: map<string, nat>, instances: map<nat, StoreRecord>, next: nat)

  /** Every registered name denotes a store, and every address in use lies below the next free one. */
  predicate HeapValid(h: Heap)
  {
    (forall n :: n in h.names ==> h.names[n] in h.instances) &&
    (forall a :: a in h.instances ==> a < h.next)
  }

  /** The state of a fresh `FragmentMap`. */
  const EmptyCache := FM.CacheState(map[], [])

  /** `new Store(definition)`: the definition, an empty cache, no events. */
  function NewStore(def: Value): StoreRecord
  {
    StoreRecord(def, EmptyCache, [])
  }

  /** `Store.getResolvable()` of the store at `addr`. */
  function Resolvable(addr: nat, def: Value): Value
  {
    Obj([("__type", Str("store")), ("__definition", def), ("__reference", Ref(addr))])
  }

  /** What the reducer reads from a store's resolvable: its type tag, its definition and the store itself. */
  lemma ResolvableFields(addr: nat, def: Value)
    ensures SR.IsType(Resolvable(addr, def), "store") && !SR.IsType(Resolvable(addr, def), "dataset")
    ensures Prop(Resolvable(addr, def), "__definition") == def
    ensures Prop(Resolvable(addr, def), "__reference") == Ref(addr)
  {
    var f := Resolvable(addr, def).fields;
    assert f[1..] == [("__definition", def), ("__reference", Ref(addr))];
    assert f[1..][1..] == [("__reference", Ref(addr))];
    assert Get(f[1..], "__definition") == def;
    assert Get(f[1..][1..], "__reference") == Ref(addr);
    assert Get(f[1..], "__reference") == Ref(addr);
    assert "store"[0] != "dataset"[0];
  }

  /** The events `notifyChange(descriptor)` triggers, in order. */
  function ChangeEvents(d: SR.Descriptor): (r: seq<string>)
    ensures |r| >= 1 && r[0] == "change"
    ensures |r| == 2 <==> Truthy(d.id)
    ensures |r| == 2 ==> r[1] == d.event
  {
    ["change"] + (if Truthy(d.id) then [d.event] else [])
  }

  /** The fields of a descriptor the cache reads. */
  function CacheDescriptorOf(d: SR.Descriptor): FM.CacheDescriptor
  {
    FM.CacheDescriptor(d.id, Str(d.path), d.partial, Arr(d.fragments))
  }

  /** The reducer's descriptor as the object it returns, keys in the order it writes them. */
  function DescriptorValue(d: SR.Descriptor): Value
  {
    Obj([("actions", Obj(d.actions)), ("event", Str(d.event)), ("partial", d.partial), ("id", d.id),
         ("params", Obj(d.params)), ("fragments", Arr(d.fragments)), ("path", Str(d.path)),
         ("payload", Obj(d.payload)), ("store", d.store), ("type", d.storeType)])
  }

  /** The fields of any descriptor object the cache reads. */
  function CacheView(v: Value): FM.CacheDescriptor
  {
    FM.CacheDescriptor(Prop(v, "id"), Prop(v, "path"), Prop(v, "partial"), Prop(v, "fragments"))
  }

  /** The cache reads the reducer's descriptor object as the descriptor it is. */
  lemma DescriptorView(d: SR.Descriptor)
    ensures CacheView(DescriptorValue(d)) == CacheDescriptorOf(d)
  {
    DescriptorPartial(d);
    DescriptorId(d);
    DescriptorFragments(d);
    DescriptorPath(d);
  }

  /** The response importers read the store type from it; it has no `isPrefetch`. */
  lemma DescriptorFields(d: SR.Descriptor)
    ensures Prop(DescriptorValue(d), "type") == d.storeType
    ensures Prop(DescriptorValue(d), "partial") == d.partial
    ensures Prop(DescriptorValue(d), "isPrefetch") == Undefined
  {
    DescriptorPartial(d);
    DescriptorType(d);
    GetMissing(DescriptorValue(d).fields, "isPrefetch");
  }

  lemma DescriptorPartial(d: SR.Descriptor)
    ensures Prop(DescriptorValue(d), "partial") == d.partial
  {
    assert "actions"[0] != "partial"[0];
    GetAt(DescriptorValue(d).fields, 2, "partial");
  }

  lemma DescriptorId(d: SR.Descriptor)
    ensures Prop(DescriptorValue(d), "id") == d.id
  {
    GetAt(DescriptorValue(d).fields, 3, "id");
  }

  lemma DescriptorFragments(d: SR.Descriptor)
    ensures Prop(DescriptorValue(d), "fragments") == Arr(d.fragments)
  {
    GetAt(DescriptorValue(d).fields, 5, "fragments");
  }

  lemma DescriptorPath(d: SR.Descriptor)
    ensures Prop(DescriptorValue(d), "path") == Str(d.path)
  {
    assert "event"[0] != "path"[0];
    GetAt(DescriptorValue(d).fields, 6, "path");
  }

  lemma DescriptorType(d: SR.Descriptor)
    ensures Prop(DescriptorValue(d), "type") == d.storeType
  {
    assert "path"[0] != "type"[0];
    GetAt(DescriptorValue(d).fields, 9, "type");
  }

  /** `store.<name>(...)` on a value that is not a store. */
  function NotAFunction(name: string): Failure
  {
    TypeError("store." + name + " is not a function")
  }

  /** The store a value denotes, if it is one. */
  function StoreAt(h: Heap, v: Value): (r: Option<nat>)
    ensures r.Some? ==> r.value in h.instances && v == Ref(r.value)
  {
    if v.Ref? && v.addr in h.instances then Some(v.addr) else None
  }

  /** `store.updateResource(descriptor, data, status)` at time `now` on the store at `a`. */
  function WriteResource(h: Heap, a: nat, d: FM.CacheDescriptor, data: Value, status: Value, now: int): (Heap, Result<Value>)
    requires a in h.instances
  {
    var (c, r) := FM.UpdateSpec(h.instances[a].cache, d, data, status, now);
    (Put(h, a, h.instances[a].(cache := c)), r)
  }

  /* ----- createStore ----- */

  /** What `createStore` returns: the store, or the dataset created under it. */
  datatype Created = StoreCreated(addr: nat) | DatasetCreated(dataset: DS.Dataset)

  /** A string argument becomes `{type: s}`; a falsy one `{}`. */
  function Normalize(arg: Value): Value
  {
    if arg.Str? then Obj([("type", arg)]) else if Truthy(arg) then arg else Obj([])
  }

  /** Whether `createStore(arg)` reaches the naming loop of an anonymous store. */
  predicate Anonymous(arg: Value)
  {
    ValidateDefinition(Normalize(arg)).None? && !Truthy(Prop(Normalize(arg), "type"))
  }

  /**
   * The names `_.randomString(12)` yields, call after call, never repeat
   * themselves. The registry being finite, one of them is then free.
   */
  ghost predicate Injective(draw: nat -> string)
  {
    forall i, j :: 0 <= i < j ==> draw(i) != draw(j)
  }

  /** The names of the first `n` draws. */
  function Drawn(draw: nat -> string, n: nat): set<string>
  {
    set k | 0 <= k < n :: draw(k)
  }

  lemma {:induction false} DrawnCard(draw: nat -> string, n: nat)
    requires Injective(draw)
    ensures |Drawn(draw, n)| == n
  {
    if n > 0 {
      DrawnCard(draw, n - 1);
      assert Drawn(draw, n) == Drawn(draw, n - 1) + {draw(n - 1)};
      assert draw(n - 1) !in Drawn(draw, n - 1);
    }
  }

  lemma SubsetCard(a: set<string>, b: set<string>)
    requires a <= b
    ensures |a| <= |b|
  {
    assert b == a + (b - a);
  }

  /** Among the first `|names| + 1` draws one is not registered. */
  lemma UnusedExists(draw: nat -> string, names: map<string, nat>)
    requires Injective(draw)
    ensures exists k :: 0 <= k <= |names.Keys| && draw(k) !in names
  {
    var n := |names.Keys| + 1;
    DrawnCard(draw, n);
    if forall k :: 0 <= k <= |names.Keys| ==> draw(k) in names {
      SubsetCard(Drawn(draw, n), names.Keys);
    }
  }

  /** The number of draws the naming loop makes before it finds a free name, less one. */
  function FirstUnusedFrom(draw: nat -> string, names: map<string, nat>, i: nat): (k: nat)
    requires exists k :: i <= k <= |names.Keys| && draw(k) !in names
    ensures i <= k <= |names.Keys| && draw(k) !in names
    ensures forall j :: i <= j < k ==> draw(j) in names
    decreases |names.Keys| - i
  {
    if draw(i) !in names then i
    else
      assert exists k :: i + 1 <= k <= |names.Keys| && draw(k) !in names by {
        var k :| i <= k <= |names.Keys| && draw(k) !in names;
        assert k != i;
      }
      FirstUnusedFrom(draw, names, i + 1)
  }

  /** The index of the first drawn name that is not registered. */
  function FirstUnused(draw: nat -> string, names: map<string, nat>): (k: nat)
    requires Injective(draw)
    ensures draw(k) !in names
    ensures forall j :: 0 <= j < k ==> draw(j) in names
  {
    UnusedExists(draw, names);
    FirstUnusedFrom(draw, names, 0)
  }

  /** `StoreSet[name] = new Store(definition)` at the next free address. */
  function Register(h: Heap, name: string, def: Value): Heap
  {
    Heap(h.names[name := h.next], h.instances[h.next := NewStore(def)], h.next + 1)
  }

  function Redefined(name: string): Failure
  {
    TypeError("createStore: Unexpected behavior, found existing Store of type `" + name + "` while trying to redefine.")
  }

  /** `dataset ? store.createDataset(dataset) : store`: the dataset's parent is the store. */
  function WithDataset(h: Heap, addr: nat, dataset: Value): (Heap, Result<Created>)
  {
    if !Truthy(dataset) then (h, Ok(StoreCreated(addr)))
    else
      match DS.CreateDataset([dataset], h.next)
      case Err(e) => (h, Err(e))
      case Ok(created) => (h.(next := created.1), Ok(DatasetCreated(created.0.(parent := Ref(addr)))))
  }

  /** Creating the dataset only allocates addresses: the registry and the stores stay as they are. */
  lemma WithDatasetKeeps(h: Heap, addr: nat, dataset: Value)
    ensures WithDataset(h, addr, dataset).0 == h.(next := WithDataset(h, addr, dataset).0.next)
    ensures h.next <= WithDataset(h, addr, dataset).0.next
  {
    if Truthy(dataset) {
      var c := DS.CreateDataset([dataset], h.next);
      if c.Ok? {
        assert WithDataset(h, addr, dataset).0 == h.(next := c.value.1);
      } else {
        assert WithDataset(h, addr, dataset).0 == h;
      }
    }
  }

  /**
   * Where `createStore` puts a valid definition: the registry afterwards and
   * the store's address, or the TypeError for a type already taken.
   */
  function Place(h: Heap, def: Value, draw: nat -> string): (r: Result<(Heap, nat)>)
    requires HeapValid(h) && def.Obj?
    requires Injective(draw)
    ensures r.Ok? ==> HeapValid(r.value.0) && r.value.1 in r.value.0.instances && h.next <= r.value.0.next
    ensures r.Ok? ==> forall n :: n in h.names ==> n in r.value.0.names && r.value.0.names[n] == h.names[n]
    ensures r.Ok? ==> h.instances.Keys <= r.value.0.instances.Keys
  {
    var t := Prop(def, "type");
    if Truthy(t) then
      var name := ToKey(t);
      if name in h.names then
        var a := h.names[name];
        if Truthy(Prop(h.instances[a].definition, "_shadow")) then
          Ok((h.(instances := h.instances[a := h.instances[a].(definition := def)]), a))
        else Err(Redefined(name))
      else Ok((Register(h, name, def), h.next))
    else
      var name := draw(FirstUnused(draw, h.names));
      Ok((Register(h, name, Obj(Set(def.fields, "type", Str(name)))), h.next))
  }

  /** `createStore(arg, dataset)` with `draw(k)` the name the `k`-th call of `_.randomString(12)` yields: the heap afterwards and the result. */
  function CreateSpec(h: Heap, arg: Value, dataset: Value, draw: nat -> string): (Heap, Result<Created>)
    requires HeapValid(h)
    requires Injective(draw)
  {
    var def := Normalize(arg);
    match ValidateDefinition(def)
    case Some(e) => (h, Err(e))
    case None =>
      match Place(h, def, draw)
      case Err(e) => (h, Err(e))
      case Ok(placed) => WithDataset(placed.0, placed.1, dataset)
  }

  /** `createStore` keeps the registry well formed, never forgets a name and never moves one. */
  lemma CreateKeepsNames(h: Heap, arg: Value, dataset: Value, draw: nat -> string)
    requires HeapValid(h)
    requires Injective(draw)
    ensures HeapValid(CreateSpec(h, arg, dataset, draw).0)
    ensures forall n :: n in h.names ==>
      n in CreateSpec(h, arg, dataset, draw).0.names && CreateSpec(h, arg, dataset, draw).0.names[n] == h.names[n]
    ensures h.next <= CreateSpec(h, arg, dataset, draw).0.next
    ensures h.instances.Keys <= CreateSpec(h, arg, dataset, draw).0.instances.Keys
  {
    var def := Normalize(arg);
    if ValidateDefinition(def).None? {
      var placed := Place(h, def, draw);
      if placed.Ok? {
        WithDatasetKeeps(placed.value.0, placed.value.1, dataset);
      }
    }
  }

  /* ----- resetStores ----- */

  /** The addresses the registry names. */
  function Registered(h: Heap): set<nat>
  {
    set n | n in h.names :: h.names[n]
  }

  /** `resetStores()`: every registered store gets a fresh, empty cache. */
  function ResetAll(h: Heap): Heap
  {
    h.(instances := map a | a in h.instances :: if a in Registered(h) then h.instances[a].(cache := EmptyCache) else h.instances[a])
  }

  /* ----- the store operations the invoker and the importer use ----- */

  /** The heap with the store at `a` changed to `rec`. */
  function Put(h: Heap, a: nat, rec: StoreRecord): Heap
  {
    h.(instances := h.instances[a := rec])
  }

  /** `registry` is the library's `StoreSet`, together with the instances it refers to. */
  class Registry {
    var names: map<string, nat>
    var instances: map<nat, StoreRecord>
    var next: nat

    function State(): Heap
      reads this
    {
      Heap(names, instances, next)
    }

    ghost predicate Valid()
      reads this
    {
      HeapValid(State())
    }

    constructor ()
      ensures Valid() && State() == Heap(map[], map[], 0)
    {
      names := map[];
      instances := map[];
      next := 0;
    }

    /** `createStore(arg, dataset)`. */
    method CreateStore(arg: Value, dataset: Value, draw: nat -> string) returns (r: Result<Created>)
      requires Valid()
      requires Injective(draw)
      modifies this
      ensures Valid()
      ensures (State(), r) == CreateSpec(old(State()), arg, dataset, draw)
    {
      var def := arg;
      if arg.Str? {
        def := Obj([("type", arg)]);
      }
      if !Truthy(def) {
        def := Obj([]);
      }
      assert def == Normalize(arg);
      var invalid := ValidateDefinition(def);
      if invalid.Some? {
        return Err(invalid.value);
      }
      r := Install(def, dataset, draw);
    }

    /** What `createStore` does with a valid definition: places the store, then creates the dataset if there is one. */
    method Install(def: Value, dataset: Value, draw: nat -> string) returns (r: Result<Created>)
      requires Valid() && def.Obj?
      requires Injective(draw)
      modifies this
      ensures Valid()
      ensures (State(), r) ==
        match Place(old(State()), def, draw)
        case Err(e) => (old(State()), Err(e))
        case Ok(placed) => WithDataset(placed.0, placed.1, dataset)
    {
      var placed := PlaceStore(def, draw);
      if placed.Err? {
        return Err(placed.failure);
      }
      r := CreateDatasetFor(placed.value, dataset);
    }

    /** Registers the store of a valid definition, or takes over a shadow store of the same type. */
    method PlaceStore(def: Value, draw: nat -> string) returns (r: Result<nat>)
      requires Valid() && def.Obj?
      requires Injective(draw)
      modifies this
      ensures Valid()
      ensures r.Err? ==> State() == old(State()) && Place(old(State()), def, draw) == Err(r.failure)
      ensures r.Ok? ==> Place(old(State()), def, draw) == Ok((State(), r.value))
    {
      var t := Prop(def, "type");
      if Truthy(t) {
        var name := ToKey(t);
        if name in names {
          var addr := names[name];
          if Truthy(Prop(instances[addr].definition, "_shadow")) {
            instances := instances[addr := instances[addr].(definition := def)];
            return Ok(addr);
          }
          return Err(Redefined(name));
        }
        var addr := RegisterStore(name, def);
        return Ok(addr);
      }
      var name := DrawName(draw);
      var addr := RegisterStore(name, Obj(Set(def.fields, "type", Str(name))));
      return Ok(addr);
    }

    /** The loop `do { name = _.randomString(12) } while (StoreSet[name])`. */
    method DrawName(draw: nat -> string) returns (name: string)
      requires Injective(draw)
      ensures name == draw(FirstUnused(draw, names))
    {
      var k := 0;
      while draw(k) in names
        invariant 0 <= k <= FirstUnused(draw, names)
        decreases FirstUnused(draw, names) - k
      {
        k := k + 1;
      }
      name := draw(k);
    }

    /** `StoreSet[name] = new Store(definition)`. */
    method RegisterStore(name: string, def: Value) returns (addr: nat)
      requires Valid()
      modifies this
      ensures Valid()
      ensures addr == old(next) && State() == Register(old(State()), name, def)
    {
      addr := next;
      instances := instances[addr := NewStore(def)];
      names := names[name := addr];
      next := next + 1;
    }

    /** `dataset ? store.createDataset(dataset) : store`. */
    method CreateDatasetFor(addr: nat, dataset: Value) returns (r: Result<Created>)
      requires Valid()
      modifies this
      ensures Valid()
      ensures (State(), r) == WithDataset(old(State()), addr, dataset)
    {
      if !Truthy(dataset) {
        return Ok(StoreCreated(addr));
      }
      var created := DS.CreateDatasetLoop([dataset], next);
      if created.Err? {
        return Err(created.failure);
      }
      assert next <= created.value.1 by {
        DS.ValidateAccepts(dataset);
      }
      next := created.value.1;
      return Ok(DatasetCreated(created.value.0.(parent := Ref(addr))));
    }

    /** `resetStores()`: each registered store's `reset()`. */
    method ResetStores()
      requires Valid()
      modifies this
      ensures Valid()
      ensures State() == ResetAll(old(State()))
    {
      var todo := names.Keys;
      ghost var done: set<nat> := {};
      while todo != {}
        invariant todo <= names.Keys
        invariant done == set n | n in names.Keys - todo :: names[n]
        invariant names == old(names) && next == old(next) && Valid()
        invariant instances == map a | a in old(instances) :: if a in done then old(instances)[a].(cache := EmptyCache) else old(instances)[a]
        decreases todo
      {
        var n :| n in todo;
        ResetStore(names[n]);
        todo := todo - {n};
        done := done + {names[n]};
      }
    }

    /** `store.reset()`: a fresh, empty cache. */
    method ResetStore(a: nat)
      requires Valid() && a in instances
      modifies this
      ensures Valid()
      ensures State() == Put(old(State()), a, old(instances)[a].(cache := EmptyCache))
    {
      instances := instances[a := instances[a].(cache := EmptyCache)];
    }

    /** `store.notifyChange(descriptor)`. */
    method NotifyChange(a: nat, d: SR.Descriptor)
      requires Valid() && a in instances
      modifies this
      ensures Valid()
      ensures State() == Put(old(State()), a, old(instances)[a].(events := old(instances)[a].events + ChangeEvents(d)))
    {
      instances := instances[a := instances[a].(events := instances[a].events + ChangeEvents(d))];
    }

    /** `store.fetchResource(descriptor)`: the cache only gains the empty fragments it consults. */
    method FetchResource(a: nat, d: FM.CacheDescriptor) returns (r: Result<FM.FetchResult>)
      requires Valid() && a in instances
      modifies this
      ensures Valid()
      ensures r == FM.FetchSpec(old(instances)[a].cache, d)
      ensures State() == Put(old(State()), a, old(instances)[a].(cache := FetchState(old(instances)[a].cache, d)))
    {
      r := FM.FetchSpec(instances[a].cache, d);
      instances := instances[a := instances[a].(cache := FetchState(instances[a].cache, d))];
    }

    /** `store.touchResource(descriptor, metadata)`. */
    method TouchResource(a: nat, d: FM.CacheDescriptor, touch: Value)
      requires Valid() && a in instances
      modifies this
      ensures Valid()
      ensures State() == Put(old(State()), a, old(instances)[a].(cache := FM.TouchSpec(old(instances)[a].cache, d, touch)))
    {
      instances := instances[a := instances[a].(cache := FM.TouchSpec(instances[a].cache, d, touch))];
    }

    /** `store.updateResource(descriptor, data, status)` at time `now`. */
    method UpdateResource(a: nat, d: FM.CacheDescriptor, data: Value, status: Value, now: int) returns (r: Result<Value>)
      requires Valid() && a in instances
      modifies this
      ensures Valid()
      ensures (State(), r) == WriteResource(old(State()), a, d, data, status, now)
    {
      var (c, res) := FM.UpdateSpec(instances[a].cache, d, data, status, now);
      instances := instances[a := instances[a].(cache := c)];
      r := res;
    }

    /** `store.deleteResource(descriptor)`. */
    method DeleteResource(a: nat, d: FM.CacheDescriptor) returns (err: Option<Failure>)
      requires Valid() && a in instances
      modifies this
      ensures Valid()
      ensures err == FM.DeleteSpec(old(instances)[a].cache, d).1
      ensures State() == Put(old(State()), a, old(instances)[a].(cache := FM.DeleteSpec(old(instances)[a].cache, d).0))
    {
      var (c, e) := FM.DeleteSpec(instances[a].cache, d);
      instances := instances[a := instances[a].(cache := c)];
      err := e;
    }
  }

  /** The cache after `fetch(descriptor)`. */
  function FetchState(st: FM.CacheState, d: FM.CacheDescriptor): FM.CacheState
  {
    FM.CacheState(FM.FetchFragments(st, d), st.queries)
  }
}

=== FILE: store_props.dfy ===
/**
 * Properties of `createStore` and `resetStores` over the registry, and of
 * what a store contributes to a reduced stack.
 */
module StoreRegistryProperties {
  import opened Values
  import opened StoreRegistry
  import DS = Dataset
  import SR = StackReducer

  /** An invalid definition throws before the registry is touched. */
  lemma InvalidLeavesRegistry(h: Heap, arg: Value, dataset: Value, draw: nat -> string)
    requires HeapValid(h) && Injective(draw)
    requires ValidateDefinition(Normalize(arg)).Some?
    ensures CreateSpec(h, arg, dataset, draw) == (h, Err(ValidateDefinition(Normalize(arg)).value))
  {
  }

  /** A new collection type registers a new store, with the definition and an empty cache, at the next free address. */
  lemma NamedRegistered(h: Heap, arg: Value, draw: nat -> string)
    requires HeapValid(h) && Injective(draw)
    requires ValidateDefinition(Normalize(arg)).None? && Truthy(Prop(Normalize(arg), "type"))
    requires ToKey(Prop(Normalize(arg), "type")) !in h.names
    ensures CreateSpec(h, arg, Undefined, draw) == (Register(h, ToKey(Prop(Normalize(arg), "type")), Normalize(arg)), Ok(StoreCreated(h.next)))
    ensures h.next !in h.instances
  {
  }

  /** `createStore("name")` is `createStore({type: "name"})`. */
  lemma StringArgument(h: Heap, s: string, draw: nat -> string)
    requires HeapValid(h) && Injective(draw) && s != "" && s !in h.names
    ensures CreateSpec(h, Str(s), Undefined, draw) == (Register(h, s, Obj([("type", Str(s))])), Ok(StoreCreated(h.next)))
  {
    var def := Obj([("type", Str(s))]);
    var f: Fields := [("type", Str(s))];
    assert f[1..] == [];
    assert Keys(f) == ["type"];
    assert DS.FirstOutside(Keys(f)[1..], DefinitionKeys) == None;
    assert ValidateDefinition(def) == None;
  }

  /** A second store of a type that is not a shadow throws, and nothing changes. */
  lemma RedefinitionRejected(h: Heap, arg: Value, dataset: Value, draw: nat -> string)
    requires HeapValid(h) && Injective(draw)
    requires ValidateDefinition(Normalize(arg)).None? && Truthy(Prop(Normalize(arg), "type"))
    requires ToKey(Prop(Normalize(arg), "type")) in h.names
    requires !Truthy(Prop(h.instances[h.names[ToKey(Prop(Normalize(arg), "type"))]].definition, "_shadow"))
    ensures CreateSpec(h, arg, dataset, draw) == (h, Err(Redefined(ToKey(Prop(Normalize(arg), "type")))))
  {
  }

  /** A shadow store is taken over: same address, new definition, its cache and events kept. */
  lemma ShadowReplaced(h: Heap, arg: Value, draw: nat -> string)
    requires HeapValid(h) && Injective(draw)
    requires ValidateDefinition(Normalize(arg)).None? && Truthy(Prop(Normalize(arg), "type"))
    requires ToKey(Prop(Normalize(arg), "type")) in h.names
    requires Truthy(Prop(h.instances[h.names[ToKey(Prop(Normalize(arg), "type"))]].definition, "_shadow"))
    ensures var a := h.names[ToKey(Prop(Normalize(arg), "type"))];
      CreateSpec(h, arg, Undefined, draw) ==
        (Put(h, a, h.instances[a].(definition := Normalize(arg))), Ok(StoreCreated(a)))
  {
  }

  /** An anonymous store gets the first drawn name not in use, recorded as its type. */
  lemma AnonymousFresh(h: Heap, arg: Value, draw: nat -> string)
    requires HeapValid(h) && Anonymous(arg) && Injective(draw)
    ensures var n := draw(FirstUnused(draw, h.names));
      n !in h.names &&
      CreateSpec(h, arg, Undefined, draw) ==
        (Register(h, n, Obj(Set(Normalize(arg).fields, "type", Str(n)))), Ok(StoreCreated(h.next))) &&
      Get(Set(Normalize(arg).fields, "type", Str(n)), "type") == Str(n)
  {
    var n := draw(FirstUnused(draw, h.names));
    GetSet(Normalize(arg).fields, "type", Str(n), "type");
  }

  /** No argument, a falsy one and the empty string all create anonymous stores. */
  lemma FalsyArgumentsAnonymous()
    ensures Anonymous(Undefined) && Anonymous(Null) && Anonymous(Str(""))
  {
    assert Normalize(Undefined) == Obj([]) && Normalize(Null) == Obj([]);
    assert ValidateDefinition(Obj([])) == None;
    EmptyTypeAnonymous();
  }

  lemma EmptyTypeAnonymous()
    ensures Anonymous(Str(""))
  {
    var f: Fields := [("type", Str(""))];
    assert Normalize(Str("")) == Obj(f);
    assert f[1..] == [];
    assert Keys(f) == ["type"];
    assert DS.FirstOutside(Keys(f)[1..], DefinitionKeys) == None;
    assert ValidateDefinition(Obj(f)) == None;
    assert Prop(Obj(f), "type") == Str("");
  }

  /** With a dataset, `createStore` returns the dataset, created at the next address with the store as its parent. */
  lemma DatasetReturned(h: Heap, arg: Value, dataset: Value, draw: nat -> string)
    requires HeapValid(h) && Injective(draw)
    requires ValidateDefinition(Normalize(arg)).None? && Truthy(Prop(Normalize(arg), "type"))
    requires ToKey(Prop(Normalize(arg), "type")) !in h.names
    requires Truthy(dataset) && DS.Acceptable(dataset)
    ensures CreateSpec(h, arg, dataset, draw).1 ==
      Ok(DatasetCreated(DS.Dataset(h.next + 1, DS.Single(dataset), Ref(h.next))))
    ensures CreateSpec(h, arg, dataset, draw).0.next == h.next + 2
  {
    var def := Normalize(arg);
    var name := ToKey(Prop(def, "type"));
    CreateNamed(h, arg, dataset, draw);
    DS.SingleArgument(dataset, h.next + 1);
    var h1 := Register(h, name, def);
    assert WithDataset(h1, h.next, dataset) ==
      (h1.(next := h.next + 2), Ok(DatasetCreated(DS.Dataset(h.next + 1, DS.Single(dataset), Ref(h.next)))));
  }

  /** A valid definition of a new type is registered, and the dataset, if any, is created after it. */
  lemma CreateNamed(h: Heap, arg: Value, dataset: Value, draw: nat -> string)
    requires HeapValid(h) && Injective(draw)
    requires ValidateDefinition(Normalize(arg)).None? && Truthy(Prop(Normalize(arg), "type"))
    requires ToKey(Prop(Normalize(arg), "type")) !in h.names
    ensures CreateSpec(h, arg, dataset, draw) ==
      WithDataset(Register(h, ToKey(Prop(Normalize(arg), "type")), Normalize(arg)), h.next, dataset)
  {
  }

  /** An invalid dataset makes `createStore` throw, yet the store it has just registered stays. */
  lemma DatasetErrorKeepsStore(h: Heap, arg: Value, dataset: Value, draw: nat -> string)
    requires HeapValid(h) && Injective(draw)
    requires ValidateDefinition(Normalize(arg)).None? && Truthy(Prop(Normalize(arg), "type"))
    requires ToKey(Prop(Normalize(arg), "type")) !in h.names
    requires Truthy(dataset) && !DS.Acceptable(dataset)
    ensures CreateSpec(h, arg, dataset, draw).1.Err?
    ensures CreateSpec(h, arg, dataset, draw).0 == Register(h, ToKey(Prop(Normalize(arg), "type")), Normalize(arg))
  {
    CreateNamed(h, arg, dataset, draw);
    DS.SingleArgumentRejected(dataset, h.next + 1);
    DatasetFails(Register(h, ToKey(Prop(Normalize(arg), "type")), Normalize(arg)), h.next, dataset);
  }

  /** A dataset `createDataset` rejects leaves the heap as it was and passes the error on. */
  lemma DatasetFails(h: Heap, addr: nat, dataset: Value)
    requires Truthy(dataset) && DS.CreateDataset([dataset], h.next).Err?
    ensures WithDataset(h, addr, dataset) == (h, Err(DS.CreateDataset([dataset], h.next).failure))
  {
  }

  /** `resetStores` empties the cache of every registered store and changes nothing else. */
  lemma ResetEmpties(h: Heap)
    requires HeapValid(h)
    ensures HeapValid(ResetAll(h))
    ensures ResetAll(h).names == h.names && ResetAll(h).next == h.next
    ensures ResetAll(h).instances.Keys == h.instances.Keys
    ensures forall n :: n in h.names ==>
      ResetAll(h).instances[h.names[n]] == h.instances[h.names[n]].(cache := EmptyCache)
    ensures forall a :: a in h.instances && a !in Registered(h) ==> ResetAll(h).instances[a] == h.instances[a]
  {
    forall n | n in h.names
      ensures h.names[n] in Registered(h)
    {
    }
  }

  /** Resetting twice is resetting once. */
  lemma ResetIdempotent(h: Heap)
    requires HeapValid(h)
    ensures ResetAll(ResetAll(h)) == ResetAll(h)
  {
    ResetEmpties(h);
    assert Registered(ResetAll(h)) == Registered(h);
    assert ResetAll(ResetAll(h)).instances == ResetAll(h).instances;
  }

  /** The definition of a store entry on a stack, with no options the reducer acts on beyond its type. */
  predicate PlainStoreDefinition(def: Value)
  {
    def.Obj? && Prop(def, "type").Str? && Prop(def, "type").s != "" &&
    !Truthy(Prop(def, "actions")) && !Truthy(Prop(def, "onlyActions")) &&
    !Truthy(Prop(def, "uri")) && !Truthy(Prop(def, "paramId"))
  }

  /** A stack holding only a store reduces to a descriptor naming the store, its type and the host, with no id. */
  lemma StoreStack(a: nat, def: Value, hostname: string)
    requires PlainStoreDefinition(def)
    ensures SR.Reduce(Arr([Resolvable(a, def)]), hostname).Ok?
    ensures var d := SR.Reduce(Arr([Resolvable(a, def)]), hostname).value;
      d.store == Ref(a) && d.storeType == Prop(def, "type") && d.path == hostname &&
      d.id == Undefined && d.event == "change" && d.fragments == [] && d.partial == Null
  {
    var op := Resolvable(a, def);
    ResolvableFields(a, def);
    var scan := SR.ScanTyped(SR.InitialScan(), op, def).(paramId := Undefined);
    assert scan.store == Ref(a) && scan.storeType == Prop(def, "type");
    assert scan.paramMap == [] && scan.params == [] && scan.fragments == [] && scan.partial == Null;
    assert SR.ScanStep(SR.InitialScan(), op) == Ok(scan);
    var ops := [op];
    assert ops[..0] == [];
    assert SR.ScanAll(ops) == Ok(scan);
    assert SR.PathAll(ops, [], []) == Ok(SR.Paths("", Null));
    assert SR.IdKey(scan, SR.Paths("", Null)) == Str("id");
    assert hostname + "" == hostname;
    assert SR.Reduce(Arr(ops), hostname) == Ok(SR.Finish(scan, SR.Paths("", Null), hostname));
  }

  /** A store definition with a type and an `onlyActions` array. */
  function OnlyActionsArrayDefinition(t: string, xs: seq<Value>): Value
  {
    Obj([("type", Str(t)), ("onlyActions", Arr(xs))])
  }

  /** `createStore` registers a store whose `onlyActions` is an array. */
  lemma OnlyActionsArrayStoreCreated(h: Heap, t: string, xs: seq<Value>, draw: nat -> string)
    requires HeapValid(h) && Injective(draw) && t != "" && t !in h.names
    ensures CreateSpec(h, OnlyActionsArrayDefinition(t, xs), Undefined, draw) ==
      (Register(h, t, OnlyActionsArrayDefinition(t, xs)), Ok(StoreCreated(h.next)))
  {
    var def := OnlyActionsArrayDefinition(t, xs);
    var f := def.fields;
    assert f[1..] == [("onlyActions", Arr(xs))];
    assert f[1..][1..] == [];
    assert Keys(f[1..]) == ["onlyActions"];
    assert Keys(f) == ["type", "onlyActions"];
    assert DS.FirstOutside(Keys(f)[1..][1..], DefinitionKeys) == None;
    assert DS.FirstOutside(Keys(f), DefinitionKeys) == None;
    assert Prop(def, "type") == Str(t);
    assert Get(f[1..], "onlyActions") == Arr(xs);
    assert ValidateDefinition(def) == None;
    assert Normalize(def) == def;
  }

  /** A stack holding that store cannot be reduced: the reducer wants `onlyActions` to be an object. */
  lemma OnlyActionsArrayStoreUnusable(a: nat, t: string, xs: seq<Value>, hostname: string)
    ensures SR.Reduce(Arr([Resolvable(a, OnlyActionsArrayDefinition(t, xs))]), hostname) ==
      Err(SR.NotAnObject("onlyActions", Arr(xs)))
  {
    var op := Resolvable(a, OnlyActionsArrayDefinition(t, xs));
    OnlyActionsStepFails(a, t, xs);
    var ops := [op];
    assert ops[..0] == [];
    assert SR.ScanAll(ops) == Err(SR.NotAnObject("onlyActions", Arr(xs)));
  }

  /** The first pass throws on that store's entry. */
  lemma OnlyActionsStepFails(a: nat, t: string, xs: seq<Value>)
    ensures SR.ScanStep(SR.InitialScan(), Resolvable(a, OnlyActionsArrayDefinition(t, xs))) ==
      Err(SR.NotAnObject("onlyActions", Arr(xs)))
  {
    var def := OnlyActionsArrayDefinition(t, xs);
    var f := def.fields;
    assert f[1..] == [("onlyActions", Arr(xs))];
    assert Get(f[1..], "onlyActions") == Arr(xs);
    assert Prop(def, "onlyActions") == Arr(xs);
    var op := Resolvable(a, def);
    ResolvableFields(a, def);
    OnlyActionsArrayThrows(SR.InitialScan(), op);
  }

  /** A definition entry with an `onlyActions` array makes the first pass throw, whatever came before. */
  lemma OnlyActionsArrayThrows(acc: SR.Scan, op: Value)
    requires op.Obj? && SR.IsDefinition(op) && Prop(Prop(op, "__definition"), "onlyActions").Arr?
    ensures SR.ScanStep(acc, op) == Err(SR.NotAnObject("onlyActions", Prop(Prop(op, "__definition"), "onlyActions")))
  {
  }
}

=== FILE: utils.dfy ===
/**
 * The merge primitive and the iteration helpers of `src/utils.js`:
 * `extend`, `extendClass` and `extendFunction` (the three assigners built by
 * `createAssigner`), `each`, `any`, `map` and `capitalize`.
 */
module Utils {
  import opened Values

  /** Which assigner: `extend`, `extendClass` (chains `initialize`), or `extendFunction` (runs it). */
  datatype AssignMode = Plain | ChainInit | RunInit

  /** Calling a function value: the routines it runs, in order. */
  function Run(f: Value): Result<seq<string>>
  {
    match f
    case Fn(name) => Ok([name])
    case Chain(a, b) =>
      (match Run(a)
       case Err(e) => Err(e)
       case Ok(ra) =>
         (match Run(b)
          case Err(e) => Err(e)
          case Ok(rb) => Ok(ra + rb)))
    case _ => Err(TypeError("is not a function"))
  }

  /**
   * `resolveChain(old, new)`: a function that calls `old`, then `new`; it
   * runs the first one's routines, then the second one's, and throws what
   * the first of them to throw throws.
   */
  function ResolveChain(defOld: Value, defNew: Value): (r: Value)
    ensures IsFunction(r)
    ensures Run(defOld).Err? ==> Run(r) == Run(defOld)
    ensures Run(defOld).Ok? && Run(defNew).Err? ==> Run(r) == Run(defNew)
    ensures Run(defOld).Ok? && Run(defNew).Ok? ==> Run(r) == Ok(Run(defOld).value + Run(defNew).value)
  {
    Chain(defOld, defNew)
  }

  /** The index keys "0", "1", ... of an array or string, paired with the elements. */
  function IndexEntries(items: seq<Value>): (r: Fields)
    ensures |r| == |items|
    ensures forall i :: 0 <= i < |items| ==> r[i] == (NatToString(i), items[i])
  {
    if items == [] then []
    else IndexEntries(items[..|items| - 1]) + [(NatToString(|items| - 1), items[|items| - 1])]
  }

  function CharValues(s: string): (r: seq<Value>)
    ensures |r| == |s|
    ensures forall i :: 0 <= i < |s| ==> r[i] == Str([s[i]])
  {
    if s == [] then [] else [Str([s[0]])] + CharValues(s[1..])
  }

  /** `keysFor(v)` with the values behind the keys: `Object.keys` throws for null and undefined. */
  function OwnEntries(v: Value): (r: Result<Fields>)
    ensures r.Err? <==> v.Undefined? || v.Null?
    ensures v.Obj? ==> r == Ok(v.fields)
  {
    match v
    case Undefined => Err(TypeError("Cannot convert undefined or null to object"))
    case Null => Err(TypeError("Cannot convert undefined or null to object"))
    case Obj(f) => Ok(f)
    case Arr(items) => Ok(IndexEntries(items))
    case Str(s) => Ok(IndexEntries(CharValues(s)))
    case _ => Ok([])
  }

  /** What the assigners keep track of: the target's fields and the `initialize` routines run on it. */
  datatype AssignState = AssignState(target: Fields, ran: seq<string>)

  /** One iteration of the inner loop of `createAssigner`. */
  function AssignKey(st: AssignState, key: string, val: Value, mode: AssignMode): Result<AssignState>
  {
    if mode == RunInit && key == "initialize" then
      match Run(val)
      case Err(e) => Err(e)
      case Ok(names) => Ok(AssignState(st.target, st.ran + names))
    else if mode != Plain && key == "initialize" && Get(st.target, key) != Undefined then
      Ok(AssignState(Set(st.target, key, ResolveChain(Get(st.target, key), val)), st.ran))
    else
      Ok(AssignState(Set(st.target, key, val), st.ran))
  }

  /** The inner loop over the first `n` keys of one source. */
  function AssignEntries(st: AssignState, entries: Fields, mode: AssignMode): Result<AssignState>
    decreases |entries|
  {
    if entries == [] then Ok(st)
    else
      var last := entries[|entries| - 1];
      match AssignEntries(st, entries[..|entries| - 1], mode)
      case Err(e) => Err(e)
      case Ok(st') => AssignKey(st', last.0, last.1, mode)
  }

  /** The outer loop over the sources. */
  function AssignSources(st: AssignState, sources: seq<Value>, mode: AssignMode): Result<AssignState>
    decreases |sources|
  {
    if sources == [] then Ok(st)
    else
      match AssignSources(st, sources[..|sources| - 1], mode)
      case Err(e) => Err(e)
      case Ok(st') =>
        match OwnEntries(sources[|sources| - 1])
        case Err(e) => Err(e)
        case Ok(entries) => AssignEntries(st', entries, mode)
  }

  /** A target the assigners can write into: a plain object, or `null`, which is returned untouched. */
  predicate AssignableTarget(obj: Value, sources: seq<Value>)
  {
    sources == [] || obj.Null? || obj.Obj?
  }

  /**
   * `createAssigner(resolver, executeInit)(obj, ...sources)`: the target and the
   * `initialize` routines run on it, or the exception thrown.
   */
  method Assign(obj: Value, sources: seq<Value>, mode: AssignMode) returns (r: Result<Value>, ran: seq<string>)
    requires AssignableTarget(obj, sources)
    ensures sources == [] || obj.Null? ==> r == Ok(obj) && ran == []
    ensures obj.Obj? && sources != [] ==>
      match AssignSources(AssignState(obj.fields, []), sources, mode)
      case Err(e) => r == Err(e)
      case Ok(st) => r == Ok(Obj(st.target)) && ran == st.ran
  {
    if |sources| == 0 || obj.Null? {
      return Ok(obj), [];
    }
    var st := AssignState(obj.fields, []);
    var index := 0;
    while index < |sources|
      invariant 0 <= index <= |sources|
      invariant AssignSources(AssignState(obj.fields, []), sources[..index], mode) == Ok(st)
    {
      var source := sources[index];
      var keys := OwnEntries(source);
      assert sources[..index + 1][..index] == sources[..index];
      if keys.Err? {
        AssignSourcesErrSticky(AssignState(obj.fields, []), sources, index + 1, mode);
        return Err(keys.failure), [];
      }
      assert AssignSources(AssignState(obj.fields, []), sources[..index + 1], mode)
          == AssignEntries(st, keys.value, mode);
      var next := AssignSource(st, keys.value, mode);
      if next.Err? {
        AssignSourcesErrSticky(AssignState(obj.fields, []), sources, index + 1, mode);
        return Err(next.failure), [];
      }
      st := next.value;
      index := index + 1;
    }
    assert sources[..index] == sources;
    return Ok(Obj(st.target)), st.ran;
  }

  /** The inner loop of `createAssigner` over the own entries of one source. */
  method AssignSource(st: AssignState, entries: Fields, mode: AssignMode) returns (r: Result<AssignState>)
    ensures r == AssignEntries(st, entries, mode)
  {
    var i := 0;
    var inner := st;
    while i < |entries|
      invariant 0 <= i <= |entries|
      invariant AssignEntries(st, entries[..i], mode) == Ok(inner)
    {
      var key := entries[i].0;
      assert entries[..i + 1][..i] == entries[..i];
      if mode == RunInit && key == "initialize" {
        var names := Run(entries[i].1);
        if names.Err? {
          AssignEntriesErrSticky(st, entries, i + 1, mode);
          return Err(names.failure);
        }
        inner := AssignState(inner.target, inner.ran + names.value);
      } else if mode != Plain && key == "initialize" && Get(inner.target, key) != Undefined {
        inner := AssignState(Set(inner.target, key, ResolveChain(Get(inner.target, key), entries[i].1)), inner.ran);
      } else {
        inner := AssignState(Set(inner.target, key, entries[i].1), inner.ran);
      }
      i := i + 1;
    }
    assert entries[..i] == entries;
    return Ok(inner);
  }

  lemma {:induction false} AssignEntriesErrSticky(st: AssignState, entries: Fields, n: nat, mode: AssignMode)
    requires n <= |entries| && AssignEntries(st, entries[..n], mode).Err?
    ensures AssignEntries(st, entries, mode) == AssignEntries(st, entries[..n], mode)
    decreases |entries| - n
  {
    if n < |entries| {
      assert entries[..n + 1][..n] == entries[..n];
      AssignEntriesErrSticky(st, entries, n + 1, mode);
    } else {
      assert entries[..n] == entries;
    }
  }

  lemma {:induction false} AssignSourcesErrSticky(st: AssignState, sources: seq<Value>, n: nat, mode: AssignMode)
    requires n <= |sources| && AssignSources(st, sources[..n], mode).Err?
    ensures AssignSources(st, sources, mode) == AssignSources(st, sources[..n], mode)
    decreases |sources| - n
  {
    if n < |sources| {
      assert sources[..n + 1][..n] == sources[..n];
      AssignSourcesErrSticky(st, sources, n + 1, mode);
    } else {
      assert sources[..n] == sources;
    }
  }

  /* ----- properties of the assigners ----- */

  /** `extend` never runs anything and never fails on plain-object sources. */
  lemma {:induction false} PlainEntriesIsExtend(st: AssignState, entries: Fields)
    ensures AssignEntries(st, entries, Plain) == Ok(AssignState(Extend(st.target, entries), st.ran))
    decreases |entries|
  {
    if entries != [] {
      PlainEntriesIsExtend(st, entries[..|entries| - 1]);
    }
  }

  /** All plain objects with well-formed keys. */
  predicate PlainSources(sources: seq<Value>)
  {
    forall i :: 0 <= i < |sources| ==> sources[i].Obj? && UniqueKeys(sources[i].fields)
  }

  /** The value of `k` in the last source that has it, or `dflt` when none does. */
  function LastValue(sources: seq<Value>, k: string, dflt: Value): Value
    decreases |sources|
  {
    if sources == [] then dflt
    else if HasKey(FieldsOf(sources[|sources| - 1]), k) then Get(FieldsOf(sources[|sources| - 1]), k)
    else LastValue(sources[..|sources| - 1], k, dflt)
  }

  /**
   * `extend(obj, s1, ..., sn)` is right-biased over all its sources: each key
   * ends up with the value of the last source that has it, and keys no source
   * has keep the target's value; it never fails on plain objects.
   */
  lemma {:induction false} ExtendManyGet(t: Fields, sources: seq<Value>, k: string)
    requires PlainSources(sources)
    ensures AssignSources(AssignState(t, []), sources, Plain).Ok?
    ensures AssignSources(AssignState(t, []), sources, Plain).value.ran == []
    ensures Get(AssignSources(AssignState(t, []), sources, Plain).value.target, k) == LastValue(sources, k, Get(t, k))
    decreases |sources|
  {
    if sources != [] {
      var p := sources[..|sources| - 1];
      var last := sources[|sources| - 1];
      ExtendManyGet(t, p, k);
      var st' := AssignSources(AssignState(t, []), p, Plain).value;
      PlainEntriesIsExtend(st', last.fields);
      GetExtend(st'.target, last.fields, k);
    }
  }

  /**
   * `extendClass` chains constructors: when the target already has an
   * `initialize`, the result's `initialize` runs the old one, then the new one.
   */
  lemma ExtendClassChains(t: Fields, s: Fields, a: seq<string>, b: seq<string>)
    requires UniqueKeys(s) && HasKey(s, "initialize") && Get(t, "initialize") != Undefined
    requires Run(Get(t, "initialize")) == Ok(a) && Run(Get(s, "initialize")) == Ok(b)
    ensures AssignSources(AssignState(t, []), [Obj(s)], ChainInit).Ok?
    ensures Run(Get(AssignSources(AssignState(t, []), [Obj(s)], ChainInit).value.target, "initialize")) == Ok(a + b)
  {
    ChainEntriesInit(AssignState(t, []), s);
  }

  lemma {:induction false} ChainEntriesInit(st: AssignState, s: Fields)
    requires UniqueKeys(s) && Get(st.target, "initialize") != Undefined
    ensures AssignEntries(st, s, ChainInit).Ok?
    ensures Get(AssignEntries(st, s, ChainInit).value.target, "initialize") ==
      if HasKey(s, "initialize") then ResolveChain(Get(st.target, "initialize"), Get(s, "initialize"))
      else Get(st.target, "initialize")
    decreases |s|
  {
    if s != [] {
      var p := s[..|s| - 1];
      var last := s[|s| - 1];
      assert p + [last] == s;
      assert UniqueKeys(p);
      ChainEntriesInit(st, p);
      var st' := AssignEntries(st, p, ChainInit).value;
      GetSet(st'.target, last.0, if last.0 == "initialize" then ResolveChain(Get(st'.target, "initialize"), last.1) else last.1, "initialize");
      KeysSnoc(p, last);
      GetSnoc(p, last, "initialize");
      if last.0 == "initialize" {
        UniqueKeysHead(s, "initialize");
      }
    }
  }

  /**
   * `extendFunction` runs a source's `initialize` on the target instead of
   * copying it: the target's own `initialize` is left as it was.
   */
  lemma {:induction false} ExtendFunctionRunsInit(st: AssignState, s: Fields)
    requires forall i :: 0 <= i < |s| && s[i].0 == "initialize" ==> Run(s[i].1).Ok?
    ensures AssignEntries(st, s, RunInit).Ok?
    ensures Get(AssignEntries(st, s, RunInit).value.target, "initialize") == Get(st.target, "initialize")
    ensures |AssignEntries(st, s, RunInit).value.ran| >= |st.ran|
    decreases |s|
  {
    if s != [] {
      var last := s[|s| - 1];
      ExtendFunctionRunsInit(st, s[..|s| - 1]);
      var st' := AssignEntries(st, s[..|s| - 1], RunInit).value;
      GetSet(st'.target, last.0, last.1, "initialize");
    }
  }

  /* ----- iteration helpers ----- */

  /**
   * The (value, key) pairs the iteration helpers visit: an array by ascending
   * index, anything else by `Object.keys` order.
   */
  function Visits(obj: Value): (r: Result<seq<(Value, Value)>>)
    ensures obj.Arr? ==> (r.Ok? && |r.value| == |obj.items| &&
      forall i :: 0 <= i < |obj.items| ==> r.value[i] == (obj.items[i], Num(i)))
    ensures obj.Obj? ==> (r.Ok? && |r.value| == |obj.fields| &&
      forall i :: 0 <= i < |obj.fields| ==> r.value[i] == (obj.fields[i].1, Str(obj.fields[i].0)))
    ensures r.Err? <==> obj.Undefined? || obj.Null?
  {
    if obj.Arr? then Ok(seq(|obj.items|, i requires 0 <= i < |obj.items| => (obj.items[i], Num(i))))
    else match OwnEntries(obj)
      case Err(e) => Err(e)
      case Ok(f) => Ok(seq(|f|, i requires 0 <= i < |f| => (f[i].1, Str(f[i].0))))
  }

  /** `each(obj, iteratee)`: the calls made, in order, and the input returned. */
  method Each(obj: Value) returns (r: Result<Value>, calls: seq<(Value, Value)>)
    ensures Visits(obj).Err? ==> r.Err? && calls == []
    ensures Visits(obj).Ok? ==> r == Ok(obj) && calls == Visits(obj).value
  {
    var visits := Visits(obj);
    if visits.Err? {
      return Err(visits.failure), [];
    }
    var pairs := visits.value;
    calls := [];
    var i := 0;
    while i < |pairs|
      invariant 0 <= i <= |pairs|
      invariant calls == pairs[..i]
    {
      calls := calls + [pairs[i]];
      i := i + 1;
    }
    return Ok(obj), calls;
  }

  /** `any(obj, predicate)`, with the predicate as `test`: whether some element satisfies it, and how many calls were made. */
  method Any(obj: Value, test: (Value, Value) -> bool) returns (r: Result<bool>, calls: nat)
    ensures Visits(obj).Err? ==> r.Err?
    ensures Visits(obj).Ok? ==> (r.Ok? &&
      var pairs := Visits(obj).value;
      (r.value <==> exists i :: 0 <= i < |pairs| && test(pairs[i].0, pairs[i].1)) &&
      calls <= |pairs| &&
      (forall i :: 0 <= i < calls - 1 ==> !test(pairs[i].0, pairs[i].1)) &&
      (r.value ==> calls > 0 && test(pairs[calls - 1].0, pairs[calls - 1].1)) &&
      (!r.value ==> calls == |pairs|))
  {
    var visits := Visits(obj);
    if visits.Err? {
      return Err(visits.failure), 0;
    }
    var found;
    found, calls := FirstHit(visits.value, test);
    r := Ok(found);
  }

  /** The loop of `any`: calls `test` on each pair in turn and stops at the first that passes. */
  method FirstHit(pairs: seq<(Value, Value)>, test: (Value, Value) -> bool) returns (found: bool, calls: nat)
    ensures found <==> exists i :: 0 <= i < |pairs| && test(pairs[i].0, pairs[i].1)
    ensures calls <= |pairs|
    ensures forall i :: 0 <= i < calls - 1 ==> !test(pairs[i].0, pairs[i].1)
    ensures found ==> calls > 0 && test(pairs[calls - 1].0, pairs[calls - 1].1)
    ensures !found ==> calls == |pairs|
  {
    var i := 0;
    while i < |pairs|
      invariant 0 <= i <= |pairs|
      invariant forall j :: 0 <= j < i ==> !test(pairs[j].0, pairs[j].1)
    {
      if test(pairs[i].0, pairs[i].1) {
        return true, i + 1;
      }
      i := i + 1;
    }
    return false, |pairs|;
  }

  /** `map(obj, iteratee)`: one result per element or own key, in iteration order. */
  method Map(obj: Value, iteratee: (Value, Value) -> Value) returns (r: Result<seq<Value>>)
    ensures Visits(obj).Err? ==> r.Err?
    ensures Visits(obj).Ok? ==> (r.Ok? && |r.value| == |Visits(obj).value| &&
      forall i :: 0 <= i < |r.value| ==> r.value[i] == iteratee(Visits(obj).value[i].0, Visits(obj).value[i].1))
  {
    var visits := Visits(obj);
    if visits.Err? {
      return Err(visits.failure);
    }
    var pairs := visits.value;
    var results: seq<Value> := [];
    var index := 0;
    while index < |pairs|
      invariant 0 <= index <= |pairs|
      invariant |results| == index
      invariant forall i :: 0 <= i < index ==> results[i] == iteratee(pairs[i].0, pairs[i].1)
    {
      results := results + [iteratee(pairs[index].0, pairs[index].1)];
      index := index + 1;
    }
    return Ok(results);
  }

  /** `toUpperCase` on one character, for the ASCII letters. */
  function Upper(c: char): char
  {
    if 'a' <= c <= 'z' then (c as int - 'a' as int + 'A' as int) as char else c
  }

  /**
   * `capitalize(s)`: the first character in upper case, the rest unchanged.
   * The first character of the result is already upper case, so
   * capitalising again changes nothing.
   */
  function Capitalize(s: string): (r: string)
    ensures |r| == |s|
    ensures s != [] ==> r[0] == Upper(s[0]) && r[1..] == s[1..]
    ensures s != [] ==> Upper(r[0]) == r[0]
  {
    if s == [] then [] else [Upper(s[0])] + s[1..]
  }
}

=== FILE: values.dfy ===
/**
 * JavaScript values as the library sees them, and the ordered dictionaries
 * that plain objects are.
 *
 * A plain object is a sequence of (key, value) pairs in insertion order.
 * Reading a key that is not there gives `undefined`, as in JavaScript;
 * writing a key replaces its first occurrence or appends it.
 */
module Values {

  datatype Option<T> = None | Some(value: T)

  datatype Failure =
    | TypeError(msg: string)
    | Error(msg: string)

  datatype Result<T> = Ok(value: T) | Err(failure: Failure)
  {
    predicate IsFailure() { Err? }
    function PropagateFailure<U>(): Result<U> requires Err? { Err(failure) }
    function Extract(): T requires Ok? { value }
  }

  type Fields = seq<(string, Value)>

  datatype Value =
    | Undefined
    | Null
    | Bool(b: bool)
    | Num(n: int)
    | Str(s: string)
    | Arr(items: seq<Value>)
    | Obj(fields: Fields)
      /** A function value, identified by the routine it runs. */
    | Fn(name: string)
      /** The function built by chaining two functions: calls `first`, then `next`. */
    | Chain(first: Value, next: Value)
      /**
       * An instance of one of the library's classes (a store, a dataset).
       * `addr` is read in one of two ways: in `StoreRegistry` and `Dataset`
       * it is the instance's address in the registry heap; in
       * `MixinResolvable` and `LegacyResolvable` it is the index of the
       * instance's node in the arena of resolvables.
       */
    | Ref(addr: nat)

  /** JavaScript truthiness. */
  predicate Truthy(v: Value)
  {
    match v
    case Undefined => false
    case Null => false
    case Bool(b) => b
    case Num(n) => n != 0
    case Str(s) => s != ""
    case _ => true
  }

  /** The operator `typeof`. */
  function TypeOf(v: Value): string
  {
    match v
    case Undefined => "undefined"
    case Bool(_) => "boolean"
    case Num(_) => "number"
    case Str(_) => "string"
    case Fn(_) => "function"
    case Chain(_, _) => "function"
    case _ => "object"
  }

  predicate IsFunction(v: Value) { v.Fn? || v.Chain? }

  /** `isObject`: a function, or a non-null object. */
  predicate IsObject(v: Value) { v.Arr? || v.Obj? || v.Ref? || IsFunction(v) }

  predicate IsArray(v: Value) { v.Arr? }

  /** `isPlainObject`: an object literal. */
  predicate IsPlainObject(v: Value) { v.Obj? }

  /** `===`: primitives compare by value, objects by identity (only references carry one). */
  predicate StrictEquals(a: Value, b: Value)
  {
    match a
    case Undefined => b.Undefined?
    case Null => b.Null?
    case Bool(x) => b.Bool? && b.b == x
    case Num(x) => b.Num? && b.n == x
    case Str(x) => b.Str? && b.s == x
    case Ref(x) => b.Ref? && b.addr == x
    case _ => false
  }

  function DigitChar(d: nat): char
    requires d < 10
  {
    "0123456789"[d]
  }

  /** Decimal digits of a natural number, without leading zeros. */
  function NatToString(n: nat): (r: string)
    ensures |r| > 0
    ensures forall i :: 0 <= i < |r| ==> '0' <= r[i] <= '9'
    decreases n
  {
    if n < 10 then [DigitChar(n)] else NatToString(n / 10) + [DigitChar(n % 10)]
  }

  function IntToString(n: int): (r: string)
    ensures |r| > 0
  {
    if n < 0 then "-" + NatToString(-n) else NatToString(n)
  }

  /** String conversion, as `"" + v` or an object key lookup performs it. */
  function ToKey(v: Value): string
  {
    match v
    case Undefined => "undefined"
    case Null => "null"
    case Bool(b) => if b then "true" else "false"
    case Num(n) => IntToString(n)
    case Str(s) => s
    case Arr(items) => JoinKeys(items)
    case Fn(name) => "function " + name
    case Chain(_, _) => "function"
    case _ => "[object Object]"
  }

  /** `Array.prototype.join(",")`: null and undefined elements become empty. */
  function JoinKeys(items: seq<Value>): string
    decreases items
  {
    if items == [] then ""
    else
      var head := if items[0].Undefined? || items[0].Null? then "" else ToKey(items[0]);
      if |items| == 1 then head else head + "," + JoinKeys(items[1..])
  }

  /* ----- plain objects as ordered dictionaries ----- */

  /** `Object.keys`: the keys in insertion order. */
  function Keys(f: Fields): (r: seq<string>)
    ensures |r| == |f|
  {
    if f == [] then [] else [f[0].0] + Keys(f[1..])
  }

  lemma {:induction false} KeysAt(f: Fields, i: nat)
    requires i < |f|
    ensures |Keys(f)| == |f| && Keys(f)[i] == f[i].0
  {
    if i > 0 { KeysAt(f[1..], i - 1); }
  }

  predicate HasKey(f: Fields, k: string)
  {
    k in Keys(f)
  }

  /** No key occurs twice; every object JavaScript can build has this shape. */
  predicate UniqueKeys(f: Fields)
  {
    forall i, j :: 0 <= i < j < |f| ==> f[i].0 != f[j].0
  }

  /** `obj[k]`: the value of the first entry with key `k`, or `undefined`. */
  function Get(f: Fields, k: string): (r: Value)
    ensures !HasKey(f, k) ==> r == Undefined
  {
    if f == [] then Undefined
    else if f[0].0 == k then f[0].1
    else Get(f[1..], k)
  }

  /** A read finds the first entry with the key. */
  lemma {:induction false} GetAt(f: Fields, i: nat, k: string)
    requires i < |f| && f[i].0 == k
    requires forall j :: 0 <= j < i ==> f[j].0 != k
    ensures Get(f, k) == f[i].1
    decreases i
  {
    if i > 0 {
      GetAt(f[1..], i - 1, k);
    }
  }

  /** A read of a key no entry has is `undefined`. */
  lemma {:induction false} GetMissing(f: Fields, k: string)
    requires forall j :: 0 <= j < |f| ==> f[j].0 != k
    ensures Get(f, k) == Undefined
    decreases |f|
  {
    if f != [] {
      GetMissing(f[1..], k);
    }
  }

  /** `obj[k] = v`: replaces the first entry with key `k`, or appends one. */
  function Set(f: Fields, k: string, v: Value): (r: Fields)
    decreases f
  {
    if f == [] then [(k, v)]
    else if f[0].0 == k then [(k, v)] + f[1..]
    else [f[0]] + Set(f[1..], k, v)
  }

  /** A write is seen by the next read of the same key and by no other. */
  lemma {:induction false} GetSet(f: Fields, k: string, v: Value, j: string)
    ensures Get(Set(f, k, v), j) == if j == k then v else Get(f, j)
    ensures HasKey(Set(f, k, v), j) <==> j == k || HasKey(f, j)
    decreases f
  {
    if f != [] && f[0].0 != k {
      GetSet(f[1..], k, v, j);
    }
  }

  /** A write adds the written entry and keeps every other entry it finds. */
  lemma {:induction false} SetMembers(f: Fields, k: string, v: Value)
    ensures forall x :: x in Set(f, k, v) ==> x == (k, v) || x in f
    decreases f
  {
    if f != [] && f[0].0 != k {
      SetMembers(f[1..], k, v);
    }
  }

  lemma {:induction false} SetContains(f: Fields, k: string, v: Value)
    ensures (k, v) in Set(f, k, v)
    decreases f
  {
    if f != [] && f[0].0 != k {
      SetContains(f[1..], k, v);
    }
  }

  /** Key order after a write: an existing key keeps its place, a new key goes last. */
  lemma {:induction false} KeysSet(f: Fields, k: string, v: Value)
    ensures Keys(Set(f, k, v)) == if HasKey(f, k) then Keys(f) else Keys(f) + [k]
    decreases f
  {
    if f != [] && f[0].0 != k {
      KeysSet(f[1..], k, v);
    }
  }

  lemma {:induction false} KeysSnoc(f: Fields, x: (string, Value))
    ensures Keys(f + [x]) == Keys(f) + [x.0]
    decreases f
  {
    if f != [] {
      assert (f + [x])[1..] == f[1..] + [x];
      KeysSnoc(f[1..], x);
    }
  }

  lemma {:induction false} GetSnoc(f: Fields, x: (string, Value), k: string)
    ensures Get(f + [x], k) == if HasKey(f, k) then Get(f, k) else if x.0 == k then x.1 else Undefined
    decreases f
  {
    if f != [] {
      assert (f + [x])[1..] == f[1..] + [x];
      GetSnoc(f[1..], x, k);
    }
  }

  lemma UniqueKeysHead(f: Fields, k: string)
    requires f != [] && UniqueKeys(f) && f[|f| - 1].0 == k
    ensures !HasKey(f[..|f| - 1], k)
  {
    var p := f[..|f| - 1];
    forall i | 0 <= i < |p| ensures Keys(p)[i] != k {
      KeysAt(p, i);
    }
  }

  lemma SetKeepsUnique(f: Fields, k: string, v: Value)
    requires UniqueKeys(f)
    ensures UniqueKeys(Set(f, k, v))
  {
    KeysSet(f, k, v);
    var r := Set(f, k, v);
    forall i, j | 0 <= i < j < |r| ensures r[i].0 != r[j].0 {
      KeysAt(r, i);
      KeysAt(r, j);
      if HasKey(f, k) {
        KeysAt(f, i);
        KeysAt(f, j);
      } else if j < |f| {
        KeysAt(f, i);
        KeysAt(f, j);
      } else {
        KeysAt(f, i);
      }
    }
  }

  /** `extend(target, source)` for one plain-object source: the keys of `source` written in order. */
  function Extend(target: Fields, source: Fields): Fields
    decreases |source|
  {
    if source == [] then target
    else
      var last := source[|source| - 1];
      Set(Extend(target, source[..|source| - 1]), last.0, last.1)
  }

  /**
   * The shallow merge is right-biased: a key of the source takes the source's
   * value, every other key keeps the target's.
   */
  lemma {:induction false} GetExtend(target: Fields, source: Fields, k: string)
    requires UniqueKeys(source)
    ensures Get(Extend(target, source), k) == if HasKey(source, k) then Get(source, k) else Get(target, k)
    ensures HasKey(Extend(target, source), k) <==> HasKey(source, k) || HasKey(target, k)
    decreases |source|
  {
    if source != [] {
      var p := source[..|source| - 1];
      var last := source[|source| - 1];
      assert p + [last] == source;
      assert UniqueKeys(p);
      GetExtend(target, p, k);
      GetSet(Extend(target, p), last.0, last.1, k);
      KeysSnoc(p, last);
      GetSnoc(p, last, k);
      if last.0 == k {
        UniqueKeysHead(source, k);
      }
    }
  }

  /** Key order of a merge: the target's keys, then the source's new keys in source order. */
  lemma {:induction false} KeysExtend(target: Fields, source: Fields)
    ensures forall k :: k in Keys(target) ==> k in Keys(Extend(target, source))
    ensures |Keys(target)| <= |Keys(Extend(target, source))|
    ensures Keys(Extend(target, source))[..|Keys(target)|] == Keys(target)
    decreases |source|
  {
    if source != [] {
      var last := source[|source| - 1];
      var e := Extend(target, source[..|source| - 1]);
      KeysExtend(target, source[..|source| - 1]);
      KeysSet(e, last.0, last.1);
    }
  }

  lemma {:induction false} ExtendKeepsUnique(target: Fields, source: Fields)
    requires UniqueKeys(target)
    ensures UniqueKeys(Extend(target, source))
    decreases |source|
  {
    if source != [] {
      var last := source[|source| - 1];
      ExtendKeepsUnique(target, source[..|source| - 1]);
      SetKeepsUnique(Extend(target, source[..|source| - 1]), last.0, last.1);
    }
  }

  lemma {:induction false} SetAppends(f: Fields, k: string, v: Value)
    requires !HasKey(f, k)
    ensures Set(f, k, v) == f + [(k, v)]
    decreases f
  {
    if f != [] {
      SetAppends(f[1..], k, v);
      assert [f[0]] + (f[1..] + [(k, v)]) == f + [(k, v)];
    }
  }

  /** Merging an object into an empty one copies it. */
  lemma {:induction false} ExtendEmpty(source: Fields)
    requires UniqueKeys(source)
    ensures Extend([], source) == source
    decreases |source|
  {
    if source != [] {
      var p := source[..|source| - 1];
      var last := source[|source| - 1];
      ExtendEmpty(p);
      UniqueKeysHead(source, last.0);
      SetAppends(p, last.0, last.1);
      assert p + [last] == source;
    }
  }

  /** The fields of a plain object, or none for any other value. */
  function FieldsOf(v: Value): Fields
  {
    if v.Obj? then v.fields else []
  }

  /** `v[k]` for a property read on any value that is not null or undefined. */
  function Prop(v: Value, k: string): Value
  {
    if v.Obj? then Get(v.fields, k) else Undefined
  }

  /** `v[k] = x`: an object gains or replaces the property; on any other value the write is lost. */
  function SetProp(v: Value, k: string, x: Value): (r: Value)
    ensures v.Obj? ==> r.Obj? && Get(r.fields, k) == x
    ensures !v.Obj? ==> r == v
  {
    GetSet(if v.Obj? then v.fields else [], k, x, k);
    if v.Obj? then Obj(Set(v.fields, k, x)) else v
  }

  predicate Nullish(v: Value)
  {
    v.Undefined? || v.Null?
  }

  /** The TypeError of reading a property of `null` or `undefined`. */
  function CannotRead(prop: string, v: Value): Failure
  {
    TypeError("Cannot read property '" + prop + "' of " + ToKey(v))
  }

  /* ----- sizes, for termination of walks over nested values ----- */

  function Size(v: Value): (n: nat)
    ensures n >= 1
    decreases v
  {
    match v
    case Arr(items) => 1 + SizeSeq(items)
    case Obj(fields) => 1 + SizeFields(fields)
    case Chain(a, b) => 1 + Size(a) + Size(b)
    case _ => 1
  }

  function SizeSeq(s: seq<Value>): nat
    decreases s
  {
    if s == [] then 0 else Size(s[0]) + SizeSeq(s[1..])
  }

  function SizeFields(f: Fields): nat
    decreases f
  {
    if f == [] then 0
    else
      var p := f[0];
      assert p.1 < p;
      Size(p.1) + SizeFields(f[1..])
  }

  lemma {:induction false} SizeGet(f: Fields, k: string)
    ensures Size(Get(f, k)) <= SizeFields(f) || Get(f, k) == Undefined
    decreases f
  {
    if f != [] && f[0].0 != k {
      SizeGet(f[1..], k);
    }
  }

  lemma {:induction false} SizeSeqElem(s: seq<Value>, i: nat)
    requires i < |s|
    ensures Size(s[i]) <= SizeSeq(s)
    decreases i
  {
    if i > 0 {
      SizeSeqElem(s[1..], i - 1);
    }
  }

  lemma {:induction false} SizeFieldsElem(f: Fields, i: nat)
    requires i < |f|
    ensures Size(f[i].1) <= SizeFields(f)
    decreases i
  {
    if i > 0 {
      SizeFieldsElem(f[1..], i - 1);
    }
  }

  /** A JavaScript array object: code that holds it sees every change made through it. */
  class JsArray {
    var items: seq<Value>

    constructor (items: seq<Value>)
      ensures this.items == items
    {
      this.items := items;
    }
  }
}
